=== FILE: README.md ===
# pfp-native-host in Dafny

A Dafny model of the core of pfp-native-host, the native messaging host of the PfP password manager
that reads and writes KeePass 4 (KDBX 4) databases on behalf of the browser extension.

The model covers the `keepass_db` crate — the binary codecs of the file format (little-endian integers,
the version signature, header fields, variant dictionaries, the compact KDF parameter encoding, inner-header
binaries, the HMAC block stream), the key schedule, the database container, the XML document with its
entries, aliases and protected values — and the request handler of the native host
(`native_host/src/action_handler.rs`) for the entry actions.

Layout: one Dafny module per source file, all in files directly in this directory.

| file | module | models |
|---|---|---|
| errors.dfy | Errors | `error.rs`: the error enum, `Result`, `Option` and a parse result `Parsed` (value plus unread input) |
| io.dfy | Bytes | `io.rs`: fixed-width little-endian integers and sized reads over a byte sequence |
| utf8.dfy | Utf8 | `String::as_bytes` / `String::from_utf8` as a UTF-8 encoder and a validating decoder |
| numeric_enum.dfy | NumericEnum | `numeric_enum.rs`: the code/`try_from` pattern behind every numeric enum |
| header_field_type.dfy, compression.dfy | HeaderFieldType, CompressionCodes | the header field type and compression enums |
| database_version.dfy, binary.dfy | DatabaseVersions, Binaries | the version signature and inner-header binaries |
| variant_field.dfy, variant_list.dfy | VariantFields, VariantLists | the KeePass variant dictionary |
| bits.dfy, kdf_parameters.dfy | BitStreams, KdfParams | the Argon2 parameters, as a variant list and in the bit-packed compact form |
| primitives.dfy | Primitives | the foreign primitives (hashes, ciphers, Argon2, gzip, base64, XML text) as parameters |
| cipher.dfy | BlockCiphers, StreamCiphers | `cipher.rs`: the outer and inner cipher choices |
| database_header.dfy | DatabaseHeader | `database_header.rs`: outer and inner headers |
| keys.dfy | KeySchedule | `keys.rs`: composite key, derived keys and their string form |
| hmac_block_stream.dfy | HmacBlockStream | `hmac_block_stream.rs`: the authenticated block framing, reader and writer |
| xml.dfy, xml_iterator.dfy, xml_modifier.dfy, strings.dfy | XmlTree, ElementIterators, ElementModifiers, Strings | `xml_helpers.rs`: the element tree, child iteration and in-place editing |
| entry.dfy | Entries | `entry.rs`: an entry element and its fields |
| database_tree.dfy, entry_removal.dfy, entry_update.dfy, aliases.dfy, protection.dfy, database_xml.dfy | DatabaseTrees, EntryRemoval, EntryUpdate, Aliases, ValueProtection, DatabaseXmls | `database_xml.rs` |
| database.dfy | Databases | `database.rs`: unlock, decrypt, save, serialize, deserialize |
| action_handler.dfy | ActionHandler | `native_host/src/action_handler.rs` |

Foreign code (SHA-256, HMAC-SHA-256, AES/Twofish/ChaCha20/Salsa20, Argon2, gzip, base64, URL parsing and
the XML text parser and emitter) is a field of the `Primitives.Primitives` datatype that every operation
using it takes as a parameter; properties those libraries guarantee (for example that decrypting an
encryption gives the plaintext back) enter as explicit `requires` predicates over that parameter. Random bytes
are parameters of the operations that draw them.

## Model

| member | source | states |
|---|---|---|
| Errors.ThroughIo | keepass_db/src/error.rs:56-63 | an error that crosses a `Read` implementation and comes back through `?` is `Io`, whatever it was; a value passes unchanged |
| Bytes.EncodeLE | keepass_db/src/io.rs:11-30 | `to_le_bytes`: an `n`-byte little-endian form of any value below 256^n has exactly `n` bytes |
| Bytes.DecodeLE | keepass_db/src/io.rs:65-85 | `from_le_bytes`: the value read from `s` is below 256^|s| |
| Bytes.DecodeEncodeLE | keepass_db/src/io.rs:11-85 | decoding the little-endian form of `x` gives `x` back |
| Bytes.EncodeDecodeLE | keepass_db/src/io.rs:11-85 | re-encoding a decoded byte string at its own width gives the same bytes: the codec is a bijection |
| Bytes.ToUnsigned | keepass_db/src/io.rs:27-30 | the two's-complement bit pattern of a signed value: non-negative values unchanged, negative ones offset by 256^n |
| Bytes.FromUnsigned | keepass_db/src/io.rs:82-85 | reading a bit pattern as a signed value gives an in-range value whose pattern is the input |
| Bytes.WriteU8 | keepass_db/src/io.rs:22 | a `u8` is written as itself |
| Bytes.WriteU16 | keepass_db/src/io.rs:23 | a `u16` is written as 2 bytes that decode to it |
| Bytes.WriteU32 | keepass_db/src/io.rs:24 | a `u32` is written as 4 bytes that decode to it |
| Bytes.WriteU64 | keepass_db/src/io.rs:25 | a `u64` is written as 8 bytes that decode to it |
| Bytes.WriteI32 | keepass_db/src/io.rs:29 | an `i32` is written as 4 bytes whose signed reading is the value |
| Bytes.WriteI64 | keepass_db/src/io.rs:30 | an `i64` is written as 8 bytes whose signed reading is the value |
| Bytes.ReadBytes | keepass_db/src/io.rs:87-94 | `read_exact` of `n` bytes succeeds exactly when `n` bytes remain, fails with the I/O error otherwise, and splits the input into the `n` bytes read and the rest |
| Bytes.ReadUInt | keepass_db/src/io.rs:65-75 | reading an `n`-byte integer succeeds exactly when `n` bytes remain and returns the value whose encoding is those bytes |
| Bytes.ReadU8 | keepass_db/src/io.rs:77 | reads the first byte, I/O error on empty input |
| Bytes.ReadU16 | keepass_db/src/io.rs:78 | reads 2 bytes whose `u16` encoding is the value, I/O error when fewer remain |
| Bytes.ReadU32 | keepass_db/src/io.rs:79 | reads 4 bytes whose `u32` encoding is the value, I/O error when fewer remain |
| Bytes.ReadU64 | keepass_db/src/io.rs:80 | reads 8 bytes whose `u64` encoding is the value, I/O error when fewer remain |
| Bytes.ReadI32 | keepass_db/src/io.rs:84 | reads 4 bytes whose `i32` encoding is the value, I/O error when fewer remain |
| Bytes.ReadI64 | keepass_db/src/io.rs:85 | reads 8 bytes whose `i64` encoding is the value, I/O error when fewer remain |
| Bytes.ReadWriteU8 | keepass_db/src/io.rs:22-77 | round trip: reading back a written `u8` returns it and leaves the following bytes |
| Bytes.ReadWriteU16 | keepass_db/src/io.rs:23-78 | round trip for `u16` |
| Bytes.ReadWriteU32 | keepass_db/src/io.rs:24-79 | round trip for `u32` |
| Bytes.ReadWriteU64 | keepass_db/src/io.rs:25-80 | round trip for `u64` |
| Bytes.ReadWriteI32 | keepass_db/src/io.rs:29-84 | round trip for `i32` |
| Bytes.ReadWriteI64 | keepass_db/src/io.rs:30-85 | round trip for `i64` |
| Bytes.ReadBytesOfConcat | keepass_db/src/io.rs:32-94 | round trip for byte vectors: reading back `|b|` written bytes returns `b` and the rest |
| Utf8.EncodeChar | keepass_db/src/io.rs:46-51 | a character's UTF-8 form is 1 to 4 bytes, one byte exactly for ASCII |
| Utf8.Encode | keepass_db/src/io.rs:46-51 | `as_bytes`: a string's UTF-8 form is at least as long as the string |
| Utf8.DecodeFirst | keepass_db/src/io.rs:96-101 | the validating decoder accepts a first character only when its bytes are exactly that character's UTF-8 form |
| Utf8.Decode | keepass_db/src/io.rs:96-101 | `String::from_utf8`: whatever string is accepted encodes back to the input bytes |
| Utf8.DecodeFirstEncodeChar | keepass_db/src/io.rs:46-101 | the decoder accepts every encoded character and consumes exactly its bytes |
| Utf8.DecodeEncode | keepass_db/src/io.rs:46-101 | decoding the UTF-8 form of any string gives the string back |
| Utf8.EncodeAppend | keepass_db/src/io.rs:46-51 | encoding distributes over concatenation |
| Utf8.EncodeInjective | keepass_db/src/io.rs:46-51 | two strings with the same UTF-8 form are equal |
| Utf8.ReadString | keepass_db/src/io.rs:96-101 | reading an `n`-byte string: I/O error when fewer bytes remain, encoding error when they are not UTF-8, and otherwise the string those `n` bytes decode to, with the bytes after them left unread |
| Utf8.ReadWriteString | keepass_db/src/io.rs:46-101 | round trip: a written string is read back from its byte length |
| NumericEnum.Size | keepass_db/src/numeric_enum.rs:20-23 | `SIZE` is the width in bytes of the underlying integer type |
| NumericEnum.SerializeCode | keepass_db/src/numeric_enum.rs:47-51 | an enum is written as its code at the width of the underlying type |
| NumericEnum.DeserializeCode | keepass_db/src/numeric_enum.rs:35-57 | reading an enum: I/O error when too short, the `try_from` error for an unknown code, otherwise exactly the variant `try_from` gives for the code read |
| NumericEnum.DeserializeSerialize | keepass_db/src/numeric_enum.rs:25-57 | for any enum whose `try_from` inverts its code, reading back a written variant returns it |
| HeaderFieldType.OuterCode | keepass_db/src/header_field_type.rs:3-14 | each outer header field type has a one-byte code |
| HeaderFieldType.OuterFromCode | keepass_db/src/header_field_type.rs:3-14 | a code is accepted exactly when it is one of the listed codes, and maps to the type with that code; otherwise `UnsupportedHeaderFieldType(code)` |
| HeaderFieldType.OuterCodeRoundTrip | keepass_db/src/header_field_type.rs:3-14 | every type's code is accepted and maps back to it |
| HeaderFieldType.SerializeOuter | keepass_db/src/header_field_type.rs:3-14 | an outer field type is written as its one-byte code |
| HeaderFieldType.DeserializeOuter | keepass_db/src/header_field_type.rs:3-14 | reading an outer type: I/O error on empty input, the unsupported-type error for an unknown byte, otherwise the type with that code |
| HeaderFieldType.DeserializeSerializeOuter | keepass_db/src/header_field_type.rs:3-14 | round trip for outer field types |
| HeaderFieldType.InnerCode | keepass_db/src/header_field_type.rs:16-23 | each inner header field type has a one-byte code |
| HeaderFieldType.InnerFromCode | keepass_db/src/header_field_type.rs:16-23 | codes 0 to 3 are accepted, each mapping to the type with that code; others are unsupported |
| HeaderFieldType.InnerCodeRoundTrip | keepass_db/src/header_field_type.rs:16-23 | every inner type's code maps back to it |
| HeaderFieldType.SerializeInner | keepass_db/src/header_field_type.rs:16-23 | an inner field type is written as its one-byte code |
| HeaderFieldType.DeserializeInner | keepass_db/src/header_field_type.rs:16-23 | reading an inner type: I/O error on empty input, unsupported above 3, otherwise the type with that code |
| HeaderFieldType.DeserializeSerializeInner | keepass_db/src/header_field_type.rs:16-23 | round trip for inner field types |
| CompressionCodes.Code | keepass_db/src/compression.rs:3-10 | each compression setting has a `u32` code |
| CompressionCodes.FromCode | keepass_db/src/compression.rs:3-10 | codes 0 and 1 are accepted and map to the setting with that code; others give `UnsupportedCompression(code)` |
| CompressionCodes.CodeRoundTrip | keepass_db/src/compression.rs:3-10 | every setting's code maps back to it |
| CompressionCodes.Serialize | keepass_db/src/compression.rs:3-10 | a setting is written as 4 bytes encoding its code |
| CompressionCodes.Deserialize | keepass_db/src/compression.rs:3-10 | reading a setting: I/O error when under 4 bytes, unsupported above 1, otherwise the setting with the code read |
| CompressionCodes.DeserializeSerialize | keepass_db/src/compression.rs:3-10 | round trip for the compression setting |
| DatabaseVersions.Serialize | keepass_db/src/database_version.rs:27-35 | a version is written as the two signature words, then minor, then major, 12 bytes in all |
| DatabaseVersions.Deserialize | keepass_db/src/database_version.rs:37-54 | reading a version: I/O error under 8 bytes, `CorruptDatabase` when either signature word differs, an I/O error for 8 to 11 bytes with both signatures right, `UnsupportedVersion(major, minor)` unless major is 4, and otherwise acceptance with the minor version read; an accepted version re-serializes to the 12 bytes read |
| DatabaseVersions.ReadVersion | keepass_db/src/database_version.rs:44-53 | after the signature: minor then major; an I/O error under 4 bytes, and exactly major version 4 is accepted, with the minor version read |
| DatabaseVersions.DeserializeSerialize | keepass_db/src/database_version.rs:27-54 | round trip for every major-4 version |
| Binaries.UnknownFlagsIff | keepass_db/src/binary.rs:25-39 | a flags byte is refused exactly when a bit other than the protection bit is set |
| Binaries.Len | keepass_db/src/binary.rs:13-15 | the stated length is one flags byte plus the data, and equals the serialized length |
| Binaries.Serialize | keepass_db/src/binary.rs:18-23 | a binary is written as its flags byte followed by its data |
| Binaries.Deserialize | keepass_db/src/binary.rs:25-39 | reading a binary of a given size: `InvalidFieldSize` for size 0, I/O error on missing bytes, `UnsupportedBinaryFlags` for unknown flags; an accepted binary re-serializes to the `size` bytes read |
| Binaries.DeserializeSerialize | keepass_db/src/binary.rs:13-39 | round trip for every binary with known flags, read with its own length |
| VariantFields.TypeCode | keepass_db/src/variant_field.rs:6-15 | each variant type has a one-byte code |
| VariantFields.TypeFromCode | keepass_db/src/variant_field.rs:6-15 | exactly the eight listed codes are accepted, each mapping to the type with that code; others give `UnsupportedVariantType(code)` |
| VariantFields.TypeCodeRoundTrip | keepass_db/src/variant_field.rs:6-15 | every type's code maps back to it |
| VariantFields.ValueLen | keepass_db/src/variant_field.rs:29-42 | a value of a fixed-size type has that type's width as its length |
| VariantFields.ValueBytes | keepass_db/src/variant_field.rs:77-107 | the value part of a field is exactly the value's stated length |
| VariantFields.FieldLen | keepass_db/src/variant_field.rs:50-58 | a field's length is at least its type byte, and exactly 1 for the end-of-list marker |
| Bytes.AsU32 | keepass_db/src/variant_field.rs:74 | `as u32` keeps every length below 2^32 unchanged |
| VariantFields.SerializeType | keepass_db/src/variant_field.rs:62-72 | a field starts with its type's code |
| VariantFields.Serialize | keepass_db/src/variant_field.rs:60-109 | a serialized field is exactly `len()` bytes long |
| VariantFields.SerializeKeyAndValue | keepass_db/src/variant_field.rs:74-107 | the part after the type byte is `len()` minus one bytes |
| VariantFields.DeserializeValue | keepass_db/src/variant_field.rs:134-169 | a fixed-size type with any other stated size gives `InvalidFieldSize`; a size beyond the input fails; an accepted value has the requested type and the stated size, and (except for booleans, which read any nonzero byte as true) serializes to exactly the bytes read |
| VariantFields.Deserialize | keepass_db/src/variant_field.rs:111-173 | a field read consumes exactly its `len()` bytes |
| VariantFields.DeserializeByType | keepass_db/src/variant_field.rs:112-119 | I/O error on empty input, unsupported-type error on an unknown code, the end-of-list field with an empty key for code 0, otherwise a field whose type is the code read |
| VariantFields.DeserializeKeyAndValue | keepass_db/src/variant_field.rs:121-171 | after the type byte: the value read has the given type and the field consumed is `len()` minus one bytes |
| VariantFields.DeserializeValueBytes | keepass_db/src/variant_field.rs:77-169 | every non-terminator value read back from its bytes at its own type and length is the value |
| VariantFields.DeserializeSerialize | keepass_db/src/variant_field.rs:60-173 | round trip for every field whose key and value lengths fit in `u32` and whose end-of-list marker has an empty key |
| VariantFields.KeyAndValueRoundTrip | keepass_db/src/variant_field.rs:74-171 | round trip of the key-and-value part for every well-formed non-terminator field |
| VariantLists.Add | keepass_db/src/variant_list.rs:27-32 | `add` appends the field with the given key and value and keeps the earlier fields |
| VariantLists.SumFieldLenAppend | keepass_db/src/variant_list.rs:18-25 | the summed field lengths grow by the appended field's length |
| VariantLists.Len | keepass_db/src/variant_list.rs:18-25 | the loop computes the version width plus every field's length plus the terminator |
| VariantLists.FindSpec | keepass_db/src/variant_list.rs:34-41 | lookup finds nothing exactly when no field has the key, and otherwise returns the value of the first field with that key |
| VariantLists.Get | keepass_db/src/variant_list.rs:34-41 | the loop returns the value of the first field with the key, or none |
| VariantLists.FindAfterAdd | keepass_db/src/variant_list.rs:27-41 | after `add`, a key already present keeps its first value, the added key is found with the added value, and other keys are unaffected |
| VariantLists.Serialize | keepass_db/src/variant_list.rs:44-57 | a list is `len()` bytes: the version word first, the terminator byte last |
| VariantLists.DeserializeFieldsConsumes | keepass_db/src/variant_list.rs:66-73 | the field loop consumes its fields' lengths plus the terminator byte |
| VariantLists.DeserializeFieldsNoTerminator | keepass_db/src/variant_list.rs:66-73 | the list read never contains an end-of-list field |
| VariantLists.Deserialize | keepass_db/src/variant_list.rs:59-75 | I/O error when under 2 bytes, `UnsupportedVariantListVersion` when the major byte of the version exceeds 1, otherwise a list consuming exactly its `len()` bytes |
| VariantLists.DeserializeLoop | keepass_db/src/variant_list.rs:59-75 | the reading loop (fields until the terminator) computes the same result as the recursive definition |
| VariantLists.ParseSerializedField | keepass_db/src/variant_list.rs:66-73 | a serialized field followed by more bytes is read as that field followed by what the rest reads as |
| VariantLists.ParseTerminator | keepass_db/src/variant_list.rs:66-73 | the terminator byte ends the field loop with no fields and leaves the bytes after it |
| VariantLists.DeserializeSerializeFields | keepass_db/src/variant_list.rs:44-73 | fields followed by a terminator read back as the same fields |
| VariantLists.DeserializeSerialize | keepass_db/src/variant_list.rs:44-75 | round trip for every list of well-formed non-terminator fields |
| BitStreams.BitsValue | keepass_db/src/kdf_parameters.rs:155-177 | a big-endian bit string's value is below 2^length |
| BitStreams.ToBits | keepass_db/src/kdf_parameters.rs:109-140 | an `n`-bit big-endian form is exactly `n` bits long |
| BitStreams.BitsValueToBits | keepass_db/src/kdf_parameters.rs:109-177 | reading the `n`-bit form of `x` gives `x` |
| BitStreams.ToBitsValue | keepass_db/src/kdf_parameters.rs:109-177 | re-writing a read bit string at its own width gives the same bits |
| BitStreams.BytesToBits | keepass_db/src/kdf_parameters.rs:155 | a byte stream seen as bits, most significant first, is 8 bits per byte |
| BitStreams.BitsToBytes | keepass_db/src/kdf_parameters.rs:109 | a whole number of bytes groups 8 bits each |
| BitStreams.BytesToBitsToBytes | keepass_db/src/kdf_parameters.rs:109-155 | grouping bits into bytes and splitting them again loses nothing |
| BitStreams.BytesToBitsAppend | keepass_db/src/kdf_parameters.rs:109-155 | splitting into bits distributes over concatenation |
| BitStreams.WriteBits | keepass_db/src/kdf_parameters.rs:110-140 | `write(n, v)` succeeds exactly when `v` fits in `n` bits (an I/O error otherwise) and writes `n` bits worth `v` |
| BitStreams.ReadBits | keepass_db/src/kdf_parameters.rs:157-177 | `read(n)` succeeds exactly when `n` bits remain and returns their value and the remaining bits |
| BitStreams.ReadWrittenBits | keepass_db/src/kdf_parameters.rs:110-177 | reading back written bits returns their value and the rest |
| BitStreams.BitLength | keepass_db/src/kdf_parameters.rs:126 | `BITS - leading_zeros()`: the least `r` with `x < 2^r` |
| BitStreams.BitLengthBound | keepass_db/src/kdf_parameters.rs:126 | a value below 2^n has a bit length of at most `n` |
| BitStreams.WriteCounted | keepass_db/src/kdf_parameters.rs:126-140 | a counted number (5-bit length, then the value in that many bits) succeeds exactly for values below 2^31, since a length of 32 does not fit in 5 bits |
| BitStreams.ReadCounted | keepass_db/src/kdf_parameters.rs:170-177 | a counted number read is below 2^31 and consumes at least the 5 length bits |
| BitStreams.ReadWriteCounted | keepass_db/src/kdf_parameters.rs:126-177 | round trip for counted numbers |
| BitStreams.Padding | keepass_db/src/kdf_parameters.rs:145 | `byte_align` pads with fewer than 8 bits to a byte boundary |
| BitStreams.ByteAlign | keepass_db/src/kdf_parameters.rs:145 | the aligned stream starts with the original bits and is the next multiple of 8 long |
| BitStreams.BytesTaken | keepass_db/src/kdf_parameters.rs:179 | the reader's alignment skips to the end of the current byte |
| KdfParams.ResetSalt | keepass_db/src/kdf_parameters.rs:22-28 | `reset_salt` replaces the salt by 16 fresh random bytes and changes nothing else |
| KdfParams.VersionCode | keepass_db/src/kdf_parameters.rs:55 | Argon2 versions 0x10 and 0x13 are stored as those numbers |
| KdfParams.VersionFromCode | keepass_db/src/kdf_parameters.rs:83-85 | exactly 0x10 and 0x13 are accepted, each mapping to its version |
| KdfParams.ToVariantList | keepass_db/src/kdf_parameters.rs:42-61 | the parameters become six fields `$UUID`, `S`, `V`, `P`, `M`, `I`, memory stored in bytes (KiB times 1024) |
| KdfParams.GetBytes | keepass_db/src/kdf_parameters.rs:66-74 | a byte field is found exactly when the first field with the key holds bytes, otherwise `KdfFieldMissingOrInvalid(key)` |
| KdfParams.GetU32 | keepass_db/src/kdf_parameters.rs:66-74 | the same for a `u32` field |
| KdfParams.GetU64 | keepass_db/src/kdf_parameters.rs:66-74 | the same for a `u64` field |
| KdfParams.AlgorithmFromUuid | keepass_db/src/kdf_parameters.rs:76-81 | only the Argon2d and Argon2id UUIDs are accepted; the AES-KDF UUID gives `AesKdfUnsupported`, any other `UnsupportedKdf` |
| KdfParams.FromVariantList | keepass_db/src/kdf_parameters.rs:63-103 | the errors in the order the source checks them: `$UUID` missing or not bytes, `AesKdfUnsupported` or `UnsupportedKdf` for a UUID that is not Argon2d or Argon2id, `KdfFieldMissingOrInvalid(key)` for each of S, V, P, M and I missing or of the wrong type, `UnsupportedKdf` for an unknown version, `KdfParameterExceedsRange` when M/1024 or I is at least 2^32; the result is Ok exactly when none applies, and then holds the fields read, memory converted back to KiB |
| KdfParams.ToVariantListFields | keepass_db/src/kdf_parameters.rs:42-61 | the exact field list written |
| KdfParams.FromToVariantList | keepass_db/src/kdf_parameters.rs:42-103 | converting parameters to a variant list and back gives them back |
| KdfParams.AlgorithmCode | keepass_db/src/kdf_parameters.rs:110-117 | the compact form stores the algorithm in 2 bits as 0, 1, 2 |
| KdfParams.AlgorithmFromCode | keepass_db/src/kdf_parameters.rs:157-162 | 0, 1, 2 are accepted, 3 gives `UnsupportedKdf` |
| KdfParams.AlgorithmCodeRoundTrip | keepass_db/src/kdf_parameters.rs:110-162 | every algorithm's code maps back to it |
| KdfParams.VersionBit | keepass_db/src/kdf_parameters.rs:118-124 | the version is one bit, set exactly for 0x13 |
| KdfParams.NumberFields | keepass_db/src/kdf_parameters.rs:126-140 | the three counted numbers are written exactly when each is below 2^31, otherwise an I/O error |
| KdfParams.CompactFields | keepass_db/src/kdf_parameters.rs:109-140 | the errors in the source's order: parallelism too wide is an I/O error, memory not a multiple of 1 KiB `KdfParameterExceedsRange`, iterations too wide an I/O error |
| KdfParams.SerializeCompact | keepass_db/src/kdf_parameters.rs:105-149 | the compact form is written exactly for encodable parameters, a salt of any length but 16 gives `KdfParameterExceedsRange`, and the written form ends with the salt |
| KdfParams.ShiftMemory | keepass_db/src/kdf_parameters.rs:174 | `<< 10` on a `u32` multiplies by 1024 modulo 2^32 |
| KdfParams.ReadNumbers | keepass_db/src/kdf_parameters.rs:170-177 | the three counted numbers read are below 2^31 and take at least 15 bits |
| KdfParams.ReadCompactHead | keepass_db/src/kdf_parameters.rs:155-177 | the head of the compact form: fails with an I/O error or `UnsupportedKdf` only |
| KdfParams.ReadSalt | keepass_db/src/kdf_parameters.rs:179-180 | the 16 salt bytes after alignment, I/O error when fewer remain |
| KdfParams.DeserializeCompact | keepass_db/src/kdf_parameters.rs:151-191 | accepted parameters are encodable and the unread input is a proper suffix after the salt |
| KdfParams.CompactBits | keepass_db/src/kdf_parameters.rs:105-149 | the written bytes are, bit by bit, the fields, the alignment padding and the salt |
| KdfParams.ReadNumbersWritten | keepass_db/src/kdf_parameters.rs:126-177 | the three written counted numbers read back unchanged |
| KdfParams.ReadCompactHeadFields | keepass_db/src/kdf_parameters.rs:109-177 | the written head reads back as the algorithm, version, parallelism, memory in KiB and iterations |
| KdfParams.DeserializeSerializeCompact | keepass_db/src/kdf_parameters.rs:105-191 | round trip: every compact form written reads back as the same parameters |
| KdfParams.ShiftMemoryBack | keepass_db/src/kdf_parameters.rs:130-174 | a memory size that is a multiple of 1 KiB survives the shift right then left |
| Primitives.XorBitsTwice | keepass_db/src/cipher.rs:53-57 | XOR-ing twice with the same `n`-bit value restores the original |
| Primitives.XorTwice | keepass_db/src/cipher.rs:53-57 | the same for a byte |
| Primitives.ApplyKeystream | keepass_db/src/cipher.rs:53-57 | `apply_keystream` keeps the length and XORs byte `i` with keystream byte `offset + i` |
| Primitives.ApplyKeystreamTwice | keepass_db/src/cipher.rs:53-90 | applying the same keystream twice at the same offset restores the data, so stream encryption and decryption are inverse |
| Primitives.ApplyKeystreamAppend | keepass_db/src/cipher.rs:53-57 | applying a keystream to a concatenation continues at the offset where the first part ends |
| BlockCiphers.Uuid | keepass_db/src/cipher.rs:7-23 | each block cipher is identified by a 16-byte UUID |
| BlockCiphers.UuidInjective | keepass_db/src/cipher.rs:7-9 | the three UUIDs are distinct |
| BlockCiphers.IvSize | keepass_db/src/cipher.rs:25-31 | ChaCha20 takes a 12-byte IV, AES-256 and Twofish 16 bytes |
| BlockCiphers.FromUuid | keepass_db/src/cipher.rs:111-116 | exactly the three known UUIDs are recognised, each as the cipher it identifies |
| BlockCiphers.Serialize | keepass_db/src/cipher.rs:96-105 | a cipher is written as its 16-byte UUID, which is recognised as that cipher |
| BlockCiphers.Deserialize | keepass_db/src/cipher.rs:107-118 | reading a cipher: I/O error under 16 bytes, `UnsupportedBlockCipher` for an unknown UUID, otherwise the cipher whose UUID was read |
| BlockCiphers.DeserializeSerialize | keepass_db/src/cipher.rs:96-118 | round trip for block ciphers |
| BlockCiphers.Encrypt | keepass_db/src/cipher.rs:62-93 | ChaCha20 XORs its keystream; AES-256 and Twofish succeed exactly when the CBC encryptor does and then return its ciphertext, and every failure is `EncryptionError` |
| BlockCiphers.Decrypt | keepass_db/src/cipher.rs:33-60 | the same with the decryptor: success exactly when it succeeds, returning its plaintext, and every failure (a bad padding) is `DecryptionError` |
| BlockCiphers.ChaCha20RoundTrip | keepass_db/src/cipher.rs:33-93 | with ChaCha20 encryption equals decryption, keeps the length, and decrypting an encryption gives the data back |
| StreamCiphers.Code | keepass_db/src/cipher.rs:120-128 | each inner stream cipher has a `u32` code |
| StreamCiphers.FromCode | keepass_db/src/cipher.rs:120-128 | exactly codes 2 (Salsa20) and 3 (ChaCha20) are accepted; others give `UnsupportedStreamCipher(code)` |
| StreamCiphers.CodeRoundTrip | keepass_db/src/cipher.rs:120-128 | every stream cipher's code maps back to it |
| StreamCiphers.KeySize | keepass_db/src/cipher.rs:130-136 | Salsa20 takes a 32-byte key, ChaCha20 a 64-byte one |
| StreamCiphers.Serialize | keepass_db/src/cipher.rs:120-128 | a stream cipher is written as 4 bytes encoding its code |
| StreamCiphers.Deserialize | keepass_db/src/cipher.rs:120-128 | reading a stream cipher: I/O error under 4 bytes, unsupported unless the code is 2 or 3, otherwise the cipher with that code |
| StreamCiphers.DeserializeSerialize | keepass_db/src/cipher.rs:120-128 | round trip for stream ciphers |
| StreamCiphers.Create | keepass_db/src/cipher.rs:138-162 | Salsa20 uses the key with the fixed nonce `e830094b97205d2a`; ChaCha20 takes key and nonce from bytes 0-31 and 32-43 of the key's SHA-512 |
| DatabaseHeader.Record | keepass_db/src/database_header.rs:41-71 | a header record is its type byte, a 4-byte size and the payload |
| DatabaseHeader.NewOuter | keepass_db/src/database_header.rs:20-31 | a new outer header has the default cipher (ChaCha20) with an IV of its size, gzip compression, a 32-byte main seed, the given KDF parameters and no custom data |
| DatabaseHeader.ResetIv | keepass_db/src/database_header.rs:33-36 | `reset_iv` replaces only the IV, by one of the cipher's IV size |
| DatabaseHeader.ReadOuterPayload | keepass_db/src/database_header.rs:89-130 | a cipher or compression record of the wrong size is `InvalidFieldSize`; the loop stops exactly at the end-of-header record; no KDF read from the dictionary is Argon2i |
| DatabaseHeader.ReadOuterRecord | keepass_db/src/database_header.rs:87-130 | one record consumes at least its 5-byte type and size |
| DatabaseHeader.ReadOuterRecords | keepass_db/src/database_header.rs:86-131 | the record loop consumes a prefix of the input of at least one record and never produces Argon2i parameters |
| DatabaseHeader.FinishOuter | keepass_db/src/database_header.rs:133-140 | the header is built exactly when cipher, compression, main seed, IV and KDF parameters were all read (custom data optional), otherwise `HeaderFieldsMissing` |
| DatabaseHeader.DeserializeOuter | keepass_db/src/database_header.rs:77-142 | an outer header read consumes a non-empty prefix of the input, leaving the rest, and its KDF is not Argon2i |
| DatabaseHeader.DeserializeOuterLoop | keepass_db/src/database_header.rs:77-142 | the reading loop computes the same header as the recursive definition |
| DatabaseHeader.CommentIgnored | keepass_db/src/database_header.rs:90-93 | a comment record is skipped without changing the fields read |
| DatabaseHeader.CipherRecord | keepass_db/src/database_header.rs:94-99 | a written cipher record sets the cipher |
| DatabaseHeader.CompressionRecord | keepass_db/src/database_header.rs:100-105 | a written compression record sets the compression |
| DatabaseHeader.MainSeedRecord | keepass_db/src/database_header.rs:106-108 | a main seed record sets the seed |
| DatabaseHeader.IvRecord | keepass_db/src/database_header.rs:109-111 | an IV record sets the IV |
| DatabaseHeader.KdfRecord | keepass_db/src/database_header.rs:112-118 | a written KDF record sets the KDF parameters |
| DatabaseHeader.CustomDataRecordRead | keepass_db/src/database_header.rs:119-125 | a written custom data record sets the custom data |
| DatabaseHeader.EndRecord | keepass_db/src/database_header.rs:126-129 | the end-of-header record ends the loop |
| DatabaseHeader.FieldsOf | keepass_db/src/database_header.rs:133-140 | the fields of a header complete back to the same header |
| DatabaseHeader.ReadOuterTail | keepass_db/src/database_header.rs:53-129 | reading the written IV, KDF, custom data and end records sets exactly those fields |
| DatabaseHeader.ReadOuterSerialized | keepass_db/src/database_header.rs:39-131 | the written records read back as exactly the header's fields |
| DatabaseHeader.DeserializeSerializeOuter | keepass_db/src/database_header.rs:39-142 | round trip for every outer header whose lengths fit in `u32` and whose KDF is not Argon2i |
| DatabaseHeader.DefaultInner | keepass_db/src/database_header.rs:144-149 | the default inner header: ChaCha20, empty key, no binaries |
| DatabaseHeader.ResetCipher | keepass_db/src/database_header.rs:152-156 | `reset_cipher` selects ChaCha20 with a fresh 64-byte key and keeps the binaries |
| DatabaseHeader.ReadInnerPayload | keepass_db/src/database_header.rs:193-210 | a stream cipher record of the wrong size and a binary of size 0 are `InvalidFieldSize`; the loop stops exactly at the end record; a binary record appends at most one binary |
| DatabaseHeader.ReadInnerRecord | keepass_db/src/database_header.rs:191-210 | one record consumes at least its 5-byte type and size |
| DatabaseHeader.ReadInnerRecords | keepass_db/src/database_header.rs:190-211 | the loop consumes input and only appends to the binaries already read |
| DatabaseHeader.InnerStepPushes | keepass_db/src/database_header.rs:203-205 | a step either keeps the binaries or pushes exactly one |
| DatabaseHeader.FinishInner | keepass_db/src/database_header.rs:213-217 | the inner header is built exactly when cipher and key were read, otherwise `HeaderFieldsMissing` |
| DatabaseHeader.DeserializeInner | keepass_db/src/database_header.rs:184-219 | an inner header read consumes at least one record |
| DatabaseHeader.DeserializeInnerLoop | keepass_db/src/database_header.rs:184-219 | the reading loop computes the same header as the recursive definition |
| DatabaseHeader.StreamCipherRecord | keepass_db/src/database_header.rs:194-199 | a written stream cipher record sets the cipher |
| DatabaseHeader.StreamKeyRecord | keepass_db/src/database_header.rs:200-202 | a stream key record sets the key |
| DatabaseHeader.BinaryRecord | keepass_db/src/database_header.rs:203-205 | a written binary record appends that binary |
| DatabaseHeader.InnerEndRecord | keepass_db/src/database_header.rs:206-209 | the end record ends the loop |
| DatabaseHeader.ReadBinaryRecords | keepass_db/src/database_header.rs:169-205 | a run of written binary records appends those binaries in order |
| DatabaseHeader.ReadInnerSerialized | keepass_db/src/database_header.rs:159-211 | the written inner records read back as the header's cipher, key and binaries |
| DatabaseHeader.DeserializeSerializeInner | keepass_db/src/database_header.rs:159-219 | round trip for every inner header whose lengths fit in `u32` and whose binaries have known flags |
| KeySchedule.CompositeKey | keepass_db/src/keys.rs:18-29 | the composite key is the 32-byte SHA-256 of the SHA-256 of the password |
| KeySchedule.Derive | keepass_db/src/keys.rs:17-49 | derivation fails exactly when Argon2 does, with its error; otherwise the encryption key is SHA-256(main seed, derived key) and the HMAC key SHA-512(main seed, derived key, 0x01), of sizes 32 and 64 |
| KeySchedule.IndexBytes | keepass_db/src/keys.rs:54 | a block index is hashed as its 8-byte little-endian `i64` form |
| KeySchedule.HeaderIndexBytes | keepass_db/src/database.rs:68-72 | the header's index −1 (`u64::MAX` as `i64`) is eight 0xFF bytes |
| KeySchedule.HmacKey | keepass_db/src/keys.rs:51-61 | the per-block HMAC key is a 64-byte SHA-512 |
| KeySchedule.BlockHmac | keepass_db/src/hmac_block_stream.rs:35-39 | a block's authentication tag is a 32-byte HMAC-SHA-256 |
| KeySchedule.FromString | keepass_db/src/keys.rs:69-85 | `from_string` succeeds exactly when both strings are base64 of 32 and 64 bytes, gives those bytes, and fails with `InvalidCredentials` otherwise |
| KeySchedule.FromToString | keepass_db/src/keys.rs:63-85 | with a faithful base64 codec, `from_string(to_string(k))` gives back every well-sized `k` |
| HmacBlockStream.Frame | keepass_db/src/hmac_block_stream.rs:93-107 | a written block is 36 bytes (tag and size) plus its data |
| HmacBlockStream.FramesAppend | keepass_db/src/hmac_block_stream.rs:93-107 | writing one more block appends its frame at the next index |
| HmacBlockStream.FlattenAppend | keepass_db/src/hmac_block_stream.rs:117-128 | the data of the blocks is their concatenation |
| HmacBlockStream.ReadFrame | keepass_db/src/hmac_block_stream.rs:28-50 | reading one block consumes 36 bytes plus its data, only when the stored tag is that block's HMAC; failures are I/O errors or `CorruptDatabase` |
| HmacBlockStream.DecodeStreamStep | keepass_db/src/hmac_block_stream.rs:28-73 | the stream's data is a failed block's error, nothing after an empty block, or a block's data followed by the rest decoded at the next index |
| HmacBlockStream.ReadFrameOf | keepass_db/src/hmac_block_stream.rs:28-107 | a written block reads back as its data at the same index |
| HmacBlockStream.DecodeFrames | keepass_db/src/hmac_block_stream.rs:28-128 | a run of written blocks ending with an empty one (and no empty one before) decodes to the concatenation of their data |
| HmacBlockStream.Reader.constructor | keepass_db/src/hmac_block_stream.rs:18-26 | a new reader starts at index −1 with no current block, expecting the whole stream's data |
| HmacBlockStream.Reader.Pending | keepass_db/src/hmac_block_stream.rs:59-60 | without a current block nothing is pending |
| HmacBlockStream.Reader.NextBlock | keepass_db/src/hmac_block_stream.rs:28-50 | `next_block` advances the index, fails with the block's error, keeps no current block for an empty block and otherwise makes the block current at position 0, preserving the data still expected |
| HmacBlockStream.Reader.Read | keepass_db/src/hmac_block_stream.rs:53-74 | `read` returns at most `n` bytes that are a prefix of the data still expected; an empty result for a non-empty buffer means the stream has ended; every non-empty read makes progress; a block that cannot be read or fails its HMAC comes out as `Io`, the conversion `next_block()?` makes into `io::Error` |
| HmacBlockStream.Reader.ReadCurrent | keepass_db/src/hmac_block_stream.rs:59-69 | reading from the current block takes a non-empty prefix of its pending bytes |
| HmacBlockStream.Reader.CopyOut | keepass_db/src/hmac_block_stream.rs:60-69 | the bytes copied are followed, in the old pending bytes, by exactly the new pending bytes |
| HmacBlockStream.Reader.ReadToEnd | keepass_db/src/database.rs:83-87 | reading the stream to its end in chunks gives exactly the decoded stream; when decoding fails the caller of `read_to_end` gets `Io`, whatever the block error was |
| HmacBlockStream.Writer.constructor | keepass_db/src/hmac_block_stream.rs:84-91 | a new writer starts at index 0 with nothing buffered or written |
| HmacBlockStream.Writer.WriteBlock | keepass_db/src/hmac_block_stream.rs:93-107 | `write_block` appends the current buffer's frame at the current index, advances the index and empties the buffer |
| HmacBlockStream.Writer.Write | keepass_db/src/hmac_block_stream.rs:117-128 | `write` accepts all of `buf` if it fits in the block, otherwise fills the block to 1 MiB, writes it and accepts only that much |
| HmacBlockStream.Writer.WriteAll | keepass_db/src/database.rs:126-127 | repeated `write` calls accept the whole buffer, and every block written is full |
| HmacBlockStream.Writer.Finish | keepass_db/src/hmac_block_stream.rs:109-114 | `finish` writes the non-empty buffer and then an empty block; the blocks' data is everything accepted |
| HmacBlockStream.Writer.Flush | keepass_db/src/hmac_block_stream.rs:130-133 | `flush` writes the buffer as a block, even an empty one, accepting nothing new |
| HmacBlockStream.WriteStream | keepass_db/src/hmac_block_stream.rs:76-134 | writing data through a writer and finishing it produces a stream that the reader decodes back to the data |
| Databases.Consumed | keepass_db/src/database.rs:12-32 | the bytes a recording reader saw are exactly the front of the input it consumed |
| Databases.ConsumedOf | keepass_db/src/database.rs:26-31 | what was read from `a + b`, leaving `b`, is `a` |
| Databases.ReadPrelude | keepass_db/src/database.rs:169-196 | reading a file's prelude: an accepted input is exactly the recorded header bytes, their SHA-256 checksum, the 32-byte HMAC and the unread rest, the version is 4.x and the KDF is not Argon2i |
| Databases.HeaderHmac | keepass_db/src/database.rs:68-72 | the header HMAC is a 32-byte HMAC-SHA-256 under the index −1 key |
| Databases.UnlockKeys | keepass_db/src/database.rs:74-80 | unlocking succeeds exactly when key derivation succeeds and the header HMAC under the derived keys matches the stored one, giving those keys; a mismatch is `InvalidCredentials` |
| Databases.PreludeRoundTrip | keepass_db/src/database.rs:148-196 | a written version and header, with their checksum and an HMAC, read back as the same prelude, recording exactly the header bytes |
| Databases.PreludeHead | keepass_db/src/database.rs:152-176 | the version and header read back from their serialization, and the recorder sees exactly those bytes |
| Databases.CipherRoundTrip | keepass_db/src/cipher.rs:33-93 | with faithful CBC implementations, every block cipher decrypts its own encryption |
| Databases.PayloadRoundTrip | keepass_db/src/database.rs:82-131 | when the block stream decodes to an encrypted (and possibly compressed) payload, decryption gives the payload back |
| Databases.SavedPayloadOpens | keepass_db/src/database.rs:82-131 | decrypting what `save` wrote succeeds and gives back the inner header and, up to text normalisation, the XML document, for a settled tree whose names, attributes and text an XML document carries (`XmlTree.Representable`) |
| Databases.OpenSaved | keepass_db/src/database.rs:74-196 | a saved file opens again: the prelude reads back, the password unlocks it with the keys it was saved with, and the payload decrypts to the saved inner header and, up to text normalisation, the saved document, for a settled and representable tree |
| Databases.ByteCell.constructor | keepass_db/src/database.rs:63 | a cell holding the given bytes |
| Databases.ByteCell.Take | keepass_db/src/database.rs:70 | `Cell::take` returns the bytes and leaves the cell empty |
| Databases.Database.constructor | keepass_db/src/database.rs:190-195 | a database keeps the version, header, recorded header bytes and HMAC it was read with |
| Databases.Database.Deserialize | keepass_db/src/database.rs:169-196 | opening fails exactly when the prelude does, with its error, and otherwise holds the prelude read |
| Databases.Database.GetHeaderHmac | keepass_db/src/database.rs:68-72 | computes the HMAC of the recorded header bytes and takes them out of the cell |
| Databases.Database.Unlock | keepass_db/src/database.rs:74-80 | `unlock` returns exactly the keys `UnlockKeys` gives; the recorded bytes are consumed once derivation succeeded |
| Databases.Database.Decrypt | keepass_db/src/database.rs:82-101 | `decrypt` reads the block stream, decrypts, decompresses if gzip, and parses; it fails exactly when that pipeline does, with `Io` whenever a block is short or fails its HMAC and whenever decompression fails |
| Databases.Database.Serialize | keepass_db/src/database.rs:148-166 | writes the version and header followed by their SHA-256, and records the header bytes in the cell |
| Databases.Database.WriteHeader | keepass_db/src/database.rs:109-111 | after a new IV the header part is the header bytes, their checksum and their HMAC |
| Databases.Database.WritePayload | keepass_db/src/database.rs:116-128 | compresses (if gzip, a failure being `Io`) and encrypts the payload and writes it through a block stream writer; the stream decodes back to the encrypted payload |
| Databases.Database.Save | keepass_db/src/database.rs:103-131 | `save` resets the IV and the inner cipher key, writes the header part, then a block stream decoding to the encrypted XML payload. It fails exactly when the XML stage or the compression and encryption stage does, with that stage's error. In every case the document is left as the XML stage leaves it. For a settled document with faithful codecs it succeeds and leaves the document unchanged |
| XmlTree.IndexOf | keepass_db/src/xml_helpers.rs:23-35 | `index_of` returns the position of an accepted element child with no accepted element child before it, and none exactly when no element child is accepted |
| XmlTree.ChildIndex | keepass_db/src/xml_helpers.rs:23-35 | the same for the first element child of a given name |
| XmlTree.GetChild | keepass_db/src/xml_helpers.rs:79-80 | `get_child` finds an element exactly when some element child has the name, and returns one with that name |
| XmlTree.SetTextContent | keepass_db/src/xml_helpers.rs:61-64 | `set_text_content` keeps name and attributes, leaves the text as the only child, and the text content then reads back as that text |
| XmlTree.PushText | keepass_db/src/database_xml.rs:76-78 | text in front of nodes as the parser reports it: the text content is that text followed by the nodes' text, and the result starts with a text node exactly when the text is non-empty or the nodes start with one |
| XmlTree.Normalized | keepass_db/src/database_xml.rs:122-128 | the normal form of text that writing a document and parsing it back produces for a representable tree: same name, attributes and text content, with no empty text node and no two adjacent text nodes |
| XmlTree.NormalizedNodes | keepass_db/src/database_xml.rs:122-128 | normalising a list of children keeps their text |
| XmlTree.PushTextTwice | keepass_db/src/database_xml.rs:76-78 | two runs of text pushed one after the other are one run of their concatenation |
| XmlTree.NormalizedPushText | keepass_db/src/database_xml.rs:76-78 | normalising after pushing text is pushing the text onto the normalised nodes |
| XmlTree.NormalizedTwice | keepass_db/src/database_xml.rs:76-128 | normalising twice is normalising once: a parsed document written out and parsed again does not change |
| XmlTree.NormalizedNodesTwice | keepass_db/src/database_xml.rs:76-128 | the same for a list of children |
| XmlTree.ToBoolean | keepass_db/src/xml_helpers.rs:66-76 | exactly "True", "true" and "1" read as true, and "False", "false" and "0" as false |
| XmlTree.ToKeyValue | keepass_db/src/xml_helpers.rs:78-82 | a key/value pair exists exactly when both a Key and a Value child exist, and holds their texts |
| XmlTree.AddElement | keepass_db/src/xml_helpers.rs:102-109 | `add_element` appends the child and keeps every earlier child |
| XmlTree.RemoveAt | keepass_db/src/xml_helpers.rs:86 | `children.remove(i)` shifts the later children down by one and keeps the earlier ones |
| XmlTree.RemoveFirstNamed | keepass_db/src/xml_helpers.rs:85-90 | removing a child keeps the element's name and attributes |
| XmlTree.ChildIndexIs | keepass_db/src/xml_helpers.rs:23-35 | the first element child with the name is where `index_of` stops |
| XmlTree.ChildIndexReplace | keepass_db/src/xml_helpers.rs:23-35 | replacing the found child by one of the same name keeps its index |
| XmlTree.ChildIndexAppendOther | keepass_db/src/xml_helpers.rs:23-109 | appending a child of another name does not change where a name is found |
| XmlTree.GetChildSameExcept | keepass_db/src/xml_helpers.rs:79-80 | a lookup by name ignores changes to children of other names |
| XmlTree.NodesSizeAppend | keepass_db/src/xml_helpers.rs:102-109 | the element count of concatenated children is the sum |
| XmlTree.NodesSizeRemoveAt | keepass_db/src/xml_helpers.rs:86 | removing a child does not add elements |
| XmlTree.ValueElement | keepass_db/src/xml_helpers.rs:93-99 | a new Value element holds the value's text and has the `Protected` attribute exactly when asked |
| XmlTree.SetKeyValue | keepass_db/src/xml_helpers.rs:84-100 | `set_key_value` removes the first Key and then the first Value child and appends a new Key and a new Value |
| XmlTree.RemoveOnlyNamed | keepass_db/src/xml_helpers.rs:85-90 | with at most one child of a name, removing the first leaves none |
| XmlTree.RemoveKeepsAtMostOne | keepass_db/src/xml_helpers.rs:85-90 | removals keep "at most one child of a name" |
| XmlTree.GetChildAppend | keepass_db/src/xml_helpers.rs:92-109 | after children with no element of a name, an appended element of that name is the one found |
| XmlTree.KeyValueRoundTrip | keepass_db/src/xml_helpers.rs:78-100 | when an element has at most one Key and at most one Value, reading the pair after `set_key_value` gives the pair written |
| ElementIterators.ElementChildrenAppend | keepass_db/src/xml_helpers.rs:37-47 | the element children of concatenated nodes are concatenated |
| ElementIterators.ElementChildrenFrom | keepass_db/src/xml_helpers.rs:37-47 | every element yielded is one of the nodes |
| ElementIterators.ElementChildrenOfElements | keepass_db/src/xml_helpers.rs:37-47 | a list of element nodes yields exactly those elements in order |
| ElementIterators.ShallowWalk | keepass_db/src/xml_helpers.rs:37-39 | `elements()` (accept all, recurse never) yields exactly the element children, in order |
| ElementIterators.ItemsNone | keepass_db/src/xml_helpers.rs:168-199 | nodes whose elements are neither accepted nor entered yield nothing |
| ElementIterators.ItemsAt | keepass_db/src/xml_helpers.rs:170-187 | the walk from a position is the yield of that node followed by the walk from the next |
| ElementIterators.ItemsAppend | keepass_db/src/xml_helpers.rs:168-199 | the walk over concatenated nodes is the concatenation of the walks |
| ElementIterators.ItemsAccepted | keepass_db/src/xml_helpers.rs:172-175 | everything yielded is accepted by the filter |
| ElementIterators.WeightAt | keepass_db/src/xml_helpers.rs:170-187 | the work left from a position is the node's own plus the rest |
| ElementIterators.SavedPush | keepass_db/src/xml_helpers.rs:179 | pushing a frame adds the rest of its siblings to what is yielded after returning |
| ElementIterators.TakeStep | keepass_db/src/xml_helpers.rs:172-175 | yielding an accepted element puts it in front of what remains |
| ElementIterators.DescendStep | keepass_db/src/xml_helpers.rs:178-183 | descending into an element keeps what remains to be yielded and decreases the work left |
| ElementIterators.SkipStep | keepass_db/src/xml_helpers.rs:176-186 | moving past a node not entered keeps what remains and decreases the work left |
| ElementIterators.ReturnStep | keepass_db/src/xml_helpers.rs:189-192 | popping a frame at the end of a context keeps what remains and needs no work there |
| ElementIterators.ElementIterator.constructor | keepass_db/src/xml_helpers.rs:126-135 | a new iterator over a context will yield exactly the pre-order walk of its children |
| ElementIterators.ElementIterator.Empty | keepass_db/src/xml_helpers.rs:137-146 | an empty iterator yields nothing |
| ElementIterators.ElementIterator.Next | keepass_db/src/xml_helpers.rs:168-199 | `next` returns none exactly when nothing remains, and otherwise the first element remaining, which it removes |
| ElementIterators.ElementIterator.Descend | keepass_db/src/xml_helpers.rs:178-183 | entering an element keeps the remaining sequence and decreases the work |
| ElementIterators.ElementIterator.Skip | keepass_db/src/xml_helpers.rs:176-186 | advancing the position keeps the remaining sequence and decreases the work |
| ElementIterators.ElementIterator.Return | keepass_db/src/xml_helpers.rs:189-192 | popping the stack keeps the remaining sequence and decreases the work |
| ElementModifiers.ModifyElement | keepass_db/src/xml_helpers.rs:245-267 | `modify_impl` on an element: a walk whose callback only shrinks or keeps elements does not grow the tree unless it stops with an error |
| ElementModifiers.ModifyNodes | keepass_db/src/xml_helpers.rs:260-264 | the loop over the element children: the same bound for the children |
| ElementModifiers.ModifyPushText | keepass_db/src/xml_helpers.rs:245-267 | the walk leaves text nodes alone: walking nodes with text pushed in front gives the same outcome and state, with the same text pushed in front of the result |
| ElementModifiers.ModifyRepresentable | keepass_db/src/xml_helpers.rs:245-267 | a walk whose callback keeps elements representable keeps the tree representable, the edits made before an error included |
| ElementModifiers.ModifyNodesRepresentable | keepass_db/src/xml_helpers.rs:260-264 | the same for the children |
| ElementModifiers.ModifyOk | keepass_db/src/xml_helpers.rs:245-267 | a walk whose callback never returns an error does not return one |
| ElementModifiers.ModifyNodesOk | keepass_db/src/xml_helpers.rs:260-264 | the same for the children |
| Strings.FindChar | keepass_db/src/entry.rs:89 | the position found holds the separator and none comes before it; there is none exactly when the separator does not occur |
| Strings.Split | keepass_db/src/entry.rs:86-92 | `split` yields at least one part and no part contains the separator |
| Strings.FindCharAfter | keepass_db/src/database_xml.rs:265 | in a part followed by the separator, the separator is found right after the part |
| Strings.SplitJoin | keepass_db/src/database_xml.rs:278-282 | splitting what `join` produced from separator-free parts gives those parts back |
| Strings.AsciiLowerString | native_host/src/action_handler.rs:77 | ASCII folding keeps the length and folds character by character |
| Strings.EqIgnoreAsciiCaseIsEquivalence | native_host/src/action_handler.rs:102-105 | `eq_ignore_ascii_case` is reflexive, symmetric and transitive |
| Strings.StripPrefix | keepass_db/src/entry.rs:23 | `strip_prefix` succeeds exactly when the string starts with the prefix, and the prefix plus the result is the string |
| Strings.LastHashMark | native_host/src/action_handler.rs:29 | the position found is the last occurrence of " #", and there is none exactly when " #" does not occur |
| Strings.RSplitHashMark | native_host/src/action_handler.rs:29 | `rsplit_once(" #")` splits exactly when " #" occurs, and the parts joined by " #" are the string |
| Strings.DigitChar | native_host/src/action_handler.rs:164 | a decimal digit names its value |
| Strings.Decimal | native_host/src/action_handler.rs:164 | the decimal form of a number is a non-empty digit string whose value is the number |
| Strings.ParseU32 | native_host/src/action_handler.rs:30 | `parse::<u32>` only accepts values below 2^32 |
| Strings.ParseDecimal | native_host/src/action_handler.rs:30-164 | parsing the decimal form of any u32 gives it back |
| Strings.HashMarkBeforeDigits | native_host/src/action_handler.rs:29 | in "base #digits" the last " #" is the one before the digits, whatever the base holds |
| Entries.NormalizedHostname | keepass_db/src/entry.rs:20-34 | the hostname is empty when the URL has no host, is the host with a leading "www." removed otherwise, and "invalid.pfp" maps to empty |
| Entries.SetHostname | keepass_db/src/entry.rs:176-181 | `set_hostname` changes only the URL: empty for an empty hostname, otherwise "https://" followed by the hostname |
| Entries.HostnameOfSetHostname | keepass_db/src/entry.rs:172-181 | reading the hostname after setting it gives it back, for hostnames the URL parser returns unchanged that carry no "www." and are not "invalid.pfp" |
| Entries.NewEntry | keepass_db/src/entry.rs:49-59 | `Entry::new` holds the given fields and has no notes and no tags |
| Entries.ReadChildrenAppend | keepass_db/src/entry.rs:69-97 | reading children in two parts is reading them in one pass |
| Entries.ReadChildrenUuid | keepass_db/src/entry.rs:71 | the UUID read is either the starting one or the text of some UUID child |
| Entries.ReadChildrenTags | keepass_db/src/entry.rs:84-96 | tags read from Tags children come from `split(',')`: at least one tag, none holding a comma |
| Entries.EntryOfTags | keepass_db/src/entry.rs:60-107 | an entry read by `from_xml` has tags that survive being joined and split again |
| Entries.Complete | keepass_db/src/entry.rs:98-106 | `from_xml` yields an entry exactly when UUID, URL, Title, UserName and Password were all found, and the entry carries the values found |
| Entries.FromXml | keepass_db/src/entry.rs:61-107 | the loop over the element children computes the entry the specification function `EntryOf` reads from the element |
| Entries.AddXmlChildren | keepass_db/src/entry.rs:109-146 | `add_xml_children` keeps name, attributes and the earlier children and appends at least the four mandatory strings |
| Entries.ToXml | keepass_db/src/entry.rs:148-153 | `to_xml` builds an "Entry" element without attributes |
| Entries.ReadStringElement | keepass_db/src/entry.rs:72-83 | a "String" child written by `set_key_value` is read back as that field |
| Entries.ReadTwoStrings | keepass_db/src/entry.rs:72-83 | two String children are read back in order |
| Entries.MandatoryChildren | keepass_db/src/entry.rs:110-137 | the four mandatory children are the URL, Title, UserName and Password strings, in that order |
| Entries.ReadMandatory | keepass_db/src/entry.rs:110-137 | reading the mandatory children sets URL, title, user name and password to the entry's |
| Entries.ReadNotes | keepass_db/src/entry.rs:138-142 | reading the Notes child, when written, sets the notes |
| Entries.ReadTags | keepass_db/src/entry.rs:84-94 | the Tags child joined with "," reads back as the tags when the list is non-empty and no tag contains "," (a list holding one empty tag reads back too) |
| Entries.ReadFieldNodes | keepass_db/src/entry.rs:109-146 | reading everything `add_xml_children` writes sets every field to the entry's |
| Entries.ToXmlRoundTrip | keepass_db/src/entry.rs:61-153 | `from_xml(to_xml(entry))` is the entry, whatever the protected fields |
| Entries.RetainNonFields | keepass_db/src/entry.rs:156-168 | the retained children are children of the element and none of them is a URL, Title, UserName, Password or Notes string |
| Entries.UpdateXml | keepass_db/src/entry.rs:155-170 | `update_xml` keeps the element's name and attributes |
| Entries.ReadRetained | keepass_db/src/entry.rs:156-168 | dropping the field strings keeps the UUID and tags read from the element |
| Entries.UpdateXmlRoundTrip | keepass_db/src/entry.rs:155-170 | after `update_xml`, the element reads back as the entry with the element's own UUID and, where the entry has none, the element's old tags |
| DatabaseTrees.IsGroupMeaning | keepass_db/src/database_xml.rs:12-18 | a group is a "Group" element whose EnableSearching child, if any, does not read as false |
| DatabaseTrees.RootGroup | keepass_db/src/database_xml.rs:133-141 | the root group exists exactly when Root/Group exists and is a group |
| DatabaseTrees.WithRootGroup | keepass_db/src/database_xml.rs:143-151 | writing through `get_root_group_mut` replaces exactly the Group child of the Root child |
| DatabaseTrees.RootGroupOfWith | keepass_db/src/database_xml.rs:133-151 | the root group after replacing it is the new group |
| DatabaseTrees.ItemsOfEntry | keepass_db/src/database_xml.rs:178-188 | an entry element alone yields itself |
| DatabaseTrees.ItemsCons | keepass_db/src/database_xml.rs:178-188 | the walk over a node followed by others is the node's yield followed by theirs |
| DatabaseTrees.GroupNodeItems | keepass_db/src/database_xml.rs:178-188 | a group is entered and not yielded |
| DatabaseTrees.FilterEntriesFrom | keepass_db/src/database_xml.rs:187 | `filter_map(Entry::from_xml)` yields no more than it reads, and only entries read from those elements |
| DatabaseTrees.FilterEntriesAppend | keepass_db/src/database_xml.rs:187 | filtering concatenated elements concatenates the results |
| DatabaseTrees.FilterEntriesTags | keepass_db/src/database_xml.rs:187 | every entry the listing reads has tags that survive being written back |
| DatabaseTrees.FindEntry | keepass_db/src/database_xml.rs:190-194 | `get_entry` fails with NoSuchEntry exactly when no entry has the UUID, and otherwise returns the first entry that has it |
| DatabaseTrees.ListedTagsRoundTrip | keepass_db/src/database_xml.rs:177-188 | every entry of the database has tags that survive being written back |
| DatabaseTrees.AddEntryTree | keepass_db/src/database_xml.rs:196-201 | `add_entry` fails with MissingRootGroup exactly when there is no root group, and otherwise appends the entry's XML to the root group |
| DatabaseTrees.AddEntryListed | keepass_db/src/database_xml.rs:178-201 | after `add_entry` the entries listed are the earlier ones followed by the new entry |
| DatabaseTrees.FlagNameSuffix | keepass_db/src/database_xml.rs:170 | `&field[7..]` strips "Protect" and leaves the field key |
| DatabaseTrees.ProtectionOrderComplete | keepass_db/src/database_xml.rs:155-161 | the five flags cover every field |
| DatabaseTrees.ProtectedFields | keepass_db/src/database_xml.rs:153-176 | a field is protected exactly when its Protect flag under Meta/MemoryProtection reads as true |
| DatabaseTrees.EmptyTreeHasNoEntries | keepass_db/src/database_xml.rs:84-120 | the empty database has a root group and no entries |
| DatabaseTrees.EmptyTreeProtection | keepass_db/src/database_xml.rs:93-99 | the empty database carries the default MemoryProtection block |
| DatabaseTrees.DefaultProtectionFlags | keepass_db/src/database_xml.rs:93-99 | the default block sets the password flag only |
| DatabaseTrees.EmptyTreeProtectsPasswords | keepass_db/src/database_xml.rs:84-176 | in the empty database only passwords are protected |
| DatabaseTrees.OnlyPasswordFlag | keepass_db/src/database_xml.rs:164-172 | with only the password flag set, the protected set is {Password} |
| DatabaseTrees.ProtectedFieldsIn | keepass_db/src/database_xml.rs:162-172 | the protected fields are read from the MemoryProtection child of Meta |
| EntryRemoval.RemoveStep | keepass_db/src/database_xml.rs:209-219 | the callback keeps the group's name and attributes and never grows it |
| EntryRemoval.RemoverShrinks | keepass_db/src/database_xml.rs:209-219 | the removal callback only shrinks elements, so the tree walk terminates |
| EntryRemoval.RemoveEntryTree | keepass_db/src/database_xml.rs:203-226 | `remove_entry` fails with MissingRootGroup exactly when there is no root group, and otherwise can only fail with NoSuchEntry |
| EntryRemoval.NoMatchAppend | keepass_db/src/database_xml.rs:203-226 | no match in a concatenation exactly when no match in either part |
| EntryRemoval.RemovedOneAt | keepass_db/src/database_xml.rs:214 | taking a matching entry out of a list removes one match |
| EntryRemoval.RemovedOnePrefix | keepass_db/src/database_xml.rs:203-226 | a removal inside a list stays one removal with elements before it |
| EntryRemoval.RemovedOneSuffix | keepass_db/src/database_xml.rs:203-226 | the same with elements after it |
| EntryRemoval.ItemsAroundEntry | keepass_db/src/database_xml.rs:210-214 | removing an entry child takes exactly that entry out of the walk |
| EntryRemoval.NoMatchItems | keepass_db/src/database_xml.rs:210-217 | when no group found the entry, the walk holds no entry with the UUID |
| EntryRemoval.GetChildRemoveOther | keepass_db/src/database_xml.rs:214 | removing an entry child does not change a group's EnableSearching child |
| EntryRemoval.NoDeepMatchCons | keepass_db/src/database_xml.rs:205-219 | no match in any group of a list, built from the head and the rest |
| EntryRemoval.RemoveGroupSpec | keepass_db/src/database_xml.rs:205-219 | the walk under a group either finds nothing and changes nothing, or removes exactly one matching entry and keeps the group a group |
| EntryRemoval.RemoveNodesSpec | keepass_db/src/database_xml.rs:205-219 | the same for a list of children |
| EntryRemoval.RemoveNodesStep | keepass_db/src/database_xml.rs:205-219 | a removal in the tail is a removal in the whole list |
| EntryRemoval.RemoveNodesErrHead | keepass_db/src/database_xml.rs:205-219 | a removal inside the first group is a removal in the whole list |
| EntryRemoval.FilterNoMatch | keepass_db/src/database_xml.rs:187-212 | no entry element matches exactly when no listed entry has the UUID |
| EntryRemoval.FilterAround | keepass_db/src/database_xml.rs:187 | listing around one entry element splits the listed entries there |
| EntryRemoval.FilterRemovedOne | keepass_db/src/database_xml.rs:187-214 | removing one matching element removes one listed entry with the UUID |
| EntryRemoval.RemoveEntryListed | keepass_db/src/database_xml.rs:178-226 | with a root group, `remove_entry` succeeds exactly when some listed entry has the UUID, and then lists the earlier entries with one of those taken out |
| EntryRemoval.WithoutAppend | keepass_db/src/database_xml.rs:203-226 | dropping by UUID distributes over concatenation |
| EntryRemoval.WithoutNone | keepass_db/src/database_xml.rs:203-226 | dropping an absent UUID changes nothing |
| EntryRemoval.WithoutOne | keepass_db/src/database_xml.rs:203-226 | dropping a UUID held by one entry removes that entry |
| EntryRemoval.RemoveUniqueEntry | keepass_db/src/database_xml.rs:178-226 | when UUIDs are distinct, `remove_entry` leaves exactly the entries with other UUIDs |
| EntryUpdate.UpdateStep | keepass_db/src/database_xml.rs:234-244 | the callback keeps an element's name, and changes it only when it reports the UUID found |
| EntryUpdate.UpdaterShrinks | keepass_db/src/database_xml.rs:234-244 | the update callback fits the walk's termination measure |
| EntryUpdate.UpdateEntryTree | keepass_db/src/database_xml.rs:228-251 | `update_entry` fails with MissingRootGroup exactly when there is no root group, and otherwise can only fail with NoSuchEntry |
| EntryUpdate.NoneHasAppend | keepass_db/src/database_xml.rs:228-251 | no element with the UUID in either part means none in the concatenation |
| EntryUpdate.UpdatedFirstPrefix | keepass_db/src/database_xml.rs:228-251 | updating the first holder of the UUID in a tail is updating the first holder in the whole list when the head holds none |
| EntryUpdate.UpdatedFirstSuffix | keepass_db/src/database_xml.rs:228-251 | an update in a prefix stays the first update with elements after it |
| EntryUpdate.UpdatedFirstSingle | keepass_db/src/database_xml.rs:235-240 | an entry holding the UUID is updated by `update_xml` |
| EntryUpdate.UpdateElementSpec | keepass_db/src/database_xml.rs:230-245 | on one element, the walk either finds no UUID and changes nothing, or updates exactly the first entry holding the UUID and keeps groups groups |
| EntryUpdate.UpdateNodesSpec | keepass_db/src/database_xml.rs:230-245 | the same over a list of children |
| EntryUpdate.UpdateNodesHead | keepass_db/src/database_xml.rs:230-245 | an update in the first node is the first update in the list |
| EntryUpdate.UpdateNodesTail | keepass_db/src/database_xml.rs:230-245 | an update in the tail, after a node with no match, is the first update in the list |
| EntryUpdate.UpdateEntryWalk | keepass_db/src/database_xml.rs:228-251 | with a root group, `update_entry` succeeds exactly when an entry element holds the UUID, and then updates the first of them |
| EntryUpdate.EntryHasUuid | keepass_db/src/database_xml.rs:236 | an element read as an entry has a UUID child whose text is the entry's UUID |
| EntryUpdate.FilterAll | keepass_db/src/database_xml.rs:187 | when every element reads as an entry, the listed entries are read one per element |
| EntryUpdate.FilterUpdated | keepass_db/src/database_xml.rs:187-239 | updating one element's XML replaces that listed entry with the updated entry |
| EntryUpdate.FilterBefore | keepass_db/src/database_xml.rs:187-236 | entries listed before the first UUID holder have other UUIDs |
| EntryUpdate.FoundIfListed | keepass_db/src/database_xml.rs:187-236 | a listed entry with the UUID means an element holding it |
| EntryUpdate.UpdatedItems | keepass_db/src/database_xml.rs:187-239 | updating the first holder in the walk replaces the first listed entry with that UUID |
| EntryUpdate.ListedAfterUpdate | keepass_db/src/database_xml.rs:178-251 | the same stated for the whole tree |
| EntryUpdate.UpdateEntryListed | keepass_db/src/database_xml.rs:178-251 | when every entry element reads as an entry, `update_entry` succeeds if an entry has the UUID, and then replaces the first such entry with the update and leaves the other entries |
| Aliases.CustomData | keepass_db/src/database_xml.rs:257-261 | the alias data lives in the CustomData child of the Meta child |
| Aliases.PairsNoNewlines | keepass_db/src/database_xml.rs:265-268 | pairs read from newline-free parts hold no newline |
| Aliases.AliasesHaveNoNewlines | keepass_db/src/database_xml.rs:255-275 | no alias and no hostname read by `get_aliases` holds a newline |
| Aliases.Flatten | keepass_db/src/database_xml.rs:278-281 | flattening lists each key followed by its value, in the iteration order |
| Aliases.ChildOrNew | keepass_db/src/database_xml.rs:284-303 | the child worked on has the name, and is the existing child when there is one |
| Aliases.WithChild | keepass_db/src/database_xml.rs:284-303 | writing the child back replaces the existing first child of that name, or appends it |
| Aliases.RetainNonAlias | keepass_db/src/database_xml.rs:305-311 | `retain` keeps exactly the children that are not alias items |
| Aliases.SetAliasesTree | keepass_db/src/database_xml.rs:277-315 | `set_aliases` keeps the root's name and attributes |
| Aliases.SetAliasesShape | keepass_db/src/database_xml.rs:277-315 | `set_aliases` creates Meta and CustomData when missing, drops every alias item there and appends one holding the joined pairs |
| Aliases.FirstAliasValueSkip | keepass_db/src/database_xml.rs:262-271 | the search for the alias item skips items that are not alias items |
| Aliases.PairsFlatten | keepass_db/src/database_xml.rs:265-268 | reading flattened pairs gives back the map over the keys listed |
| Aliases.FlattenNoNewlines | keepass_db/src/database_xml.rs:278-282 | flattened newline-free pairs hold no newline |
| Aliases.PairsOfFlatten | keepass_db/src/database_xml.rs:265-281 | reading pairs flattened in any iteration order gives the map back |
| Aliases.SplitAliasesValue | keepass_db/src/database_xml.rs:265-282 | splitting the joined value at newlines and pairing gives the map back |
| Aliases.SetAliasesRoundTrip | keepass_db/src/database_xml.rs:255-315 | `get_aliases` after `set_aliases(m)` gives m for newline-free maps, whatever the iteration order |
| Aliases.ResolveTarget | keepass_db/src/database_xml.rs:319-328 | the target found is not itself an alias |
| Aliases.ReachesStep | keepass_db/src/database_xml.rs:322-327 | following one alias link steps the chain |
| Aliases.ReachesNotThroughAlias | keepass_db/src/database_xml.rs:323-325 | a chain that leads back to the new alias reaches no target |
| Aliases.ResolveTargetReaches | keepass_db/src/database_xml.rs:319-328 | a target found is reached by following at most 10 links without meeting the new alias |
| Aliases.ResolveTargetGivesUp | keepass_db/src/database_xml.rs:319-328 | giving up means no target is reached within 10 links without meeting the new alias |
| Aliases.AddAliasMap | keepass_db/src/database_xml.rs:317-331 | `add_alias` maps the alias to a hostname that is not an alias and keeps every other alias |
| Aliases.AddAliasTarget | keepass_db/src/database_xml.rs:317-331 | `add_alias` changes the map exactly when a target is reached within 10 links, the new target is on the chain, and an alias maps to itself only when added as its own hostname |
| Aliases.AddAliasRoundTrip | keepass_db/src/database_xml.rs:317-331 | after `add_alias` the aliases read back are the old ones with the new alias added |
| Aliases.FollowNoNewlines | keepass_db/src/database_xml.rs:322-327 | following links from a newline-free hostname leads to a newline-free hostname |
| Aliases.RemoveAliasRoundTrip | keepass_db/src/database_xml.rs:333-338 | after `remove_alias` the aliases read back are the old ones without the alias |
| ValueProtection.SingleTextSize | keepass_db/src/xml_helpers.rs:61-64 | an element whose text was set holds no child element |
| ValueProtection.ProtectStep | keepass_db/src/database_xml.rs:38-50 | protecting a value replaces its text by the base64 form of its UTF-8 bytes XORed with the keystream at the current offset, and advances the offset by their length |
| ValueProtection.UnprotectStep | keepass_db/src/database_xml.rs:64-73 | unprotecting fails with CorruptDatabase exactly when the text is not base64, fails with an encoding error when the XORed bytes are not UTF-8, and otherwise sets the decoded text and advances the offset |
| ValueProtection.CallbacksShrink | keepass_db/src/database_xml.rs:29-73 | both callbacks fit the walk's termination measure |
| ValueProtection.ModifyTextOnly | keepass_db/src/xml_helpers.rs:245-267 | a text node is left alone by the walk |
| ValueProtection.UnprotectSettles | keepass_db/src/database_xml.rs:53-74 | an unprotected element is settled: each protected value holds one text node |
| ValueProtection.UnprotectSettlesNodes | keepass_db/src/database_xml.rs:53-74 | the same for a list of children |
| ValueProtection.ValueRoundTrip | keepass_db/src/database_xml.rs:27-74 | unprotecting a protected value at the same offset gives the value back |
| ValueProtection.ProtectRoundTrip | keepass_db/src/database_xml.rs:27-74 | protecting a settled element always succeeds, and unprotecting the result with the same keystream gives it back |
| ValueProtection.ProtectRoundTripNodes | keepass_db/src/database_xml.rs:27-74 | the same for a list of children |
| ValueProtection.ProtectThenUnprotect | keepass_db/src/database_xml.rs:122-131 | the protect and unprotect passes of `save` leave a settled tree as it was |
| ValueProtection.Base64Representable | keepass_db/src/database_xml.rs:38-50 | the base64 text a protected value becomes is representable in XML |
| ValueProtection.ProtectorKeepsRepresentable | keepass_db/src/database_xml.rs:38-50 | the protect callback keeps a representable element representable |
| ValueProtection.ProtectSucceeds | keepass_db/src/database_xml.rs:25-51 | `protect` never fails, since its callback always returns `Ok` |
| ValueProtection.ProtectRepresentable | keepass_db/src/database_xml.rs:25-51 | the tree `save` writes out is representable whenever the tree in memory is |
| ValueProtection.UnprotectedIsSettled | keepass_db/src/database_xml.rs:76-82 | a tree loaded by `new` is settled, so the round trip applies to it |
| ValueProtection.UnprotectNormalized | keepass_db/src/database_xml.rs:53-74 | unprotecting the normalised tree has the same outcome and keystream position as unprotecting the tree, and on success the two results are equal up to normalisation |
| ValueProtection.UnprotectNormalizedNodes | keepass_db/src/database_xml.rs:53-74 | the same for a list of children |
| ValueProtection.UnprotectStepNormalized | keepass_db/src/database_xml.rs:53-74 | a protected value unprotects the same way after normalisation: it is read only through its text, which normalisation keeps |
| DatabaseXmls.OpenParts | keepass_db/src/database_xml.rs:76-82 | a tree opened by `new` is settled |
| DatabaseXmls.SaveThenOpen | keepass_db/src/database_xml.rs:76-131 | opening what `save` wrote succeeds and gives back the inner header, and the tree up to text normalisation, given base64 that round-trips and writes only its alphabet, an XML library whose documents written from representable trees parse back as the normalised tree, and a settled, representable tree |
| DatabaseXmls.SettledAll | keepass_db/src/database_xml.rs:27-74 | children that are text or settled elements are settled |
| DatabaseXmls.TextElementSettled | keepass_db/src/database_xml.rs:84-120 | a text-only element other than a Value is settled |
| DatabaseXmls.TextChildrenSettled | keepass_db/src/database_xml.rs:84-120 | a list of such elements is settled |
| DatabaseXmls.EmptyTreeSettled | keepass_db/src/database_xml.rs:84-120 | the empty database is settled, so `SaveThenOpen` applies to it |
| DatabaseXmls.FilterEntriesCons | keepass_db/src/database_xml.rs:187 | the listing reads the entries one element at a time |
| DatabaseXmls.FindEntryCons | keepass_db/src/database_xml.rs:191-193 | `find` checks the first entry before the rest |
| DatabaseXmls.FlattenSnoc | keepass_db/src/database_xml.rs:278-281 | flattening one more key appends that key and its value |
| DatabaseXmls.PairsFrom | keepass_db/src/database_xml.rs:265-268 | each loop turn takes two parts and records them as alias and hostname |
| DatabaseXmls.KeysAndValues | keepass_db/src/database_xml.rs:278-281 | the loop over the map visits each key once in some order and lists each key followed by its value |
| DatabaseXmls.ReadPairs | keepass_db/src/database_xml.rs:265-268 | the loop over the split value computes the pairing of alias/hostname parts |
| DatabaseXmls.DatabaseXml.constructor | keepass_db/src/database_xml.rs:20-24 | the object holds the tree and the inner header |
| DatabaseXmls.DatabaseXml.Open | keepass_db/src/database_xml.rs:76-82 | `new` fails exactly when reading the inner header, parsing the XML or unprotecting fails, with that error, and otherwise holds the settled tree and the header read |
| DatabaseXmls.DatabaseXml.Empty | keepass_db/src/database_xml.rs:84-120 | `empty` holds the empty tree and the default inner header: no entries, only passwords protected |
| DatabaseXmls.DatabaseXml.Save | keepass_db/src/database_xml.rs:122-131 | `save` resets the stream cipher, writes the inner header and the protected tree, and leaves a settled tree unchanged in memory; protecting never fails, and when unprotecting fails the tree is the one the in-place walk left, with the values before the failing one decrypted |
| DatabaseXmls.DatabaseXml.GetProtectedFields | keepass_db/src/database_xml.rs:153-176 | the loop over the five flags returns exactly the fields whose flag reads as true |
| DatabaseXmls.DatabaseXml.GetEntries | keepass_db/src/database_xml.rs:178-188 | the iterator loop returns the entries the specification walk lists |
| DatabaseXmls.DatabaseXml.GetEntry | keepass_db/src/database_xml.rs:190-194 | `get_entry` returns the first listed entry with the UUID, or NoSuchEntry |
| DatabaseXmls.DatabaseXml.AddEntry | keepass_db/src/database_xml.rs:196-201 | `add_entry` returns the entry's UUID and lists it after the others, or fails with MissingRootGroup and changes nothing |
| DatabaseXmls.DatabaseXml.RemoveEntry | keepass_db/src/database_xml.rs:203-226 | `remove_entry` succeeds exactly when a listed entry has the UUID, and then removes one such entry from the listing; otherwise nothing changes |
| DatabaseXmls.DatabaseXml.UpdateEntry | keepass_db/src/database_xml.rs:228-251 | `update_entry` fails with MissingRootGroup exactly when there is no root group, changes nothing on error, and otherwise stores the updated tree |
| DatabaseXmls.DatabaseXml.GetAliases | keepass_db/src/database_xml.rs:255-275 | the loop returns the map read from the first alias item |
| DatabaseXmls.DatabaseXml.SetAliases | keepass_db/src/database_xml.rs:277-315 | `set_aliases` writes the map in some iteration order, and reading the aliases back gives the map when no key or value holds a newline |
| DatabaseXmls.DatabaseXml.AddAlias | keepass_db/src/database_xml.rs:317-331 | `add_alias` changes nothing when the chain returns to the alias or is longer than 10, and otherwise the aliases read back are the resolved map |
| DatabaseXmls.DatabaseXml.RemoveAlias | keepass_db/src/database_xml.rs:333-338 | `remove_alias` changes nothing for an unknown alias, and otherwise the aliases read back lack exactly that alias |
| ActionHandler.Lift | native_host/src/action_handler.rs:57-233 | a library error passes through `?` as a host error and a value unchanged |
| ActionHandler.GetKeys | native_host/src/action_handler.rs:17-26 | `get_keys` rejects any number of strings other than two with InvalidMessage, and otherwise decodes the encryption key then the HMAC key |
| ActionHandler.GetKeysOfUnlockResponse | native_host/src/action_handler.rs:17-67 | the two strings an Unlock response sends decode back to the same keys |
| ActionHandler.GetTitleBase | native_host/src/action_handler.rs:28-35 | `get_title_base` returns the title with 1, or the part before the last " #" with the u32 parsed after it |
| ActionHandler.TitleBaseOfNumbered | native_host/src/action_handler.rs:28-35 | the base of "base #n" is (base, n) for every u32 n |
| ActionHandler.TitleBaseUnnumbered | native_host/src/action_handler.rs:28-35 | a title without " #" is its own base, numbered 1 |
| ActionHandler.NumberedTitleInjective | native_host/src/action_handler.rs:164 | different numbers give different titles |
| ActionHandler.TitlesBetweenMember | native_host/src/action_handler.rs:163-170 | a numbered title in a range has its number in the range |
| ActionHandler.TitlesBetweenSize | native_host/src/action_handler.rs:163-170 | a range of numbers gives as many titles, which bounds the search loop |
| ActionHandler.FirstFreeUnique | native_host/src/action_handler.rs:162-170 | the first free number after the start is unique |
| ActionHandler.FreeTitle | native_host/src/action_handler.rs:162-170 | the loop stops at the first number after the start whose title is not taken |
| ActionHandler.SubsetSize | native_host/src/action_handler.rs:163-170 | a subset is no larger than its superset |
| ActionHandler.SameHostTitles | native_host/src/action_handler.rs:153-158 | the titles collected are exactly those of entries with the same hostname, compared exactly |
| ActionHandler.MatchingEntries | native_host/src/action_handler.rs:75-78 | an entry is returned exactly when its hostname equals the site's ignoring ASCII case |
| ActionHandler.MatchingEntriesAppend | native_host/src/action_handler.rs:75-78 | the filter keeps the listing order |
| ActionHandler.GetEntriesAction | native_host/src/action_handler.rs:69-80 | GetEntries answers with the aliased hostname and the entries matching it, in listing order |
| ActionHandler.DistinctHostnames | native_host/src/action_handler.rs:91-96 | the loop collects each hostname of the entries exactly once |
| ActionHandler.GetSitesAction | native_host/src/action_handler.rs:88-98 | GetSites answers each hostname of a listed entry exactly once |
| ActionHandler.AddKeepsTitlesApart | native_host/src/action_handler.rs:99-116 | adding an entry that passed the clash check keeps hostname and title pairs distinct ignoring ASCII case |
| ActionHandler.AddEntryAction | native_host/src/action_handler.rs:99-116 | AddEntry fails with EntryExists when an entry has the same hostname and title ignoring ASCII case, fails with MissingRootGroup without a root group, and otherwise lists the new entry after the others and answers its UUID |
| ActionHandler.ApplyChanges | native_host/src/action_handler.rs:120-134 | each given field replaces the entry's, an empty notes string clears the notes, and UUID and tags stay |
| ActionHandler.ApplyChangesIdempotent | native_host/src/action_handler.rs:120-134 | applying the same changes twice is applying them once |
| ActionHandler.NoChangesKeepEntry | native_host/src/action_handler.rs:120-134 | a request with no fields leaves the entry as it was |
| ActionHandler.UpdateEntryAction | native_host/src/action_handler.rs:117-148 | UpdateEntry fails with NoSuchEntry for an unknown UUID, with EntryExists when another entry has the new hostname and title ignoring case, and otherwise stores the updated tree or passes the library's error on |
| ActionHandler.Copy | native_host/src/action_handler.rs:160-166 | the copy differs from the entry only in UUID and title |
| ActionHandler.DuplicateEntryAction | native_host/src/action_handler.rs:149-176 | DuplicateEntry fails with NoSuchEntry for an unknown UUID and with MissingRootGroup without a root group. Otherwise it adds a copy under a fresh UUID, titled with the first free number above the original's, at the end of the listing |
| ActionHandler.DuplicateTitleClash | native_host/src/action_handler.rs:154-170 | duplicating "Foo" next to "foo #2" picks "Foo #2", which equals "foo #2" ignoring ASCII case |
| ActionHandler.FoldedTitles | native_host/src/action_handler.rs:154-158 | the folded set holds each taken title's folded form and nothing else |
| ActionHandler.FoldNumberedTitle | native_host/src/action_handler.rs:164 | folding "base #n" folds only the base |
| ActionHandler.FreeTitleIgnoringCase | native_host/src/action_handler.rs:162-170 | the corrected loop picks the first number whose title differs from every taken title ignoring ASCII case |
| ActionHandler.FoldedDuplicateKeepsTitlesApart | native_host/src/action_handler.rs:149-176 | a copy whose title avoids the folded titles of its host keeps hostname and title pairs distinct ignoring case |
| ActionHandler.FoldedSameHostTitles | native_host/src/action_handler.rs:154-158 | the corrected collection holds the title of every entry whose hostname matches ignoring case |
| ActionHandler.DuplicateEntryIgnoringCase | native_host/src/action_handler.rs:149-176 | the corrected DuplicateEntry: same errors as the original, and a database whose hostname and title pairs are distinct ignoring ASCII case keeps them distinct after the copy is added |

## Left out

- Cryptography, compression and text codecs (SHA-256, SHA-512, HMAC-SHA-256 per RFC 2104, Argon2 per RFC 9106, AES-256-CBC and Twofish-CBC with PKCS#7 padding, ChaCha20 per RFC 8439, Salsa20, gzip per RFC 1952, base64 per section 4 of RFC 4648) are foreign libraries. They are fields of `Primitives.Primitives`. What the proofs rely on about them is stated as explicit hypotheses, for example `Base64RoundTrips`, `Base64Alphabet`, `XmlRoundTrips` and the cipher round trip.
- The XML parser and emitter (`xmltree`) and `url::Url::parse` are foreign as well: `parseXml`, `emitXml` and `urlHost` are parameters. The tree is the already-parsed `XmlTree.Element`.
- Random bytes (`random.rs`, `random_vec`, `getrandom`) are arguments of the requested length to the operations that draw them: `reset_iv`, `reset_cipher`, `reset_salt`, `generate_uuid`, `empty`, AddEntry, DuplicateEntry. A failing random source is not modelled.
- File and stream I/O is not modelled: `get_input`, `save_database`, opening and creating the database file, and the native-messaging loop. Readers take the whole input as a byte sequence, and writers return the bytes they write.
- `Result` models each write. A write that fails loses the bytes already written before the error, which the Rust writers would have passed on to the output.
- The handler's entry actions are modelled on the in-memory `DatabaseXml`. They are not composed with the save step `Databases.Database.Save` that follows them in `handle`. That step is modelled and proved separately.
- These branches of `handle` only wire library calls together and are modelled by the library operations they call: GetProtocol, Unlock, GetAllEntries, RemoveEntry, AddAlias, RemoveAlias, SetAliases, DuplicateKdfParameters and DeriveKey. The response types and their JSON form are not modelled.
- `Database::get_kdf_parameters` is a field read and has no member of its own.
- `KdfParams.DeriveKey` and `KeySchedule.ToString` only call foreign code. They have no contract of their own: the key derivation is specified through `KeySchedule.Derive`, and the string form through `KeySchedule.FromToString`.
- `elements_mut` is the loop inside `ElementModifiers.ModifyNodes`. It is not a separate member.
- `ElementModifiers.ModifyElement`: the walk takes a callback that makes no element larger unless it stops the walk (`Shrinking`). This is what termination of the recursive walk needs. Each callback the library passes is proved to be `Shrinking` (`EntryRemoval.RemoverShrinks`, `EntryUpdate.UpdaterShrinks`, `ValueProtection.CallbacksShrink`).
- `ElementModifiers.ModifyElement` and `ElementModifiers.ModifyNodes`: their own contract only bounds the size of the result. What each walk does is proved per use, in `EntryRemoval.RemoveGroupSpec`, `EntryUpdate.UpdateElementSpec` and `ValueProtection.ProtectRoundTrip`.
- `BlockCiphers.Encrypt` and `BlockCiphers.Decrypt`: the source resizes and truncates `data` in place. The model returns the new buffer as a value.
- `ActionHandler.GetSitesAction`: the source collects the hostnames through a `HashSet`, so their order is unspecified. The model proves that every hostname appears exactly once, but not any particular order.
- `DatabaseXmls.DatabaseXml.SetAliases`: the source joins the pairs in `HashMap` iteration order. The model takes some enumeration of the keys (`IsOrder`), so the exact string written is determined only up to that order.
- `ActionHandler.FreeTitle`: the source counts with a `u32`, and `index += 1` would overflow past 4294967295. The model counts with unbounded integers. The search always ends because only finitely many titles are taken.
- `DatabaseXmls.SaveThenOpen`, `Databases.SavedPayloadOpens` and `Databases.OpenSaved`: the reopened tree equals the saved one up to text normalisation, not exactly, and only for a representable tree (`XmlTree.Representable`). The hypothesis `DatabaseXmls.XmlRoundTrips` assumes that the XML library's emit-then-parse changes a representable tree only by that normalisation (`XmlTree.Normalized`: empty text nodes dropped, adjacent ones merged). A representable tree has no non-empty text node made only of white space, which `xmltree` drops. It has no carriage return and only XML characters in text and attribute values, and no tab or line feed in attribute values. Its names are plain ASCII names, and no attribute name starts with "xml". The condition is sufficient, not exact: for example, a lone space next to other text would survive, but is excluded. Protected values are written as base64 and are always representable (`ValueProtection.ProtectRepresentable`).
- `XmlTree.Node` has element and text nodes only. `xmltree`'s CData, Comment and ProcessingInstruction nodes are not modelled. So a CDATA section's text, which `text_content` would read, and the count of such nodes in `from_xml`'s non-empty-children test (entry.rs:85) are outside the model.
- `BlockCiphers.Decrypt` and `BlockCiphers.Encrypt`: an IV whose length is not the cipher's `iv_size` makes `iv.into()` panic in the source, which aborts the program. The outer header accepts an IV of any length. The model passes any IV to the primitive and returns its result, so that abort is not modelled.
- `StreamCiphers.Create`: for Salsa20 the source turns the key into a fixed 32-byte array with `key.into()` (cipher.rs:142-143), which panics for any other length and aborts the program. The inner header accepts a stream key of any length, so a database whose inner header names Salsa20 with, say, a 64-byte key aborts on opening. The model passes any key to the Salsa20 primitive and returns its keystream, so that abort is not modelled. The contracts of `DatabaseXmls.DatabaseXml.Open` and `Databases.Database.Decrypt` describe a result the program does not reach for such a file.
- `ValueProtection.ProtectThenUnprotect`: the promise that `save` leaves the tree unchanged is stated for settled trees. In a settled tree every protected Value holds a single text node. Protecting joins the text nodes of a Value into one, so an unsettled tree comes back normalised rather than unchanged. Every tree read from a database is settled (`ValueProtection.UnprotectedIsSettled`).
- `Databases.Database.Save`: the model runs the XML stage before writing the header part, while the source writes the header first. The two stages touch disjoint state, so the state left behind and the bytes returned are the same. Only the partial output the source has already written when the XML stage fails is not modelled.
- An operation that stops in the middle of a walk over the tree keeps the edits made before the stop, as in the source. `remove_entry` and `update_entry` stop with an error at the entry they edit, and their contracts state that edit. `protect` never stops (`ValueProtection.ProtectSucceeds`). When `unprotect` fails inside `save`, `DatabaseXmls.DatabaseXml.Save` states the partly decrypted tree the walk leaves behind. When `unprotect` fails inside `new`, no database is returned.
- `header_field_type.rs`, `compression.rs` and `cipher.rs` invoke `numeric_enum!` with a form (`X as u8 with error E`) other than the one its definition matches (`X = u8(E)`). The model gives both forms the meaning of the definition: the declared codes, with the declared error for any other value.

## Findings

| source | as written | input that shows it | evidently intended | confidence | as-written member | corrected member |
|---|---|---|---|---|---|---|
| native_host/src/action_handler.rs:154-170 | DuplicateEntry picks the first "base #k" that no same-host title matches exactly, while AddEntry and UpdateEntry reject a title that matches another title of the same site ignoring ASCII case | duplicating an entry titled "Foo" on a site that also has an entry titled "foo #2" picks "Foo #2", a pair that AddEntry would refuse as EntryExists | compare the candidate titles ignoring ASCII case, so that a duplicate never creates a pair the other actions reject | medium, not executed | ActionHandler.DuplicateTitleClash | ActionHandler.DuplicateEntryIgnoringCase |

=== FILE: action_handler.dfy ===
/** The request rules of the native host: how the keys arrive in a message, how
    a numbered title is split, and what the entry requests check before they
    change the open database. Reading and writing the database file is left to
    the caller. */
module ActionHandler {
  import Errors
  import opened Bytes
  import opened Primitives
  import opened Strings
  import opened KeySchedule
  import opened Entries
  import opened DatabaseTrees
  import opened Aliases
  import opened EntryUpdate
  import DatabaseXmls

  /** The native host's errors: a database error, or one of its own. */
  datatype HostError =
    | Db(error: Errors.Error)
    | Json
    | BrowserSetup
    | AppDir
    | Dialog
    | Unconfigured
    | InvalidMessage
    | EntryExists
    | Aborted

  /** The result of a request; usable with `:-`. */
  datatype HostResult<+T> = Ok(value: T) | Err(error: HostError) {
    predicate IsFailure() {
      Err?
    }

    function PropagateFailure<U>(): HostResult<U>
      requires Err?
    {
      Err(error)
    }

    function Extract(): T
      requires Ok?
    {
      value
    }
  }

  /** A database error as a host error. */
  function Lift<T>(r: Errors.Result<T>): (h: HostResult<T>)
    ensures h.Ok? <==> r.Ok?
    ensures h.Ok? ==> h.value == r.value
    ensures h.Err? ==> h.error == Db(r.error)
  {
    match r
    case Ok(v) => Ok(v)
    case Err(e) => Err(Db(e))
  }

  // Keys in a message.

  /** `get_keys`: the last string is the HMAC key and the one before it the
      encryption key, and nothing may precede them. */
  function GetKeys(p: Primitives, strings: seq<string>): (r: HostResult<Keys>)
    ensures |strings| != 2 ==> r == Err(InvalidMessage)
    ensures |strings| == 2 ==> r == Lift(FromString(p, strings[0], strings[1]))
  {
    if |strings| == 0 then Err(InvalidMessage)
    else
      var hmac := strings[|strings| - 1];
      var rest := strings[..|strings| - 1];
      if |rest| == 0 then Err(InvalidMessage)
      else
        var encryption := rest[|rest| - 1];
        if |rest[..|rest| - 1]| != 0 then Err(InvalidMessage)
        else Lift(FromString(p, encryption, hmac))
  }

  /** The two strings an Unlock response carries are accepted back as the same
      keys. */
  lemma GetKeysOfUnlockResponse(p: Primitives, k: Keys)
    requires Base64RoundTrips(p) && WellSized(k)
    ensures GetKeys(p, [ToString(p, k).0, ToString(p, k).1]) == Ok(k)
  {
    FromToString(p, k);
  }

  // Numbered titles.

  /** `format!("{base_name} #{index}")`. */
  function NumberedTitle(base: string, index: nat): string {
    base + HashMark + Decimal(index)
  }

  /** `get_title_base`: the text before the last " #" and the number after
      it, when that parses as a u32; otherwise the whole title and 1. */
  function GetTitleBase(title: string): (r: (string, nat))
    ensures r.1 < U32Limit
    ensures || (r.0 == title && r.1 == 1)
            || (&& |r.0| + 2 <= |title| && title[..|r.0|] == r.0
                && title[|r.0|..|r.0| + 2] == HashMark && ParseU32(title[|r.0| + 2..]) == Errors.Some(r.1))
  {
    var split := RSplitHashMark(title);
    if split.None? then (title, 1)
    else
      var (base, index) := split.value;
      assert title[..|base|] == base && title[|base|..|base| + 2] == HashMark && title[|base| + 2..] == index
        by { assert title == base + HashMark + index; }
      var n := ParseU32(index);
      if n.None? then (title, 1) else (base, n.value)
  }

  /** A title numbered by `format!` splits back into its base and number. */
  lemma TitleBaseOfNumbered(base: string, n: nat)
    requires n < U32Limit
    ensures GetTitleBase(NumberedTitle(base, n)) == (base, n)
  {
    HashMarkBeforeDigits(base, Decimal(n));
    ParseDecimal(n);
  }

  /** A title without " #" is its own base, numbered 1. */
  lemma TitleBaseUnnumbered(title: string)
    requires forall j :: !MarkAt(title, j)
    ensures GetTitleBase(title) == (title, 1)
  {
  }

  /** Different numbers give different titles. */
  lemma NumberedTitleInjective(base: string, a: nat, b: nat)
    requires NumberedTitle(base, a) == NumberedTitle(base, b)
    ensures a == b
  {
    var n := |base| + 2;
    assert Decimal(a) == NumberedTitle(base, a)[n..];
    assert Decimal(b) == NumberedTitle(base, b)[n..];
  }

  /** The titles numbered `lo` up to, not including, `hi`. */
  ghost function TitlesBetween(base: string, lo: nat, hi: nat): set<string>
    decreases hi
  {
    if hi <= lo then {} else TitlesBetween(base, lo, hi - 1) + {NumberedTitle(base, hi - 1)}
  }

  lemma {:induction false} TitlesBetweenMember(base: string, lo: nat, hi: nat, m: nat)
    requires NumberedTitle(base, m) in TitlesBetween(base, lo, hi)
    ensures lo <= m < hi
    decreases hi
  {
    if hi <= lo {
    } else if NumberedTitle(base, m) == NumberedTitle(base, hi - 1) {
      NumberedTitleInjective(base, m, hi - 1);
    } else {
      TitlesBetweenMember(base, lo, hi - 1, m);
    }
  }

  lemma {:induction false} TitlesBetweenSize(base: string, lo: nat, hi: nat)
    requires lo <= hi
    ensures |TitlesBetween(base, lo, hi)| == hi - lo
    decreases hi
  {
    if hi > lo {
      TitlesBetweenSize(base, lo, hi - 1);
      if NumberedTitle(base, hi - 1) in TitlesBetween(base, lo, hi - 1) {
        TitlesBetweenMember(base, lo, hi - 1, hi - 1);
      }
    }
  }

  /** `k` is the first number above `start` whose title is not taken. */
  predicate FirstFree(base: string, start: nat, taken: set<string>, k: nat) {
    && start < k && NumberedTitle(base, k) !in taken
    && forall j :: start < j < k ==> NumberedTitle(base, j) in taken
  }

  /** At most one number is the first free one. */
  lemma FirstFreeUnique(base: string, start: nat, taken: set<string>, k: nat, k': nat)
    requires FirstFree(base, start, taken, k) && FirstFree(base, start, taken, k')
    ensures k == k'
  {
  }

  /** The loop of DuplicateEntry: count up from the number after `start` until
      the title is not among `taken`. It ends because the titles it passes are
      all different and all taken. */
  method FreeTitle(base: string, start: nat, taken: set<string>) returns (title: string, k: nat)
    ensures FirstFree(base, start, taken, k) && title == NumberedTitle(base, k)
  {
    k := start + 1;
    while NumberedTitle(base, k) in taken
      invariant start < k
      invariant forall j :: start < j < k ==> NumberedTitle(base, j) in taken
      invariant TitlesBetween(base, start + 1, k) <= taken
      decreases |taken| - (k - start - 1)
    {
      TitlesBetweenSize(base, start + 1, k + 1);
      assert TitlesBetween(base, start + 1, k + 1) <= taken;
      assert |TitlesBetween(base, start + 1, k + 1)| <= |taken| by {
        SubsetSize(TitlesBetween(base, start + 1, k + 1), taken);
      }
      k := k + 1;
    }
    title := NumberedTitle(base, k);
  }

  lemma SubsetSize<T>(a: set<T>, b: set<T>)
    requires a <= b
    ensures |a| <= |b|
  {
    assert b == a + (b - a);
  }

  /** The titles of the entries whose hostname is exactly `hostname`. */
  function SameHostTitles(p: Primitives, entries: seq<Entry>, hostname: string): (r: set<string>)
    ensures forall t :: t in r <==> exists e :: e in entries && Hostname(p, e) == hostname && e.title == t
  {
    set e | e in entries && Hostname(p, e) == hostname :: e.title
  }

  // Entry lookups.

  /** GetEntries looks the hostname up in the alias map once: an alias of an
      alias is not followed. */
  function SiteHostname(aliases: map<string, string>, hostname: string): string {
    if hostname in aliases then aliases[hostname] else hostname
  }

  /** The entries whose hostname matches `hostname` ignoring ASCII case, in
      their order. */
  function MatchingEntries(p: Primitives, entries: seq<Entry>, hostname: string): (r: seq<Entry>)
    ensures |r| <= |entries|
    ensures forall e :: e in r <==> e in entries && EqIgnoreAsciiCase(Hostname(p, e), hostname)
  {
    if entries == [] then []
    else
      var rest := MatchingEntries(p, entries[1..], hostname);
      assert forall e :: e in entries <==> e == entries[0] || e in entries[1..];
      if EqIgnoreAsciiCase(Hostname(p, entries[0]), hostname) then [entries[0]] + rest else rest
  }

  /** Filtering keeps the order: matches of a concatenation are the matches of
      each part. */
  lemma {:induction false} MatchingEntriesAppend(p: Primitives, a: seq<Entry>, b: seq<Entry>, hostname: string)
    ensures MatchingEntries(p, a + b, hostname) == MatchingEntries(p, a, hostname) + MatchingEntries(p, b, hostname)
  {
    if a == [] {
      assert a + b == b;
    } else {
      assert (a + b)[0] == a[0] && (a + b)[1..] == a[1..] + b;
      MatchingEntriesAppend(p, a[1..], b, hostname);
    }
  }

  /** GetEntries: the hostname after one alias lookup, and the entries for it. */
  method GetEntriesAction(p: Primitives, xml: DatabaseXmls.DatabaseXml, hostname: string)
    returns (host: string, entries: seq<Entry>)
    ensures host == SiteHostname(AliasesOf(xml.xml), hostname)
    ensures entries == MatchingEntries(p, EntriesOf(xml.xml), host)
  {
    var aliases := xml.GetAliases();
    host := if hostname in aliases then aliases[hostname] else hostname;
    var all := xml.GetEntries();
    entries := MatchingEntries(p, all, host);
  }

  predicate Distinct(s: seq<string>) {
    forall i, j :: 0 <= i < j < |s| ==> s[i] != s[j]
  }

  /** The hostnames of `entries`, each once, in order of first appearance. */
  method DistinctHostnames(p: Primitives, entries: seq<Entry>) returns (sites: seq<string>)
    ensures Distinct(sites)
    ensures forall h :: h in sites <==> exists e :: e in entries && Hostname(p, e) == h
  {
    sites := [];
    var i := 0;
    while i < |entries|
      invariant 0 <= i <= |entries|
      invariant Distinct(sites)
      invariant forall h :: h in sites <==> exists k :: 0 <= k < i && Hostname(p, entries[k]) == h
    {
      var h := Hostname(p, entries[i]);
      if h !in sites {
        sites := sites + [h];
      }
      i := i + 1;
    }
    assert forall e :: e in entries <==> exists k :: 0 <= k < |entries| && entries[k] == e;
  }

  /** GetSites: every entry hostname, each once. */
  method GetSitesAction(p: Primitives, xml: DatabaseXmls.DatabaseXml) returns (sites: seq<string>)
    ensures Distinct(sites)
    ensures forall h :: h in sites <==> exists e :: e in EntriesOf(xml.xml) && Hostname(p, e) == h
  {
    var entries := xml.GetEntries();
    sites := DistinctHostnames(p, entries);
  }

  // Adding, updating and duplicating entries.

  /** Some entry has this hostname and title, ignoring ASCII case. */
  predicate Clash(p: Primitives, entries: seq<Entry>, hostname: string, title: string) {
    exists i :: 0 <= i < |entries| && EqIgnoreAsciiCase(Hostname(p, entries[i]), hostname)
                && EqIgnoreAsciiCase(entries[i].title, title)
  }

  /** What AddEntry and UpdateEntry keep: no two entries share hostname and
      title, ignoring ASCII case. */
  predicate TitlesApart(p: Primitives, entries: seq<Entry>) {
    forall i, j :: 0 <= i < j < |entries| ==>
      !(EqIgnoreAsciiCase(Hostname(p, entries[i]), Hostname(p, entries[j]))
        && EqIgnoreAsciiCase(entries[i].title, entries[j].title))
  }

  /** An entry that passed the clash check keeps the titles apart. */
  lemma AddKeepsTitlesApart(p: Primitives, entries: seq<Entry>, entry: Entry, hostname: string)
    requires TitlesApart(p, entries) && !Clash(p, entries, hostname, entry.title)
    requires EqIgnoreAsciiCase(Hostname(p, entry), hostname)
    ensures TitlesApart(p, entries + [entry])
  {
    var all := entries + [entry];
    forall i, j | 0 <= i < j < |all|
      ensures !(EqIgnoreAsciiCase(Hostname(p, all[i]), Hostname(p, all[j]))
                && EqIgnoreAsciiCase(all[i].title, all[j].title))
    {
      if j == |entries| {
        assert all[i] == entries[i];
        if EqIgnoreAsciiCase(Hostname(p, all[i]), Hostname(p, all[j])) && EqIgnoreAsciiCase(all[i].title, all[j].title) {
          assert EqIgnoreAsciiCase(Hostname(p, entries[i]), hostname);
        }
      } else {
        assert all[i] == entries[i] && all[j] == entries[j];
      }
    }
  }

  /** The entry AddEntry stores: `Entry::new` with an empty URL, then the
      hostname set. */
  function NewSiteEntry(p: Primitives, random: seq<byte>, hostname: string, title: string, username: string,
                        password: string): Entry
    requires |random| == 16
  {
    SetHostname(NewEntry(GenerateUuid(p, random), "", title, username, password), hostname)
  }

  /** AddEntry: refused when the hostname and title clash with an entry,
      before anything changes; otherwise the new entry goes to the root group
      and its uuid is the answer. */
  method AddEntryAction(p: Primitives, xml: DatabaseXmls.DatabaseXml, hostname: string, title: string,
                        username: string, password: string, random: seq<byte>) returns (r: HostResult<string>)
    requires |random| == 16
    modifies xml
    ensures xml.innerHeader == old(xml.innerHeader)
    ensures Clash(p, old(EntriesOf(xml.xml)), hostname, title) ==> r == Err(EntryExists) && xml.xml == old(xml.xml)
    ensures !Clash(p, old(EntriesOf(xml.xml)), hostname, title) ==>
              var entry := NewSiteEntry(p, random, hostname, title, username, password);
              && (r.Err? <==> RootGroup(old(xml.xml)).None?)
              && (r.Err? ==> r.error == Db(Errors.MissingRootGroup) && xml.xml == old(xml.xml))
              && (r.Ok? ==> r.value == entry.uuid && EntriesOf(xml.xml) == old(EntriesOf(xml.xml)) + [entry])
  {
    var entries := xml.GetEntries();
    if Clash(p, entries, hostname, title) {
      return Err(EntryExists);
    }
    var entry := NewSiteEntry(p, random, hostname, title, username, password);
    var protected := xml.GetProtectedFields();
    var uuid := xml.AddEntry(entry, protected);
    r := Lift(uuid);
  }

  /** The optional fields of an UpdateEntry request. */
  datatype EntryChanges = EntryChanges(hostname: Errors.Option<string>, title: Errors.Option<string>,
                                       username: Errors.Option<string>, password: Errors.Option<string>,
                                       notes: Errors.Option<string>)

  const NoChanges := EntryChanges(Errors.None, Errors.None, Errors.None, Errors.None, Errors.None)

  /** The request's fields applied to an entry: each field given replaces the
      entry's, a hostname through `set_hostname`, and empty notes remove the
      notes. */
  function ApplyChanges(entry: Entry, c: EntryChanges): (r: Entry)
    ensures r.uuid == entry.uuid && r.tags == entry.tags
    ensures r.url == (if c.hostname.Some? then SetHostname(entry, c.hostname.value).url else entry.url)
    ensures c.title.None? ==> r.title == entry.title
    ensures c.title.Some? ==> r.title == c.title.value
    ensures c.username.None? ==> r.username == entry.username
    ensures c.username.Some? ==> r.username == c.username.value
    ensures c.password.None? ==> r.password == entry.password
    ensures c.password.Some? ==> r.password == c.password.value
    ensures c.notes.None? ==> r.notes == entry.notes
    ensures c.notes == Errors.Some("") ==> r.notes.None?
    ensures c.notes.Some? && c.notes.value != "" ==> r.notes == c.notes
  {
    var e := if c.hostname.Some? then SetHostname(entry, c.hostname.value) else entry;
    var e := if c.title.Some? then e.(title := c.title.value) else e;
    var e := if c.username.Some? then e.(username := c.username.value) else e;
    var e := if c.password.Some? then e.(password := c.password.value) else e;
    if c.notes.Some? then e.(notes := if c.notes.value == "" then Errors.None else c.notes) else e
  }

  /** Applying the same changes twice changes nothing more. */
  lemma ApplyChangesIdempotent(entry: Entry, c: EntryChanges)
    ensures ApplyChanges(ApplyChanges(entry, c), c) == ApplyChanges(entry, c)
  {
  }

  /** A request with no fields leaves the entry as it is. */
  lemma NoChangesKeepEntry(entry: Entry)
    ensures ApplyChanges(entry, NoChanges) == entry
  {
  }

  /** Another entry (by uuid) has the updated entry's hostname and title,
      ignoring ASCII case. */
  predicate ClashOther(p: Primitives, entries: seq<Entry>, entry: Entry) {
    exists i :: 0 <= i < |entries| && EqIgnoreAsciiCase(Hostname(p, entries[i]), Hostname(p, entry))
                && EqIgnoreAsciiCase(entries[i].title, entry.title) && entries[i].uuid != entry.uuid
  }

  /** UpdateEntry: the entry with the uuid, with the request's fields applied;
      refused when it would clash with another entry, before anything
      changes; otherwise written back in place. */
  method UpdateEntryAction(p: Primitives, xml: DatabaseXmls.DatabaseXml, uuid: string, c: EntryChanges)
    returns (r: HostResult<()>)
    modifies xml
    ensures xml.innerHeader == old(xml.innerHeader)
    ensures FindEntry(old(EntriesOf(xml.xml)), uuid).Err? ==>
              r == Err(Db(Errors.NoSuchEntry)) && xml.xml == old(xml.xml)
    ensures FindEntry(old(EntriesOf(xml.xml)), uuid).Ok? ==>
              var entry := ApplyChanges(FindEntry(old(EntriesOf(xml.xml)), uuid).value, c);
              var updated := UpdateEntryTree(old(xml.xml), entry, ProtectedFields(old(xml.xml)));
              && (ClashOther(p, old(EntriesOf(xml.xml)), entry) ==> r == Err(EntryExists) && xml.xml == old(xml.xml))
              && (!ClashOther(p, old(EntriesOf(xml.xml)), entry) ==>
                    && (r.Ok? <==> updated.Ok?)
                    && (r.Ok? ==> xml.xml == updated.value)
                    && (r.Err? ==> r.error == Db(updated.error) && xml.xml == old(xml.xml)))
  {
    var found := xml.GetEntry(uuid);
    if found.Err? {
      return Err(Db(found.error));
    }
    var entry := ApplyChanges(found.value, c);
    var entries := xml.GetEntries();
    if ClashOther(p, entries, entry) {
      return Err(EntryExists);
    }
    var protected := xml.GetProtectedFields();
    assert protected == ProtectedFields(xml.xml);
    var done := xml.UpdateEntry(entry, protected);
    r := Lift(done);
  }

  /** The copy DuplicateEntry adds: a fresh uuid and the new title, the rest
      as in the original. */
  function Copy(entry: Entry, uuid: string, title: string): (r: Entry)
    ensures r.uuid == uuid && r.title == title
    ensures r.(uuid := entry.uuid, title := entry.title) == entry
  {
    entry.(uuid := uuid, title := title)
  }

  /** DuplicateEntry: the entry with the uuid, copied under a fresh uuid and
      titled "base #k", k the first number above the title's own (1 for an
      unnumbered title) that no entry with the same hostname has as its title,
      compared exactly. */
  method DuplicateEntryAction(p: Primitives, xml: DatabaseXmls.DatabaseXml, uuid: string, random: seq<byte>)
    returns (r: HostResult<string>)
    requires |random| == 16
    modifies xml
    ensures xml.innerHeader == old(xml.innerHeader)
    ensures FindEntry(old(EntriesOf(xml.xml)), uuid).Err? ==>
              r == Err(Db(Errors.NoSuchEntry)) && xml.xml == old(xml.xml)
    ensures FindEntry(old(EntriesOf(xml.xml)), uuid).Ok? ==>
              var original := FindEntry(old(EntriesOf(xml.xml)), uuid).value;
              var taken := SameHostTitles(p, old(EntriesOf(xml.xml)), Hostname(p, original));
              var (base, start) := GetTitleBase(original.title);
              && (r.Err? <==> RootGroup(old(xml.xml)).None?)
              && (r.Err? ==> r.error == Db(Errors.MissingRootGroup) && xml.xml == old(xml.xml))
              && (r.Ok? ==> r.value == GenerateUuid(p, random))
              && exists k :: FirstFree(base, start, taken, k)
                             && (r.Ok? ==>
                                   EntriesOf(xml.xml) == old(EntriesOf(xml.xml))
                                                         + [Copy(original, GenerateUuid(p, random), NumberedTitle(base, k))])
  {
    var found := xml.GetEntry(uuid);
    if found.Err? {
      return Err(Db(found.error));
    }
    var original := found.value;
    var entries := xml.GetEntries();
    ListedTagsRoundTrip(xml.xml);
    var taken := SameHostTitles(p, entries, Hostname(p, original));
    var (base, start) := GetTitleBase(original.title);
    var title, k := FreeTitle(base, start, taken);
    var copy := Copy(original, GenerateUuid(p, random), title);
    var protected := xml.GetProtectedFields();
    var added := xml.AddEntry(copy, protected);
    r := Lift(added);
  }

  /** The exact comparison lets the copy of "Foo" take the title "Foo #2"
      while an entry of the same site is titled "foo #2", a pair that
      AddEntry and UpdateEntry refuse. */
  lemma DuplicateTitleClash(k: nat)
    requires FirstFree("Foo", 1, {"Foo", "foo #2"}, k)
    ensures k == 2 && EqIgnoreAsciiCase(NumberedTitle("Foo", k), "foo #2")
  {
    assert NumberedTitle("Foo", 2) == "Foo #2";
    assert AsciiLowerString("Foo #2") == "foo #2";
    assert AsciiLowerString("foo #2") == "foo #2";
  }

  /** The titles folded to ASCII lower case. */
  function FoldedTitles(taken: set<string>): (r: set<string>)
    ensures forall t :: t in taken ==> AsciiLowerString(t) in r
    ensures forall u :: u in r ==> exists t :: t in taken && AsciiLowerString(t) == u
  {
    set t | t in taken :: AsciiLowerString(t)
  }

  /** Folding a numbered title folds only its base. */
  lemma FoldNumberedTitle(base: string, k: nat)
    ensures AsciiLowerString(NumberedTitle(base, k)) == NumberedTitle(AsciiLowerString(base), k)
  {
    var t := NumberedTitle(base, k);
    var u := NumberedTitle(AsciiLowerString(base), k);
    assert |t| == |u|;
    forall i | 0 <= i < |t|
      ensures AsciiLowerString(t)[i] == u[i]
    {
      if i >= |base| + 2 {
        assert t[i] == Decimal(k)[i - |base| - 2] && IsDigit(t[i]);
      }
    }
  }

  /** The evidently intended loop: a number is free only when its title
      matches no taken title even ignoring ASCII case. */
  method FreeTitleIgnoringCase(base: string, start: nat, taken: set<string>) returns (title: string, k: nat)
    ensures start < k && title == NumberedTitle(base, k)
    ensures forall t :: t in taken ==> !EqIgnoreAsciiCase(t, title)
    ensures forall j :: start < j < k ==> exists t :: t in taken && EqIgnoreAsciiCase(t, NumberedTitle(base, j))
  {
    var folded := FoldedTitles(taken);
    var lowered;
    lowered, k := FreeTitle(AsciiLowerString(base), start, folded);
    title := NumberedTitle(base, k);
    FoldNumberedTitle(base, k);
    forall j | start < j < k
      ensures exists t :: t in taken && EqIgnoreAsciiCase(t, NumberedTitle(base, j))
    {
      FoldNumberedTitle(base, j);
      assert NumberedTitle(AsciiLowerString(base), j) in folded;
      var t :| t in taken && AsciiLowerString(t) == NumberedTitle(AsciiLowerString(base), j);
      assert EqIgnoreAsciiCase(t, NumberedTitle(base, j));
    }
    assert forall j :: start < j < k ==> exists t :: t in taken && EqIgnoreAsciiCase(t, NumberedTitle(base, j));
  }

  /** With the corrected loop, a duplicate whose hostname matches the taken
      titles' site keeps the titles apart. */
  lemma FoldedDuplicateKeepsTitlesApart(p: Primitives, entries: seq<Entry>, copy: Entry)
    requires TitlesApart(p, entries)
    requires forall t :: t in FoldedSameHostTitles(p, entries, Hostname(p, copy)) ==> !EqIgnoreAsciiCase(t, copy.title)
    ensures TitlesApart(p, entries + [copy])
  {
    forall i | 0 <= i < |entries| && EqIgnoreAsciiCase(Hostname(p, entries[i]), Hostname(p, copy))
      ensures !EqIgnoreAsciiCase(entries[i].title, copy.title)
    {
      assert entries[i].title in FoldedSameHostTitles(p, entries, Hostname(p, copy));
    }
    AddKeepsTitlesApart(p, entries, copy, Hostname(p, copy));
  }

  /** The titles of the entries whose hostname matches ignoring ASCII case. */
  function FoldedSameHostTitles(p: Primitives, entries: seq<Entry>, hostname: string): (r: set<string>)
    ensures forall i :: 0 <= i < |entries| && EqIgnoreAsciiCase(Hostname(p, entries[i]), hostname) ==>
                          entries[i].title in r
  {
    set e | e in entries && EqIgnoreAsciiCase(Hostname(p, e), hostname) :: e.title
  }

  /** DuplicateEntry with the corrected title search: titles of the same site
      are compared ignoring ASCII case, as AddEntry and UpdateEntry compare
      them, so a database whose hostname and title pairs are distinct keeps
      them distinct. */
  method DuplicateEntryIgnoringCase(p: Primitives, xml: DatabaseXmls.DatabaseXml, uuid: string, random: seq<byte>)
    returns (r: HostResult<string>)
    requires |random| == 16
    modifies xml
    ensures xml.innerHeader == old(xml.innerHeader)
    ensures r.Ok? <==> FindEntry(old(EntriesOf(xml.xml)), uuid).Ok? && RootGroup(old(xml.xml)).Some?
    ensures r.Err? ==> xml.xml == old(xml.xml)
                       && r.error == if FindEntry(old(EntriesOf(xml.xml)), uuid).Err? then Db(Errors.NoSuchEntry)
                                     else Db(Errors.MissingRootGroup)
    ensures r.Ok? ==> r.value == GenerateUuid(p, random)
    ensures r.Ok? && TitlesApart(p, old(EntriesOf(xml.xml))) ==> TitlesApart(p, EntriesOf(xml.xml))
  {
    var found := xml.GetEntry(uuid);
    if found.Err? {
      return Err(Db(found.error));
    }
    var original := found.value;
    var entries := xml.GetEntries();
    ListedTagsRoundTrip(xml.xml);
    var taken := FoldedSameHostTitles(p, entries, Hostname(p, original));
    var (base, start) := GetTitleBase(original.title);
    var title, k := FreeTitleIgnoringCase(base, start, taken);
    var copy := Copy(original, GenerateUuid(p, random), title);
    assert Hostname(p, copy) == Hostname(p, original);
    var protected := xml.GetProtectedFields();
    var added := xml.AddEntry(copy, protected);
    assert TitlesApart(p, entries) ==> TitlesApart(p, entries + [copy]) by {
      if TitlesApart(p, entries) {
        FoldedDuplicateKeepsTitlesApart(p, entries, copy);
      }
    }
    r := Lift(added);
  }
}

=== FILE: aliases.dfy ===
/** The alias map of the database: pairs of hostnames kept as one
    newline-separated string in a Key/Value item keyed PFP_ALIASES under
    Meta/CustomData, read back two pieces at a time; and the resolution of an
    alias target through at most ten hops. */
module Aliases {
  import opened Errors
  import opened XmlTree
  import opened ElementIterators
  import opened Strings

  const AliasKey: string := "PFP_ALIASES"
  const MaxDepth: nat := 10

  /** An item whose Key reads PFP_ALIASES. */
  predicate IsAliasItem(e: Element) {
    ToKeyValue(e).Some? && ToKeyValue(e).value.0 == AliasKey
  }

  /** The CustomData child of the first Meta child, if both exist. */
  function CustomData(xml: Element): (r: Option<Element>)
    ensures r.Some? ==> GetChild(xml, "Meta").Some? && r == GetChild(GetChild(xml, "Meta").value, "CustomData")
  {
    match GetChild(xml, "Meta")
    case None => None
    case Some(meta) => GetChild(meta, "CustomData")
  }

  /** The value of the first alias item among the elements; later items are not
      looked at. */
  function FirstAliasValue(items: seq<Element>): Option<string> {
    if items == [] then None
    else if IsAliasItem(items[0]) then Some(ToKeyValue(items[0]).value.1)
    else FirstAliasValue(items[1..])
  }

  /** The stored alias string, if the tree has one. */
  function AliasValue(xml: Element): Option<string> {
    match CustomData(xml)
    case None => None
    case Some(data) => FirstAliasValue(ElementChildren(data.children))
  }

  /** Reading pieces two at a time into a map: the first of each pair is the
      alias and the second its hostname; a later pair overrides an earlier one,
      and an odd last piece is dropped. */
  function Pairs(parts: seq<string>, acc: map<string, string>): (r: map<string, string>)
    decreases |parts|
  {
    if |parts| < 2 then acc else Pairs(parts[2..], acc[parts[0] := parts[1]])
  }

  /** `get_aliases`: the map stored under PFP_ALIASES, empty when there is none. */
  function AliasesOf(xml: Element): map<string, string> {
    match AliasValue(xml)
    case None => map[]
    case Some(v) => Pairs(Split(v, '\n'), map[])
  }

  predicate NoNewlines(m: map<string, string>) {
    forall k :: k in m ==> '\n' !in k && '\n' !in m[k]
  }

  lemma {:induction false} PairsNoNewlines(parts: seq<string>, acc: map<string, string>)
    requires forall i :: 0 <= i < |parts| ==> '\n' !in parts[i]
    requires NoNewlines(acc)
    ensures NoNewlines(Pairs(parts, acc))
    decreases |parts|
  {
    if |parts| >= 2 {
      PairsNoNewlines(parts[2..], acc[parts[0] := parts[1]]);
    }
  }

  /** A map read back from the tree never holds a newline, since the stored
      string is split at every newline. */
  lemma AliasesHaveNoNewlines(xml: Element)
    ensures NoNewlines(AliasesOf(xml))
  {
    match AliasValue(xml)
    case None =>
    case Some(v) => PairsNoNewlines(Split(v, '\n'), map[]);
  }

  // Writing the map back.

  /** An enumeration of the keys of a map, each once, in the arbitrary order in
      which the hash map yields them. */
  ghost predicate IsOrder(order: seq<string>, m: map<string, string>) {
    && (forall i, j :: 0 <= i < j < |order| ==> order[i] != order[j])
    && (forall k :: k in m <==> k in order)
  }

  /** Each key followed by its value, in the order given. */
  function Flatten(order: seq<string>, m: map<string, string>): (r: seq<string>)
    requires forall i :: 0 <= i < |order| ==> order[i] in m
    ensures |r| == 2 * |order|
    ensures forall i :: 0 <= i < |order| ==> r[2 * i] == order[i] && r[2 * i + 1] == m[order[i]]
  {
    if order == [] then []
    else
      var r := [order[0], m[order[0]]] + Flatten(order[1..], m);
      assert forall i :: 1 <= i < |order| ==> order[1..][i - 1] == order[i];
      r
  }

  /** The string `set_aliases` stores: keys and values joined by newlines. */
  function AliasesValue(order: seq<string>, m: map<string, string>): string
    requires IsOrder(order, m)
  {
    Join(Flatten(order, m), '\n')
  }

  /** The first child of a name, or a new empty element of that name. */
  function ChildOrNew(e: Element, name: string): (r: Element)
    ensures r.name == name
    ensures GetChild(e, name).Some? ==> r == GetChild(e, name).value
  {
    match GetChild(e, name)
    case Some(c) => c
    case None => NewElement(name)
  }

  /** `get_mut_child(name)` or, when there is none, `add_element(name)`, with the
      child written back: the first child of that name replaced by `c`, or `c`
      appended; every other child stays where it was. */
  function WithChild(e: Element, name: string, c: Element): (r: Element)
    requires c.name == name
    ensures r.name == e.name && r.attributes == e.attributes
    ensures GetChild(r, name) == Some(c)
    ensures ChildIndex(e, name).Some? ==> r.children == e.children[ChildIndex(e, name).value := Elem(c)]
    ensures ChildIndex(e, name).None? ==> r.children == e.children + [Elem(c)]
  {
    match ChildIndex(e, name)
    case Some(i) =>
      ChildIndexReplace(e, name, c);
      e.(children := e.children[i := Elem(c)])
    case None =>
      var r := AddElement(e, c);
      ChildIndexIs(r, name, |e.children|);
      r
  }

  /** `retain`: every child kept except the alias items, in order. */
  function RetainNonAlias(nodes: seq<Node>): (r: seq<Node>)
    ensures forall n :: n in r <==> n in nodes && !(n.Elem? && IsAliasItem(n.element))
  {
    if nodes == [] then []
    else
      var rest := RetainNonAlias(nodes[1..]);
      assert forall n :: n in nodes <==> n == nodes[0] || n in nodes[1..];
      if nodes[0].Elem? && IsAliasItem(nodes[0].element) then rest else [nodes[0]] + rest
  }

  /** The new item: Key PFP_ALIASES, Value the stored string, not protected. */
  function AliasItem(value: string): Element {
    SetKeyValue(NewElement("Item"), AliasKey, value, false)
  }

  /** `set_aliases`: Meta and CustomData created at the end when missing, every
      alias item removed from CustomData and one new item appended. */
  function SetAliasesTree(xml: Element, order: seq<string>, m: map<string, string>): (r: Element)
    requires IsOrder(order, m)
    ensures r.name == xml.name && r.attributes == xml.attributes
  {
    var meta := ChildOrNew(xml, "Meta");
    var data := ChildOrNew(meta, "CustomData");
    var data' := AddElement(data.(children := RetainNonAlias(data.children)), AliasItem(AliasesValue(order, m)));
    WithChild(xml, "Meta", WithChild(meta, "CustomData", data'))
  }

  /** What `set_aliases` leaves: CustomData holds its former children minus the
      alias items, in order, and then the new item; everything outside Meta and,
      inside Meta, everything but CustomData is as it was. */
  lemma SetAliasesShape(xml: Element, order: seq<string>, m: map<string, string>)
    requires IsOrder(order, m)
    ensures var r := SetAliasesTree(xml, order, m);
            var meta := ChildOrNew(xml, "Meta");
            var data := ChildOrNew(meta, "CustomData");
            var meta' := GetChild(r, "Meta").value;
            var data' := GetChild(meta', "CustomData").value;
            && GetChild(r, "Meta").Some? && GetChild(meta', "CustomData").Some?
            && (ChildIndex(xml, "Meta").Some? ==> r.children == xml.children[ChildIndex(xml, "Meta").value := Elem(meta')])
            && (ChildIndex(xml, "Meta").None? ==> r.children == xml.children + [Elem(meta')])
            && (ChildIndex(meta, "CustomData").Some? ==>
                  meta'.children == meta.children[ChildIndex(meta, "CustomData").value := Elem(data')])
            && (ChildIndex(meta, "CustomData").None? ==> meta'.children == meta.children + [Elem(data')])
            && data'.children == RetainNonAlias(data.children) + [Elem(AliasItem(AliasesValue(order, m)))]
  {
  }

  /** The elements before the first alias item do not matter. */
  lemma {:induction false} FirstAliasValueSkip(a: seq<Element>, b: seq<Element>)
    requires forall i :: 0 <= i < |a| ==> !IsAliasItem(a[i])
    ensures FirstAliasValue(a + b) == FirstAliasValue(b)
  {
    if a != [] {
      assert (a + b)[0] == a[0] && !IsAliasItem(a[0]);
      assert (a + b)[1..] == a[1..] + b;
      assert FirstAliasValue(a + b) == FirstAliasValue(a[1..] + b);
      FirstAliasValueSkip(a[1..], b);
    } else {
      assert a + b == b;
    }
  }

  /** Reading the pairs of a flattened map inserts its keys over `acc`. */
  lemma {:induction false} PairsFlatten(order: seq<string>, m: map<string, string>, acc: map<string, string>)
    requires forall i :: 0 <= i < |order| ==> order[i] in m
    ensures var p := Pairs(Flatten(order, m), acc);
            forall k :: k in p <==> k in acc || k in order
    ensures var p := Pairs(Flatten(order, m), acc);
            forall k :: k in p ==> p[k] == if k in order then m[k] else acc[k]
  {
    if order != [] {
      var f := Flatten(order, m);
      assert f == [order[0], m[order[0]]] + Flatten(order[1..], m);
      assert f[2..] == Flatten(order[1..], m);
      assert Pairs(f, acc) == Pairs(Flatten(order[1..], m), acc[order[0] := m[order[0]]]);
      PairsFlatten(order[1..], m, acc[order[0] := m[order[0]]]);
      assert forall k :: k in order <==> k == order[0] || k in order[1..];
    }
  }

  lemma {:induction false} FlattenNoNewlines(order: seq<string>, m: map<string, string>)
    requires forall i :: 0 <= i < |order| ==> order[i] in m
    requires NoNewlines(m)
    ensures forall i :: 0 <= i < |Flatten(order, m)| ==> '\n' !in Flatten(order, m)[i]
  {
    if order != [] {
      FlattenNoNewlines(order[1..], m);
      var f := Flatten(order, m);
      assert f == [order[0], m[order[0]]] + Flatten(order[1..], m);
    }
  }

  /** Reading back the pairs of a flattened map gives the map. */
  lemma PairsOfFlatten(order: seq<string>, m: map<string, string>)
    requires IsOrder(order, m)
    ensures Pairs(Flatten(order, m), map[]) == m
  {
    PairsFlatten(order, m, map[]);
    var p := Pairs(Flatten(order, m), map[]);
    assert p.Keys == m.Keys;
  }

  /** The stored string splits back into the flattened pieces. */
  lemma SplitAliasesValue(order: seq<string>, m: map<string, string>)
    requires IsOrder(order, m) && NoNewlines(m)
    ensures Pairs(Split(AliasesValue(order, m), '\n'), map[]) == m
  {
    var f := Flatten(order, m);
    if order == [] {
      assert Split("", '\n') == [""];
      assert m == map[];
    } else {
      assert forall i :: 0 <= i < |order| ==> order[i] in m;
      FlattenNoNewlines(order, m);
      SplitJoin(f, '\n');
      PairsOfFlatten(order, m);
    }
  }

  /** `get_aliases` after `set_aliases(m)` gives back `m`, whatever order the
      keys were written in, when no alias or hostname holds a newline. */
  lemma SetAliasesRoundTrip(xml: Element, order: seq<string>, m: map<string, string>)
    requires IsOrder(order, m) && NoNewlines(m)
    ensures AliasesOf(SetAliasesTree(xml, order, m)) == m
  {
    var r := SetAliasesTree(xml, order, m);
    SetAliasesShape(xml, order, m);
    var meta' := GetChild(r, "Meta").value;
    var data' := GetChild(meta', "CustomData").value;
    var value := AliasesValue(order, m);
    var item := AliasItem(value);
    var kept := RetainNonAlias(ChildOrNew(ChildOrNew(xml, "Meta"), "CustomData").children);
    ElementChildrenAppend(kept, [Elem(item)]);
    assert ElementChildren([Elem(item)]) == [item];
    var ks := ElementChildren(kept);
    assert forall i :: 0 <= i < |ks| ==> !IsAliasItem(ks[i]) by {
      ElementChildrenFrom(kept);
      forall i | 0 <= i < |ks|
        ensures !IsAliasItem(ks[i])
      {
        assert ks[i] in ks;
        var j :| 0 <= j < |kept| && kept[j] == Elem(ks[i]);
        assert kept[j] in kept;
      }
    }
    FirstAliasValueSkip(ks, [item]);
    KeyValueRoundTrip(NewElement("Item"), AliasKey, value, false);
    assert AliasValue(r) == Some(value);
    SplitAliasesValue(order, m);
  }

  // Following alias targets.

  /** `add_alias`'s walk from `host`, `depth` hops done: stop with the current
      hostname once it is not an alias; give up when the next target is the alias
      being added (a cycle) or ten hops were made. */
  function ResolveTarget(aliases: map<string, string>, alias: string, host: string, depth: nat): (r: Option<string>)
    requires depth <= MaxDepth
    ensures r.Some? ==> r.value !in aliases
    decreases MaxDepth - depth
  {
    if host !in aliases then Some(host)
    else if aliases[host] == alias || depth >= MaxDepth then None
    else ResolveTarget(aliases, alias, aliases[host], depth + 1)
  }

  /** The hostname `n` hops from `host`, if every hostname on the way is an
      alias. */
  function Follow(aliases: map<string, string>, host: string, n: nat): Option<string>
    decreases n
  {
    if n == 0 then Some(host)
    else if host !in aliases then None
    else Follow(aliases, aliases[host], n - 1)
  }

  /** `n` hops from `host` end at a hostname that is not an alias, and no hop
      lands on `alias`. */
  predicate Reaches(aliases: map<string, string>, alias: string, host: string, n: nat) {
    && Follow(aliases, host, n).Some? && Follow(aliases, host, n).value !in aliases
    && forall k :: 1 <= k <= n ==> Follow(aliases, host, k) != Some(alias)
  }

  /** A chain through an alias whose target is not `alias` is that target's
      chain, one hop longer. */
  lemma ReachesStep(aliases: map<string, string>, alias: string, host: string, n: nat)
    requires host in aliases && aliases[host] != alias && n >= 1
    ensures Reaches(aliases, alias, host, n) <==> Reaches(aliases, alias, aliases[host], n - 1)
  {
    var next := aliases[host];
    assert forall k :: 1 <= k <= n ==> Follow(aliases, host, k) == Follow(aliases, next, k - 1);
    assert Follow(aliases, next, 0) == Some(next);
    if Reaches(aliases, alias, next, n - 1) {
      forall k | 1 <= k <= n
        ensures Follow(aliases, host, k) != Some(alias)
      {
        if k > 1 {
          assert Follow(aliases, host, k) == Follow(aliases, next, k - 1);
        }
      }
    }
    if Reaches(aliases, alias, host, n) {
      forall k | 1 <= k <= n - 1
        ensures Follow(aliases, next, k) != Some(alias)
      {
        assert Follow(aliases, host, k + 1) == Follow(aliases, next, k);
      }
    }
  }

  /** A chain starting with a hop onto `alias` never counts. */
  lemma ReachesNotThroughAlias(aliases: map<string, string>, alias: string, host: string, n: nat)
    requires host in aliases && aliases[host] == alias
    ensures !Reaches(aliases, alias, host, n)
  {
    if n >= 1 {
      assert Follow(aliases, host, 1) == Follow(aliases, alias, 0);
    }
  }

  /** When the walk succeeds, its hostname ends a chain from `host` of at most
      the hops left. */
  lemma {:induction false} ResolveTargetReaches(aliases: map<string, string>, alias: string, host: string, depth: nat)
    requires depth <= MaxDepth
    requires ResolveTarget(aliases, alias, host, depth).Some?
    ensures exists n :: 0 <= n <= MaxDepth - depth && Reaches(aliases, alias, host, n)
                        && Follow(aliases, host, n) == ResolveTarget(aliases, alias, host, depth)
    decreases MaxDepth - depth
  {
    if host !in aliases {
      assert Reaches(aliases, alias, host, 0);
    } else {
      var next := aliases[host];
      ResolveTargetReaches(aliases, alias, next, depth + 1);
      var n :| 0 <= n <= MaxDepth - (depth + 1) && Reaches(aliases, alias, next, n)
               && Follow(aliases, next, n) == ResolveTarget(aliases, alias, next, depth + 1);
      ReachesStep(aliases, alias, host, n + 1);
      assert Follow(aliases, host, n + 1) == Follow(aliases, next, n);
    }
  }

  /** When the walk gives up, no chain from `host` within the hops left ends at
      a hostname that is not an alias without landing on `alias`. */
  lemma {:induction false} ResolveTargetGivesUp(aliases: map<string, string>, alias: string, host: string, depth: nat)
    requires depth <= MaxDepth
    requires ResolveTarget(aliases, alias, host, depth).None?
    ensures forall n :: 0 <= n <= MaxDepth - depth ==> !Reaches(aliases, alias, host, n)
    decreases MaxDepth - depth
  {
    var next := aliases[host];
    if next == alias {
      forall n | 0 <= n <= MaxDepth - depth
        ensures !Reaches(aliases, alias, host, n)
      {
        ReachesNotThroughAlias(aliases, alias, host, n);
      }
    } else if depth < MaxDepth {
      ResolveTargetGivesUp(aliases, alias, next, depth + 1);
      forall n | 1 <= n <= MaxDepth - depth
        ensures !Reaches(aliases, alias, host, n)
      {
        ReachesStep(aliases, alias, host, n);
      }
    }
  }

  /** `add_alias` on the map: unchanged (None) when the walk gives up, otherwise
      the alias mapped to the end of the chain. */
  function AddAliasMap(aliases: map<string, string>, alias: string, hostname: string): (r: Option<map<string, string>>)
    ensures r.Some? ==> alias in r.value && r.value[alias] !in aliases
    ensures r.Some? ==> forall k :: k in aliases && k != alias ==> k in r.value && r.value[k] == aliases[k]
  {
    match ResolveTarget(aliases, alias, hostname, 0)
    case None => None
    case Some(t) => Some(aliases[alias := t])
  }

  /** `add_alias` changes the map exactly when a chain of at most ten hops from
      the hostname ends at a hostname that is not an alias without landing on
      the alias; the alias then maps to the end of that chain, and to itself only
      when it was its own hostname. */
  lemma AddAliasTarget(aliases: map<string, string>, alias: string, hostname: string)
    ensures AddAliasMap(aliases, alias, hostname).Some? <==> exists n :: 0 <= n <= MaxDepth && Reaches(aliases, alias, hostname, n)
    ensures AddAliasMap(aliases, alias, hostname).Some? ==>
              var t := AddAliasMap(aliases, alias, hostname).value[alias];
              && (exists n :: 0 <= n <= MaxDepth && Follow(aliases, hostname, n) == Some(t))
              && (t == alias ==> hostname == alias)
  {
    if ResolveTarget(aliases, alias, hostname, 0).Some? {
      ResolveTargetReaches(aliases, alias, hostname, 0);
      var t := ResolveTarget(aliases, alias, hostname, 0).value;
      var n :| 0 <= n <= MaxDepth && Reaches(aliases, alias, hostname, n) && Follow(aliases, hostname, n) == Some(t);
      if n >= 1 {
        assert Follow(aliases, hostname, n) != Some(alias);
      }
    } else {
      ResolveTargetGivesUp(aliases, alias, hostname, 0);
    }
  }

  /** `add_alias` in full: the map read back after a successful add is the old
      map with the alias set to the end of the chain. */
  lemma AddAliasRoundTrip(xml: Element, alias: string, hostname: string, order: seq<string>)
    requires '\n' !in alias && '\n' !in hostname
    requires AddAliasMap(AliasesOf(xml), alias, hostname).Some?
    requires IsOrder(order, AddAliasMap(AliasesOf(xml), alias, hostname).value)
    ensures var m := AddAliasMap(AliasesOf(xml), alias, hostname).value;
            AliasesOf(SetAliasesTree(xml, order, m)) == AliasesOf(xml)[alias := m[alias]]
  {
    var before := AliasesOf(xml);
    var m := AddAliasMap(before, alias, hostname).value;
    AliasesHaveNoNewlines(xml);
    AddAliasTarget(before, alias, hostname);
    var n :| 0 <= n <= MaxDepth && Follow(before, hostname, n) == Some(m[alias]);
    FollowNoNewlines(before, hostname, n);
    SetAliasesRoundTrip(xml, order, m);
  }

  lemma {:induction false} FollowNoNewlines(aliases: map<string, string>, host: string, n: nat)
    requires NoNewlines(aliases) && '\n' !in host
    requires Follow(aliases, host, n).Some?
    ensures '\n' !in Follow(aliases, host, n).value
    decreases n
  {
    if n > 0 {
      FollowNoNewlines(aliases, aliases[host], n - 1);
    }
  }

  /** `remove_alias` in full: written back only when the alias existed, and then
      the map read back lacks exactly that alias. */
  lemma RemoveAliasRoundTrip(xml: Element, alias: string, order: seq<string>)
    requires alias in AliasesOf(xml)
    requires IsOrder(order, AliasesOf(xml) - {alias})
    ensures AliasesOf(SetAliasesTree(xml, order, AliasesOf(xml) - {alias})) == AliasesOf(xml) - {alias}
    ensures alias !in AliasesOf(SetAliasesTree(xml, order, AliasesOf(xml) - {alias}))
  {
    AliasesHaveNoNewlines(xml);
    SetAliasesRoundTrip(xml, order, AliasesOf(xml) - {alias});
  }
}

=== FILE: binary.dfy ===
/** An attachment record of the inner header: one flags byte (bit 0 marks the
    attachment as protected in memory) followed by the attachment bytes. */
module Binaries {
  import opened Errors
  import opened Bytes

  datatype Binary = Binary(flags: byte, data: seq<byte>)

  /** `flags & !0x01 != 0`: some bit other than bit 0 is set. */
  predicate HasUnknownFlags(flags: byte) {
    (flags as bv8) & 0xFE != 0
  }

  /** Only the values 0 and 1 carry no unknown bit. */
  lemma UnknownFlagsIff(flags: byte)
    ensures HasUnknownFlags(flags) <==> flags > 1
  {
  }

  /** `len`: the flags byte plus the data. */
  function Len(b: Binary): (r: nat)
    ensures r >= 1 && r == |Serialize(b)|
  {
    1 + |b.data|
  }

  /** The flags byte, then the data verbatim. */
  function Serialize(b: Binary): (r: seq<byte>)
    ensures r == [b.flags] + b.data
  {
    WriteU8(b.flags) + b.data
  }

  /** Reading an attachment record whose declared size is `size`. */
  function Deserialize(s: seq<byte>, size: nat): (r: Result<Parsed<Binary>>)
    ensures size == 0 ==> r == Err(InvalidFieldSize)
    ensures size >= 1 && s == [] ==> r == Err(Io)
    ensures size >= 1 && s != [] && s[0] > 1 ==> r == Err(UnsupportedBinaryFlags(s[0]))
    ensures size >= 1 && s != [] && s[0] <= 1 && |s| < size ==> r == Err(Io)
    ensures r.Ok? ==> size <= |s| && r.value.value.flags <= 1
                      && Serialize(r.value.value) == s[..size] && r.value.rest == s[size..]
  {
    if size < 1 then Err(InvalidFieldSize)
    else
      var flags :- ReadU8(s);
      UnknownFlagsIff(flags.value);
      if HasUnknownFlags(flags.value) then Err(UnsupportedBinaryFlags(flags.value))
      else
        var data :- ReadBytes(size - 1, flags.rest);
        assert s[..size] == [s[0]] + data.value;
        Ok(Parsed(Binary(flags.value, data.value), data.rest))
  }

  /** An attachment with supported flags reads back from its record and `len`. */
  lemma DeserializeSerialize(b: Binary, rest: seq<byte>)
    requires b.flags <= 1
    ensures Deserialize(Serialize(b) + rest, Len(b)) == Ok(Parsed(b, rest))
  {
    var s := Serialize(b) + rest;
    assert s[1..] == b.data + rest;
    ReadBytesOfConcat(b.data, rest);
  }
}

=== FILE: bits.dfy ===
/** Big-endian bit streams over bytes, as the bitstream_io reader and writer
    produce and consume them: the first bit of a byte is its most significant one,
    a value of `n` bits is written most significant bit first, and writing a value
    that does not fit in `n` bits (for `n` below 32) fails. */
module BitStreams {
  import opened Errors
  import opened Bytes

  /** The value of bits read most significant first. */
  function BitsValue(b: seq<bool>): (r: nat)
    ensures r < Pow2(|b|)
  {
    if b == [] then 0 else 2 * BitsValue(b[..|b| - 1]) + (if b[|b| - 1] then 1 else 0)
  }

  /** The `n` bits of `x`, most significant first. */
  function ToBits(x: nat, n: nat): (r: seq<bool>)
    requires x < Pow2(n)
    ensures |r| == n
  {
    if n == 0 then [] else ToBits(x / 2, n - 1) + [x % 2 == 1]
  }

  lemma {:induction false} BitsValueToBits(x: nat, n: nat)
    requires x < Pow2(n)
    ensures BitsValue(ToBits(x, n)) == x
  {
    if n > 0 {
      var b := ToBits(x, n);
      assert b[..n - 1] == ToBits(x / 2, n - 1);
      BitsValueToBits(x / 2, n - 1);
    }
  }

  lemma {:induction false} ToBitsValue(b: seq<bool>)
    ensures ToBits(BitsValue(b), |b|) == b
  {
    if b != [] {
      var n := |b|;
      var v := BitsValue(b);
      assert v / 2 == BitsValue(b[..n - 1]) && (v % 2 == 1) == b[n - 1];
      ToBitsValue(b[..n - 1]);
      assert b == b[..n - 1] + [b[n - 1]];
    }
  }

  /** The bits of a byte sequence, each byte most significant bit first. */
  function BytesToBits(s: seq<byte>): (r: seq<bool>)
    ensures |r| == 8 * |s|
  {
    if s == [] then [] else ToBits(s[0], 8) + BytesToBits(s[1..])
  }

  /** Packing whole bytes' worth of bits. */
  function BitsToBytes(b: seq<bool>): (r: seq<byte>)
    requires |b| % 8 == 0
    ensures 8 * |r| == |b|
  {
    if b == [] then [] else [BitsValue(b[..8])] + BitsToBytes(b[8..])
  }

  lemma {:induction false} BytesToBitsToBytes(b: seq<bool>)
    requires |b| % 8 == 0
    ensures BytesToBits(BitsToBytes(b)) == b
  {
    if b != [] {
      ToBitsValue(b[..8]);
      BytesToBitsToBytes(b[8..]);
      assert b == b[..8] + b[8..];
    }
  }

  lemma {:induction false} BytesToBitsAppend(s: seq<byte>, t: seq<byte>)
    ensures BytesToBits(s + t) == BytesToBits(s) + BytesToBits(t)
  {
    if s != [] {
      assert (s + t)[0] == s[0] && (s + t)[1..] == s[1..] + t;
      BytesToBitsAppend(s[1..], t);
    } else {
      assert s + t == t;
    }
  }

  /** `write(n, v)` on a u32: a value that needs more than `n` bits is refused.
      The result is the `n` bits written. */
  function WriteBits(n: nat, v: u32): (r: Result<seq<bool>>)
    requires n <= 32
    ensures r.Ok? <==> v < Pow2(n)
    ensures r.Err? ==> r.error == Io
    ensures r.Ok? ==> |r.value| == n && BitsValue(r.value) == v
  {
    if v >= Pow2(n) then Err(Io)
    else
      BitsValueToBits(v, n);
      Ok(ToBits(v, n))
  }

  /** `read(n)`: the next `n` bits as a number, and the bits after them. */
  function ReadBits(bits: seq<bool>, n: nat): (r: Result<(nat, seq<bool>)>)
    ensures r.Ok? <==> n <= |bits|
    ensures r.Err? ==> r.error == Io
    ensures r.Ok? ==> r.value.0 == BitsValue(bits[..n]) && r.value.1 == bits[n..] && r.value.0 < Pow2(n)
  {
    if |bits| < n then Err(Io) else Ok((BitsValue(bits[..n]), bits[n..]))
  }

  /** Reading `n` bits back from a stream that starts with `n` written bits. */
  lemma ReadWrittenBits(b: seq<bool>, rest: seq<bool>)
    ensures ReadBits(b + rest, |b|) == Ok((BitsValue(b), rest))
  {
    assert (b + rest)[..|b|] == b && (b + rest)[|b|..] == rest;
  }

  lemma {:induction false} Pow2Monotone(a: nat, b: nat)
    requires a <= b
    ensures Pow2(a) <= Pow2(b)
  {
    if a < b {
      Pow2Monotone(a, b - 1);
    }
  }

  lemma {:induction false} Pow2Add(a: nat, b: nat)
    ensures Pow2(a + b) == Pow2(a) * Pow2(b)
  {
    if a > 0 {
      Pow2Add(a - 1, b);
    }
  }

  lemma Pow2Constants()
    ensures Pow2(5) == 32 && Pow2(8) == 256 && Pow2(10) == 1024
    ensures Pow2(31) == 0x8000_0000 && Pow2(32) == 0x1_0000_0000
  {
    assert Pow2(10) == 1024;
    Pow2Add(10, 10);
    Pow2Add(20, 10);
    Pow2Add(30, 1);
    Pow2Add(31, 1);
  }

  /** `u32::BITS - leading_zeros()`: the number of significant bits. */
  function BitLength(x: nat): (r: nat)
    ensures x < Pow2(r)
    ensures r > 0 ==> Pow2(r - 1) <= x
  {
    if x == 0 then 0 else 1 + BitLength(x / 2)
  }

  lemma {:induction false} BitLengthBound(x: nat, n: nat)
    requires x < Pow2(n)
    ensures BitLength(x) <= n
  {
    if x > 0 {
      BitLengthBound(x / 2, n - 1);
    }
  }

  /** The value with its bit length in front, the way the compact KDF form stores
      each number: `write(5, bit_count)` then `write(bit_count, value)`. A value of
      2^31 or more has a bit length of 32, which does not fit in five bits. */
  function WriteCounted(v: u32): (r: Result<seq<bool>>)
    ensures r.Ok? <==> v < 0x8000_0000
    ensures r.Err? ==> r.error == Io
    ensures r.Ok? ==> |r.value| == 5 + BitLength(v) && BitLength(v) < 32
                      && BitsValue(r.value[..5]) == BitLength(v) && BitsValue(r.value[5..]) == v
  {
    Pow2Constants();
    BitLengthBound(v, 32);
    if v >= 0x8000_0000 then
      assert BitLength(v) == 32 by {
        if BitLength(v) < 32 {
          Pow2Monotone(BitLength(v), 31);
        }
      }
      Err(Io)
    else
      BitLengthBound(v, 31);
      var count := WriteBits(5, BitLength(v)).value;
      var value := WriteBits(BitLength(v), v).value;
      assert (count + value)[..5] == count && (count + value)[5..] == value;
      Ok(count + value)
  }

  /** `read(5)` for a bit length, then `read(bit_count)` for the value. */
  function ReadCounted(bits: seq<bool>): (r: Result<(nat, seq<bool>)>)
    ensures r.Err? ==> r.error == Io
    ensures r.Ok? ==> r.value.0 < 0x8000_0000 && |r.value.1| + 5 <= |bits|
  {
    var count :- ReadBits(bits, 5);
    Pow2Constants();
    var value :- ReadBits(count.1, count.0);
    Pow2Monotone(count.0, 31);
    Ok(value)
  }

  /** A counted value reads back, leaving what follows it. */
  lemma ReadWriteCounted(v: u32, rest: seq<bool>)
    requires v < 0x8000_0000
    ensures ReadCounted(WriteCounted(v).value + rest) == Ok((v, rest))
  {
    var w := WriteCounted(v).value;
    var count := w[..5];
    var value := w[5..];
    assert w + rest == count + (value + rest);
    ReadWrittenBits(count, value + rest);
    ReadWrittenBits(value, rest);
  }

  /** Zero bits up to the next byte boundary (`byte_align` on a writer). */
  function Padding(n: nat): (r: seq<bool>)
    ensures |r| < 8 && (n + |r|) % 8 == 0
  {
    seq((8 - n % 8) % 8, i => false)
  }

  /** `byte_align` on a writer: the bits so far, then zeros to a whole byte. */
  function ByteAlign(bits: seq<bool>): (r: seq<bool>)
    ensures |r| % 8 == 0 && |bits| <= |r| < |bits| + 8 && |r| == 8 * ((|bits| + 7) / 8)
    ensures r[..|bits|] == bits
  {
    var pad := Padding(|bits|);
    assert (bits + pad)[..|bits|] == bits;
    bits + pad
  }

  /** The whole bytes a reader has taken once it has read `bitCount` bits. */
  function BytesTaken(bitCount: nat): (r: nat)
    ensures bitCount <= 8 * r < bitCount + 8
  {
    (bitCount + 7) / 8
  }
}

=== FILE: cipher.dfy ===
/** The outer (payload) cipher, identified in the header by a 16-byte UUID. */
module BlockCiphers {
  import opened Errors
  import opened Bytes
  import opened Primitives

  datatype BlockCipher = Aes256 | Twofish | ChaCha20

  /** `#[default]`: new databases use ChaCha20. */
  const Default: BlockCipher := ChaCha20

  /** `SIZE`: the length of the UUID that names a cipher. */
  const Size: nat := 16

  const UuidAes256: seq<byte> :=
    [0x31, 0xc1, 0xf2, 0xe6, 0xbf, 0x71, 0x43, 0x50, 0xbe, 0x58, 0x05, 0x21, 0x6a, 0xfc, 0x5a, 0xff]
  const UuidTwofish: seq<byte> :=
    [0xad, 0x68, 0xf2, 0x9f, 0x57, 0x6f, 0x4b, 0xb9, 0xa3, 0x6a, 0xd4, 0x7a, 0xf9, 0x65, 0x34, 0x6c]
  const UuidChaCha20: seq<byte> :=
    [0xd6, 0x03, 0x8a, 0x2b, 0x8b, 0x6f, 0x4c, 0xb5, 0xa5, 0x24, 0x33, 0x9a, 0x31, 0xdb, 0xb5, 0x9a]

  function Uuid(c: BlockCipher): (r: seq<byte>)
    ensures |r| == Size
  {
    match c
    case Aes256 => UuidAes256
    case Twofish => UuidTwofish
    case ChaCha20 => UuidChaCha20
  }

  /** Distinct ciphers have distinct UUIDs. */
  lemma UuidInjective(c: BlockCipher, d: BlockCipher)
    ensures Uuid(c) == Uuid(d) ==> c == d
  {
    if c != d {
      assert Uuid(c)[0] != Uuid(d)[0];
    }
  }

  /** `iv_size`: the IV length the cipher takes. */
  function IvSize(c: BlockCipher): (r: nat)
    ensures r == if c == ChaCha20 then 12 else 16
  {
    match c
    case Aes256 => 16
    case Twofish => 16
    case ChaCha20 => 12
  }

  /** The cipher named by a UUID, if any. */
  function FromUuid(u: seq<byte>): (r: Option<BlockCipher>)
    ensures r.Some? <==> u in {UuidAes256, UuidTwofish, UuidChaCha20}
    ensures r.Some? ==> Uuid(r.value) == u
  {
    if u == UuidAes256 then Some(Aes256)
    else if u == UuidTwofish then Some(Twofish)
    else if u == UuidChaCha20 then Some(ChaCha20)
    else None
  }

  /** A cipher is written as its UUID. */
  function Serialize(c: BlockCipher): (r: seq<byte>)
    ensures |r| == Size && FromUuid(r) == Some(c)
  {
    UuidInjective(c, Aes256);
    UuidInjective(c, Twofish);
    UuidInjective(c, ChaCha20);
    Uuid(c)
  }

  /** Reading 16 bytes and matching them against the three UUIDs. */
  function Deserialize(s: seq<byte>): (r: Result<Parsed<BlockCipher>>)
    ensures |s| < Size ==> r == Err(Io)
    ensures |s| >= Size && FromUuid(s[..Size]).None? ==> r == Err(UnsupportedBlockCipher)
    ensures r.Ok? ==> |s| >= Size && Uuid(r.value.value) == s[..Size] && r.value.rest == s[Size..]
  {
    var buffer :- ReadBytes(Size, s);
    match FromUuid(buffer.value)
    case None => Err(UnsupportedBlockCipher)
    case Some(c) => Ok(Parsed(c, buffer.rest))
  }

  lemma DeserializeSerialize(c: BlockCipher, rest: seq<byte>)
    ensures Deserialize(Serialize(c) + rest) == Ok(Parsed(c, rest))
  {
    ReadBytesOfConcat(Serialize(c), rest);
  }

  /** `encrypt`: CBC with PKCS#7 padding for AES-256 and Twofish, a keystream XOR
      for ChaCha20. */
  function Encrypt(p: Primitives, c: BlockCipher, data: seq<byte>, key: seq<byte>, iv: seq<byte>): (r: Result<seq<byte>>)
    ensures c == ChaCha20 ==> r == Ok(ApplyKeystream(data, p.chacha20(key, iv), 0))
    ensures c == Aes256 ==> (r.Ok? <==> p.aesEncrypt(key, iv, data).Ok?)
    ensures c == Aes256 && r.Ok? ==> r.value == p.aesEncrypt(key, iv, data).value
    ensures c == Twofish ==> (r.Ok? <==> p.twofishEncrypt(key, iv, data).Ok?)
    ensures c == Twofish && r.Ok? ==> r.value == p.twofishEncrypt(key, iv, data).value
    ensures r.Err? ==> r.error == EncryptionError
  {
    match c
    case Aes256 => match p.aesEncrypt(key, iv, data) { case Ok(e) => Ok(e) case Err(_) => Err(EncryptionError) }
    case Twofish => match p.twofishEncrypt(key, iv, data) { case Ok(e) => Ok(e) case Err(_) => Err(EncryptionError) }
    case ChaCha20 => Ok(ApplyKeystream(data, p.chacha20(key, iv), 0))
  }

  /** `decrypt`: the inverse operation; a CBC padding failure is a DecryptionError. */
  function Decrypt(p: Primitives, c: BlockCipher, data: seq<byte>, key: seq<byte>, iv: seq<byte>): (r: Result<seq<byte>>)
    ensures c == ChaCha20 ==> r == Ok(ApplyKeystream(data, p.chacha20(key, iv), 0))
    ensures c == Aes256 ==> (r.Ok? <==> p.aesDecrypt(key, iv, data).Ok?)
    ensures c == Aes256 && r.Ok? ==> r.value == p.aesDecrypt(key, iv, data).value
    ensures c == Twofish ==> (r.Ok? <==> p.twofishDecrypt(key, iv, data).Ok?)
    ensures c == Twofish && r.Ok? ==> r.value == p.twofishDecrypt(key, iv, data).value
    ensures r.Err? ==> r.error == DecryptionError
  {
    match c
    case Aes256 => match p.aesDecrypt(key, iv, data) { case Ok(d) => Ok(d) case Err(_) => Err(DecryptionError) }
    case Twofish => match p.twofishDecrypt(key, iv, data) { case Ok(d) => Ok(d) case Err(_) => Err(DecryptionError) }
    case ChaCha20 => Ok(ApplyKeystream(data, p.chacha20(key, iv), 0))
  }

  /** With ChaCha20 the two directions are one length-preserving operation, and
      decrypting what was encrypted under the same key and IV gives the data back. */
  lemma ChaCha20RoundTrip(p: Primitives, data: seq<byte>, key: seq<byte>, iv: seq<byte>)
    ensures Encrypt(p, ChaCha20, data, key, iv) == Decrypt(p, ChaCha20, data, key, iv)
    ensures |Encrypt(p, ChaCha20, data, key, iv).value| == |data|
    ensures Decrypt(p, ChaCha20, Encrypt(p, ChaCha20, data, key, iv).value, key, iv) == Ok(data)
  {
    ApplyKeystreamTwice(data, p.chacha20(key, iv), 0);
  }
}

/** The inner stream cipher that hides protected values, a u32 code in the inner
    header. */
module StreamCiphers {
  import opened Errors
  import opened Bytes
  import opened Primitives
  import NumericEnum

  datatype StreamCipher = Salsa20 | ChaCha20

  /** `#[default]` */
  const Default: StreamCipher := ChaCha20

  const Size: nat := NumericEnum.Size(32)

  /** The fixed Salsa20 nonce of the KDBX format. */
  const SalsaNonce: seq<byte> := [0xe8, 0x30, 0x09, 0x4b, 0x97, 0x20, 0x5d, 0x2a]

  function Code(c: StreamCipher): (r: nat)
    ensures r < 0x1_0000_0000
  {
    match c
    case Salsa20 => 2
    case ChaCha20 => 3
  }

  function FromCode(x: nat): (r: Result<StreamCipher>)
    ensures r.Ok? <==> x == 2 || x == 3
    ensures r.Ok? ==> Code(r.value) == x
    ensures r.Err? ==> r.error == UnsupportedStreamCipher(x)
  {
    if x == 2 then Ok(Salsa20)
    else if x == 3 then Ok(ChaCha20)
    else Err(UnsupportedStreamCipher(x))
  }

  lemma CodeRoundTrip(c: StreamCipher)
    ensures FromCode(Code(c)) == Ok(c)
  {
  }

  /** `key_size`: the length of a freshly generated inner key. */
  function KeySize(c: StreamCipher): (r: nat)
    ensures r == if c == Salsa20 then 32 else 64
  {
    match c
    case Salsa20 => 32
    case ChaCha20 => 64
  }

  function Serialize(c: StreamCipher): (r: seq<byte>)
    ensures |r| == Size == 4 && DecodeLE(r) == Code(c)
  {
    NumericEnum.SerializeCode(Code(c), Size)
  }

  function Deserialize(s: seq<byte>): (r: Result<Parsed<StreamCipher>>)
    ensures |s| < 4 ==> r == Err(Io)
    ensures |s| >= 4 && DecodeLE(s[..4]) !in {2, 3} ==> r == Err(UnsupportedStreamCipher(DecodeLE(s[..4])))
    ensures r.Ok? ==> |s| >= 4 && Code(r.value.value) == DecodeLE(s[..4]) && r.value.rest == s[4..]
  {
    NumericEnum.DeserializeCode(Size, FromCode, s)
  }

  lemma DeserializeSerialize(c: StreamCipher, rest: seq<byte>)
    ensures Deserialize(Serialize(c) + rest) == Ok(Parsed(c, rest))
  {
    NumericEnum.DeserializeSerialize(Size, Code, FromCode, c, rest);
  }

  /** `create`: Salsa20 keyed directly with the fixed nonce; ChaCha20 keyed with
      the first 32 bytes of SHA-512 of the key and the next 12 as nonce. */
  function Create(p: Primitives, c: StreamCipher, key: seq<byte>): (r: Keystream)
    ensures c == Salsa20 ==> r == p.salsa20(key, SalsaNonce)
    ensures c == ChaCha20 ==> var h := p.sha512(key); r == p.chacha20(h[0..32], h[32..44])
  {
    match c
    case Salsa20 => p.salsa20(key, SalsaNonce)
    case ChaCha20 =>
      var hash := p.sha512(key);
      p.chacha20(hash[0..32], hash[32..44])
  }
}

=== FILE: compression.dfy ===
/** The payload compression setting of the outer header, a u32 code. */
module CompressionCodes {
  import opened Errors
  import opened Bytes
  import NumericEnum

  const Size: nat := NumericEnum.Size(32)

  datatype Compression = NoCompression | Gzip

  /** `#[default]`: new databases compress their payload. */
  const Default: Compression := Gzip

  function Code(c: Compression): (r: nat)
    ensures r < 0x1_0000_0000
  {
    match c
    case NoCompression => 0
    case Gzip => 1
  }

  function FromCode(x: nat): (r: Result<Compression>)
    ensures r.Ok? <==> x <= 1
    ensures r.Ok? ==> Code(r.value) == x
    ensures r.Err? ==> r.error == UnsupportedCompression(x)
  {
    if x == 0 then Ok(NoCompression)
    else if x == 1 then Ok(Gzip)
    else Err(UnsupportedCompression(x))
  }

  lemma CodeRoundTrip(c: Compression)
    ensures FromCode(Code(c)) == Ok(c)
  {
  }

  function Serialize(c: Compression): (r: seq<byte>)
    ensures |r| == Size == 4
    ensures DecodeLE(r) == Code(c)
  {
    NumericEnum.SerializeCode(Code(c), Size)
  }

  function Deserialize(s: seq<byte>): (r: Result<Parsed<Compression>>)
    ensures |s| < 4 ==> r == Err(Io)
    ensures |s| >= 4 && DecodeLE(s[..4]) > 1 ==> r == Err(UnsupportedCompression(DecodeLE(s[..4])))
    ensures r.Ok? ==> |s| >= 4 && Code(r.value.value) == DecodeLE(s[..4]) && r.value.rest == s[4..]
  {
    NumericEnum.DeserializeCode(Size, FromCode, s)
  }

  lemma DeserializeSerialize(c: Compression, rest: seq<byte>)
    ensures Deserialize(Serialize(c) + rest) == Ok(Parsed(c, rest))
  {
    NumericEnum.DeserializeSerialize(Size, Code, FromCode, c, rest);
  }
}

=== FILE: database.dfy ===
/** The database file: the version and outer header, their SHA-256 checksum and
    their HMAC, then the payload in the authenticated block stream, encrypted
    and perhaps compressed. Opening checks the checksum, unlocking checks the
    header HMAC, and saving writes the stages in a fixed order. */
module Databases {
  import opened Errors
  import opened Bytes
  import opened Primitives
  import opened XmlTree
  import opened KeySchedule
  import opened DatabaseHeader
  import opened DatabaseVersions
  import BlockCiphers
  import CompressionCodes
  import HmacBlockStream
  import DatabaseXmls
  import ValueProtection

  /** The part of a file in front of the block stream, as `Database` keeps it. */
  datatype Prelude = Prelude(
    version: DatabaseVersion,
    header: OuterHeader,
    /** What the recorder saw while the version and the header were read. */
    headerData: seq<byte>,
    headerHmac: seq<byte>)

  /** `ReadRecorder`: the bytes a reader consumed from the front of `before`
      to leave `after`. */
  function Consumed(before: seq<byte>, after: seq<byte>): (r: seq<byte>)
    requires |after| <= |before|
    ensures |r| + |after| == |before|
  {
    before[..|before| - |after|]
  }

  lemma ConsumedOf(a: seq<byte>, b: seq<byte>)
    ensures Consumed(a + b, b) == a
  {
    assert (a + b)[..|a|] == a;
  }

  /** `WriteRecorder` around the version and the header: the bytes written. */
  function HeaderBytes(v: DatabaseVersion, h: OuterHeader): seq<byte>
    requires h.kdfParameters.algorithm != Argon2i
  {
    DatabaseVersions.Serialize(v) + SerializeOuter(h)
  }

  /** `Database::deserialize`: version and outer header through the recorder,
      then 32 bytes of checksum and 32 of HMAC; the checksum must be the
      SHA-256 of the recorded bytes. */
  function ReadPrelude(p: Primitives, s: seq<byte>): (r: Result<Parsed<Prelude>>)
    ensures r.Ok? ==> var d := r.value.value.headerData;
                      && |d| + 64 + |r.value.rest| == |s| && d == s[..|d|] && |r.value.value.headerHmac| == 32
    ensures r.Ok? ==> r.value.value.version.major == 4 && r.value.value.header.kdfParameters.algorithm != Argon2i
    ensures r.Ok? ==> var d := r.value.value.headerData;
                      s == d + p.sha256(d) + r.value.value.headerHmac + r.value.rest
  {
    var version :- DatabaseVersions.Deserialize(s);
    var header :- DeserializeOuter(version.rest);
    var headerData := Consumed(s, header.rest);
    var hash :- ReadBytes(32, header.rest);
    var hmac :- ReadBytes(32, hash.rest);
    if p.sha256(headerData) != hash.value then Err(HeaderChecksumMismatch)
    else
      PreludeLayout(s, version.rest, header.rest, hash, hmac);
      Ok(Parsed(Prelude(version.value, header.value, headerData, hmac.value), hmac.rest))
  }

  /** The bytes in front of the checksum, the checksum, the HMAC and what follows
      make up the whole input. */
  lemma PreludeLayout(s: seq<byte>, afterVersion: seq<byte>, afterHeader: seq<byte>,
                      hash: Parsed<seq<byte>>, hmac: Parsed<seq<byte>>)
    requires |s| >= 12 && afterVersion == s[12..] && IsSuffix(afterHeader, afterVersion)
    requires hash.value + hash.rest == afterHeader && hmac.value + hmac.rest == hash.rest
    ensures Consumed(s, afterHeader) + hash.value + hmac.value + hmac.rest == s
  {
    DropIsSuffix(s, 12);
    SuffixTransitive(afterHeader, afterVersion, s);
    var d := Consumed(s, afterHeader);
    assert d + afterHeader == s;
  }

  /** The block index whose HMAC key signs the header. */
  const HeaderIndex: int := -1

  /** `get_header_hmac`: HMAC-SHA-256 of the header bytes under the key of
      block index -1. */
  function HeaderHmac(p: Primitives, k: Keys, headerData: seq<byte>): (r: seq<byte>)
    ensures |r| == 32
  {
    p.hmacSha256(HmacKey(p, k, HeaderIndex), headerData)
  }

  /** `unlock`: the keys derived from the password, accepted only when they
      reproduce the stored header HMAC. */
  function UnlockKeys(p: Primitives, password: string, header: OuterHeader, headerData: seq<byte>,
                      headerHmac: seq<byte>): (r: Result<Keys>)
    ensures r.Ok? <==> Derive(p, password, header).Ok?
                       && HeaderHmac(p, Derive(p, password, header).value, headerData) == headerHmac
    ensures r.Ok? ==> r.value == Derive(p, password, header).value
    ensures r.Err? && Derive(p, password, header).Ok? ==> r.error == InvalidCredentials
  {
    var keys :- Derive(p, password, header);
    if HeaderHmac(p, keys, headerData) != headerHmac then Err(InvalidCredentials) else Ok(keys)
  }

  /** What `save` hands to the block stream: the inner payload, gzipped when
      the header says so (a compression failure is an `io::Error`, so `Io`),
      then encrypted with the outer cipher. */
  function EncryptPayload(p: Primitives, header: OuterHeader, keys: Keys, inner: seq<byte>): Result<seq<byte>> {
    var packed :- if header.compression == CompressionCodes.Gzip then ThroughIo(p.gzip(inner)) else Ok(inner);
    BlockCiphers.Encrypt(p, header.cipher, packed, keys.encryption, header.iv)
  }

  /** `decrypt` before the XML: the block stream read to its end (a bad block
      surfaces as `Io`, having crossed `read_to_end`), decrypted, then gunzipped
      when the header says so (a decompression failure is `Io` too). */
  function DecryptPayload(p: Primitives, header: OuterHeader, keys: Keys, stream: seq<byte>): Result<seq<byte>> {
    var data :- ThroughIo(HmacBlockStream.DecodeStream(p, keys, 0, stream));
    var plain :- BlockCiphers.Decrypt(p, header.cipher, data, keys.encryption, header.iv);
    if header.compression == CompressionCodes.Gzip then ThroughIo(p.gunzip(plain)) else Ok(plain)
  }

  /** `decrypt` in full: the payload read as the inner header and the tree. */
  function DecryptAll(p: Primitives, header: OuterHeader, keys: Keys, stream: seq<byte>): Result<(InnerHeader, Element)> {
    var data :- DecryptPayload(p, header, keys, stream);
    DatabaseXmls.OpenParts(p, data)
  }

  /** What the compression and block-cipher libraries guarantee: decompressing
      and decrypting undo compressing and encrypting. */
  ghost predicate CodecsRoundTrip(p: Primitives) {
    && (forall d :: p.gzip(d).Ok? ==> p.gunzip(p.gzip(d).value) == Ok(d))
    && (forall k, iv, d :: p.aesEncrypt(k, iv, d).Ok? ==> p.aesDecrypt(k, iv, p.aesEncrypt(k, iv, d).value) == Ok(d))
    && (forall k, iv, d :: p.twofishEncrypt(k, iv, d).Ok? ==>
                            p.twofishDecrypt(k, iv, p.twofishEncrypt(k, iv, d).value) == Ok(d))
  }

  /** The header written by `serialize`, followed by its checksum, an HMAC and
      anything else, reads back as that header with the written bytes recorded. */
  lemma PreludeRoundTrip(p: Primitives, v: DatabaseVersion, h: OuterHeader, hmac: seq<byte>, rest: seq<byte>)
    requires v.major == 4 && WellFormedOuter(h) && |hmac| == 32
    ensures var d := HeaderBytes(v, h);
            ReadPrelude(p, d + p.sha256(d) + hmac + rest) == Ok(Parsed(Prelude(v, h, d, hmac), rest))
  {
    var d := HeaderBytes(v, h);
    var hash: seq<byte> := p.sha256(d);
    var t2 := hash + (hmac + rest);
    ConcatAssoc(d, hash, hmac, rest);
    PreludeHead(v, h, t2);
    PreludeTail(hash, hmac, rest);
  }

  /** The version and the header read back from their own bytes, which the
      recorder sees. */
  lemma PreludeHead(v: DatabaseVersion, h: OuterHeader, t2: seq<byte>)
    requires v.major == 4 && WellFormedOuter(h)
    ensures var s := HeaderBytes(v, h) + t2;
            && DatabaseVersions.Deserialize(s) == Ok(Parsed(v, SerializeOuter(h) + t2))
            && DeserializeOuter(SerializeOuter(h) + t2) == Ok(Parsed(h, t2))
            && Consumed(s, t2) == HeaderBytes(v, h)
  {
    var t1 := SerializeOuter(h) + t2;
    ConcatAssoc(DatabaseVersions.Serialize(v), SerializeOuter(h), t2, []);
    DatabaseVersions.DeserializeSerialize(v, t1);
    DeserializeSerializeOuter(h, t2);
    ConsumedOf(HeaderBytes(v, h), t2);
  }

  lemma ConcatAssoc(a: seq<byte>, b: seq<byte>, c: seq<byte>, e: seq<byte>)
    ensures a + b + c + e == a + (b + (c + e))
    ensures a + b + c == a + (b + c)
  {
  }

  /** The checksum and the HMAC are read as two 32-byte fields. */
  lemma PreludeTail(hash: seq<byte>, hmac: seq<byte>, rest: seq<byte>)
    requires |hash| == 32 && |hmac| == 32
    ensures ReadBytes(32, hash + (hmac + rest)) == Ok(Parsed(hash, hmac + rest))
    ensures ReadBytes(32, hmac + rest) == Ok(Parsed(hmac, rest))
  {
    ReadBytesOfConcat(hash, hmac + rest);
    ReadBytesOfConcat(hmac, rest);
  }

  /** The block cipher undoes itself under the same key and IV. */
  lemma CipherRoundTrip(p: Primitives, c: BlockCiphers.BlockCipher, data: seq<byte>, key: seq<byte>, iv: seq<byte>)
    requires CodecsRoundTrip(p) && BlockCiphers.Encrypt(p, c, data, key, iv).Ok?
    ensures BlockCiphers.Decrypt(p, c, BlockCiphers.Encrypt(p, c, data, key, iv).value, key, iv) == Ok(data)
  {
    if c == BlockCiphers.ChaCha20 {
      BlockCiphers.ChaCha20RoundTrip(p, data, key, iv);
    }
  }

  /** `decrypt` undoes the stages of `save`: the stream that carries what
      `save` encrypted reads back as the inner payload. */
  lemma PayloadRoundTrip(p: Primitives, header: OuterHeader, keys: Keys, inner: seq<byte>, stream: seq<byte>)
    requires CodecsRoundTrip(p)
    requires EncryptPayload(p, header, keys, inner).Ok?
    requires HmacBlockStream.DecodeStream(p, keys, 0, stream) == Ok(EncryptPayload(p, header, keys, inner).value)
    ensures DecryptPayload(p, header, keys, stream) == Ok(inner)
  {
    var packed := if header.compression == CompressionCodes.Gzip then ThroughIo(p.gzip(inner)) else Ok(inner);
    CipherRoundTrip(p, header.cipher, packed.value, keys.encryption, header.iv);
  }

  /** A saved file opens again: the header and its bytes are read back, the
      password that derived the keys unlocks it, and the payload gives back the
      inner header and the tree up to text normalisation, provided the libraries
      round-trip and the tree is settled. */
  lemma OpenSaved(p: Primitives, password: string, v: DatabaseVersion, h: OuterHeader,
                  ih: InnerHeader, xml: Element, stream: seq<byte>)
    requires DatabaseXmls.XmlRoundTrips(p) && Base64RoundTrips(p) && Base64Alphabet(p) && CodecsRoundTrip(p)
    requires v.major == 4 && WellFormedOuter(h) && WellFormedInner(ih)
    requires ValueProtection.Settled(xml) && Representable(xml)
    requires Derive(p, password, h).Ok?
    requires DatabaseXmls.Payload(p, ih, xml).Ok?
    requires EncryptPayload(p, h, Derive(p, password, h).value, DatabaseXmls.Payload(p, ih, xml).value).Ok?
    requires HmacBlockStream.DecodeStream(p, Derive(p, password, h).value, 0, stream)
             == Ok(EncryptPayload(p, h, Derive(p, password, h).value, DatabaseXmls.Payload(p, ih, xml).value).value)
    ensures var keys := Derive(p, password, h).value;
            var d := HeaderBytes(v, h);
            var hmac := HeaderHmac(p, keys, d);
            && ReadPrelude(p, d + p.sha256(d) + hmac + stream) == Ok(Parsed(Prelude(v, h, d, hmac), stream))
            && UnlockKeys(p, password, h, d, hmac) == Ok(keys)
            && DecryptAll(p, h, keys, stream).Ok?
            && DecryptAll(p, h, keys, stream).value.0 == ih
            && Normalized(DecryptAll(p, h, keys, stream).value.1) == Normalized(xml)
  {
    var keys := Derive(p, password, h).value;
    var d := HeaderBytes(v, h);
    PreludeRoundTrip(p, v, h, HeaderHmac(p, keys, d), stream);
    SavedPayloadOpens(p, h, keys, ih, xml, stream);
  }

  /** The stream that carries what `save` encrypted decrypts to the inner
      header and, up to text normalisation, the tree that were saved. */
  lemma SavedPayloadOpens(p: Primitives, h: OuterHeader, keys: Keys, ih: InnerHeader, xml: Element,
                          stream: seq<byte>)
    requires DatabaseXmls.XmlRoundTrips(p) && Base64RoundTrips(p) && Base64Alphabet(p) && CodecsRoundTrip(p)
    requires WellFormedInner(ih) && ValueProtection.Settled(xml) && Representable(xml)
    requires DatabaseXmls.Payload(p, ih, xml).Ok?
    requires EncryptPayload(p, h, keys, DatabaseXmls.Payload(p, ih, xml).value).Ok?
    requires HmacBlockStream.DecodeStream(p, keys, 0, stream)
             == Ok(EncryptPayload(p, h, keys, DatabaseXmls.Payload(p, ih, xml).value).value)
    ensures DecryptAll(p, h, keys, stream).Ok? && DecryptAll(p, h, keys, stream).value.0 == ih
    ensures Normalized(DecryptAll(p, h, keys, stream).value.1) == Normalized(xml)
  {
    var payload := DatabaseXmls.Payload(p, ih, xml).value;
    PayloadRoundTrip(p, h, keys, payload, stream);
    DatabaseXmls.SaveThenOpen(p, ih, xml);
  }

  /** A `Cell<Vec<u8>>`: bytes that can be replaced or taken through a
      shared reference. */
  class ByteCell {
    var value: seq<byte>

    constructor(value: seq<byte>)
      ensures this.value == value
    {
      this.value := value;
    }

    /** `Cell::take`: the bytes, leaving the cell empty. */
    method Take() returns (r: seq<byte>)
      modifies this
      ensures r == old(value) && value == []
    {
      r := value;
      value := [];
    }
  }

  class Database {
    const version: DatabaseVersion
    var header: OuterHeader
    /** The recorded header bytes, until they are taken. */
    const headerData: ByteCell
    const headerHmac: seq<byte>

    constructor(prelude: Prelude)
      ensures version == prelude.version && header == prelude.header
      ensures fresh(headerData) && headerData.value == prelude.headerData && headerHmac == prelude.headerHmac
    {
      version := prelude.version;
      header := prelude.header;
      headerData := new ByteCell(prelude.headerData);
      headerHmac := prelude.headerHmac;
    }

    /** `Database::deserialize`: the rest of the input is the block stream. */
    static method Deserialize(p: Primitives, input: seq<byte>) returns (r: Result<Database>, rest: seq<byte>)
      ensures r.Err? <==> ReadPrelude(p, input).Err?
      ensures r.Err? ==> r.error == ReadPrelude(p, input).error
      ensures r.Ok? ==> var pre := ReadPrelude(p, input).value;
                        && fresh(r.value) && rest == pre.rest
                        && r.value.version == pre.value.version && r.value.header == pre.value.header
                        && fresh(r.value.headerData) && r.value.headerData.value == pre.value.headerData
                        && r.value.headerHmac == pre.value.headerHmac
    {
      rest := input;
      var version := DatabaseVersions.Deserialize(input);
      if version.Err? {
        return Err(version.error), rest;
      }
      var header := DeserializeOuterLoop(version.value.rest);
      if header.Err? {
        return Err(header.error), rest;
      }
      var headerData := Consumed(input, header.value.rest);
      var hash := ReadBytes(32, header.value.rest);
      if hash.Err? {
        return Err(hash.error), rest;
      }
      var hmac := ReadBytes(32, hash.value.rest);
      if hmac.Err? {
        return Err(hmac.error), rest;
      }
      if p.sha256(headerData) != hash.value.value {
        return Err(HeaderChecksumMismatch), rest;
      }
      var db := new Database(Prelude(version.value.value, header.value.value, headerData, hmac.value.value));
      return Ok(db), hmac.value.rest;
    }

    /** `get_header_hmac`: the recorded bytes are taken out of the cell, which
        is left empty. */
    method GetHeaderHmac(p: Primitives, keys: Keys) returns (r: seq<byte>)
      modifies headerData
      ensures r == HeaderHmac(p, keys, old(headerData.value)) && headerData.value == []
    {
      var data := headerData.Take();
      r := HeaderHmac(p, keys, data);
    }

    /** `unlock`: a KDF failure is passed on before the cell is touched;
        otherwise the header HMAC is checked, after which the cell is empty, so
        a later unlock checks the HMAC of no bytes. */
    method Unlock(p: Primitives, password: string) returns (r: Result<Keys>)
      modifies headerData
      ensures r == UnlockKeys(p, password, header, old(headerData.value), headerHmac)
      ensures Derive(p, password, header).Ok? ==> headerData.value == []
      ensures Derive(p, password, header).Err? ==> headerData.value == old(headerData.value)
    {
      var keys := Derive(p, password, header);
      if keys.Err? {
        return Err(keys.error);
      }
      var hmac := GetHeaderHmac(p, keys.value);
      if hmac != headerHmac {
        return Err(InvalidCredentials);
      }
      return Ok(keys.value);
    }

    /** `decrypt`: the block stream read to the end, decrypted, gunzipped when
        the header asks for it, and read as the inner header and the tree. */
    method Decrypt(p: Primitives, input: seq<byte>, keys: Keys) returns (r: Result<DatabaseXmls.DatabaseXml>)
      ensures r.Err? <==> DecryptAll(p, header, keys, input).Err?
      ensures r.Err? ==> r.error == DecryptAll(p, header, keys, input).error
      ensures HmacBlockStream.DecodeStream(p, keys, 0, input).Err? ==> r == Err(Io)
      ensures r.Ok? ==> fresh(r.value) && (r.value.innerHeader, r.value.xml) == DecryptAll(p, header, keys, input).value
    {
      var reader := new HmacBlockStream.Reader(p, keys, input);
      var data := reader.ReadToEnd(8192);
      if data.Err? {
        return Err(data.error);
      }
      var plain := BlockCiphers.Decrypt(p, header.cipher, data.value, keys.encryption, header.iv);
      if plain.Err? {
        return Err(plain.error);
      }
      var inflated := plain.value;
      if header.compression == CompressionCodes.Gzip {
        var unpacked := p.gunzip(plain.value);
        if unpacked.Err? {
          return Err(Io);
        }
        inflated := unpacked.value;
      }
      r := DatabaseXmls.DatabaseXml.Open(p, inflated);
    }

    /** `serialize`: the version and the header, recorded into the cell, then
        their SHA-256. */
    method Serialize(p: Primitives) returns (out: seq<byte>)
      requires header.kdfParameters.algorithm != Argon2i
      modifies headerData
      ensures headerData.value == HeaderBytes(version, old(header))
      ensures out == headerData.value + p.sha256(headerData.value)
    {
      var recorded := HeaderBytes(version, header);
      out := recorded + p.sha256(recorded);
      headerData.value := recorded;
    }

    /** The header stages of `save`: a fresh IV, then the header with its
        checksum, then its HMAC, which empties the cell. */
    method WriteHeader(p: Primitives, keys: Keys, iv: seq<byte>) returns (head: seq<byte>)
      requires |iv| == BlockCiphers.IvSize(header.cipher)
      requires header.kdfParameters.algorithm != Argon2i
      modifies this, headerData
      ensures header == ResetIv(old(header), iv) && headerData.value == []
      ensures var d := HeaderBytes(version, ResetIv(old(header), iv));
              head == d + p.sha256(d) + HeaderHmac(p, keys, d)
    {
      header := ResetIv(header, iv);
      var checked := Serialize(p);
      var hmac := GetHeaderHmac(p, keys);
      head := checked + hmac;
    }

    /** The payload stages of `save`: gzip when the header asks for it,
        encrypt, and write the authenticated block stream. */
    static method WritePayload(p: Primitives, header: OuterHeader, keys: Keys, inner: seq<byte>)
      returns (r: Result<seq<byte>>)
      ensures r.Ok? <==> EncryptPayload(p, header, keys, inner).Ok?
      ensures r.Err? ==> r.error == EncryptPayload(p, header, keys, inner).error
      ensures r.Ok? ==> HmacBlockStream.DecodeStream(p, keys, 0, r.value)
                        == Ok(EncryptPayload(p, header, keys, inner).value)
    {
      var packed := inner;
      if header.compression == CompressionCodes.Gzip {
        var gz := p.gzip(inner);
        if gz.Err? {
          return Err(Io);
        }
        packed := gz.value;
      }
      var encrypted := BlockCiphers.Encrypt(p, header.cipher, packed, keys.encryption, header.iv);
      if encrypted.Err? {
        return Err(encrypted.error);
      }
      var stream := HmacBlockStream.WriteStream(p, keys, encrypted.value);
      return Ok(stream);
    }

    /** `save`: a fresh IV, the header with its checksum and its HMAC, then the
        payload of `xml` (which gets a fresh stream key), gzipped when the header
        asks for it, encrypted and written as a block stream ending with the
        empty block. */
    method Save(p: Primitives, keys: Keys, xml: DatabaseXmls.DatabaseXml, iv: seq<byte>, random: seq<byte>)
      returns (r: Result<seq<byte>>)
      requires |iv| == BlockCiphers.IvSize(header.cipher)
      requires |random| == StreamCiphers.KeySize(StreamCiphers.ChaCha20)
      requires header.kdfParameters.algorithm != Argon2i
      modifies this, headerData, xml
      ensures header == ResetIv(old(header), iv) && headerData.value == []
      ensures xml.innerHeader == ResetCipher(old(xml.innerHeader), random)
      ensures var inner := DatabaseXmls.Payload(p, ResetCipher(old(xml.innerHeader), random), old(xml.xml));
              var after := DatabaseXmls.AfterSave(p, ResetCipher(old(xml.innerHeader), random), old(xml.xml));
              r.Ok? ==> && inner.Ok? && after.Ok? && xml.xml == after.value
                        && EncryptPayload(p, ResetIv(old(header), iv), keys, inner.value).Ok?
      ensures r.Ok? ==>
                var d := HeaderBytes(version, ResetIv(old(header), iv));
                var inner := DatabaseXmls.Payload(p, ResetCipher(old(xml.innerHeader), random), old(xml.xml));
                exists stream :: r.value == d + p.sha256(d) + HeaderHmac(p, keys, d) + stream
                                 && HmacBlockStream.DecodeStream(p, keys, 0, stream)
                                    == Ok(EncryptPayload(p, ResetIv(old(header), iv), keys, inner.value).value)
      ensures var ks := DatabaseXmls.Keys(p, ResetCipher(old(xml.innerHeader), random));
              && ValueProtection.Protect(p, ks, old(xml.xml)).Ok?
              && xml.xml == ValueProtection.UnprotectFrom(p, ks, ValueProtection.Protect(p, ks, old(xml.xml)).value, 0).element
      ensures var inner := DatabaseXmls.Payload(p, ResetCipher(old(xml.innerHeader), random), old(xml.xml));
              var after := DatabaseXmls.AfterSave(p, ResetCipher(old(xml.innerHeader), random), old(xml.xml));
              && inner.Ok?
              && (r.Err? <==> after.Err? || EncryptPayload(p, ResetIv(old(header), iv), keys, inner.value).Err?)
              && (r.Err? ==> r.error == if after.Err? then after.error
                                        else EncryptPayload(p, ResetIv(old(header), iv), keys, inner.value).error)
      ensures var inner := DatabaseXmls.Payload(p, ResetCipher(old(xml.innerHeader), random), old(xml.xml));
              Base64RoundTrips(p) && ValueProtection.Settled(old(xml.xml)) && inner.Ok?
              && EncryptPayload(p, ResetIv(old(header), iv), keys, inner.value).Ok?
              ==> r.Ok? && xml.xml == old(xml.xml)
    {
      var h := ResetIv(header, iv);
      // The XML stage and the header stage touch disjoint state, so running
      // the header stage second (and whether or not the XML stage failed)
      // leaves the same state behind as the source's order.
      var inner := xml.Save(p, random);
      var head := WriteHeader(p, keys, iv);
      if inner.Err? {
        return Err(inner.error);
      }
      var stream := WritePayload(p, h, keys, inner.value);
      if stream.Err? {
        return Err(stream.error);
      }
      return Ok(head + stream.value);
    }
  }
}

=== FILE: database_header.dfy ===
/** The outer header (in the clear, before the encrypted payload) and the inner
    header (first thing inside the decrypted payload). Both are a run of records:
    a type byte, a u32 little-endian size and that many bytes of payload, ended by
    an end-of-header record. */
module DatabaseHeader {
  import opened Errors
  import opened Bytes
  import H = HeaderFieldType
  import BlockCiphers
  import CompressionCodes
  import StreamCiphers
  import VariantLists
  import KdfParams
  import Binaries
  import opened Primitives

  /** One record: its type code, the payload size as a u32, the payload. */
  function Record(code: byte, payload: seq<byte>): (r: seq<byte>)
    ensures |payload| < 0x1_0000_0000 ==> |r| == 5 + |payload| && r[0] == code
  {
    [code] + WriteU32(AsU32(|payload|)) + payload
  }

  /** The end-of-header payload of the outer header. */
  const EndOfHeaderBytes: seq<byte> := [0x0D, 0x0A, 0x0D, 0x0A]

  /** What a header reader has seen so far and the bytes after it. */
  datatype Step<T> = Step(fields: T, done: bool, rest: seq<byte>)

  // ---- outer header ---------------------------------------------------------

  datatype OuterHeader = OuterHeader(
    cipher: BlockCiphers.BlockCipher,
    compression: CompressionCodes.Compression,
    mainSeed: seq<byte>,
    iv: seq<byte>,
    kdfParameters: KdfParams.KdfParameters,
    customData: Option<VariantLists.VariantList>)

  /** `OuterHeader::new`: the default cipher and compression, a 32-byte random
      main seed, a random IV of the cipher's size, no custom data. The random
      bytes are parameters. */
  function NewOuter(kdf: KdfParams.KdfParameters, seed: seq<byte>, iv: seq<byte>): (r: OuterHeader)
    requires |seed| == 32 && |iv| == BlockCiphers.IvSize(BlockCiphers.Default)
    ensures r.cipher == BlockCiphers.ChaCha20 && r.compression == CompressionCodes.Gzip
    ensures |r.iv| == BlockCiphers.IvSize(r.cipher) && |r.mainSeed| == 32
    ensures r.kdfParameters == kdf && r.customData.None?
  {
    OuterHeader(BlockCiphers.Default, CompressionCodes.Default, seed, iv, kdf, None)
  }

  /** `reset_iv`: a fresh IV of the cipher's size; nothing else changes. */
  function ResetIv(h: OuterHeader, random: seq<byte>): (r: OuterHeader)
    requires |random| == BlockCiphers.IvSize(h.cipher)
    ensures r.iv == random && |r.iv| == BlockCiphers.IvSize(r.cipher)
    ensures r.(iv := h.iv) == h
  {
    h.(iv := random)
  }

  function OuterRecord(t: H.OuterHeaderFieldType, payload: seq<byte>): seq<byte> {
    Record(H.OuterCode(t), payload)
  }

  /** The custom-data record, present only when there is custom data. */
  function CustomDataRecord(customData: Option<VariantLists.VariantList>): seq<byte> {
    match customData
    case None => []
    case Some(l) => OuterRecord(H.CustomData, VariantLists.Serialize(l))
  }

  /** `Serialize for OuterHeader`: cipher, compression, main seed, IV, KDF
      parameters, the custom data if any, then the end-of-header record. The
      dictionary form of Argon2i parameters does not exist (the source panics). */
  function SerializeOuter(h: OuterHeader): seq<byte>
    requires h.kdfParameters.algorithm != Argon2i
  {
    OuterRecord(H.Cipher, BlockCiphers.Serialize(h.cipher))
    + (OuterRecord(H.Compression, CompressionCodes.Serialize(h.compression))
    + (OuterRecord(H.MainSeed, h.mainSeed)
    + SerializeOuterTail(h)))
  }

  /** The records after the main seed: IV, KDF parameters, custom data, end. */
  function SerializeOuterTail(h: OuterHeader): seq<byte>
    requires h.kdfParameters.algorithm != Argon2i
  {
    OuterRecord(H.InitializationVector, h.iv)
    + (OuterRecord(H.KdfParameters, VariantLists.Serialize(KdfParams.ToVariantList(h.kdfParameters)))
    + (CustomDataRecord(h.customData)
    + OuterRecord(H.EndOfHeader, EndOfHeaderBytes)))
  }

  /** The outer fields read so far; a later record of a kind replaces an earlier one. */
  datatype OuterFields = OuterFields(
    cipher: Option<BlockCiphers.BlockCipher>,
    compression: Option<CompressionCodes.Compression>,
    mainSeed: Option<seq<byte>>,
    iv: Option<seq<byte>>,
    kdfParameters: Option<KdfParams.KdfParameters>,
    customData: Option<VariantLists.VariantList>)

  const NoOuterFields: OuterFields := OuterFields(None, None, None, None, None, None)

  /** The dictionary form never names Argon2i, so no KDF read from it is Argon2i. */
  predicate KdfSupported(f: OuterFields) {
    f.kdfParameters.Some? ==> f.kdfParameters.value.algorithm != Argon2i
  }

  /** The payload of one outer record of type `t` and declared size `size`:
      comments are skipped, the cipher and compression must have their fixed
      sizes, a dictionary must be exactly as long as declared. */
  function ReadOuterPayload(acc: OuterFields, t: H.OuterHeaderFieldType, size: nat, input: seq<byte>)
    : (r: Result<Step<OuterFields>>)
    ensures r.Ok? ==> IsSuffix(r.value.rest, input) && (r.value.done <==> t == H.EndOfHeader)
    ensures r.Ok? && KdfSupported(acc) ==> KdfSupported(r.value.fields)
    ensures t == H.Cipher && size != BlockCiphers.Size ==> r == Err(InvalidFieldSize)
    ensures t == H.Compression && size != CompressionCodes.Size ==> r == Err(InvalidFieldSize)
  {
    match t
    case Comment =>
      var skipped :- ReadBytes(size, input);
      Ok(Step(acc, false, skipped.rest))
    case Cipher =>
      if size != BlockCiphers.Size then Err(InvalidFieldSize)
      else
        var c :- BlockCiphers.Deserialize(input);
        Ok(Step(acc.(cipher := Some(c.value)), false, c.rest))
    case Compression =>
      if size != CompressionCodes.Size then Err(InvalidFieldSize)
      else
        var c :- CompressionCodes.Deserialize(input);
        Ok(Step(acc.(compression := Some(c.value)), false, c.rest))
    case MainSeed =>
      var v :- ReadBytes(size, input);
      Ok(Step(acc.(mainSeed := Some(v.value)), false, v.rest))
    case InitializationVector =>
      var v :- ReadBytes(size, input);
      Ok(Step(acc.(iv := Some(v.value)), false, v.rest))
    case KdfParameters =>
      var l :- VariantLists.Deserialize(input);
      if VariantLists.ListLen(l.value) != size then Err(InvalidFieldSize)
      else
        var k :- KdfParams.FromVariantList(l.value);
        Ok(Step(acc.(kdfParameters := Some(k)), false, l.rest))
    case CustomData =>
      var l :- VariantLists.Deserialize(input);
      if VariantLists.ListLen(l.value) != size then Err(InvalidFieldSize)
      else Ok(Step(acc.(customData := Some(l.value)), false, l.rest))
    case EndOfHeader =>
      var v :- ReadBytes(size, input);
      Ok(Step(acc, true, v.rest))
  }

  /** One pass of the reading loop: a type byte, a u32 size, the payload. */
  function ReadOuterRecord(acc: OuterFields, s: seq<byte>): (r: Result<Step<OuterFields>>)
    ensures r.Ok? ==> |r.value.rest| + 5 <= |s| && IsSuffix(r.value.rest, s)
    ensures r.Ok? && KdfSupported(acc) ==> KdfSupported(r.value.fields)
  {
    var t :- H.DeserializeOuter(s);
    var size :- ReadU32(t.rest);
    var r := ReadOuterPayload(acc, t.value, size.value, size.rest);
    if r.Ok? then
      assert IsSuffix(r.value.rest, s) by {
        assert size.rest == s[5..];
        DropIsSuffix(s, 5);
        SuffixTransitive(r.value.rest, size.rest, s);
      }
      r
    else r
  }

  /** The records up to and including the end-of-header record. */
  function ReadOuterRecords(acc: OuterFields, s: seq<byte>): (r: Result<Parsed<OuterFields>>)
    ensures r.Ok? ==> |r.value.rest| + 5 <= |s| && IsSuffix(r.value.rest, s)
    ensures r.Ok? && KdfSupported(acc) ==> KdfSupported(r.value.value)
    decreases |s|
  {
    var step :- ReadOuterRecord(acc, s);
    if step.done then Ok(Parsed(step.fields, step.rest))
    else
      var r := ReadOuterRecords(step.fields, step.rest);
      if r.Ok? then
        assert IsSuffix(r.value.rest, s) by { SuffixTransitive(r.value.rest, step.rest, s); }
        r
      else r
  }

  /** Every field but the custom data must have been seen. */
  function FinishOuter(f: OuterFields): (r: Result<OuterHeader>)
    ensures r.Ok? <==> f.cipher.Some? && f.compression.Some? && f.mainSeed.Some? && f.iv.Some?
                       && f.kdfParameters.Some?
    ensures r.Err? ==> r.error == HeaderFieldsMissing
    ensures r.Ok? ==> r.value == OuterHeader(f.cipher.value, f.compression.value, f.mainSeed.value,
                                             f.iv.value, f.kdfParameters.value, f.customData)
  {
    if f.cipher.None? || f.compression.None? || f.mainSeed.None? || f.iv.None? || f.kdfParameters.None?
    then Err(HeaderFieldsMissing)
    else Ok(OuterHeader(f.cipher.value, f.compression.value, f.mainSeed.value,
                        f.iv.value, f.kdfParameters.value, f.customData))
  }

  /** `Deserialize for OuterHeader`. */
  function DeserializeOuter(s: seq<byte>): (r: Result<Parsed<OuterHeader>>)
    ensures r.Ok? ==> |r.value.rest| < |s| && IsSuffix(r.value.rest, s)
    ensures r.Ok? ==> r.value.value.kdfParameters.algorithm != Argon2i
  {
    var fields :- ReadOuterRecords(NoOuterFields, s);
    var h :- FinishOuter(fields.value);
    Ok(Parsed(h, fields.rest))
  }

  /** `deserialize` as written: a loop over records that keeps the last value of
      each kind and stops after the end-of-header record. */
  method DeserializeOuterLoop(s: seq<byte>) returns (r: Result<Parsed<OuterHeader>>)
    ensures r == DeserializeOuter(s)
  {
    var fields := NoOuterFields;
    var input := s;
    while true
      invariant ReadOuterRecords(fields, input) == ReadOuterRecords(NoOuterFields, s)
      decreases |input|
    {
      var step := ReadOuterRecord(fields, input);
      if step.Err? {
        return Err(step.error);
      }
      fields := step.value.fields;
      input := step.value.rest;
      if step.value.done {
        break;
      }
    }
    var h := FinishOuter(fields);
    if h.Err? {
      return Err(h.error);
    }
    return Ok(Parsed(h.value, input));
  }

  // ---- reading back what was written -----------------------------------------

  /** A header the writer can produce and the reader read back: the KDF has a
      dictionary form, and every length fits the u32 it is written as. */
  predicate WellFormedOuter(h: OuterHeader) {
    && h.kdfParameters.algorithm != Argon2i
    && |h.mainSeed| < 0x1_0000_0000 && |h.iv| < 0x1_0000_0000
    && VariantLists.WellFormedList(KdfParams.ToVariantList(h.kdfParameters))
    && VariantLists.ListLen(KdfParams.ToVariantList(h.kdfParameters)) < 0x1_0000_0000
    && (h.customData.Some? ==>
          VariantLists.WellFormedList(h.customData.value)
          && VariantLists.ListLen(h.customData.value) < 0x1_0000_0000)
  }

  lemma AppendAssoc(a: seq<byte>, b: seq<byte>, c: seq<byte>)
    ensures (a + b) + c == a + (b + c)
  {
  }

  /** A record's type byte and size word read back, leaving its payload first. */
  lemma ReadOuterRecordOf(acc: OuterFields, t: H.OuterHeaderFieldType, payload: seq<byte>, tail: seq<byte>)
    requires |payload| < 0x1_0000_0000
    ensures ReadOuterRecord(acc, OuterRecord(t, payload) + tail)
            == ReadOuterPayload(acc, t, |payload|, payload + tail)
  {
    var size := WriteU32(|payload|);
    assert OuterRecord(t, payload) + tail == H.SerializeOuter(t) + (size + (payload + tail));
    H.DeserializeSerializeOuter(t, size + (payload + tail));
    ReadWriteU32(|payload|, payload + tail);
  }

  /** A comment record changes nothing. */
  lemma CommentIgnored(acc: OuterFields, comment: seq<byte>, tail: seq<byte>)
    requires |comment| < 0x1_0000_0000
    ensures ReadOuterRecord(acc, OuterRecord(H.Comment, comment) + tail) == Ok(Step(acc, false, tail))
  {
    ReadOuterRecordOf(acc, H.Comment, comment, tail);
    ReadBytesOfConcat(comment, tail);
  }

  /** Each kind of record sets its own field, whatever an earlier record of the
      same kind had set. */
  lemma CipherRecord(acc: OuterFields, c: BlockCiphers.BlockCipher, tail: seq<byte>)
    ensures ReadOuterRecord(acc, OuterRecord(H.Cipher, BlockCiphers.Serialize(c)) + tail)
            == Ok(Step(acc.(cipher := Some(c)), false, tail))
  {
    ReadOuterRecordOf(acc, H.Cipher, BlockCiphers.Serialize(c), tail);
    BlockCiphers.DeserializeSerialize(c, tail);
  }

  lemma CompressionRecord(acc: OuterFields, c: CompressionCodes.Compression, tail: seq<byte>)
    ensures ReadOuterRecord(acc, OuterRecord(H.Compression, CompressionCodes.Serialize(c)) + tail)
            == Ok(Step(acc.(compression := Some(c)), false, tail))
  {
    ReadOuterRecordOf(acc, H.Compression, CompressionCodes.Serialize(c), tail);
    CompressionCodes.DeserializeSerialize(c, tail);
  }

  lemma MainSeedRecord(acc: OuterFields, seed: seq<byte>, tail: seq<byte>)
    requires |seed| < 0x1_0000_0000
    ensures ReadOuterRecord(acc, OuterRecord(H.MainSeed, seed) + tail)
            == Ok(Step(acc.(mainSeed := Some(seed)), false, tail))
  {
    ReadOuterRecordOf(acc, H.MainSeed, seed, tail);
    ReadBytesOfConcat(seed, tail);
  }

  lemma IvRecord(acc: OuterFields, iv: seq<byte>, tail: seq<byte>)
    requires |iv| < 0x1_0000_0000
    ensures ReadOuterRecord(acc, OuterRecord(H.InitializationVector, iv) + tail)
            == Ok(Step(acc.(iv := Some(iv)), false, tail))
  {
    ReadOuterRecordOf(acc, H.InitializationVector, iv, tail);
    ReadBytesOfConcat(iv, tail);
  }

  lemma KdfRecord(acc: OuterFields, k: KdfParams.KdfParameters, tail: seq<byte>)
    requires k.algorithm != Argon2i
    requires VariantLists.WellFormedList(KdfParams.ToVariantList(k))
    requires VariantLists.ListLen(KdfParams.ToVariantList(k)) < 0x1_0000_0000
    ensures ReadOuterRecord(acc, OuterRecord(H.KdfParameters, VariantLists.Serialize(KdfParams.ToVariantList(k))) + tail)
            == Ok(Step(acc.(kdfParameters := Some(k)), false, tail))
  {
    var l := KdfParams.ToVariantList(k);
    ReadOuterRecordOf(acc, H.KdfParameters, VariantLists.Serialize(l), tail);
    KdfPayload(acc, k, tail);
  }

  lemma KdfPayload(acc: OuterFields, k: KdfParams.KdfParameters, tail: seq<byte>)
    requires k.algorithm != Argon2i
    requires VariantLists.WellFormedList(KdfParams.ToVariantList(k))
    ensures var l := KdfParams.ToVariantList(k);
            ReadOuterPayload(acc, H.KdfParameters, VariantLists.ListLen(l), VariantLists.Serialize(l) + tail)
            == Ok(Step(acc.(kdfParameters := Some(k)), false, tail))
  {
    VariantLists.DeserializeSerialize(KdfParams.ToVariantList(k), tail);
    KdfParams.FromToVariantList(k);
  }

  lemma CustomDataRecordRead(acc: OuterFields, l: VariantLists.VariantList, tail: seq<byte>)
    requires VariantLists.WellFormedList(l) && VariantLists.ListLen(l) < 0x1_0000_0000
    ensures ReadOuterRecord(acc, OuterRecord(H.CustomData, VariantLists.Serialize(l)) + tail)
            == Ok(Step(acc.(customData := Some(l)), false, tail))
  {
    ReadOuterRecordOf(acc, H.CustomData, VariantLists.Serialize(l), tail);
    VariantLists.DeserializeSerialize(l, tail);
  }

  lemma EndRecord(acc: OuterFields, tail: seq<byte>)
    ensures ReadOuterRecord(acc, OuterRecord(H.EndOfHeader, EndOfHeaderBytes) + tail)
            == Ok(Step(acc, true, tail))
  {
    ReadOuterRecordOf(acc, H.EndOfHeader, EndOfHeaderBytes, tail);
    ReadBytesOfConcat(EndOfHeaderBytes, tail);
  }

  /** A record that does not end the header hands over to the next one. */
  lemma ReadOuterRecordsStep(acc: OuterFields, s: seq<byte>, next: OuterFields, tail: seq<byte>)
    requires ReadOuterRecord(acc, s) == Ok(Step(next, false, tail))
    ensures ReadOuterRecords(acc, s) == ReadOuterRecords(next, tail)
  {
  }

  /** The tail records set the IV, the KDF parameters and the custom data. */
  lemma ReadOuterTail(acc: OuterFields, h: OuterHeader, rest: seq<byte>)
    requires WellFormedOuter(h) && acc.customData.None?
    ensures ReadOuterRecords(acc, SerializeOuterTail(h) + rest)
            == Ok(Parsed(acc.(iv := Some(h.iv), kdfParameters := Some(h.kdfParameters),
                              customData := h.customData), rest))
  {
    var i := OuterRecord(H.InitializationVector, h.iv);
    var k := OuterRecord(H.KdfParameters, VariantLists.Serialize(KdfParams.ToVariantList(h.kdfParameters)));
    var d := CustomDataRecord(h.customData);
    var e := OuterRecord(H.EndOfHeader, EndOfHeaderBytes);
    var t3 := e + rest;
    var t2 := d + t3;
    var t1 := k + t2;
    assert SerializeOuterTail(h) + rest == i + t1 by {
      AppendAssoc(i, k + (d + e), rest);
      AppendAssoc(k, d + e, rest);
      AppendAssoc(d, e, rest);
    }
    var a1 := acc.(iv := Some(h.iv));
    var a2 := a1.(kdfParameters := Some(h.kdfParameters));
    var a3 := a2.(customData := h.customData);
    assert ReadOuterRecords(acc, i + t1) == ReadOuterRecords(a1, t1) by {
      IvRecord(acc, h.iv, t1);
      ReadOuterRecordsStep(acc, i + t1, a1, t1);
    }
    assert ReadOuterRecords(a1, t1) == ReadOuterRecords(a2, t2) by {
      KdfRecord(a1, h.kdfParameters, t2);
      ReadOuterRecordsStep(a1, t1, a2, t2);
    }
    assert ReadOuterRecords(a2, t2) == ReadOuterRecords(a3, t3) by {
      match h.customData
      case None =>
        assert d == [];
        assert t2 == t3;
      case Some(l) =>
        CustomDataRecordRead(a2, l, t3);
        ReadOuterRecordsStep(a2, t2, a3, t3);
    }
    EndRecord(a3, rest);
  }

  /** The fields a header's own records set. */
  function FieldsOf(h: OuterHeader): (r: OuterFields)
    ensures FinishOuter(r) == Ok(h)
  {
    OuterFields(Some(h.cipher), Some(h.compression), Some(h.mainSeed), Some(h.iv),
                Some(h.kdfParameters), h.customData)
  }

  /** Every well-formed header reads back from its serialization, and the bytes
      after it are left alone. */
  lemma DeserializeSerializeOuter(h: OuterHeader, rest: seq<byte>)
    requires WellFormedOuter(h)
    ensures DeserializeOuter(SerializeOuter(h) + rest) == Ok(Parsed(h, rest))
  {
    ReadOuterSerialized(h, rest);
  }

  lemma ReadOuterSerialized(h: OuterHeader, rest: seq<byte>)
    requires WellFormedOuter(h)
    ensures ReadOuterRecords(NoOuterFields, SerializeOuter(h) + rest) == Ok(Parsed(FieldsOf(h), rest))
  {
    var c := OuterRecord(H.Cipher, BlockCiphers.Serialize(h.cipher));
    var p := OuterRecord(H.Compression, CompressionCodes.Serialize(h.compression));
    var m := OuterRecord(H.MainSeed, h.mainSeed);
    var t3 := SerializeOuterTail(h) + rest;
    var t2 := m + t3;
    var t1 := p + t2;
    assert SerializeOuter(h) + rest == c + t1 by {
      AppendAssoc(c, p + (m + SerializeOuterTail(h)), rest);
      AppendAssoc(p, m + SerializeOuterTail(h), rest);
      AppendAssoc(m, SerializeOuterTail(h), rest);
    }
    var a1 := NoOuterFields.(cipher := Some(h.cipher));
    var a2 := a1.(compression := Some(h.compression));
    var a3 := a2.(mainSeed := Some(h.mainSeed));
    var all := FieldsOf(h);
    assert ReadOuterRecords(NoOuterFields, c + t1) == ReadOuterRecords(a1, t1) by {
      CipherRecord(NoOuterFields, h.cipher, t1);
      ReadOuterRecordsStep(NoOuterFields, c + t1, a1, t1);
    }
    assert ReadOuterRecords(a1, t1) == ReadOuterRecords(a2, t2) by {
      CompressionRecord(a1, h.compression, t2);
      ReadOuterRecordsStep(a1, t1, a2, t2);
    }
    assert ReadOuterRecords(a2, t2) == ReadOuterRecords(a3, t3) by {
      MainSeedRecord(a2, h.mainSeed, t3);
      ReadOuterRecordsStep(a2, t2, a3, t3);
    }
    assert ReadOuterRecords(a3, t3) == Ok(Parsed(all, rest)) by {
      ReadOuterTail(a3, h, rest);
    }
  }

  // ---- inner header ---------------------------------------------------------

  /** The inner header: the stream cipher that hides protected values, its key,
      and the attachments in order. */
  datatype InnerHeader = InnerHeader(
    cipher: StreamCiphers.StreamCipher,
    key: seq<byte>,
    binaries: seq<Binaries.Binary>)

  /** `InnerHeader::default()`: the default stream cipher, an empty key, no
      attachments. */
  function DefaultInner(): (r: InnerHeader)
    ensures r.cipher == StreamCiphers.ChaCha20 && r.key == [] && r.binaries == []
  {
    InnerHeader(StreamCiphers.Default, [], [])
  }

  /** `reset_cipher`: ChaCha20 with a fresh random key of its key size; the
      attachments stay. */
  function ResetCipher(h: InnerHeader, random: seq<byte>): (r: InnerHeader)
    requires |random| == StreamCiphers.KeySize(StreamCiphers.ChaCha20)
    ensures r.cipher == StreamCiphers.ChaCha20 && r.key == random && |r.key| == 64
    ensures r.binaries == h.binaries
  {
    h.(cipher := StreamCiphers.ChaCha20, key := random)
  }

  function InnerRecord(t: H.InnerHeaderFieldType, payload: seq<byte>): seq<byte> {
    Record(H.InnerCode(t), payload)
  }

  /** One attachment record per binary, in order. */
  function BinaryRecords(bs: seq<Binaries.Binary>): seq<byte> {
    if bs == [] then []
    else InnerRecord(H.Binary, Binaries.Serialize(bs[0])) + BinaryRecords(bs[1..])
  }

  /** `Serialize for InnerHeader`: stream cipher, key, each attachment, then an
      empty end-of-header record. */
  function SerializeInner(h: InnerHeader): seq<byte> {
    InnerRecord(H.StreamCipher, StreamCiphers.Serialize(h.cipher))
    + (InnerRecord(H.StreamKey, h.key)
    + (BinaryRecords(h.binaries)
    + InnerRecord(H.InnerEndOfHeader, [])))
  }

  datatype InnerFields = InnerFields(
    cipher: Option<StreamCiphers.StreamCipher>,
    key: Option<seq<byte>>,
    binaries: seq<Binaries.Binary>)

  const NoInnerFields := InnerFields(None, None, [])

  /** The payload of one inner record of type `t` and declared size `size`. */
  function ReadInnerPayload(acc: InnerFields, t: H.InnerHeaderFieldType, size: nat, input: seq<byte>)
    : (r: Result<Step<InnerFields>>)
    ensures r.Ok? ==> |r.value.rest| <= |input| && (r.value.done <==> t == H.InnerEndOfHeader)
    ensures t == H.StreamCipher && size != StreamCiphers.Size ==> r == Err(InvalidFieldSize)
    ensures t == H.Binary && size == 0 ==> r == Err(InvalidFieldSize)
    ensures r.Ok? ==> |acc.binaries| <= |r.value.fields.binaries| <= |acc.binaries| + 1
  {
    match t
    case StreamCipher =>
      if size != StreamCiphers.Size then Err(InvalidFieldSize)
      else
        var c :- StreamCiphers.Deserialize(input);
        Ok(Step(acc.(cipher := Some(c.value)), false, c.rest))
    case StreamKey =>
      var v :- ReadBytes(size, input);
      Ok(Step(acc.(key := Some(v.value)), false, v.rest))
    case Binary =>
      var b :- Binaries.Deserialize(input, size);
      Ok(Step(acc.(binaries := acc.binaries + [b.value]), false, b.rest))
    case InnerEndOfHeader =>
      var v :- ReadBytes(size, input);
      Ok(Step(acc, true, v.rest))
  }

  /** One pass of the inner reading loop. */
  function ReadInnerRecord(acc: InnerFields, s: seq<byte>): (r: Result<Step<InnerFields>>)
    ensures r.Ok? ==> |r.value.rest| + 5 <= |s|
  {
    var t :- H.DeserializeInner(s);
    var size :- ReadU32(t.rest);
    ReadInnerPayload(acc, t.value, size.value, size.rest)
  }

  /** The inner records up to and including the end-of-header record. */
  function ReadInnerRecords(acc: InnerFields, s: seq<byte>): (r: Result<Parsed<InnerFields>>)
    ensures r.Ok? ==> |r.value.rest| + 5 <= |s|
    ensures r.Ok? ==> acc.binaries <= r.value.value.binaries
    decreases |s|
  {
    var step :- ReadInnerRecord(acc, s);
    if step.done then Ok(Parsed(step.fields, step.rest))
    else
      assert acc.binaries <= step.fields.binaries by {
        if step.fields.binaries != acc.binaries {
          InnerStepPushes(acc, s);
        }
      }
      ReadInnerRecords(step.fields, step.rest)
  }

  /** A reading step either keeps the attachments or appends one. */
  lemma InnerStepPushes(acc: InnerFields, s: seq<byte>)
    requires ReadInnerRecord(acc, s).Ok?
    ensures var b := ReadInnerRecord(acc, s).value.fields.binaries;
            b == acc.binaries || (|b| == |acc.binaries| + 1 && b[..|acc.binaries|] == acc.binaries)
  {
  }

  /** The stream cipher and the key are required. */
  function FinishInner(f: InnerFields): (r: Result<InnerHeader>)
    ensures r.Ok? <==> f.cipher.Some? && f.key.Some?
    ensures r.Err? ==> r.error == HeaderFieldsMissing
    ensures r.Ok? ==> r.value == InnerHeader(f.cipher.value, f.key.value, f.binaries)
  {
    if f.cipher.None? || f.key.None? then Err(HeaderFieldsMissing)
    else Ok(InnerHeader(f.cipher.value, f.key.value, f.binaries))
  }

  /** `Deserialize for InnerHeader`. */
  function DeserializeInner(s: seq<byte>): (r: Result<Parsed<InnerHeader>>)
    ensures r.Ok? ==> |r.value.rest| + 5 <= |s|
  {
    var fields :- ReadInnerRecords(NoInnerFields, s);
    var h :- FinishInner(fields.value);
    Ok(Parsed(h, fields.rest))
  }

  /** `deserialize` as written: the loop collects the attachments in order. */
  method DeserializeInnerLoop(s: seq<byte>) returns (r: Result<Parsed<InnerHeader>>)
    ensures r == DeserializeInner(s)
  {
    var fields := NoInnerFields;
    var input := s;
    while true
      invariant ReadInnerRecords(fields, input) == ReadInnerRecords(NoInnerFields, s)
      decreases |input|
    {
      var step := ReadInnerRecord(fields, input);
      if step.Err? {
        return Err(step.error);
      }
      fields := step.value.fields;
      input := step.value.rest;
      if step.value.done {
        break;
      }
    }
    var h := FinishInner(fields);
    if h.Err? {
      return Err(h.error);
    }
    return Ok(Parsed(h.value, input));
  }

  // ---- reading back the inner header ----------------------------------------

  /** Attachments the reader accepts: only bit 0 of the flags, and a record size
      that fits a u32. */
  predicate WellFormedBinary(b: Binaries.Binary) {
    b.flags <= 1 && Binaries.Len(b) < 0x1_0000_0000
  }

  predicate WellFormedInner(h: InnerHeader) {
    && |h.key| < 0x1_0000_0000
    && forall i :: 0 <= i < |h.binaries| ==> WellFormedBinary(h.binaries[i])
  }

  lemma ReadInnerRecordOf(acc: InnerFields, t: H.InnerHeaderFieldType, payload: seq<byte>, tail: seq<byte>)
    requires |payload| < 0x1_0000_0000
    ensures ReadInnerRecord(acc, InnerRecord(t, payload) + tail)
            == ReadInnerPayload(acc, t, |payload|, payload + tail)
  {
    var size := WriteU32(|payload|);
    assert InnerRecord(t, payload) + tail == H.SerializeInner(t) + (size + (payload + tail));
    H.DeserializeSerializeInner(t, size + (payload + tail));
    ReadWriteU32(|payload|, payload + tail);
  }

  lemma StreamCipherRecord(acc: InnerFields, c: StreamCiphers.StreamCipher, tail: seq<byte>)
    ensures ReadInnerRecord(acc, InnerRecord(H.StreamCipher, StreamCiphers.Serialize(c)) + tail)
            == Ok(Step(acc.(cipher := Some(c)), false, tail))
  {
    ReadInnerRecordOf(acc, H.StreamCipher, StreamCiphers.Serialize(c), tail);
    StreamCiphers.DeserializeSerialize(c, tail);
  }

  lemma StreamKeyRecord(acc: InnerFields, key: seq<byte>, tail: seq<byte>)
    requires |key| < 0x1_0000_0000
    ensures ReadInnerRecord(acc, InnerRecord(H.StreamKey, key) + tail)
            == Ok(Step(acc.(key := Some(key)), false, tail))
  {
    ReadInnerRecordOf(acc, H.StreamKey, key, tail);
    ReadBytesOfConcat(key, tail);
  }

  /** An attachment record appends its attachment after those read before it. */
  lemma BinaryRecord(acc: InnerFields, b: Binaries.Binary, tail: seq<byte>)
    requires WellFormedBinary(b)
    ensures ReadInnerRecord(acc, InnerRecord(H.Binary, Binaries.Serialize(b)) + tail)
            == Ok(Step(acc.(binaries := acc.binaries + [b]), false, tail))
  {
    ReadInnerRecordOf(acc, H.Binary, Binaries.Serialize(b), tail);
    Binaries.DeserializeSerialize(b, tail);
  }

  lemma InnerEndRecord(acc: InnerFields, tail: seq<byte>)
    ensures ReadInnerRecord(acc, InnerRecord(H.InnerEndOfHeader, []) + tail) == Ok(Step(acc, true, tail))
  {
    ReadInnerRecordOf(acc, H.InnerEndOfHeader, [], tail);
    ReadBytesOfConcat([], tail);
  }

  /** The attachment records read back as the same attachments, in order. */
  lemma {:induction false} ReadBinaryRecords(acc: InnerFields, bs: seq<Binaries.Binary>, tail: seq<byte>)
    requires forall i :: 0 <= i < |bs| ==> WellFormedBinary(bs[i])
    ensures ReadInnerRecords(acc, BinaryRecords(bs) + tail)
            == ReadInnerRecords(acc.(binaries := acc.binaries + bs), tail)
    decreases |bs|
  {
    if bs == [] {
      assert BinaryRecords(bs) + tail == tail;
      assert acc.(binaries := acc.binaries + bs) == acc;
    } else {
      var first := InnerRecord(H.Binary, Binaries.Serialize(bs[0]));
      var next := acc.(binaries := acc.binaries + [bs[0]]);
      assert BinaryRecords(bs) + tail == first + (BinaryRecords(bs[1..]) + tail) by {
        AppendAssoc(first, BinaryRecords(bs[1..]), tail);
      }
      assert ReadInnerRecords(acc, first + (BinaryRecords(bs[1..]) + tail))
             == ReadInnerRecords(next, BinaryRecords(bs[1..]) + tail) by {
        BinaryRecord(acc, bs[0], BinaryRecords(bs[1..]) + tail);
        ReadInnerRecordsStep(acc, first + (BinaryRecords(bs[1..]) + tail), next, BinaryRecords(bs[1..]) + tail);
      }
      ReadBinaryRecords(next, bs[1..], tail);
      assert next.(binaries := next.binaries + bs[1..]) == acc.(binaries := acc.binaries + bs) by {
        PushThenRest(acc.binaries, bs);
      }
    }
  }

  lemma PushThenRest(a: seq<Binaries.Binary>, bs: seq<Binaries.Binary>)
    requires bs != []
    ensures (a + [bs[0]]) + bs[1..] == a + bs
  {
    assert bs == [bs[0]] + bs[1..];
    assert (a + [bs[0]]) + bs[1..] == a + ([bs[0]] + bs[1..]);
  }

  lemma ReadInnerRecordsStep(acc: InnerFields, s: seq<byte>, next: InnerFields, tail: seq<byte>)
    requires ReadInnerRecord(acc, s) == Ok(Step(next, false, tail))
    ensures ReadInnerRecords(acc, s) == ReadInnerRecords(next, tail)
  {
  }

  /** Every well-formed inner header reads back from its serialization. */
  lemma DeserializeSerializeInner(h: InnerHeader, rest: seq<byte>)
    requires WellFormedInner(h)
    ensures DeserializeInner(SerializeInner(h) + rest) == Ok(Parsed(h, rest))
  {
    ReadInnerSerialized(h, rest);
  }

  lemma ReadInnerSerialized(h: InnerHeader, rest: seq<byte>)
    requires WellFormedInner(h)
    ensures ReadInnerRecords(NoInnerFields, SerializeInner(h) + rest)
            == Ok(Parsed(InnerFields(Some(h.cipher), Some(h.key), h.binaries), rest))
  {
    var c := InnerRecord(H.StreamCipher, StreamCiphers.Serialize(h.cipher));
    var k := InnerRecord(H.StreamKey, h.key);
    var b := BinaryRecords(h.binaries);
    var e := InnerRecord(H.InnerEndOfHeader, []);
    var t3 := e + rest;
    var t2 := b + t3;
    var t1 := k + t2;
    assert SerializeInner(h) + rest == c + t1 by {
      AppendAssoc(c, k + (b + e), rest);
      AppendAssoc(k, b + e, rest);
      AppendAssoc(b, e, rest);
    }
    var a1 := NoInnerFields.(cipher := Some(h.cipher));
    var a2 := a1.(key := Some(h.key));
    var a3 := a2.(binaries := h.binaries);
    assert ReadInnerRecords(NoInnerFields, c + t1) == ReadInnerRecords(a1, t1) by {
      StreamCipherRecord(NoInnerFields, h.cipher, t1);
      ReadInnerRecordsStep(NoInnerFields, c + t1, a1, t1);
    }
    assert ReadInnerRecords(a1, t1) == ReadInnerRecords(a2, t2) by {
      StreamKeyRecord(a1, h.key, t2);
      ReadInnerRecordsStep(a1, t1, a2, t2);
    }
    assert ReadInnerRecords(a2, t2) == ReadInnerRecords(a3, t3) by {
      ReadBinaryRecords(a2, h.binaries, t3);
      assert a2.binaries + h.binaries == h.binaries;
    }
    InnerEndRecord(a3, rest);
  }
}

=== FILE: database_tree.dfy ===
/** The database payload as an XML tree: the root group that holds the entries,
    the rule that decides which groups are searched, the entries found there, the
    memory-protection settings, and the tree of a new, empty database. */
module DatabaseTrees {
  import opened Errors
  import opened XmlTree
  import opened ElementIterators
  import opened Entries

  predicate IsEntry(e: Element) {
    e.name == "Entry"
  }

  /** `is_group`: a Group element, unless its EnableSearching child reads as false;
      a missing or unreadable EnableSearching (such as "null") counts as true. */
  predicate IsGroup(e: Element) {
    e.name == "Group"
    && (GetChild(e, "EnableSearching").None? || ToBoolean(GetChild(e, "EnableSearching").value) != Some(false))
  }

  lemma IsGroupMeaning(e: Element)
    ensures IsGroup(e) <==> e.name == "Group" && !(exists c :: GetChild(e, "EnableSearching") == Some(c)
                                                     && TextContent(c) in {"False", "false", "0"})
  {
  }

  /** `get_root_group`: the first Group child of the first Root child, when that
      group is searched. */
  function RootGroup(xml: Element): (r: Option<Element>)
    ensures r.Some? ==> IsGroup(r.value)
    ensures r.Some? <==> GetChild(xml, "Root").Some? && GetChild(GetChild(xml, "Root").value, "Group").Some?
                         && IsGroup(GetChild(GetChild(xml, "Root").value, "Group").value)
  {
    match GetChild(xml, "Root")
    case None => None
    case Some(root) =>
      match GetChild(root, "Group")
      case None => None
      case Some(group) => if IsGroup(group) then Some(group) else None
  }

  /** `get_root_group_mut`, written back: the root group replaced by `g`, every
      other node of the tree as it was. */
  function WithRootGroup(xml: Element, g: Element): (r: Element)
    requires RootGroup(xml).Some?
    ensures r.name == xml.name && r.attributes == xml.attributes && |r.children| == |xml.children|
    ensures var i := ChildIndex(xml, "Root").value;
            && (forall k :: 0 <= k < |xml.children| && k != i ==> r.children[k] == xml.children[k])
            && r.children[i].Elem?
            && var root := xml.children[i].element;
               var j := ChildIndex(root, "Group").value;
               r.children[i].element == root.(children := root.children[j := Elem(g)])
  {
    var i := ChildIndex(xml, "Root").value;
    var root := xml.children[i].element;
    var j := ChildIndex(root, "Group").value;
    xml.(children := xml.children[i := Elem(root.(children := root.children[j := Elem(g)]))])
  }

  /** A searched group written back is found again as the root group. */
  lemma RootGroupOfWith(xml: Element, g: Element)
    requires RootGroup(xml).Some? && IsGroup(g)
    ensures RootGroup(WithRootGroup(xml, g)) == Some(g)
  {
    var i := ChildIndex(xml, "Root").value;
    var root := xml.children[i].element;
    var j := ChildIndex(root, "Group").value;
    var root' := root.(children := root.children[j := Elem(g)]);
    ChildIndexReplace(root, "Group", g);
    ChildIndexReplace(xml, "Root", root');
  }

  /** The Entry elements the walk from the root group reaches: descendants in
      document order, descending only into searched groups. */
  function GroupItems(g: Element): seq<Element> {
    Items(g.children, IsEntry, IsGroup)
  }

  // How the walk from a group meets its children.

  /** An Entry child is found by the walk and nothing below it is. */
  lemma ItemsOfEntry(x: Element)
    requires IsEntry(x)
    ensures Items([Elem(x)], IsEntry, IsGroup) == [x]
  {
    assert !IsGroup(x);
    assert NodeItems(Elem(x), IsEntry, IsGroup) == [x] + [];
  }

  lemma ItemsCons(n: Node, rest: seq<Node>)
    ensures Items([n] + rest, IsEntry, IsGroup) == NodeItems(n, IsEntry, IsGroup) + Items(rest, IsEntry, IsGroup)
  {
    assert ([n] + rest)[0] == n && ([n] + rest)[1..] == rest;
  }

  /** A searched group is not an entry, so the walk finds only what is below it. */
  lemma GroupNodeItems(e: Element)
    requires IsGroup(e)
    ensures NodeItems(Elem(e), IsEntry, IsGroup) == Items(e.children, IsEntry, IsGroup)
  {
    assert NodeItems(Elem(e), IsEntry, IsGroup) == [] + Items(e.children, IsEntry, IsGroup);
  }

  lemma SplitAt<T>(s: seq<T>, p: nat)
    requires p < |s|
    ensures s == s[..p] + ([s[p]] + s[p + 1..])
  {
  }

  lemma Around<T>(a: seq<T>, x: T, b: seq<T>)
    ensures var s := a + ([x] + b); s[|a|] == x && s[..|a|] == a && s[|a| + 1..] == b
  {
    var s := a + ([x] + b);
    assert s[..|a|] == a;
    assert s[|a| + 1..] == b;
  }

  /** `filter_map(Entry::from_xml)`. */
  function FilterEntries(elements: seq<Element>): seq<Entry> {
    if elements == [] then []
    else
      var rest := FilterEntries(elements[1..]);
      match EntryOf(elements[0])
      case None => rest
      case Some(x) => [x] + rest
  }

  /** Every listed entry is read from one of the elements, and there are no
      more entries than elements. */
  lemma {:induction false} FilterEntriesFrom(elements: seq<Element>)
    ensures |FilterEntries(elements)| <= |elements|
    ensures forall x :: x in FilterEntries(elements) ==> exists e :: e in elements && EntryOf(e) == Some(x)
  {
    if elements != [] {
      FilterEntriesFrom(elements[1..]);
    }
  }

  lemma {:induction false} FilterEntriesAppend(a: seq<Element>, b: seq<Element>)
    ensures FilterEntries(a + b) == FilterEntries(a) + FilterEntries(b)
  {
    if a != [] {
      assert (a + b)[0] == a[0] && (a + b)[1..] == a[1..] + b;
      FilterEntriesAppend(a[1..], b);
    } else {
      assert a + b == b;
    }
  }

  /** Every entry `filter_map(Entry::from_xml)` lists has tags that survive
      being written back. */
  lemma {:induction false} FilterEntriesTags(elements: seq<Element>)
    ensures forall i :: 0 <= i < |FilterEntries(elements)| ==> TagsRoundTrip(FilterEntries(elements)[i].tags)
  {
    if elements != [] {
      FilterEntriesTags(elements[1..]);
      EntryOfTags(elements[0]);
    }
  }

  /** `get_entries`, as a specification: nothing without a searched root group. */
  function EntriesOf(xml: Element): seq<Entry> {
    match RootGroup(xml)
    case None => []
    case Some(g) => FilterEntries(GroupItems(g))
  }

  /** The same for every entry of the database. */
  lemma ListedTagsRoundTrip(xml: Element)
    ensures forall i :: 0 <= i < |EntriesOf(xml)| ==> TagsRoundTrip(EntriesOf(xml)[i].tags)
  {
    if RootGroup(xml).Some? {
      FilterEntriesTags(GroupItems(RootGroup(xml).value));
    }
  }

  /** `get_entry`: the first entry with the uuid, or NoSuchEntry. */
  function FindEntry(entries: seq<Entry>, uuid: string): (r: Result<Entry>)
    ensures r.Err? <==> forall i :: 0 <= i < |entries| ==> entries[i].uuid != uuid
    ensures r.Err? ==> r.error == NoSuchEntry
    ensures r.Ok? ==> exists i :: 0 <= i < |entries| && entries[i] == r.value && r.value.uuid == uuid
                                  && forall k :: 0 <= k < i ==> entries[k].uuid != uuid
  {
    if entries == [] then Err(NoSuchEntry)
    else if entries[0].uuid == uuid then Ok(entries[0])
    else
      var r := FindEntry(entries[1..], uuid);
      if r.Ok? then
        var i :| 0 <= i < |entries[1..]| && entries[1..][i] == r.value && r.value.uuid == uuid
                 && forall k :: 0 <= k < i ==> entries[1..][k].uuid != uuid;
        assert entries[i + 1] == r.value;
        r
      else r
  }

  /** `add_entry`: the entry's element appended as the last child of the root
      group; MissingRootGroup when there is no searched root group. */
  function AddEntryTree(xml: Element, entry: Entry, protected: set<Field>): (r: Result<Element>)
    ensures r.Err? <==> RootGroup(xml).None?
    ensures r.Err? ==> r.error == MissingRootGroup
    ensures r.Ok? ==> RootGroup(r.value) == Some(AddElement(RootGroup(xml).value, ToXml(entry, protected)))
  {
    match RootGroup(xml)
    case None => Err(MissingRootGroup)
    case Some(g) =>
      var g' := AddElement(g, ToXml(entry, protected));
      assert IsGroup(g') by {
        ChildIndexAppendOther(g, ToXml(entry, protected), "EnableSearching");
      }
      RootGroupOfWith(xml, g');
      Ok(WithRootGroup(xml, g'))
  }

  /** An added entry is listed last, after the entries there were. */
  lemma AddEntryListed(xml: Element, entry: Entry, protected: set<Field>)
    requires RootGroup(xml).Some? && TagsRoundTrip(entry.tags)
    ensures EntriesOf(AddEntryTree(xml, entry, protected).value) == EntriesOf(xml) + [entry]
  {
    var g := RootGroup(xml).value;
    var x := ToXml(entry, protected);
    var g' := AddElement(g, x);
    ItemsAppend(g.children, [Elem(x)], IsEntry, IsGroup);
    assert Items([Elem(x)], IsEntry, IsGroup) == [x] by {
      assert NodeItems(Elem(x), IsEntry, IsGroup) == [x] + [];
    }
    FilterEntriesAppend(GroupItems(g), [x]);
    ToXmlRoundTrip(entry, protected);
    assert FilterEntries([x]) == [entry];
  }

  // Memory protection.

  /** The fields in the order the library checks their flags. */
  const ProtectionOrder: seq<Field> := [Title, UserName, Password, Url, Notes]

  /** The Meta/MemoryProtection child that says whether a field is protected. */
  function FlagName(f: Field): string {
    match f
    case Title => "ProtectTitle"
    case UserName => "ProtectUserName"
    case Password => "ProtectPassword"
    case Url => "ProtectURL"
    case Notes => "ProtectNotes"
  }

  /** The library names the field by the text after the seven letters of
      "Protect". */
  lemma FlagNameSuffix(f: Field)
    ensures |FlagName(f)| >= 7 && FlagName(f)[..7] == "Protect" && FlagName(f)[7..] == f.Key()
  {
  }

  lemma ProtectionOrderComplete(f: Field)
    ensures f in ProtectionOrder
  {
    assert ProtectionOrder[0] == Title && ProtectionOrder[1] == UserName && ProtectionOrder[2] == Password;
    assert ProtectionOrder[3] == Url && ProtectionOrder[4] == Notes;
  }

  /** A flag is set when Meta/MemoryProtection has a child of its name reading
      as true. */
  predicate FlagSet(xml: Element, flag: string) {
    match GetChild(xml, "Meta")
    case None => false
    case Some(meta) =>
      match GetChild(meta, "MemoryProtection")
      case None => false
      case Some(protection) => FlagIn(protection, flag)
  }

  predicate FlagIn(protection: Element, flag: string) {
    GetChild(protection, flag).Some? && ToBoolean(GetChild(protection, flag).value) == Some(true)
  }

  /** `get_protected_fields`, as a specification: the fields whose flag is set;
      a missing Meta, MemoryProtection or flag, or a flag not reading as true,
      leaves the field unprotected. */
  function ProtectedFields(xml: Element): (r: set<Field>)
    ensures forall f :: f in r <==> FlagSet(xml, FlagName(f))
  {
    forall f ensures f in ProtectionOrder {
      ProtectionOrderComplete(f);
    }
    set f | f in ProtectionOrder && FlagSet(xml, FlagName(f))
  }

  // The tree of a new database.

  function TextChild(name: string, text: string): Node {
    Elem(TextElement(name, text))
  }

  /** `DatabaseXML::empty`: the fixed template with the generator and database
      name, the default memory protection (only passwords protected) and a root
      group with the given uuid and EnableSearching "null". The template's
      indentation becomes no text nodes. */
  function EmptyTree(uuid: string): Element {
    Element("KeePassFile", map[], [
      Elem(Element("Meta", map[], [
        TextChild("Generator", "pfp-native-host"),
        TextChild("DatabaseName", "Passwords"),
        Elem(NewElement("DatabaseDescription")),
        Elem(DefaultProtection())])),
      Elem(Element("Root", map[], [
        Elem(Element("Group", map[], [
          TextChild("UUID", uuid),
          TextChild("Name", "Root"),
          TextChild("IsExpanded", "True"),
          TextChild("EnableSearching", "null")]))]))])
  }

  function EmptyRootGroup(uuid: string): Element {
    EmptyTree(uuid).children[1].element.children[0].element
  }

  /** A new database has a searched root group with no entries. */
  lemma EmptyTreeHasNoEntries(uuid: string)
    ensures RootGroup(EmptyTree(uuid)) == Some(EmptyRootGroup(uuid))
    ensures EntriesOf(EmptyTree(uuid)) == []
  {
    var xml := EmptyTree(uuid);
    var g := EmptyRootGroup(uuid);
    ChildIndexIs(xml, "Root", 1);
    ChildIndexIs(xml.children[1].element, "Group", 0);
    ChildIndexIs(g, "EnableSearching", 3);
    assert TextContent(TextElement("EnableSearching", "null")) == "null";
    assert IsGroup(g);
    ItemsNone(g.children, IsEntry, IsGroup);
  }

  /** The default memory protection: only passwords. */
  function DefaultProtection(): Element {
    Element("MemoryProtection", map[], [
      TextChild("ProtectTitle", "False"),
      TextChild("ProtectUserName", "False"),
      TextChild("ProtectPassword", "True"),
      TextChild("ProtectURL", "False"),
      TextChild("ProtectNotes", "False")])
  }

  lemma EmptyTreeProtection(uuid: string)
    ensures GetChild(EmptyTree(uuid), "Meta").Some?
    ensures GetChild(GetChild(EmptyTree(uuid), "Meta").value, "MemoryProtection") == Some(DefaultProtection())
  {
    var xml := EmptyTree(uuid);
    ChildIndexIs(xml, "Meta", 0);
    ChildIndexIs(xml.children[0].element, "MemoryProtection", 3);
  }

  lemma DefaultProtectionFlags()
    ensures FlagIn(DefaultProtection(), "ProtectPassword")
    ensures !FlagIn(DefaultProtection(), "ProtectTitle") && !FlagIn(DefaultProtection(), "ProtectUserName")
    ensures !FlagIn(DefaultProtection(), "ProtectURL") && !FlagIn(DefaultProtection(), "ProtectNotes")
  {
    var prot := DefaultProtection();
    ChildIndexIs(prot, "ProtectTitle", 0);
    ChildIndexIs(prot, "ProtectUserName", 1);
    ChildIndexIs(prot, "ProtectPassword", 2);
    ChildIndexIs(prot, "ProtectURL", 3);
    ChildIndexIs(prot, "ProtectNotes", 4);
    assert TextContent(TextElement("ProtectPassword", "True")) == "True";
    assert TextContent(TextElement("ProtectTitle", "False")) == "False";
    assert TextContent(TextElement("ProtectUserName", "False")) == "False";
    assert TextContent(TextElement("ProtectURL", "False")) == "False";
    assert TextContent(TextElement("ProtectNotes", "False")) == "False";
  }

  /** A new database protects passwords only. */
  lemma EmptyTreeProtectsPasswords(uuid: string)
    ensures ProtectedFields(EmptyTree(uuid)) == {Password}
  {
    EmptyTreeProtection(uuid);
    var prot := DefaultProtection();
    ProtectedFieldsIn(EmptyTree(uuid), prot);
    DefaultProtectionFlags();
    OnlyPasswordFlag(ProtectedFields(EmptyTree(uuid)), prot);
  }

  lemma OnlyPasswordFlag(fields: set<Field>, prot: Element)
    requires forall f :: f in fields <==> FlagIn(prot, FlagName(f))
    requires FlagIn(prot, "ProtectPassword") && !FlagIn(prot, "ProtectTitle") && !FlagIn(prot, "ProtectUserName")
    requires !FlagIn(prot, "ProtectURL") && !FlagIn(prot, "ProtectNotes")
    ensures fields == {Password}
  {
    forall f
      ensures f in fields <==> f == Password
    {
      assert f in fields <==> FlagIn(prot, FlagName(f));
    }
  }

  /** The protected fields are read from the MemoryProtection element. */
  lemma ProtectedFieldsIn(xml: Element, prot: Element)
    requires GetChild(xml, "Meta").Some?
    requires GetChild(GetChild(xml, "Meta").value, "MemoryProtection") == Some(prot)
    ensures forall f :: f in ProtectedFields(xml) <==> FlagIn(prot, FlagName(f))
  {
  }
}

=== FILE: database_version.dfy ===
/** The 12-byte file preamble: two signature words and the format version. */
module DatabaseVersions {
  import opened Errors
  import opened Bytes

  const Signature1: u32 := 0x9AA2D903
  const Signature2: u32 := 0xB54BFB67

  datatype DatabaseVersion = DatabaseVersion(major: u16, minor: u16)

  /** New databases are written as version 4.0. */
  const Default: DatabaseVersion := DatabaseVersion(4, 0)

  /** Signature 1, signature 2, minor, major, each little-endian. */
  function Serialize(v: DatabaseVersion): (r: seq<byte>)
    ensures |r| == 12
    ensures r[..4] == WriteU32(Signature1) && r[4..8] == WriteU32(Signature2)
    ensures r[8..10] == WriteU16(v.minor) && r[10..] == WriteU16(v.major)
  {
    WriteU32(Signature1) + WriteU32(Signature2) + WriteU16(v.minor) + WriteU16(v.major)
  }

  function Deserialize(s: seq<byte>): (r: Result<Parsed<DatabaseVersion>>)
    ensures |s| < 8 ==> r == Err(Io)
    ensures |s| >= 8 && (DecodeLE(s[..4]) != Signature1 || DecodeLE(s[4..8]) != Signature2)
            ==> r == Err(CorruptDatabase)
    ensures |s| >= 12 && DecodeLE(s[..4]) == Signature1 && DecodeLE(s[4..8]) == Signature2
            && DecodeLE(s[10..12]) != 4
            ==> r == Err(UnsupportedVersion(DecodeLE(s[10..12]), DecodeLE(s[8..10])))
    ensures 8 <= |s| < 12 && DecodeLE(s[..4]) == Signature1 && DecodeLE(s[4..8]) == Signature2 ==> r == Err(Io)
    ensures |s| >= 12 && DecodeLE(s[..4]) == Signature1 && DecodeLE(s[4..8]) == Signature2
            && DecodeLE(s[10..12]) == 4
            ==> r.Ok? && r.value.value.minor == DecodeLE(s[8..10])
    ensures r.Ok? ==> |s| >= 12 && r.value.value.major == 4 && Serialize(r.value.value) == s[..12]
                      && r.value.rest == s[12..]
  {
    var sig1 :- ReadU32(s);
    var sig2 :- ReadU32(sig1.rest);
    Slices(s);
    if sig1.value != Signature1 || sig2.value != Signature2 then Err(CorruptDatabase)
    else ReadVersion(s[8..])
  }

  /** How the reads above cut the preamble. */
  lemma Slices<T>(s: seq<T>)
    ensures |s| >= 8 ==> s[4..][..4] == s[4..8] && s[4..][4..] == s[8..]
    ensures |s| >= 12 ==> && s[8..][..2] == s[8..10] && s[8..][2..4] == s[10..12] && s[8..][4..] == s[12..]
                          && s[..12] == s[..4] + s[4..8] + s[8..][..4]
  {
  }

  /** The minor and major version words after the signatures. */
  function ReadVersion(t: seq<byte>): (r: Result<Parsed<DatabaseVersion>>)
    ensures |t| < 4 ==> r == Err(Io)
    ensures |t| >= 4 && DecodeLE(t[2..4]) != 4 ==> r == Err(UnsupportedVersion(DecodeLE(t[2..4]), DecodeLE(t[..2])))
    ensures |t| >= 4 && DecodeLE(t[2..4]) == 4 ==> r.Ok? && r.value.value.minor == DecodeLE(t[..2])
    ensures r.Ok? ==> && |t| >= 4 && r.value.value.major == 4 && r.value.rest == t[4..]
                      && WriteU16(r.value.value.minor) + WriteU16(r.value.value.major) == t[..4]
  {
    var minor :- ReadU16(t);
    var major :- ReadU16(minor.rest);
    assert |t| >= 4 ==> t[2..][..2] == t[2..4] && t[2..][2..] == t[4..];
    if major.value != 4 then Err(UnsupportedVersion(major.value, minor.value))
    else
      assert t[..4] == t[..2] + t[2..4];
      Ok(Parsed(DatabaseVersion(major.value, minor.value), major.rest))
  }

  lemma DeserializeSerialize(v: DatabaseVersion, rest: seq<byte>)
    requires v.major == 4
    ensures Deserialize(Serialize(v) + rest) == Ok(Parsed(v, rest))
  {
    var t3 := WriteU16(v.major) + rest;
    var t2 := WriteU16(v.minor) + t3;
    var t1 := WriteU32(Signature2) + t2;
    var s := WriteU32(Signature1) + t1;
    assert Serialize(v) + rest == s;
    ReadWriteU32(Signature1, t1);
    ReadWriteU32(Signature2, t2);
    ReadWriteU16(v.minor, t3);
    ReadWriteU16(v.major, rest);
  }
}

=== FILE: database_xml.dfy ===
/** The decrypted payload of a database: the inner header and the XML tree, the
    entries and aliases read from and written to the tree, and the protection of
    the protected values while the tree is written out. */
module DatabaseXmls {
  import opened Errors
  import opened Bytes
  import opened XmlTree
  import opened ElementIterators
  import opened Primitives
  import opened Strings
  import opened Entries
  import opened DatabaseTrees
  import opened EntryRemoval
  import opened EntryUpdate
  import opened Aliases
  import opened ValueProtection
  import opened DatabaseHeader
  import StreamCiphers

  /** What the XML library guarantees: a document it writes from a
      representable tree reads back as the same tree up to text normalisation,
      since an empty text node is written as nothing and neighbouring text
      nodes as one run of characters. */
  ghost predicate XmlRoundTrips(p: Primitives) {
    forall x :: Representable(x) ==> p.parseXml(p.emitXml(x)) == Ok(Normalized(x))
  }

  /** The keystream of an inner header. */
  function Keys(p: Primitives, h: InnerHeader): Keystream {
    StreamCiphers.Create(p, h.cipher, h.key)
  }

  /** `DatabaseXML::new`: the inner header, then the XML document from the rest
      of the input, then its protected values decrypted. */
  function OpenParts(p: Primitives, input: seq<byte>): (r: Result<(InnerHeader, Element)>)
    ensures r.Ok? ==> Settled(r.value.1)
  {
    var h :- DeserializeInner(input);
    var xml :- p.parseXml(h.rest);
    UnprotectedIsSettled(p, Keys(p, h.value), xml);
    var plain :- Unprotect(p, Keys(p, h.value), xml);
    Ok((h.value, plain))
  }

  /** What `save` writes: the inner header, then the tree with its protected
      values encrypted. */
  function Payload(p: Primitives, h: InnerHeader, xml: Element): Result<seq<byte>> {
    var protected :- Protect(p, Keys(p, h), xml);
    Ok(SerializeInner(h) + p.emitXml(protected))
  }

  /** The tree `save` leaves in memory: encrypted, then decrypted again. */
  function AfterSave(p: Primitives, h: InnerHeader, xml: Element): Result<Element> {
    var protected :- Protect(p, Keys(p, h), xml);
    Unprotect(p, Keys(p, h), protected)
  }

  /** Opening what `save` wrote gives back the inner header, and the tree up to
      text normalisation, when the codecs round-trip and the tree is settled (as
      every tree read from a database is) and representable. */
  lemma SaveThenOpen(p: Primitives, h: InnerHeader, xml: Element)
    requires XmlRoundTrips(p) && Base64RoundTrips(p) && Base64Alphabet(p)
    requires WellFormedInner(h) && Settled(xml) && Representable(xml)
    ensures Payload(p, h, xml).Ok?
    ensures OpenParts(p, Payload(p, h, xml).value).Ok?
    ensures OpenParts(p, Payload(p, h, xml).value).value.0 == h
    ensures Normalized(OpenParts(p, Payload(p, h, xml).value).value.1) == Normalized(xml)
  {
    var ks := Keys(p, h);
    ProtectThenUnprotect(p, ks, xml);
    var protected := Protect(p, ks, xml).value;
    ProtectRepresentable(p, ks, xml);
    DeserializeSerializeInner(h, p.emitXml(protected));
    assert p.parseXml(p.emitXml(protected)) == Ok(Normalized(protected));
    UnprotectNormalized(p, ks, protected, 0);
  }

  /** Nodes whose elements are all settled are settled. */
  lemma {:induction false} SettledAll(nodes: seq<Node>)
    requires forall i :: 0 <= i < |nodes| ==> nodes[i].Text? || Settled(nodes[i].element)
    ensures SettledNodes(nodes)
  {
    if nodes != [] {
      SettledAll(nodes[1..]);
    }
  }

  /** An element other than a Value holding only text is settled. */
  lemma TextElementSettled(name: string, text: string)
    requires name != "Value"
    ensures Settled(TextElement(name, text))
  {
    SettledAll(TextElement(name, text).children);
  }

  /** Children that are all text elements other than Value are settled. */
  lemma TextChildrenSettled(nodes: seq<Node>)
    requires forall i :: 0 <= i < |nodes| ==>
               (nodes[i].Elem? && nodes[i].element.name != "Value"
                && nodes[i].element == TextElement(nodes[i].element.name, TextContent(nodes[i].element)))
    ensures SettledNodes(nodes)
  {
    forall i | 0 <= i < |nodes|
      ensures Settled(nodes[i].element)
    {
      TextElementSettled(nodes[i].element.name, TextContent(nodes[i].element));
    }
    SettledAll(nodes);
  }

  /** A new database has no protected values, so `save` leaves its tree as it
      was. */
  lemma EmptyTreeSettled(uuid: string)
    ensures Settled(EmptyTree(uuid))
  {
    var xml := EmptyTree(uuid);
    var meta := xml.children[0].element;
    var root := xml.children[1].element;
    assert SettledNodes(DefaultProtection().children) by {
      TextChildrenSettled(DefaultProtection().children);
    }
    assert SettledNodes(EmptyRootGroup(uuid).children) by {
      TextChildrenSettled(EmptyRootGroup(uuid).children);
    }
    assert SettledNodes(meta.children) by {
      TextElementSettled("Generator", "pfp-native-host");
      TextElementSettled("DatabaseName", "Passwords");
      SettledAll(NewElement("DatabaseDescription").children);
      SettledAll(meta.children);
    }
    SettledAll(root.children);
    SettledAll(xml.children);
  }

  /** Reading one more element into the list of entries. */
  lemma FilterEntriesCons(e: Element, rest: seq<Element>)
    ensures FilterEntries([e] + rest)
            == (match EntryOf(e) case None => FilterEntries(rest) case Some(x) => [x] + FilterEntries(rest))
  {
    assert ([e] + rest)[0] == e && ([e] + rest)[1..] == rest;
  }

  lemma PushFront<T>(a: seq<T>, x: T, rest: seq<T>)
    ensures a + ([x] + rest) == (a + [x]) + rest
  {
  }

  lemma FindEntryCons(x: Entry, rest: seq<Entry>, uuid: string)
    ensures FindEntry([x] + rest, uuid) == if x.uuid == uuid then Ok(x) else FindEntry(rest, uuid)
  {
    assert ([x] + rest)[0] == x && ([x] + rest)[1..] == rest;
  }

  /** The keys and values in the order the keys were taken. */
  lemma {:induction false} FlattenSnoc(order: seq<string>, k: string, m: map<string, string>)
    requires forall i :: 0 <= i < |order| ==> order[i] in m
    requires k in m
    ensures Flatten(order + [k], m) == Flatten(order, m) + [k, m[k]]
  {
    if order == [] {
      assert Flatten([k], m) == [k, m[k]] + Flatten([], m);
    } else {
      assert (order + [k])[0] == order[0] && (order + [k])[1..] == order[1..] + [k];
      FlattenSnoc(order[1..], k, m);
    }
  }

  /** Reading an alias string two pieces at a time from position `i`. */
  lemma PairsFrom(parts: seq<string>, i: nat, acc: map<string, string>)
    requires i + 1 < |parts|
    ensures Pairs(parts[i..], acc) == Pairs(parts[i + 2..], acc[parts[i] := parts[i + 1]])
  {
    assert parts[i..][2..] == parts[i + 2..];
  }

  /** `into_iter().flat_map(..).collect()`: each key and its value, the keys
      taken in an arbitrary order, each once. */
  method KeysAndValues(aliases: map<string, string>) returns (order: seq<string>, parts: seq<string>)
    ensures IsOrder(order, aliases) && parts == Flatten(order, aliases)
  {
    var rest := aliases.Keys;
    order := [];
    parts := [];
    while rest != {}
      invariant forall i, j :: 0 <= i < j < |order| ==> order[i] != order[j]
      invariant forall k :: k in aliases <==> k in rest || k in order
      invariant forall k :: k in rest ==> k !in order
      invariant parts == Flatten(order, aliases)
      decreases |rest|
    {
      var k :| k in rest;
      FlattenSnoc(order, k, aliases);
      parts := parts + [k, aliases[k]];
      order := order + [k];
      rest := rest - {k};
    }
  }

  /** The alias string split at newlines and read two pieces at a time, as
      long as both are there. */
  method ReadPairs(value: string) returns (r: map<string, string>)
    ensures r == Pairs(Split(value, '\n'), map[])
  {
    var parts := Split(value, '\n');
    r := map[];
    var i := 0;
    while i + 1 < |parts|
      invariant i <= |parts|
      invariant Pairs(parts[i..], r) == Pairs(parts, map[])
      decreases |parts| - i
    {
      PairsFrom(parts, i, r);
      r := r[parts[i] := parts[i + 1]];
      i := i + 2;
    }
  }

  class DatabaseXml {
    var xml: Element
    var innerHeader: InnerHeader

    /** The struct literal: a tree and the inner header it was read with. */
    constructor(xml: Element, innerHeader: InnerHeader)
      ensures this.xml == xml && this.innerHeader == innerHeader
    {
      this.xml := xml;
      this.innerHeader := innerHeader;
    }

    /** `DatabaseXML::new`: fails as reading the inner header, parsing the
        document or decrypting a protected value fails. */
    static method Open(p: Primitives, input: seq<byte>) returns (r: Result<DatabaseXml>)
      ensures r.Err? <==> OpenParts(p, input).Err?
      ensures r.Err? ==> r.error == OpenParts(p, input).error
      ensures r.Ok? ==> fresh(r.value) && r.value.innerHeader == OpenParts(p, input).value.0
                        && r.value.xml == OpenParts(p, input).value.1 && Settled(r.value.xml)
    {
      var h := DeserializeInner(input);
      if h.Err? {
        return Err(h.error);
      }
      var parsed := p.parseXml(h.value.rest);
      if parsed.Err? {
        return Err(parsed.error);
      }
      var plain := Unprotect(p, Keys(p, h.value.value), parsed.value);
      if plain.Err? {
        return Err(plain.error);
      }
      var d := new DatabaseXml(plain.value, h.value.value);
      return Ok(d);
    }

    /** `DatabaseXML::empty` with the generated root group uuid: the template
        tree, with no entries and only passwords protected, and the default
        inner header. */
    constructor Empty(uuid: string)
      ensures xml == EmptyTree(uuid) && innerHeader == DefaultInner()
      ensures EntriesOf(xml) == [] && ProtectedFields(xml) == {Password} && Settled(xml)
    {
      xml := EmptyTree(uuid);
      innerHeader := DefaultInner();
      new;
      EmptyTreeHasNoEntries(uuid);
      EmptyTreeProtectsPasswords(uuid);
      EmptyTreeSettled(uuid);
    }

    /** `save`: a new stream key, the header and the encrypted tree written, the
        tree decrypted again in place. Protecting never fails; when decrypting
        fails the tree is left as the walk left it, with the values before the
        failing one decrypted. With codecs that round-trip, a settled tree is
        saved without error and left as it was. */
    method Save(p: Primitives, random: seq<byte>) returns (r: Result<seq<byte>>)
      requires |random| == StreamCiphers.KeySize(StreamCiphers.ChaCha20)
      modifies this
      ensures innerHeader == ResetCipher(old(innerHeader), random)
      ensures var h := ResetCipher(old(innerHeader), random);
              && (r.Ok? <==> AfterSave(p, h, old(xml)).Ok?)
              && (r.Ok? ==> r.value == Payload(p, h, old(xml)).value && xml == AfterSave(p, h, old(xml)).value)
      ensures var ks := Keys(p, ResetCipher(old(innerHeader), random));
              && Protect(p, ks, old(xml)).Ok?
              && xml == UnprotectFrom(p, ks, Protect(p, ks, old(xml)).value, 0).element
              && (r.Err? ==> r.error == UnprotectFrom(p, ks, Protect(p, ks, old(xml)).value, 0).result.error)
      ensures Base64RoundTrips(p) && Settled(old(xml)) ==> r.Ok? && xml == old(xml)
    {
      var tree := xml;
      var h := ResetCipher(innerHeader, random);
      innerHeader := h;
      var header := SerializeInner(h);
      var ks := Keys(p, h);
      var protected := Protect(p, ks, tree);
      ProtectSucceeds(p, ks, tree);
      if Base64RoundTrips(p) && Settled(tree) {
        ProtectThenUnprotect(p, ks, tree);
      }
      xml := protected.value;
      var document := p.emitXml(protected.value);
      var walked := UnprotectFrom(p, ks, protected.value, 0);
      xml := walked.element;
      if walked.result.Err? {
        return Err(walked.result.error);
      }
      return Ok(header + document);
    }

    /** `get_protected_fields`: each field whose flag under
        Meta/MemoryProtection reads as true. */
    method GetProtectedFields() returns (r: set<Field>)
      ensures forall f :: f in r <==> FlagSet(xml, FlagName(f))
    {
      r := {};
      var tree := xml;
      var meta := GetChild(tree, "Meta");
      if meta.None? {
        return;
      }
      var protection := GetChild(meta.value, "MemoryProtection");
      if protection.None? {
        return;
      }
      var prot := protection.value;
      var fields := ProtectionOrder;
      for i := 0 to |fields|
        invariant forall f :: f in r <==> f in fields[..i] && FlagIn(prot, FlagName(f))
      {
        var field := fields[i];
        assert fields[..i + 1] == fields[..i] + [field];
        var flag := GetChild(prot, FlagName(field));
        if flag.Some? && ToBoolean(flag.value) == Some(true) {
          r := r + {field};
        }
      }
      forall f
        ensures f in r <==> FlagSet(tree, FlagName(f))
      {
        ProtectionOrderComplete(f);
        assert fields[..|fields|] == fields;
        assert FlagSet(tree, FlagName(f)) == FlagIn(protection.value, FlagName(f));
      }
    }

    /** `get_entries`: the walk from the root group, each Entry element read
        into an entry and skipped when a mandatory field is missing. */
    method GetEntries() returns (r: seq<Entry>)
      ensures r == EntriesOf(xml)
    {
      var tree := xml;
      var group := RootGroup(tree);
      var it: ElementIterator;
      if group.Some? {
        it := new ElementIterator(group.value, IsEntry, IsGroup);
      } else {
        it := new ElementIterator.Empty(IsEntry, IsGroup);
      }
      ghost var all := EntriesOf(tree);
      r := [];
      while true
        invariant it.Valid()
        invariant r + FilterEntries(it.Remaining()) == all
        decreases |it.Remaining()|
      {
        var e := it.Next();
        if e.None? {
          break;
        }
        ghost var rest := it.Remaining();
        FilterEntriesCons(e.value, rest);
        var x := FromXml(e.value);
        if x.Some? {
          PushFront(r, x.value, FilterEntries(rest));
          r := r + [x.value];
        }
      }
    }

    /** `get_entry`: the first listed entry with the uuid, NoSuchEntry when
        there is none. */
    method GetEntry(uuid: string) returns (r: Result<Entry>)
      ensures r == FindEntry(EntriesOf(xml), uuid)
    {
      var group := RootGroup(xml);
      var it: ElementIterator;
      if group.Some? {
        it := new ElementIterator(group.value, IsEntry, IsGroup);
      } else {
        it := new ElementIterator.Empty(IsEntry, IsGroup);
      }
      ghost var found := FindEntry(EntriesOf(xml), uuid);
      while true
        invariant it.Valid()
        invariant FindEntry(FilterEntries(it.Remaining()), uuid) == found
        decreases |it.Remaining()|
      {
        var e := it.Next();
        if e.None? {
          return Err(NoSuchEntry);
        }
        ghost var rest := it.Remaining();
        FilterEntriesCons(e.value, rest);
        var x := FromXml(e.value);
        if x.Some? {
          FindEntryCons(x.value, FilterEntries(rest), uuid);
          if x.value.uuid == uuid {
            return Ok(x.value);
          }
        }
      }
    }

    /** `add_entry`: the entry's element appended to the root group, its uuid
        returned; MissingRootGroup leaves the tree alone. An entry whose tags
        survive being stored is then listed last. */
    method AddEntry(entry: Entry, protected: set<Field>) returns (r: Result<string>)
      modifies this
      ensures innerHeader == old(innerHeader)
      ensures r.Err? <==> RootGroup(old(xml)).None?
      ensures r.Err? ==> r.error == MissingRootGroup && xml == old(xml)
      ensures r.Ok? ==> r.value == entry.uuid && xml == AddEntryTree(old(xml), entry, protected).value
      ensures r.Ok? && TagsRoundTrip(entry.tags) ==> EntriesOf(xml) == EntriesOf(old(xml)) + [entry]
    {
      var t := AddEntryTree(xml, entry, protected);
      if t.Err? {
        return Err(t.error);
      }
      ghost var before := xml;
      xml := t.value;
      if TagsRoundTrip(entry.tags) {
        assert EntriesOf(xml) == EntriesOf(before) + [entry] by {
          AddEntryListed(before, entry, protected);
        }
      }
      return Ok(entry.uuid);
    }

    /** `remove_entry`: the tree changes only on success, which happens exactly
        when an entry with the uuid is listed; one such entry is then gone. */
    method RemoveEntry(uuid: string) returns (r: Result<()>)
      modifies this
      ensures innerHeader == old(innerHeader)
      ensures r.Err? <==> RemoveEntryTree(old(xml), uuid).Err?
      ensures r.Err? ==> r.error == RemoveEntryTree(old(xml), uuid).error && xml == old(xml)
      ensures r.Ok? ==> xml == RemoveEntryTree(old(xml), uuid).value
      ensures RootGroup(old(xml)).Some? ==>
                var before := EntriesOf(old(xml));
                && (r.Ok? <==> exists i :: 0 <= i < |before| && before[i].uuid == uuid)
                && (r.Ok? ==> exists k :: 0 <= k < |before| && before[k].uuid == uuid
                                          && EntriesOf(xml) == before[..k] + before[k + 1..])
    {
      var t := RemoveEntryTree(xml, uuid);
      if RootGroup(xml).Some? {
        RemoveEntryListed(xml, uuid);
      }
      if t.Err? {
        return Err(t.error);
      }
      xml := t.value;
      return Ok(());
    }

    /** `update_entry`: the first Entry element with the uuid rewritten; the
        tree changes only on success. */
    method UpdateEntry(entry: Entry, protected: set<Field>) returns (r: Result<()>)
      modifies this
      ensures innerHeader == old(innerHeader)
      ensures r.Err? <==> UpdateEntryTree(old(xml), entry, protected).Err?
      ensures r.Err? ==> r.error == UpdateEntryTree(old(xml), entry, protected).error && xml == old(xml)
      ensures r.Ok? ==> xml == UpdateEntryTree(old(xml), entry, protected).value
      ensures r.Err? && r.error == MissingRootGroup <==> RootGroup(old(xml)).None?
    {
      var t := UpdateEntryTree(xml, entry, protected);
      if t.Err? {
        return Err(t.error);
      }
      xml := t.value;
      return Ok(());
    }

    /** `get_aliases`: the first alias item among the CustomData children,
        read two lines at a time. */
    method GetAliases() returns (r: map<string, string>)
      ensures r == AliasesOf(xml)
    {
      r := map[];
      ghost var stored := AliasValue(xml);
      var data := CustomData(xml);
      if data.None? {
        return;
      }
      var it := new ElementIterator(data.value, (_: Element) => true, (_: Element) => false);
      ShallowWalk(data.value.children, it.accept, it.recurse);
      while true
        invariant it.Valid() && r == map[]
        invariant FirstAliasValue(it.Remaining()) == stored
        decreases |it.Remaining()|
      {
        ghost var before := it.Remaining();
        var element := it.Next();
        if element.None? {
          return;
        }
        assert before[0] == element.value && before[1..] == it.Remaining();
        var kv := ToKeyValue(element.value);
        if kv.Some? && kv.value.0 == AliasKey {
          r := ReadPairs(kv.value.1);
          return;
        }
      }
    }

    /** `set_aliases`: the map flattened in the hash map's arbitrary key order
        and stored as the one alias item. A map without newlines reads back
        unchanged. */
    method SetAliases(aliases: map<string, string>)
      modifies this
      ensures innerHeader == old(innerHeader)
      ensures exists order :: IsOrder(order, aliases) && xml == SetAliasesTree(old(xml), order, aliases)
      ensures NoNewlines(aliases) ==> AliasesOf(xml) == aliases
    {
      var order, parts := KeysAndValues(aliases);
      var value := Join(parts, '\n');
      var meta := ChildOrNew(xml, "Meta");
      var data := ChildOrNew(meta, "CustomData");
      data := AddElement(data.(children := RetainNonAlias(data.children)), AliasItem(value));
      ghost var before := xml;
      xml := WithChild(xml, "Meta", WithChild(meta, "CustomData", data));
      assert xml == SetAliasesTree(before, order, aliases);
      if NoNewlines(aliases) {
        SetAliasesRoundTrip(before, order, aliases);
      }
    }

    /** `add_alias`: the hostname followed through the alias map for at most ten
        hops; nothing is stored when a hop lands on the alias or the hops run
        out, otherwise the alias is stored pointing at the end of the chain. */
    method AddAlias(alias: string, hostname: string)
      modifies this
      ensures innerHeader == old(innerHeader)
      ensures AddAliasMap(AliasesOf(old(xml)), alias, hostname).None? ==> xml == old(xml)
      ensures AddAliasMap(AliasesOf(old(xml)), alias, hostname).Some? ==>
                var m := AddAliasMap(AliasesOf(old(xml)), alias, hostname).value;
                exists order :: IsOrder(order, m) && xml == SetAliasesTree(old(xml), order, m)
      ensures AddAliasMap(AliasesOf(old(xml)), alias, hostname).Some? && '\n' !in alias && '\n' !in hostname ==>
                AliasesOf(xml) == AddAliasMap(AliasesOf(old(xml)), alias, hostname).value
    {
      var aliases := GetAliases();
      var host := hostname;
      var depth: nat := 0;
      while host in aliases
        invariant depth <= MaxDepth
        invariant ResolveTarget(aliases, alias, host, depth) == ResolveTarget(aliases, alias, hostname, 0)
        decreases MaxDepth - depth
      {
        var next := aliases[host];
        if next == alias || depth >= MaxDepth {
          return;
        }
        host := next;
        depth := depth + 1;
      }
      ghost var m := aliases[alias := host];
      ghost var before := xml;
      SetAliases(aliases[alias := host]);
      if '\n' !in alias && '\n' !in hostname {
        ghost var order :| IsOrder(order, m) && xml == SetAliasesTree(before, order, m);
        AddAliasRoundTrip(before, alias, hostname, order);
      }
    }

    /** `remove_alias`: the map written back without the alias, and only when it
        held the alias. */
    method RemoveAlias(alias: string)
      modifies this
      ensures innerHeader == old(innerHeader)
      ensures alias !in AliasesOf(old(xml)) ==> xml == old(xml)
      ensures alias in AliasesOf(old(xml)) ==>
                && (exists order :: IsOrder(order, AliasesOf(old(xml)) - {alias})
                                    && xml == SetAliasesTree(old(xml), order, AliasesOf(old(xml)) - {alias}))
                && AliasesOf(xml) == AliasesOf(old(xml)) - {alias}
    {
      var aliases := GetAliases();
      if alias in aliases {
        AliasesHaveNoNewlines(xml);
        SetAliases(aliases - {alias});
      }
    }
  }
}

=== FILE: entry.dfy ===
/** A password entry and its form in the XML tree: an Entry element holding a
    UUID child, String children with Key/Value pairs for the URL, title, user name,
    password and notes, and an optional Tags child with comma-separated tags. */
module Entries {
  import opened Errors
  import opened Bytes
  import opened XmlTree
  import opened Strings
  import opened ElementIterators
  import opened Primitives

  datatype Entry = Entry(uuid: string, title: string, url: string, username: string, password: string,
                         notes: Option<string>, tags: Option<seq<string>>)

  /** `get_normalized_hostname`: the host of the URL with a leading "www." removed;
      the placeholder host "invalid.pfp" and a URL without a host give "". */
  function NormalizedHostname(p: Primitives, url: string): (r: string)
    ensures p.urlHost(url).None? ==> r == ""
    ensures p.urlHost(url).Some? ==>
              var host := p.urlHost(url).value;
              || (r == "" && (host == "" || host == "invalid.pfp" || host == "www."))
              || (r != "" && (host == r || host == "www." + r))
    ensures r == "invalid.pfp" ==> p.urlHost(url) == Some("www.invalid.pfp")
  {
    match p.urlHost(url)
    case None => ""
    case Some(host) =>
      match StripPrefix(host, "www.")
      case Some(rest) =>
        assert "www." + "invalid.pfp" == "www.invalid.pfp";
        rest
      case None => if host == "invalid.pfp" then "" else host
  }

  /** `hostname()`. */
  function Hostname(p: Primitives, entry: Entry): string {
    NormalizedHostname(p, entry.url)
  }

  /** `set_hostname`: the URL becomes "https://" and the host, or stays empty. */
  function SetHostname(entry: Entry, hostname: string): (r: Entry)
    ensures r == entry.(url := r.url)
    ensures hostname == "" ==> r.url == ""
    ensures hostname != "" ==> StripPrefix(r.url, "https://") == Some(hostname)
  {
    entry.(url := if hostname == "" then "" else "https://" + hostname)
  }

  /** Setting a hostname the URL parser reads back, and which is neither "www."
      prefixed nor the placeholder, gives the entry that hostname. */
  lemma HostnameOfSetHostname(p: Primitives, entry: Entry, hostname: string)
    requires hostname == "" ==> p.urlHost("").None?
    requires hostname != "" ==> p.urlHost("https://" + hostname) == Some(hostname)
    requires StripPrefix(hostname, "www.").None? && hostname != "invalid.pfp"
    ensures Hostname(p, SetHostname(entry, hostname)) == hostname
  {
  }

  /** `generate_uuid`: 16 random bytes in base64. */
  function GenerateUuid(p: Primitives, random: seq<byte>): string
    requires |random| == 16
  {
    p.base64Encode(random)
  }

  /** `Entry::new`: no notes and no tags. */
  function NewEntry(uuid: string, url: string, title: string, username: string, password: string): (r: Entry)
    ensures r.uuid == uuid && r.url == url && r.title == title
    ensures r.username == username && r.password == password
    ensures r.notes.None? && r.tags.None?
  {
    Entry(uuid, title, url, username, password, None, None)
  }

  // Reading an Entry element.

  /** What `from_xml` has collected so far. */
  datatype Fields = Fields(uuid: Option<string>, url: Option<string>, title: Option<string>,
                           username: Option<string>, password: Option<string>,
                           notes: Option<string>, tags: Option<seq<string>>)

  const NoFields := Fields(None, None, None, None, None, None, None)

  /** The entry fields stored as String children; a set of them says which are
      written with Protected="True". */
  datatype Field = Title | UserName | Password | Url | Notes {
    /** The Key text of the field's String child. */
    function Key(): string {
      match this
      case Title => "Title"
      case UserName => "UserName"
      case Password => "Password"
      case Url => "URL"
      case Notes => "Notes"
    }
  }

  /** The keys of the String children that are fields of an entry. */
  const FieldKeys: set<string> := {"URL", "Title", "UserName", "Password", "Notes"}

  /** The field a String child with the given key sets. */
  function SetField(f: Fields, key: string, value: string): Fields {
    if key == "URL" then f.(url := Some(value))
    else if key == "Title" then f.(title := Some(value))
    else if key == "UserName" then f.(username := Some(value))
    else if key == "Password" then f.(password := Some(value))
    else if key == "Notes" then f.(notes := Some(value))
    else f
  }

  /** One child element: a UUID, a String with a known key, or a Tags element
      with at least one child node sets its field, a later child winning over an
      earlier one; anything else is ignored. */
  function ReadChild(f: Fields, child: Element): Fields {
    if child.name == "UUID" then f.(uuid := Some(TextContent(child)))
    else if child.name == "String" then
      match ToKeyValue(child)
      case None => f
      case Some((key, value)) => SetField(f, key, value)
    else if child.name == "Tags" && child.children != [] then
      f.(tags := Some(Split(TextContent(child), ',')))
    else f
  }

  function ReadChildren(f: Fields, children: seq<Element>): Fields
    decreases |children|
  {
    if children == [] then f else ReadChildren(ReadChild(f, children[0]), children[1..])
  }

  lemma {:induction false} ReadChildrenAppend(f: Fields, a: seq<Element>, b: seq<Element>)
    ensures ReadChildren(f, a + b) == ReadChildren(ReadChildren(f, a), b)
    decreases |a|
  {
    if a != [] {
      assert (a + b)[0] == a[0] && (a + b)[1..] == a[1..] + b;
      ReadChildrenAppend(ReadChild(f, a[0]), a[1..], b);
    } else {
      assert a + b == b;
    }
  }

  /** The uuid read is the one before or the text of a UUID child. */
  lemma {:induction false} ReadChildrenUuid(f: Fields, cs: seq<Element>)
    ensures ReadChildren(f, cs).uuid == f.uuid
            || exists i :: 0 <= i < |cs| && cs[i].name == "UUID" && ReadChildren(f, cs).uuid == Some(TextContent(cs[i]))
    decreases |cs|
  {
    if cs != [] {
      ReadChildrenUuid(ReadChild(f, cs[0]), cs[1..]);
      assert forall i :: 0 <= i < |cs[1..]| ==> cs[1..][i] == cs[i + 1];
    }
  }

  /** The entry, when the five mandatory fields were all found. */
  function Complete(f: Fields): (r: Option<Entry>)
    ensures r.Some? <==> f.uuid.Some? && f.url.Some? && f.title.Some? && f.username.Some? && f.password.Some?
    ensures r.Some? ==> r.value.uuid == f.uuid.value && r.value.url == f.url.value
                        && r.value.title == f.title.value && r.value.username == f.username.value
                        && r.value.password == f.password.value
                        && r.value.notes == f.notes && r.value.tags == f.tags
  {
    if f.uuid.Some? && f.url.Some? && f.title.Some? && f.username.Some? && f.password.Some? then
      Some(Entry(f.uuid.value, f.title.value, f.url.value, f.username.value, f.password.value, f.notes, f.tags))
    else None
  }

  function ElementFields(e: Element): Fields {
    ReadChildren(NoFields, ElementChildren(e.children))
  }

  /** `from_xml`, as a specification. */
  function EntryOf(e: Element): Option<Entry> {
    Complete(ElementFields(e))
  }

  /** `from_xml`: one pass over the element children, each setting a field. */
  method FromXml(e: Element) returns (r: Option<Entry>)
    ensures r == EntryOf(e)
  {
    var it := new ElementIterator(e, (_: Element) => true, (_: Element) => false);
    ShallowWalk(e.children, it.accept, it.recurse);
    var f := NoFields;
    while true
      invariant it.Valid()
      invariant ReadChildren(f, it.Remaining()) == ElementFields(e)
      decreases |it.Remaining()|
    {
      var child := it.Next();
      if child.None? {
        break;
      }
      f := ReadChild(f, child.value);
    }
    r := Complete(f);
  }

  // Writing an Entry element.

  /** A String child holding one key and value. */
  function StringElement(key: string, value: string, protected: bool): Element {
    SetKeyValue(NewElement("String"), key, value, protected)
  }

  /** The children `add_xml_children` appends: the four mandatory String fields,
      the notes when there are some, and the tags joined with commas when there
      are some. A field is marked protected when it is in `protected`. */
  function FieldNodes(entry: Entry, protected: set<Field>): seq<Node> {
    MandatoryNodes(entry, protected) + NotesNodes(entry, protected) + TagsNodes(entry)
  }

  /** `add_xml_children`. */
  function AddXmlChildren(e: Element, entry: Entry, protected: set<Field>): (r: Element)
    ensures r.name == e.name && r.attributes == e.attributes
    ensures |r.children| >= |e.children| + 4 && r.children[..|e.children|] == e.children
  {
    var r := e.(children := e.children + FieldNodes(entry, protected));
    assert r.children[..|e.children|] == e.children;
    r
  }

  /** `to_xml`: an Entry element with the UUID first, then the fields. */
  function ToXml(entry: Entry, protected: set<Field>): (r: Element)
    ensures r.name == "Entry" && r.attributes == map[]
  {
    AddXmlChildren(Element("Entry", map[], [Elem(TextElement("UUID", entry.uuid))]), entry, protected)
  }

  /** Tags survive being joined with commas and split again: there is at least
      one, and no tag holds a comma. */
  predicate TagsRoundTrip(tags: Option<seq<string>>) {
    tags.Some? ==> |tags.value| >= 1 && forall i :: 0 <= i < |tags.value| ==> ',' !in tags.value[i]
  }

  /** Tags read by `from_xml` come from `split(',')`, so they always survive
      being joined and split again. */
  lemma {:induction false} ReadChildrenTags(f: Fields, cs: seq<Element>)
    requires TagsRoundTrip(f.tags)
    ensures TagsRoundTrip(ReadChildren(f, cs).tags)
    decreases |cs|
  {
    if cs != [] {
      ReadChildrenTags(ReadChild(f, cs[0]), cs[1..]);
    }
  }

  lemma EntryOfTags(e: Element)
    ensures EntryOf(e).Some? ==> TagsRoundTrip(EntryOf(e).value.tags)
  {
    ReadChildrenTags(NoFields, ElementChildren(e.children));
  }

  /** Reading a String child written by `set_key_value` sets the field of its key. */
  lemma ReadStringElement(f: Fields, key: string, value: string, protected: bool)
    ensures ReadChild(f, StringElement(key, value, protected)) == SetField(f, key, value)
  {
    KeyValueRoundTrip(NewElement("String"), key, value, protected);
  }

  function MandatoryNodes(entry: Entry, protected: set<Field>): seq<Node> {
    [Elem(StringElement("URL", entry.url, Url in protected)),
     Elem(StringElement("Title", entry.title, Title in protected)),
     Elem(StringElement("UserName", entry.username, UserName in protected)),
     Elem(StringElement("Password", entry.password, Password in protected))]
  }

  function NotesNodes(entry: Entry, protected: set<Field>): seq<Node> {
    if entry.notes.Some? then [Elem(StringElement("Notes", entry.notes.value, Notes in protected))] else []
  }

  function TagsNodes(entry: Entry): seq<Node> {
    if entry.tags.Some? then [Elem(TextElement("Tags", Join(entry.tags.value, ',')))] else []
  }

  /** Two String children read one after the other. */
  lemma ReadTwoStrings(f: Fields, k1: string, v1: string, p1: bool, k2: string, v2: string, p2: bool)
    ensures ReadChildren(f, [StringElement(k1, v1, p1), StringElement(k2, v2, p2)])
         == SetField(SetField(f, k1, v1), k2, v2)
  {
    var s1 := StringElement(k1, v1, p1);
    var s2 := StringElement(k2, v2, p2);
    ReadStringElement(f, k1, v1, p1);
    ReadStringElement(SetField(f, k1, v1), k2, v2, p2);
    assert ReadChildren(f, [s1, s2]) == ReadChildren(ReadChild(f, s1), [s2]);
    assert ReadChildren(SetField(f, k1, v1), [s2]) == ReadChildren(ReadChild(SetField(f, k1, v1), s2), []);
  }

  lemma MandatoryChildren(entry: Entry, protected: set<Field>)
    ensures ElementChildren(MandatoryNodes(entry, protected))
         == [StringElement("URL", entry.url, Url in protected),
             StringElement("Title", entry.title, Title in protected)]
          + [StringElement("UserName", entry.username, UserName in protected),
             StringElement("Password", entry.password, Password in protected)]
  {
    ElementChildrenOfElements(MandatoryNodes(entry, protected));
  }

  lemma ReadMandatory(f: Fields, entry: Entry, protected: set<Field>)
    ensures ReadChildren(f, ElementChildren(MandatoryNodes(entry, protected)))
         == f.(url := Some(entry.url), title := Some(entry.title), username := Some(entry.username),
               password := Some(entry.password))
  {
    var url := StringElement("URL", entry.url, Url in protected);
    var title := StringElement("Title", entry.title, Title in protected);
    var user := StringElement("UserName", entry.username, UserName in protected);
    var pass := StringElement("Password", entry.password, Password in protected);
    MandatoryChildren(entry, protected);
    ReadChildrenAppend(f, [url, title], [user, pass]);
    ReadTwoStrings(f, "URL", entry.url, Url in protected, "Title", entry.title, Title in protected);
    var f2 := f.(url := Some(entry.url), title := Some(entry.title));
    ReadTwoStrings(f2, "UserName", entry.username, UserName in protected,
                   "Password", entry.password, Password in protected);
  }

  lemma ReadNotes(f: Fields, entry: Entry, protected: set<Field>)
    ensures ReadChildren(f, ElementChildren(NotesNodes(entry, protected)))
         == f.(notes := if entry.notes.Some? then entry.notes else f.notes)
  {
    if entry.notes.Some? {
      var n := StringElement("Notes", entry.notes.value, Notes in protected);
      ReadStringElement(f, "Notes", entry.notes.value, Notes in protected);
      assert ElementChildren(NotesNodes(entry, protected)) == [n];
      assert ReadChildren(f, [n]) == ReadChildren(ReadChild(f, n), []);
    }
  }

  lemma ReadTags(f: Fields, entry: Entry)
    requires TagsRoundTrip(entry.tags)
    ensures ReadChildren(f, ElementChildren(TagsNodes(entry)))
         == f.(tags := if entry.tags.Some? then entry.tags else f.tags)
  {
    if entry.tags.Some? {
      var t := TextElement("Tags", Join(entry.tags.value, ','));
      assert ElementChildren(TagsNodes(entry)) == [t];
      SplitJoin(entry.tags.value, ',');
      assert ReadChild(f, t) == f.(tags := entry.tags);
    }
  }

  /** Reading the appended children sets the four mandatory fields, the notes
      and tags that the entry has, and keeps what was read before otherwise. */
  lemma ReadFieldNodes(f: Fields, entry: Entry, protected: set<Field>)
    requires TagsRoundTrip(entry.tags)
    ensures ReadChildren(f, ElementChildren(FieldNodes(entry, protected)))
         == f.(url := Some(entry.url), title := Some(entry.title), username := Some(entry.username),
               password := Some(entry.password),
               notes := if entry.notes.Some? then entry.notes else f.notes,
               tags := if entry.tags.Some? then entry.tags else f.tags)
  {
    var mandatory := MandatoryNodes(entry, protected);
    var notes := NotesNodes(entry, protected);
    var tags := TagsNodes(entry);
    assert FieldNodes(entry, protected) == mandatory + notes + tags;
    ElementChildrenAppend(mandatory + notes, tags);
    ElementChildrenAppend(mandatory, notes);
    ReadChildrenAppend(f, ElementChildren(mandatory), ElementChildren(notes));
    ReadChildrenAppend(f, ElementChildren(mandatory) + ElementChildren(notes), ElementChildren(tags));
    ReadMandatory(f, entry, protected);
    var f1 := ReadChildren(f, ElementChildren(mandatory));
    ReadNotes(f1, entry, protected);
    ReadTags(ReadChildren(f1, ElementChildren(notes)), entry);
  }

  /** An entry written by `to_xml` reads back unchanged, given tags that survive
      the comma join. */
  lemma ToXmlRoundTrip(entry: Entry, protected: set<Field>)
    requires TagsRoundTrip(entry.tags)
    ensures EntryOf(ToXml(entry, protected)) == Some(entry)
  {
    var uuid := [Elem(TextElement("UUID", entry.uuid))];
    var x := ToXml(entry, protected);
    assert x.children == uuid + FieldNodes(entry, protected);
    ElementChildrenAppend(uuid, FieldNodes(entry, protected));
    var f := NoFields.(uuid := Some(entry.uuid));
    assert ReadChildren(NoFields, ElementChildren(uuid)) == f;
    ReadChildrenAppend(NoFields, ElementChildren(uuid), ElementChildren(FieldNodes(entry, protected)));
    ReadFieldNodes(f, entry, protected);
  }

  // Updating an Entry element.

  /** A String child whose key is one of the entry's fields. */
  predicate IsFieldString(n: Node) {
    n.Elem? && n.element.name == "String" && ToKeyValue(n.element).Some?
    && ToKeyValue(n.element).value.0 in FieldKeys
  }

  /** The `retain` step of `update_xml`: every field String child removed, the
      rest kept in order. */
  function RetainNonFields(nodes: seq<Node>): (r: seq<Node>)
    ensures forall i :: 0 <= i < |r| ==> !IsFieldString(r[i])
    ensures forall n :: n in r ==> n in nodes
  {
    if nodes == [] then []
    else (if IsFieldString(nodes[0]) then [] else [nodes[0]]) + RetainNonFields(nodes[1..])
  }

  /** `update_xml`: the field String children replaced by the entry's fields. */
  function UpdateXml(entry: Entry, e: Element, protected: set<Field>): (r: Element)
    ensures r.name == e.name && r.attributes == e.attributes
  {
    AddXmlChildren(e.(children := RetainNonFields(e.children)), entry, protected)
  }

  /** Reading what `retain` kept finds the same UUID and tags as reading all the
      children, and no field. */
  lemma {:induction false} ReadRetained(f: Fields, g: Fields, nodes: seq<Node>)
    requires f.uuid == g.uuid && f.tags == g.tags
    ensures var kept := ReadChildren(f, ElementChildren(RetainNonFields(nodes)));
            var all := ReadChildren(g, ElementChildren(nodes));
            kept == f.(uuid := all.uuid, tags := all.tags)
    decreases |nodes|
  {
    if nodes != [] {
      var n := nodes[0];
      var rest := RetainNonFields(nodes[1..]);
      if IsFieldString(n) {
        assert RetainNonFields(nodes) == rest;
        assert ElementChildren(nodes) == [n.element] + ElementChildren(nodes[1..]);
        var g' := ReadChild(g, n.element);
        assert g'.uuid == g.uuid && g'.tags == g.tags;
        ReadRetained(f, g', nodes[1..]);
      } else if n.Elem? {
        assert RetainNonFields(nodes) == [n] + rest;
        assert ElementChildren([n] + rest) == [n.element] + ElementChildren(rest);
        assert ElementChildren(nodes) == [n.element] + ElementChildren(nodes[1..]);
        var f' := ReadChild(f, n.element);
        var g' := ReadChild(g, n.element);
        assert f' == f.(uuid := g'.uuid, tags := g'.tags);
        ReadRetained(f', g', nodes[1..]);
      } else {
        assert RetainNonFields(nodes) == [n] + rest;
        assert ElementChildren([n] + rest) == ElementChildren(rest);
        assert ElementChildren(nodes) == ElementChildren(nodes[1..]);
        ReadRetained(f, g, nodes[1..]);
      }
    }
  }

  /** After `update_xml` the element reads back as the entry, except that it keeps
      its own UUID, and its own tags when the entry has none. */
  lemma UpdateXmlRoundTrip(entry: Entry, e: Element, protected: set<Field>)
    requires ElementFields(e).uuid.Some?
    requires TagsRoundTrip(entry.tags)
    ensures EntryOf(UpdateXml(entry, e, protected))
         == Some(entry.(uuid := ElementFields(e).uuid.value,
                        tags := if entry.tags.Some? then entry.tags else ElementFields(e).tags))
  {
    var kept := RetainNonFields(e.children);
    var x := UpdateXml(entry, e, protected);
    assert x.children == kept + FieldNodes(entry, protected);
    ElementChildrenAppend(kept, FieldNodes(entry, protected));
    ReadChildrenAppend(NoFields, ElementChildren(kept), ElementChildren(FieldNodes(entry, protected)));
    ReadRetained(NoFields, NoFields, e.children);
    ReadFieldNodes(ReadChildren(NoFields, ElementChildren(kept)), entry, protected);
  }
}

=== FILE: entry_removal.dfy ===
/** `remove_entry`: a modifier walk over the searched groups below and including
    the root group. Each group it reaches drops its first Entry child that reads
    as an entry with the uuid; the first such removal ends the walk with an error,
    which `remove_entry` turns into success. */
module EntryRemoval {
  import opened Errors
  import opened XmlTree
  import opened ElementIterators
  import opened ElementModifiers
  import opened Entries
  import opened DatabaseTrees

  /** The Entry elements `remove_entry` deletes: those reading as an entry with
      the uuid. */
  predicate Matches(uuid: string, c: Element) {
    IsEntry(c) && EntryOf(c).Some? && EntryOf(c).value.uuid == uuid
  }

  /** The callback on one group: the first matching Entry child removed, and an
      error to stop the walk; no change and success when there is none. */
  function RemoveStep(uuid: string, e: Element): (r: Modified<()>)
    ensures r.element.name == e.name && r.element.attributes == e.attributes
    ensures Size(r.element) <= Size(e)
  {
    match IndexOf(e.children, (c: Element) => Matches(uuid, c))
    case None => Modified(e, (), Ok(()))
    case Some(i) =>
      NodesSizeRemoveAt(e.children, i);
      Modified(e.(children := RemoveAt(e.children, i)), (), Err(NoSuchEntry))
  }

  function Remover(uuid: string): ((), Element) -> Modified<()> {
    (s: (), e: Element) => RemoveStep(uuid, e)
  }

  lemma RemoverShrinks(uuid: string)
    ensures Shrinking(Remover(uuid))
  {
  }

  /** The walk from a group. */
  function RemoveIn(e: Element, uuid: string): Modified<()> {
    RemoverShrinks(uuid);
    ModifyElement(e, IsGroup, IsGroup, Remover(uuid), ())
  }

  /** The walk over a sequence of children. */
  function RemoveAmong(nodes: seq<Node>, uuid: string): ModifiedNodes<()> {
    RemoverShrinks(uuid);
    ModifyNodes(nodes, IsGroup, IsGroup, Remover(uuid), ())
  }

  /** `remove_entry` on the tree: MissingRootGroup without a searched root group,
      NoSuchEntry when the walk removed nothing, otherwise the tree with the
      root group the walk left. */
  function RemoveEntryTree(xml: Element, uuid: string): (r: Result<Element>)
    ensures r.Err? ==> r.error == MissingRootGroup || r.error == NoSuchEntry
    ensures r.Err? && r.error == MissingRootGroup <==> RootGroup(xml).None?
  {
    match RootGroup(xml)
    case None => Err(MissingRootGroup)
    case Some(g) =>
      var m := RemoveIn(g, uuid);
      if m.result.Err? then Ok(WithRootGroup(xml, m.element)) else Err(NoSuchEntry)
  }

  // What the walk does, stated on the items a walk from the group finds.

  predicate NoMatch(items: seq<Element>, uuid: string) {
    forall i :: 0 <= i < |items| ==> !Matches(uuid, items[i])
  }

  /** `after` is `before` with one matching item taken out. */
  predicate RemovedOne(before: seq<Element>, after: seq<Element>, uuid: string) {
    exists p :: 0 <= p < |before| && Matches(uuid, before[p]) && after == before[..p] + before[p + 1..]
  }

  /** No group among the children holds a matching item. */
  predicate NoDeepMatch(nodes: seq<Node>, uuid: string) {
    forall k :: 0 <= k < |nodes| && nodes[k].Elem? && IsGroup(nodes[k].element) ==>
      NoMatch(Items(nodes[k].element.children, IsEntry, IsGroup), uuid)
  }

  lemma NoMatchAppend(a: seq<Element>, b: seq<Element>, uuid: string)
    ensures NoMatch(a + b, uuid) <==> NoMatch(a, uuid) && NoMatch(b, uuid)
  {
    if NoMatch(a, uuid) && NoMatch(b, uuid) {
      forall i | 0 <= i < |a + b|
        ensures !Matches(uuid, (a + b)[i])
      {
        if i >= |a| {
          assert (a + b)[i] == b[i - |a|];
        }
      }
    }
    if NoMatch(a + b, uuid) {
      forall i | 0 <= i < |a|
        ensures !Matches(uuid, a[i])
      {
        assert (a + b)[i] == a[i];
      }
      forall i | 0 <= i < |b|
        ensures !Matches(uuid, b[i])
      {
        assert (a + b)[|a| + i] == b[i];
      }
    }
  }

  lemma RemovedOneAt(a: seq<Element>, x: Element, b: seq<Element>, uuid: string)
    requires Matches(uuid, x)
    ensures RemovedOne(a + [x] + b, a + b, uuid)
  {
    var s := a + [x] + b;
    assert s[|a|] == x;
    assert s[..|a|] == a && s[|a| + 1..] == b;
  }

  lemma RemovedOnePrefix(a: seq<Element>, x: seq<Element>, y: seq<Element>, uuid: string)
    requires RemovedOne(x, y, uuid)
    ensures RemovedOne(a + x, a + y, uuid)
  {
    var p :| 0 <= p < |x| && Matches(uuid, x[p]) && y == x[..p] + x[p + 1..];
    SpliceAfter(a, x, p);
    assert Matches(uuid, (a + x)[|a| + p]);
  }

  lemma RemovedOneSuffix(x: seq<Element>, y: seq<Element>, b: seq<Element>, uuid: string)
    requires RemovedOne(x, y, uuid)
    ensures RemovedOne(x + b, y + b, uuid)
  {
    var p :| 0 <= p < |x| && Matches(uuid, x[p]) && y == x[..p] + x[p + 1..];
    SpliceBefore(x, b, p);
    assert Matches(uuid, (x + b)[p]);
  }

  /** Dropping item `p` of `x` inside `a + x`. */
  lemma SpliceAfter<T>(a: seq<T>, x: seq<T>, p: nat)
    requires p < |x|
    ensures (a + x)[|a| + p] == x[p]
    ensures (a + x)[..|a| + p] + (a + x)[|a| + p + 1..] == a + (x[..p] + x[p + 1..])
  {
    var s := a + x;
    assert s[..|a| + p] == a + x[..p] && s[|a| + p + 1..] == x[p + 1..];
  }

  /** Dropping item `p` of `x` inside `x + b`. */
  lemma SpliceBefore<T>(x: seq<T>, b: seq<T>, p: nat)
    requires p < |x|
    ensures (x + b)[p] == x[p]
    ensures (x + b)[..p] + (x + b)[p + 1..] == (x[..p] + x[p + 1..]) + b
  {
    var s := x + b;
    assert s[..p] == x[..p] && s[p + 1..] == x[p + 1..] + b;
  }

  lemma SplitAround(c: seq<Node>, i: nat)
    requires i < |c|
    ensures c == c[..i] + ([c[i]] + c[i + 1..])
    ensures RemoveAt(c, i) == c[..i] + c[i + 1..]
  {
  }

  /** The items found among children with an Entry child at `i` split around
      that entry. */
  lemma ItemsAroundEntry(c: seq<Node>, i: nat)
    requires i < |c| && c[i].Elem? && IsEntry(c[i].element)
    ensures Items(c, IsEntry, IsGroup)
            == Items(c[..i], IsEntry, IsGroup) + [c[i].element] + Items(c[i + 1..], IsEntry, IsGroup)
    ensures Items(RemoveAt(c, i), IsEntry, IsGroup) == Items(c[..i], IsEntry, IsGroup) + Items(c[i + 1..], IsEntry, IsGroup)
  {
    var a, b := c[..i], c[i + 1..];
    SplitAround(c, i);
    ItemsOfEntry(c[i].element);
    ItemsAppend(a, [c[i]] + b, IsEntry, IsGroup);
    ItemsAppend([c[i]], b, IsEntry, IsGroup);
    ItemsAppend(a, b, IsEntry, IsGroup);
  }

  /** Every item found among children is a matching-free direct child or lies in
      a matching-free group. */
  lemma {:induction false} NoMatchItems(nodes: seq<Node>, uuid: string)
    requires forall i :: 0 <= i < |nodes| && nodes[i].Elem? ==> !Matches(uuid, nodes[i].element)
    requires NoDeepMatch(nodes, uuid)
    ensures NoMatch(Items(nodes, IsEntry, IsGroup), uuid)
  {
    if nodes != [] {
      NoMatchItems(nodes[1..], uuid);
      assert forall k :: 0 <= k < |nodes[1..]| ==> nodes[1..][k] == nodes[k + 1];
      match nodes[0]
      case Text(_) =>
      case Elem(e) =>
        var own := if IsEntry(e) then [e] else [];
        NoMatchAppend(own, Below(e, IsEntry, IsGroup), uuid);
        NoMatchAppend(NodeItems(nodes[0], IsEntry, IsGroup), Items(nodes[1..], IsEntry, IsGroup), uuid);
    }
  }

  /** The first child of another name than the one removed stays the same. */
  lemma GetChildRemoveOther(e: Element, i: nat, name: string)
    requires i < |e.children| && e.children[i].Elem? && e.children[i].element.name != name
    ensures GetChild(e.(children := RemoveAt(e.children, i)), name) == GetChild(e, name)
  {
    var r := e.(children := RemoveAt(e.children, i));
    match ChildIndex(e, name)
    case Some(k) =>
      var k' := if k < i then k else k - 1;
      assert r.children[k'] == e.children[k];
      forall j | 0 <= j < k' && r.children[j].Elem?
        ensures r.children[j].element.name != name
      {
        if j >= i {
          assert r.children[j] == e.children[j + 1];
        }
      }
      ChildIndexIs(r, name, k');
    case None =>
      forall j | 0 <= j < |r.children| && r.children[j].Elem?
        ensures r.children[j].element.name != name
      {
        if j >= i {
          assert r.children[j] == e.children[j + 1];
        }
      }
  }

  lemma NoDeepMatchCons(nodes: seq<Node>, uuid: string)
    requires nodes != []
    requires nodes[0].Elem? && IsGroup(nodes[0].element) ==> NoMatch(Items(nodes[0].element.children, IsEntry, IsGroup), uuid)
    requires NoDeepMatch(nodes[1..], uuid)
    ensures NoDeepMatch(nodes, uuid)
  {
    forall k | 1 <= k < |nodes|
      ensures nodes[k] == nodes[1..][k - 1]
    {
    }
  }

  /** The walk from a searched group: when it succeeds it changed nothing and no
      item below the group matched; when it stops it has removed exactly one
      matching item and the group is still a searched group. */
  lemma {:induction false} RemoveGroupSpec(g: Element, uuid: string)
    requires IsGroup(g)
    ensures var m := RemoveIn(g, uuid);
            && m.element.name == g.name && IsGroup(m.element)
            && (m.result.Ok? ==> m.element == g && NoMatch(Items(g.children, IsEntry, IsGroup), uuid))
            && (m.result.Err? ==> RemovedOne(Items(g.children, IsEntry, IsGroup), Items(m.element.children, IsEntry, IsGroup), uuid))
    decreases Size(g), 0
  {
    var m := RemoveIn(g, uuid);
    match IndexOf(g.children, (c: Element) => Matches(uuid, c))
    case Some(i) =>
      var c := g.children;
      assert m.element.children == RemoveAt(c, i);
      ItemsAroundEntry(c, i);
      RemovedOneAt(Items(c[..i], IsEntry, IsGroup), c[i].element, Items(c[i + 1..], IsEntry, IsGroup), uuid);
      GetChildRemoveOther(g, i, "EnableSearching");
    case None =>
      var kids := RemoveAmong(g.children, uuid);
      assert m.element == g.(children := kids.nodes) && m.result == kids.result;
      RemoveNodesSpec(g.children, uuid);
      GetChildSameExcept(g, kids.nodes, "EnableSearching");
      if kids.result.Ok? {
        NoMatchItems(g.children, uuid);
      }
  }

  /** The walk over children: group children become groups and nothing else
      changes; on success nothing changed and no group among the children holds a
      matching item; on an error exactly one matching item was removed. */
  lemma {:induction false} RemoveNodesSpec(nodes: seq<Node>, uuid: string)
    ensures var m := RemoveAmong(nodes, uuid);
            && SameExcept(nodes, m.nodes, "EnableSearching")
            && (m.result.Ok? ==> m.nodes == nodes && NoDeepMatch(nodes, uuid))
            && (m.result.Err? ==> RemovedOne(Items(nodes, IsEntry, IsGroup), Items(m.nodes, IsEntry, IsGroup), uuid))
    decreases NodesSize(nodes), 1, |nodes|
  {
    if nodes != [] {
      var m := RemoveAmong(nodes, uuid);
      var rest := RemoveAmong(nodes[1..], uuid);
      match nodes[0]
      case Text(_) =>
        RemoveNodesSpec(nodes[1..], uuid);
        assert m == ModifiedNodes([nodes[0]] + rest.nodes, rest.state, rest.result);
        SameExceptCons(nodes[0], nodes[0], nodes[1..], rest.nodes, "EnableSearching");
        RemoveNodesStep(nodes, m.nodes, nodes[0], rest.nodes, uuid);
        if m.result.Ok? {
          NoDeepMatchCons(nodes, uuid);
        }
      case Elem(e) =>
        assert NodesSize(nodes) == Size(e) + NodesSize(nodes[1..]);
        var head := RemoveIn(e, uuid);
        assert head.state == ();
        if IsGroup(e) {
          RemoveGroupSpec(e, uuid);
        } else {
          assert head == Modified(e, (), Ok(()));
        }
        if head.result.Err? {
          assert m.nodes == [Elem(head.element)] + nodes[1..];
          SameExceptCons(nodes[0], Elem(head.element), nodes[1..], nodes[1..], "EnableSearching");
          assert nodes == [Elem(e)] + nodes[1..];
          RemoveNodesErrHead(e, head.element, nodes[1..], uuid);
        } else {
          RemoveNodesSpec(nodes[1..], uuid);
          assert m == ModifiedNodes([Elem(head.element)] + rest.nodes, rest.state, rest.result);
          SameExceptCons(nodes[0], Elem(head.element), nodes[1..], rest.nodes, "EnableSearching");
          RemoveNodesStep(nodes, m.nodes, nodes[0], rest.nodes, uuid);
          if m.result.Ok? {
            NoDeepMatchCons(nodes, uuid);
          }
        }
    }
  }

  /** The step of the walk over children where the first child is unchanged. */
  lemma RemoveNodesStep(nodes: seq<Node>, after: seq<Node>, n: Node, rest: seq<Node>, uuid: string)
    requires nodes != [] && nodes[0] == n && after == [n] + rest
    requires RemovedOne(Items(nodes[1..], IsEntry, IsGroup), Items(rest, IsEntry, IsGroup), uuid)
             || rest == nodes[1..]
    ensures RemovedOne(Items(nodes[1..], IsEntry, IsGroup), Items(rest, IsEntry, IsGroup), uuid)
            ==> RemovedOne(Items(nodes, IsEntry, IsGroup), Items(after, IsEntry, IsGroup), uuid)
    ensures rest == nodes[1..] ==> after == nodes
  {
    assert after[0] == n && after[1..] == rest;
    if RemovedOne(Items(nodes[1..], IsEntry, IsGroup), Items(rest, IsEntry, IsGroup), uuid) {
      RemovedOnePrefix(NodeItems(n, IsEntry, IsGroup), Items(nodes[1..], IsEntry, IsGroup), Items(rest, IsEntry, IsGroup), uuid);
    }
  }

  /** The step of the walk over children where the first child is a group from
      which the walk removed an item. */
  lemma RemoveNodesErrHead(e: Element, e': Element, rest: seq<Node>, uuid: string)
    requires IsGroup(e) && IsGroup(e')
    requires RemovedOne(Items(e.children, IsEntry, IsGroup), Items(e'.children, IsEntry, IsGroup), uuid)
    ensures RemovedOne(Items([Elem(e)] + rest, IsEntry, IsGroup), Items([Elem(e')] + rest, IsEntry, IsGroup), uuid)
  {
    ItemsCons(Elem(e), rest);
    ItemsCons(Elem(e'), rest);
    GroupNodeItems(e);
    GroupNodeItems(e');
    RemovedOneSuffix(Items(e.children, IsEntry, IsGroup), Items(e'.children, IsEntry, IsGroup),
                     Items(rest, IsEntry, IsGroup), uuid);
  }

  // What `remove_entry` does to the entries `get_entries` lists.

  /** No item matches exactly when no entry read from the items has the uuid. */
  lemma {:induction false} FilterNoMatch(items: seq<Element>, uuid: string)
    requires forall x :: x in items ==> IsEntry(x)
    ensures NoMatch(items, uuid) <==> forall x :: x in FilterEntries(items) ==> x.uuid != uuid
  {
    if items != [] {
      FilterNoMatch(items[1..], uuid);
      assert forall i :: 0 <= i < |items[1..]| ==> items[1..][i] == items[i + 1];
      if !NoMatch(items, uuid) && NoMatch(items[1..], uuid) {
        assert Matches(uuid, items[0]);
      }
    }
  }

  lemma FilterAround(a: seq<Element>, c: Element, b: seq<Element>)
    requires EntryOf(c).Some?
    ensures FilterEntries(a + ([c] + b)) == FilterEntries(a) + ([EntryOf(c).value] + FilterEntries(b))
    ensures FilterEntries(a + b) == FilterEntries(a) + FilterEntries(b)
  {
    FilterEntriesAppend(a, [c] + b);
    FilterEntriesAppend([c], b);
    FilterEntriesAppend(a, b);
    assert FilterEntries([c]) == [EntryOf(c).value] by {
      assert [c][1..] == [];
    }
  }

  /** Taking out one matching item takes out one entry with the uuid. */
  lemma FilterRemovedOne(items: seq<Element>, after: seq<Element>, uuid: string)
    requires RemovedOne(items, after, uuid)
    ensures var f := FilterEntries(items);
            exists k :: 0 <= k < |f| && f[k].uuid == uuid && FilterEntries(after) == f[..k] + f[k + 1..]
  {
    var p :| 0 <= p < |items| && Matches(uuid, items[p]) && after == items[..p] + items[p + 1..];
    var a, c, b := items[..p], items[p], items[p + 1..];
    SplitAt(items, p);
    assert EntryOf(c).Some? && EntryOf(c).value.uuid == uuid;
    FilterAround(a, c, b);
    var fa, e, fb := FilterEntries(a), EntryOf(c).value, FilterEntries(b);
    Around(fa, e, fb);
    assert FilterEntries(items) == fa + ([e] + fb) && FilterEntries(after) == fa + fb;
    var k := |fa|;
    assert FilterEntries(items)[k].uuid == uuid;
  }

  /** `remove_entry` succeeds exactly when `get_entries` lists an entry with the
      uuid, and then the listed entries lose exactly one entry with that uuid,
      the others staying in order. */
  lemma RemoveEntryListed(xml: Element, uuid: string)
    requires RootGroup(xml).Some?
    ensures var r := RemoveEntryTree(xml, uuid);
            var before := EntriesOf(xml);
            && (r.Ok? <==> exists i :: 0 <= i < |before| && before[i].uuid == uuid)
            && (r.Err? ==> r.error == NoSuchEntry)
            && (r.Ok? ==> exists k :: 0 <= k < |before| && before[k].uuid == uuid
                                      && EntriesOf(r.value) == before[..k] + before[k + 1..])
  {
    var g := RootGroup(xml).value;
    var m := RemoveIn(g, uuid);
    RemoveGroupSpec(g, uuid);
    ItemsAccepted(g.children, IsEntry, IsGroup);
    FilterNoMatch(GroupItems(g), uuid);
    var before := EntriesOf(xml);
    assert (forall x :: x in before ==> x.uuid != uuid) <==> !exists i :: 0 <= i < |before| && before[i].uuid == uuid;
    if m.result.Err? {
      RootGroupOfWith(xml, m.element);
      FilterRemovedOne(GroupItems(g), GroupItems(m.element), uuid);
    }
  }

  /** The entries with a uuid other than the given one, in order. */
  function Without(entries: seq<Entry>, uuid: string): seq<Entry> {
    if entries == [] then []
    else (if entries[0].uuid == uuid then [] else [entries[0]]) + Without(entries[1..], uuid)
  }

  lemma {:induction false} WithoutAppend(a: seq<Entry>, b: seq<Entry>, uuid: string)
    ensures Without(a + b, uuid) == Without(a, uuid) + Without(b, uuid)
  {
    if a == [] {
      assert a + b == b;
    } else {
      assert (a + b)[0] == a[0] && (a + b)[1..] == a[1..] + b;
      WithoutAppend(a[1..], b, uuid);
    }
  }

  lemma {:induction false} WithoutNone(entries: seq<Entry>, uuid: string)
    requires forall i :: 0 <= i < |entries| ==> entries[i].uuid != uuid
    ensures Without(entries, uuid) == entries
  {
    if entries != [] {
      WithoutNone(entries[1..], uuid);
    }
  }

  /** Dropping the only entry with the uuid is keeping the others. */
  lemma WithoutOne(s: seq<Entry>, k: nat, uuid: string)
    requires k < |s| && s[k].uuid == uuid
    requires forall i :: 0 <= i < |s| && i != k ==> s[i].uuid != uuid
    ensures Without(s, uuid) == s[..k] + s[k + 1..]
  {
    var a, b := s[..k], s[k + 1..];
    SplitAt(s, k);
    WithoutAppend(a, [s[k]] + b, uuid);
    WithoutAppend([s[k]], b, uuid);
    assert Without([s[k]], uuid) == [] by {
      assert [s[k]][1..] == [];
    }
    forall i | 0 <= i < |a|
      ensures a[i].uuid != uuid
    {
      assert a[i] == s[i];
    }
    forall i | 0 <= i < |b|
      ensures b[i].uuid != uuid
    {
      assert b[i] == s[k + 1 + i];
    }
    WithoutNone(a, uuid);
    WithoutNone(b, uuid);
  }

  /** With uuids that are unique, `remove_entry` removes the entry with the uuid
      and keeps every other entry, in order. */
  lemma RemoveUniqueEntry(xml: Element, uuid: string)
    requires RootGroup(xml).Some?
    requires forall i, j :: 0 <= i < j < |EntriesOf(xml)| ==> EntriesOf(xml)[i].uuid != EntriesOf(xml)[j].uuid
    ensures var r := RemoveEntryTree(xml, uuid);
            r.Ok? ==> EntriesOf(r.value) == Without(EntriesOf(xml), uuid)
  {
    var r := RemoveEntryTree(xml, uuid);
    RemoveEntryListed(xml, uuid);
    if r.Ok? {
      var before := EntriesOf(xml);
      var k :| 0 <= k < |before| && before[k].uuid == uuid && EntriesOf(r.value) == before[..k] + before[k + 1..];
      WithoutOne(before, k, uuid);
    }
  }
}

=== FILE: entry_update.dfy ===
/** `update_entry`: a modifier walk from the root group that takes Entry elements
    and descends into searched groups. The first Entry with a UUID child whose
    text is the entry's uuid is rewritten by `update_xml`, and that ends the walk
    with an error, which `update_entry` turns into success. */
module EntryUpdate {
  import opened Errors
  import opened XmlTree
  import opened ElementIterators
  import opened ElementModifiers
  import opened Entries
  import opened DatabaseTrees

  /** Some UUID child has the uuid as its text; it need not be the last one,
      which is the one `from_xml` reads. */
  predicate HasUuid(e: Element, uuid: string) {
    IndexOf(e.children, (c: Element) => c.name == "UUID" && TextContent(c) == uuid).Some?
  }

  /** The callback on one Entry element. */
  function UpdateStep(entry: Entry, protected: set<Field>, e: Element): (r: Modified<()>)
    ensures r.element.name == e.name
    ensures r.result.Ok? ==> r.element == e
  {
    if HasUuid(e, entry.uuid) then Modified(UpdateXml(entry, e, protected), (), Err(NoSuchEntry))
    else Modified(e, (), Ok(()))
  }

  function Updater(entry: Entry, protected: set<Field>): ((), Element) -> Modified<()> {
    (s: (), e: Element) => UpdateStep(entry, protected, e)
  }

  lemma UpdaterShrinks(entry: Entry, protected: set<Field>)
    ensures Shrinking(Updater(entry, protected))
  {
  }

  function UpdateIn(e: Element, entry: Entry, protected: set<Field>): Modified<()> {
    UpdaterShrinks(entry, protected);
    ModifyElement(e, IsEntry, IsGroup, Updater(entry, protected), ())
  }

  function UpdateAmong(nodes: seq<Node>, entry: Entry, protected: set<Field>): ModifiedNodes<()> {
    UpdaterShrinks(entry, protected);
    ModifyNodes(nodes, IsEntry, IsGroup, Updater(entry, protected), ())
  }

  /** `update_entry` on the tree: MissingRootGroup without a searched root group,
      NoSuchEntry when the walk rewrote nothing, otherwise the tree with the root
      group the walk left. */
  function UpdateEntryTree(xml: Element, entry: Entry, protected: set<Field>): (r: Result<Element>)
    ensures r.Err? ==> r.error == MissingRootGroup || r.error == NoSuchEntry
    ensures r.Err? && r.error == MissingRootGroup <==> RootGroup(xml).None?
  {
    match RootGroup(xml)
    case None => Err(MissingRootGroup)
    case Some(g) =>
      var m := UpdateIn(g, entry, protected);
      if m.result.Err? then Ok(WithRootGroup(xml, m.element)) else Err(NoSuchEntry)
  }

  // What the walk does, stated on the Entry elements a walk from the group finds.

  predicate NoneHas(items: seq<Element>, uuid: string) {
    forall i :: 0 <= i < |items| ==> !HasUuid(items[i], uuid)
  }

  /** `after` is `before` with its first item having the uuid rewritten. */
  predicate UpdatedFirst(before: seq<Element>, after: seq<Element>, entry: Entry, protected: set<Field>) {
    exists i :: 0 <= i < |before| && HasUuid(before[i], entry.uuid) && NoneHas(before[..i], entry.uuid)
                && after == before[i := UpdateXml(entry, before[i], protected)]
  }

  lemma NoneHasAppend(a: seq<Element>, b: seq<Element>, uuid: string)
    requires NoneHas(a, uuid) && NoneHas(b, uuid)
    ensures NoneHas(a + b, uuid)
  {
    forall i | |a| <= i < |a + b|
      ensures (a + b)[i] == b[i - |a|]
    {
    }
  }

  lemma UpdatedFirstPrefix(a: seq<Element>, x: seq<Element>, y: seq<Element>, entry: Entry, protected: set<Field>)
    requires NoneHas(a, entry.uuid) && UpdatedFirst(x, y, entry, protected)
    ensures UpdatedFirst(a + x, a + y, entry, protected)
  {
    var i :| 0 <= i < |x| && HasUuid(x[i], entry.uuid) && NoneHas(x[..i], entry.uuid)
             && y == x[i := UpdateXml(entry, x[i], protected)];
    UpdateAfter(a, x, i, UpdateXml(entry, x[i], protected));
    NoneHasAppend(a, x[..i], entry.uuid);
  }

  lemma UpdatedFirstSuffix(x: seq<Element>, y: seq<Element>, b: seq<Element>, entry: Entry, protected: set<Field>)
    requires UpdatedFirst(x, y, entry, protected)
    ensures UpdatedFirst(x + b, y + b, entry, protected)
  {
    var i :| 0 <= i < |x| && HasUuid(x[i], entry.uuid) && NoneHas(x[..i], entry.uuid)
             && y == x[i := UpdateXml(entry, x[i], protected)];
    UpdateBefore(x, b, i, UpdateXml(entry, x[i], protected));
  }

  /** Replacing item `i` of `x` inside `a + x`. */
  lemma UpdateAfter<T>(a: seq<T>, x: seq<T>, i: nat, v: T)
    requires i < |x|
    ensures (a + x)[|a| + i] == x[i] && (a + x)[..|a| + i] == a + x[..i]
    ensures a + x[i := v] == (a + x)[|a| + i := v]
  {
  }

  /** Replacing item `i` of `x` inside `x + b`. */
  lemma UpdateBefore<T>(x: seq<T>, b: seq<T>, i: nat, v: T)
    requires i < |x|
    ensures (x + b)[i] == x[i] && (x + b)[..i] == x[..i]
    ensures x[i := v] + b == (x + b)[i := v]
  {
  }

  lemma UpdatedFirstSingle(e: Element, entry: Entry, protected: set<Field>)
    requires HasUuid(e, entry.uuid)
    ensures UpdatedFirst([e], [UpdateXml(entry, e, protected)], entry, protected)
  {
    assert [e][..0] == [];
    assert [UpdateXml(entry, e, protected)] == [e][0 := UpdateXml(entry, e, protected)];
  }

  /** The walk from one element child: a searched group stays a searched group
      and an Entry an Entry; when the walk succeeds nothing changed and no item
      found from the element has the uuid; when it stops, the first such item was
      rewritten. */
  lemma {:induction false} UpdateElementSpec(e: Element, entry: Entry, protected: set<Field>)
    ensures var m := UpdateIn(e, entry, protected);
            && m.element.name == e.name
            && (IsGroup(e) ==> IsGroup(m.element))
            && (m.result.Ok? ==> m.element == e && NoneHas(NodeItems(Elem(e), IsEntry, IsGroup), entry.uuid))
            && (m.result.Err? ==> UpdatedFirst(NodeItems(Elem(e), IsEntry, IsGroup), NodeItems(Elem(m.element), IsEntry, IsGroup), entry, protected))
    decreases Size(e), 0
  {
    var m := UpdateIn(e, entry, protected);
    if IsEntry(e) {
      assert !IsGroup(e);
      assert m == UpdateStep(entry, protected, e);
      assert NodeItems(Elem(e), IsEntry, IsGroup) == [e] + [];
      assert NodeItems(Elem(m.element), IsEntry, IsGroup) == [m.element] + [];
      if m.result.Err? {
        assert HasUuid(e, entry.uuid) && m.element == UpdateXml(entry, e, protected);
        assert NodeItems(Elem(e), IsEntry, IsGroup) == [e];
        assert NodeItems(Elem(m.element), IsEntry, IsGroup) == [m.element];
        UpdatedFirstSingle(e, entry, protected);
      }
    } else if IsGroup(e) {
      var kids := UpdateAmong(e.children, entry, protected);
      assert m.element == e.(children := kids.nodes) && m.result == kids.result;
      UpdateNodesSpec(e.children, entry, protected);
      GetChildSameExcept(e, kids.nodes, "EnableSearching");
      GroupNodeItems(e);
      GroupNodeItems(m.element);
    } else {
      assert m == Modified(e, (), Ok(()));
      assert NodeItems(Elem(e), IsEntry, IsGroup) == [];
    }
  }

  /** The walk over children: entries and groups may change, keeping their
      names, and nothing else does; on success nothing changed and no item has
      the uuid; on an error the first item with the uuid was rewritten. */
  lemma {:induction false} UpdateNodesSpec(nodes: seq<Node>, entry: Entry, protected: set<Field>)
    ensures var m := UpdateAmong(nodes, entry, protected);
            && SameExcept(nodes, m.nodes, "EnableSearching")
            && (m.result.Ok? ==> m.nodes == nodes && NoneHas(Items(nodes, IsEntry, IsGroup), entry.uuid))
            && (m.result.Err? ==> UpdatedFirst(Items(nodes, IsEntry, IsGroup), Items(m.nodes, IsEntry, IsGroup), entry, protected))
    decreases NodesSize(nodes), 1, |nodes|
  {
    if nodes != [] {
      var m := UpdateAmong(nodes, entry, protected);
      var n := nodes[0];
      var rest := nodes[1..];
      assert nodes == [n] + rest;
      match n
      case Text(_) =>
        var r := UpdateAmong(rest, entry, protected);
        UpdateNodesSpec(rest, entry, protected);
        assert m == ModifiedNodes([n] + r.nodes, r.state, r.result);
        SameExceptCons(n, n, rest, r.nodes, "EnableSearching");
        assert NodeItems(n, IsEntry, IsGroup) == [];
        UpdateNodesTail(n, rest, r.nodes, entry, protected);
      case Elem(e) =>
        assert NodesSize(nodes) == Size(e) + NodesSize(rest);
        var head := UpdateIn(e, entry, protected);
        assert head.state == ();
        UpdateElementSpec(e, entry, protected);
        var n' := Elem(head.element);
        assert n == n' || (e.name != "EnableSearching" && head.element.name != "EnableSearching") by {
          if head.result.Err? {
            assert IsEntry(e) || IsGroup(e);
          }
        }
        if head.result.Err? {
          assert m.nodes == [n'] + rest;
          SameExceptCons(n, n', rest, rest, "EnableSearching");
          UpdateNodesHead(n, n', rest, entry, protected);
        } else {
          var r := UpdateAmong(rest, entry, protected);
          UpdateNodesSpec(rest, entry, protected);
          assert m == ModifiedNodes([n] + r.nodes, r.state, r.result);
          SameExceptCons(n, n, rest, r.nodes, "EnableSearching");
          UpdateNodesTail(n, rest, r.nodes, entry, protected);
        }
    }
  }

  /** The step of the walk over children where the first child was rewritten. */
  lemma UpdateNodesHead(n: Node, n': Node, rest: seq<Node>, entry: Entry, protected: set<Field>)
    requires UpdatedFirst(NodeItems(n, IsEntry, IsGroup), NodeItems(n', IsEntry, IsGroup), entry, protected)
    ensures UpdatedFirst(Items([n] + rest, IsEntry, IsGroup), Items([n'] + rest, IsEntry, IsGroup), entry, protected)
  {
    ItemsCons(n, rest);
    ItemsCons(n', rest);
    UpdatedFirstSuffix(NodeItems(n, IsEntry, IsGroup), NodeItems(n', IsEntry, IsGroup), Items(rest, IsEntry, IsGroup), entry, protected);
  }

  /** The step of the walk over children where the first child, none of whose
      items has the uuid, is kept and the walk goes on with the rest. */
  lemma UpdateNodesTail(n: Node, rest: seq<Node>, rest': seq<Node>, entry: Entry, protected: set<Field>)
    requires NoneHas(NodeItems(n, IsEntry, IsGroup), entry.uuid)
    ensures NoneHas(Items(rest, IsEntry, IsGroup), entry.uuid) ==> NoneHas(Items([n] + rest, IsEntry, IsGroup), entry.uuid)
    ensures UpdatedFirst(Items(rest, IsEntry, IsGroup), Items(rest', IsEntry, IsGroup), entry, protected)
            ==> UpdatedFirst(Items([n] + rest, IsEntry, IsGroup), Items([n] + rest', IsEntry, IsGroup), entry, protected)
  {
    ItemsCons(n, rest);
    ItemsCons(n, rest');
    if NoneHas(Items(rest, IsEntry, IsGroup), entry.uuid) {
      NoneHasAppend(NodeItems(n, IsEntry, IsGroup), Items(rest, IsEntry, IsGroup), entry.uuid);
    }
    if UpdatedFirst(Items(rest, IsEntry, IsGroup), Items(rest', IsEntry, IsGroup), entry, protected) {
      UpdatedFirstPrefix(NodeItems(n, IsEntry, IsGroup), Items(rest, IsEntry, IsGroup), Items(rest', IsEntry, IsGroup), entry, protected);
    }
  }

  /** `update_entry` succeeds exactly when an Entry the walk from the root group
      reaches has a UUID child reading the uuid; the first such Entry is
      rewritten and every other Entry stays as it was. */
  lemma UpdateEntryWalk(xml: Element, entry: Entry, protected: set<Field>)
    requires RootGroup(xml).Some?
    ensures var r := UpdateEntryTree(xml, entry, protected);
            var items := GroupItems(RootGroup(xml).value);
            && (r.Ok? <==> exists i :: 0 <= i < |items| && HasUuid(items[i], entry.uuid))
            && (r.Err? ==> r.error == NoSuchEntry)
            && (r.Ok? ==> RootGroup(r.value).Some?
                          && UpdatedFirst(items, GroupItems(RootGroup(r.value).value), entry, protected))
  {
    var g := RootGroup(xml).value;
    var m := UpdateIn(g, entry, protected);
    UpdateElementSpec(g, entry, protected);
    GroupNodeItems(g);
    GroupNodeItems(m.element);
    if m.result.Err? {
      RootGroupOfWith(xml, m.element);
    }
  }

  /** An element read as an entry has a UUID child with the entry's uuid. */
  lemma EntryHasUuid(x: Element)
    requires EntryOf(x).Some?
    ensures HasUuid(x, EntryOf(x).value.uuid)
  {
    var cs := ElementChildren(x.children);
    ReadChildrenUuid(NoFields, cs);
    var i :| 0 <= i < |cs| && cs[i].name == "UUID" && ElementFields(x).uuid == Some(TextContent(cs[i]));
    ElementChildrenFrom(x.children);
    assert cs[i] in cs;
    var j :| 0 <= j < |x.children| && x.children[j] == Elem(cs[i]);
    assert x.children[j].Elem?;
  }

  /** When every element reads as an entry, the entries are read one for one. */
  lemma {:induction false} FilterAll(items: seq<Element>)
    requires forall i :: 0 <= i < |items| ==> EntryOf(items[i]).Some?
    ensures |FilterEntries(items)| == |items|
    ensures forall i :: 0 <= i < |items| ==> FilterEntries(items)[i] == EntryOf(items[i]).value
  {
    if items != [] {
      FilterAll(items[1..]);
      assert forall i :: 1 <= i < |items| ==> items[1..][i - 1] == items[i];
    }
  }

  /** The entry `update_entry` writes, read back: the new fields with the old
      uuid, and the old tags when the update carries none. */
  function Updated(old_: Entry, entry: Entry): Entry {
    entry.(uuid := old_.uuid, tags := if entry.tags.Some? then entry.tags else old_.tags)
  }

  /** Rewriting one of the elements replaces its entry by the update. */
  lemma FilterUpdated(items: seq<Element>, i: nat, entry: Entry, protected: set<Field>)
    requires forall k :: 0 <= k < |items| ==> EntryOf(items[k]).Some?
    requires i < |items| && TagsRoundTrip(entry.tags)
    ensures var f := FilterEntries(items);
            |f| == |items| && FilterEntries(items[i := UpdateXml(entry, items[i], protected)]) == f[i := Updated(f[i], entry)]
  {
    var f := FilterEntries(items);
    var after := items[i := UpdateXml(entry, items[i], protected)];
    FilterAll(items);
    UpdateXmlRoundTrip(entry, items[i], protected);
    assert EntryOf(after[i]) == Some(Updated(f[i], entry));
    assert forall k :: 0 <= k < |after| && k != i ==> after[k] == items[k];
    FilterAll(after);
    var g := FilterEntries(after);
    forall k | 0 <= k < |f| && k != i
      ensures g[k] == f[k]
    {
      assert after[k] == items[k];
    }
    ReplaceAt(f, g, i, Updated(f[i], entry));
  }

  lemma ReplaceAt<T>(f: seq<T>, g: seq<T>, i: nat, v: T)
    requires |g| == |f| && i < |f| && g[i] == v
    requires forall k :: 0 <= k < |f| && k != i ==> g[k] == f[k]
    ensures g == f[i := v]
  {
  }

  /** Elements before the first with the uuid read as entries with other uuids. */
  lemma FilterBefore(items: seq<Element>, i: nat, uuid: string)
    requires forall k :: 0 <= k < |items| ==> EntryOf(items[k]).Some?
    requires i <= |items| && NoneHas(items[..i], uuid)
    ensures var f := FilterEntries(items);
            |f| == |items| && forall j :: 0 <= j < i ==> f[j].uuid != uuid
  {
    FilterAll(items);
    forall j | 0 <= j < i
      ensures FilterEntries(items)[j].uuid != uuid
    {
      assert items[..i][j] == items[j];
      EntryHasUuid(items[j]);
    }
  }

  lemma FoundIfListed(items: seq<Element>, uuid: string)
    requires forall k :: 0 <= k < |items| ==> EntryOf(items[k]).Some?
    requires exists i :: 0 <= i < |FilterEntries(items)| && FilterEntries(items)[i].uuid == uuid
    ensures exists i :: 0 <= i < |items| && HasUuid(items[i], uuid)
  {
    FilterAll(items);
    var i :| 0 <= i < |FilterEntries(items)| && FilterEntries(items)[i].uuid == uuid;
    EntryHasUuid(items[i]);
  }

  lemma UpdatedItems(items: seq<Element>, after: seq<Element>, entry: Entry, protected: set<Field>)
    requires forall k :: 0 <= k < |items| ==> EntryOf(items[k]).Some?
    requires UpdatedFirst(items, after, entry, protected) && TagsRoundTrip(entry.tags)
    ensures var f := FilterEntries(items);
            exists i :: 0 <= i < |f| && (forall j :: 0 <= j < i ==> f[j].uuid != entry.uuid)
                        && FilterEntries(after) == f[i := Updated(f[i], entry)]
  {
    var i :| 0 <= i < |items| && HasUuid(items[i], entry.uuid) && NoneHas(items[..i], entry.uuid)
             && after == items[i := UpdateXml(entry, items[i], protected)];
    FilterUpdated(items, i, entry, protected);
    FilterBefore(items, i, entry.uuid);
  }

  lemma ListedAfterUpdate(xml: Element, x: Element, entry: Entry, protected: set<Field>)
    requires RootGroup(xml).Some? && RootGroup(x).Some? && TagsRoundTrip(entry.tags)
    requires var items := GroupItems(RootGroup(xml).value);
             forall k :: 0 <= k < |items| ==> EntryOf(items[k]).Some?
    requires UpdatedFirst(GroupItems(RootGroup(xml).value), GroupItems(RootGroup(x).value), entry, protected)
    ensures var f := EntriesOf(xml);
            exists i :: 0 <= i < |f| && (forall j :: 0 <= j < i ==> f[j].uuid != entry.uuid)
                        && EntriesOf(x) == f[i := Updated(f[i], entry)]
  {
    var items := GroupItems(RootGroup(xml).value);
    var after := GroupItems(RootGroup(x).value);
    UpdatedItems(items, after, entry, protected);
    assert EntriesOf(xml) == FilterEntries(items) && EntriesOf(x) == FilterEntries(after);
  }

  /** When every Entry the walk reaches reads as an entry, `update_entry`
      succeeds whenever `get_entries` lists the uuid, and then the first listed
      entry with a UUID child reading the uuid is replaced by the update, the
      others staying as they were. */
  lemma UpdateEntryListed(xml: Element, entry: Entry, protected: set<Field>)
    requires RootGroup(xml).Some? && TagsRoundTrip(entry.tags)
    requires var items := GroupItems(RootGroup(xml).value);
             forall i :: 0 <= i < |items| ==> EntryOf(items[i]).Some?
    ensures var r := UpdateEntryTree(xml, entry, protected);
            var before := EntriesOf(xml);
            && ((exists i :: 0 <= i < |before| && before[i].uuid == entry.uuid) ==> r.Ok?)
            && (r.Ok? ==> exists i :: 0 <= i < |before| && (forall j :: 0 <= j < i ==> before[j].uuid != entry.uuid)
                                      && EntriesOf(r.value) == before[i := Updated(before[i], entry)])
  {
    var r := UpdateEntryTree(xml, entry, protected);
    UpdateEntryWalk(xml, entry, protected);
    if exists i :: 0 <= i < |EntriesOf(xml)| && EntriesOf(xml)[i].uuid == entry.uuid {
      FoundIfListed(GroupItems(RootGroup(xml).value), entry.uuid);
    }
    if r.Ok? {
      ListedAfterUpdate(xml, r.value, entry, protected);
    }
  }
}

=== FILE: errors.dfy ===
/** Error values of the database library, and the Option/Result wrappers every
    fallible operation of the model returns. */
module Errors {

  /** One constructor per variant of the library's error enumeration. Variants that
      wrap a foreign error value (I/O, UTF-8, XML) carry no payload here. */
  datatype Error =
    | Io
    | Encoding
    | XmlParsing
    | XmlSerialization
    | KeyDerivation
    | CorruptDatabase
    | UnsupportedVersion(major: int, minor: int)
    | UnsupportedHeaderFieldType(fieldType: int)
    | InvalidFieldSize
    | UnsupportedBlockCipher
    | UnsupportedStreamCipher(streamCipher: int)
    | UnsupportedCompression(compression: int)
    | UnsupportedVariantListVersion(listVersion: int)
    | UnsupportedVariantType(variantType: int)
    | KdfFieldMissingOrInvalid(field: string)
    | AesKdfUnsupported
    | UnsupportedKdf
    | KdfParameterExceedsRange
    | HeaderFieldsMissing
    | HeaderChecksumMismatch
    | InvalidCredentials
    | EncryptionError
    | DecryptionError
    | RandomNumberGeneratorFailed
    | UnsupportedBinaryFlags(flags: int)
    | MissingRootGroup
    | NoSuchEntry

  datatype Option<+T> = None | Some(value: T) {
    function GetOr(default: T): T {
      match this
      case Some(v) => v
      case None => default
    }
  }

  /** The result of a fallible operation; usable with `:-`. */
  datatype Result<+T> = Ok(value: T) | Err(error: Error) {
    predicate IsFailure() {
      Err?
    }

    function PropagateFailure<U>(): Result<U>
      requires Err?
    {
      Err(error)
    }

    function Extract(): T
      requires Ok?
    {
      value
    }
  }

  /** A success/failure outcome that carries no value; usable with `:-`. */
  datatype Outcome = Pass | Fail(error: Error) {
    predicate IsFailure() {
      Fail?
    }

    function PropagateFailure<U>(): Result<U>
      requires Fail?
    {
      Err(error)
    }
  }

  function Need(condition: bool, error: Error): Outcome {
    if condition then Pass else Fail(error)
  }

  /** An error that crosses a `std::io::Read` implementation: `?` turns it into
      an `io::Error`, and `?` on the caller's side turns that back into `Io`,
      whatever variant it started as. */
  function ThroughIo<T>(r: Result<T>): (o: Result<T>)
    ensures o.Ok? <==> r.Ok?
    ensures r.Ok? ==> o.value == r.value
    ensures o.Err? ==> o.error == Io
  {
    if r.Ok? then r else Err(Io)
  }
}

=== FILE: header_field_type.dfy ===
/** The one-byte record type codes of the outer and inner KDBX headers. */
module HeaderFieldType {
  import opened Errors
  import opened Bytes
  import NumericEnum

  const OuterSize: nat := NumericEnum.Size(8)

  datatype OuterHeaderFieldType =
    | EndOfHeader
    | Comment
    | Cipher
    | Compression
    | MainSeed
    | InitializationVector
    | KdfParameters
    | CustomData

  function OuterCode(t: OuterHeaderFieldType): (r: nat)
    ensures r < 0x100
  {
    match t
    case EndOfHeader => 0
    case Comment => 1
    case Cipher => 2
    case Compression => 3
    case MainSeed => 4
    case InitializationVector => 7
    case KdfParameters => 11
    case CustomData => 12
  }

  predicate IsOuterCode(x: int) {
    x in {0, 1, 2, 3, 4, 7, 11, 12}
  }

  /** `TryFrom<u8>`: a declared code gives its field type; any other byte is rejected
      with the byte itself in the error. */
  function OuterFromCode(x: nat): (r: Result<OuterHeaderFieldType>)
    ensures r.Ok? <==> IsOuterCode(x)
    ensures r.Ok? ==> OuterCode(r.value) == x
    ensures r.Err? ==> r.error == UnsupportedHeaderFieldType(x)
  {
    if x == 0 then Ok(EndOfHeader)
    else if x == 1 then Ok(Comment)
    else if x == 2 then Ok(Cipher)
    else if x == 3 then Ok(Compression)
    else if x == 4 then Ok(MainSeed)
    else if x == 7 then Ok(InitializationVector)
    else if x == 11 then Ok(KdfParameters)
    else if x == 12 then Ok(CustomData)
    else Err(UnsupportedHeaderFieldType(x))
  }

  lemma OuterCodeRoundTrip(t: OuterHeaderFieldType)
    ensures IsOuterCode(OuterCode(t)) && OuterFromCode(OuterCode(t)) == Ok(t)
  {
  }

  function SerializeOuter(t: OuterHeaderFieldType): (r: seq<byte>)
    ensures r == [OuterCode(t)]
  {
    NumericEnum.SerializeCode(OuterCode(t), OuterSize)
  }

  function DeserializeOuter(s: seq<byte>): (r: Result<Parsed<OuterHeaderFieldType>>)
    ensures s == [] ==> r == Err(Io)
    ensures s != [] && !IsOuterCode(s[0]) ==> r == Err(UnsupportedHeaderFieldType(s[0]))
    ensures r.Ok? ==> s != [] && OuterCode(r.value.value) == s[0] && r.value.rest == s[1..]
  {
    NumericEnum.DeserializeCode(OuterSize, OuterFromCode, s)
  }

  lemma DeserializeSerializeOuter(t: OuterHeaderFieldType, rest: seq<byte>)
    ensures DeserializeOuter(SerializeOuter(t) + rest) == Ok(Parsed(t, rest))
  {
    NumericEnum.DeserializeSerialize(OuterSize, OuterCode, OuterFromCode, t, rest);
  }

  const InnerSize: nat := NumericEnum.Size(8)

  datatype InnerHeaderFieldType =
    | InnerEndOfHeader
    | StreamCipher
    | StreamKey
    | Binary

  function InnerCode(t: InnerHeaderFieldType): (r: nat)
    ensures r < 0x100
  {
    match t
    case InnerEndOfHeader => 0
    case StreamCipher => 1
    case StreamKey => 2
    case Binary => 3
  }

  function InnerFromCode(x: nat): (r: Result<InnerHeaderFieldType>)
    ensures r.Ok? <==> x <= 3
    ensures r.Ok? ==> InnerCode(r.value) == x
    ensures r.Err? ==> r.error == UnsupportedHeaderFieldType(x)
  {
    if x == 0 then Ok(InnerEndOfHeader)
    else if x == 1 then Ok(StreamCipher)
    else if x == 2 then Ok(StreamKey)
    else if x == 3 then Ok(Binary)
    else Err(UnsupportedHeaderFieldType(x))
  }

  lemma InnerCodeRoundTrip(t: InnerHeaderFieldType)
    ensures InnerFromCode(InnerCode(t)) == Ok(t)
  {
  }

  function SerializeInner(t: InnerHeaderFieldType): (r: seq<byte>)
    ensures r == [InnerCode(t)]
  {
    NumericEnum.SerializeCode(InnerCode(t), InnerSize)
  }

  function DeserializeInner(s: seq<byte>): (r: Result<Parsed<InnerHeaderFieldType>>)
    ensures s == [] ==> r == Err(Io)
    ensures s != [] && s[0] > 3 ==> r == Err(UnsupportedHeaderFieldType(s[0]))
    ensures r.Ok? ==> s != [] && InnerCode(r.value.value) == s[0] && r.value.rest == s[1..]
  {
    NumericEnum.DeserializeCode(InnerSize, InnerFromCode, s)
  }

  lemma DeserializeSerializeInner(t: InnerHeaderFieldType, rest: seq<byte>)
    ensures DeserializeInner(SerializeInner(t) + rest) == Ok(Parsed(t, rest))
  {
    NumericEnum.DeserializeSerialize(InnerSize, InnerCode, InnerFromCode, t, rest);
  }
}

=== FILE: hmac_block_stream.dfy ===
/** The authenticated block stream that carries the encrypted payload: blocks of
    at most 1 MiB, each written as its HMAC (32 bytes), its length as a u32 and
    its data, numbered from 0 and ended by an empty block. */
module HmacBlockStream {
  import opened Errors
  import opened Bytes
  import opened Primitives
  import opened KeySchedule

  /** `BLOCK_SIZE` */
  const BlockSize: nat := 1024 * 1024

  /** Block lengths the writer can produce. */
  ghost predicate Fits(blocks: seq<seq<byte>>) {
    forall i :: 0 <= i < |blocks| ==> |blocks[i]| <= BlockSize
  }

  /** One block as it appears in the stream. */
  function Frame(p: Primitives, k: Keys, index: int, data: seq<byte>): (r: seq<byte>)
    requires |data| <= BlockSize
    ensures |r| == 36 + |data|
  {
    BlockHmac(p, k, index, data) + WriteU32(|data|) + data
  }

  /** The blocks numbered from `start`, one after the other. */
  function Frames(p: Primitives, k: Keys, start: int, blocks: seq<seq<byte>>): seq<byte>
    requires Fits(blocks)
    decreases |blocks|
  {
    if blocks == [] then [] else Frame(p, k, start, blocks[0]) + Frames(p, k, start + 1, blocks[1..])
  }

  /** The data of all blocks, in order. */
  function Flatten(blocks: seq<seq<byte>>): seq<byte> {
    if blocks == [] then [] else blocks[0] + Flatten(blocks[1..])
  }

  lemma AppendAssoc(a: seq<byte>, b: seq<byte>, c: seq<byte>)
    ensures (a + b) + c == a + (b + c)
  {
  }

  lemma {:induction false} FramesAppend(p: Primitives, k: Keys, start: int, blocks: seq<seq<byte>>, b: seq<byte>)
    requires Fits(blocks) && |b| <= BlockSize
    ensures Fits(blocks + [b])
    ensures Frames(p, k, start, blocks + [b]) == Frames(p, k, start, blocks) + Frame(p, k, start + |blocks|, b)
    decreases |blocks|
  {
    if blocks != [] {
      FramesAppend(p, k, start + 1, blocks[1..], b);
      FramesConsAppend(p, k, start, blocks, b);
    } else {
      assert Frames(p, k, start, [b]) == Frame(p, k, start, b) + Frames(p, k, start + 1, []);
    }
  }

  /** The inductive step of `FramesAppend`: the claim for the blocks after the
      first gives it for all of them. */
  lemma FramesConsAppend(p: Primitives, k: Keys, start: int, blocks: seq<seq<byte>>, b: seq<byte>)
    requires Fits(blocks) && |b| <= BlockSize && blocks != []
    requires Fits(blocks[1..] + [b])
    requires Frames(p, k, start + 1, blocks[1..] + [b])
             == Frames(p, k, start + 1, blocks[1..]) + Frame(p, k, start + |blocks|, b)
    ensures Fits(blocks + [b])
    ensures Frames(p, k, start, blocks + [b]) == Frames(p, k, start, blocks) + Frame(p, k, start + |blocks|, b)
  {
    assert (blocks + [b])[1..] == blocks[1..] + [b];
    AppendAssoc(Frame(p, k, start, blocks[0]), Frames(p, k, start + 1, blocks[1..]), Frame(p, k, start + |blocks|, b));
  }

  lemma {:induction false} FlattenAppend(blocks: seq<seq<byte>>, b: seq<byte>)
    ensures Flatten(blocks + [b]) == Flatten(blocks) + b
    decreases |blocks|
  {
    if blocks != [] {
      assert (blocks + [b])[1..] == blocks[1..] + [b];
      FlattenAppend(blocks[1..], b);
      AppendAssoc(blocks[0], Flatten(blocks[1..]), b);
    } else {
      assert Flatten([b]) == b + Flatten([]);
    }
  }

  // ---- reading ---------------------------------------------------------------

  /** `next_block` without the state: the expected HMAC, the length, the data,
      and the HMAC check under the block's index. */
  function ReadFrame(p: Primitives, k: Keys, index: int, s: seq<byte>): (r: Result<Parsed<seq<byte>>>)
    ensures r.Ok? ==> |r.value.rest| + 36 + |r.value.value| == |s| && |r.value.value| < 0x1_0000_0000
    ensures r.Ok? ==> s[..32] == BlockHmac(p, k, index, r.value.value)
    ensures r.Err? ==> r.error == Io || r.error == CorruptDatabase
  {
    var expected :- ReadBytes(32, s);
    var size :- ReadU32(expected.rest);
    var block :- ReadBytes(size.value, size.rest);
    if BlockHmac(p, k, index, block.value) != expected.value then Err(CorruptDatabase)
    else Ok(Parsed(block.value, block.rest))
  }

  /** The data of a stream read from block `index` on, up to its empty block. */
  function DecodeStream(p: Primitives, k: Keys, index: int, s: seq<byte>): (r: Result<seq<byte>>)
    decreases |s|
  {
    var frame :- ReadFrame(p, k, index, s);
    if frame.value == [] then Ok([])
    else
      var tail :- DecodeStream(p, k, index + 1, frame.rest);
      Ok(frame.value + tail)
  }

  /** One block of the stream read: an error stops the stream, an empty block
      ends it, any other block comes first in what follows. */
  lemma DecodeStreamStep(p: Primitives, k: Keys, index: int, s: seq<byte>)
    ensures var f := ReadFrame(p, k, index, s);
            && (f.Err? ==> DecodeStream(p, k, index, s) == Err(f.error))
            && (f.Ok? && f.value.value == [] ==> DecodeStream(p, k, index, s) == Ok([]))
            && (f.Ok? && f.value.value != [] ==>
                  DecodeStream(p, k, index, s) == Prepend(f.value.value, DecodeStream(p, k, index + 1, f.value.rest)))
  {
  }

  lemma ReadFrameOf(p: Primitives, k: Keys, index: int, data: seq<byte>, rest: seq<byte>)
    requires |data| <= BlockSize
    ensures ReadFrame(p, k, index, Frame(p, k, index, data) + rest) == Ok(Parsed(data, rest))
  {
    var hmac := BlockHmac(p, k, index, data);
    var size := WriteU32(|data|);
    assert Frame(p, k, index, data) + rest == hmac + (size + (data + rest));
    ReadBytesOfConcat(hmac, size + (data + rest));
    ReadWriteU32(|data|, data + rest);
    ReadBytesOfConcat(data, rest);
  }

  /** Non-empty blocks followed by one empty block. */
  ghost predicate Terminated(blocks: seq<seq<byte>>) {
    |blocks| > 0 && blocks[|blocks| - 1] == []
    && forall i :: 0 <= i < |blocks| - 1 ==> blocks[i] != []
  }

  /** A terminated run of blocks reads back as the concatenation of their data;
      what follows the empty block is not read. */
  lemma {:induction false} DecodeFrames(p: Primitives, k: Keys, start: int, blocks: seq<seq<byte>>, rest: seq<byte>)
    requires Fits(blocks) && Terminated(blocks)
    ensures DecodeStream(p, k, start, Frames(p, k, start, blocks) + rest) == Ok(Flatten(blocks))
    decreases |blocks|
  {
    var tail := Frames(p, k, start + 1, blocks[1..]);
    assert Frames(p, k, start, blocks) + rest == Frame(p, k, start, blocks[0]) + (tail + rest) by {
      AppendAssoc(Frame(p, k, start, blocks[0]), tail, rest);
    }
    ReadFrameOf(p, k, start, blocks[0], tail + rest);
    if |blocks| > 1 {
      assert Terminated(blocks[1..]) by {
        assert forall i :: 0 <= i < |blocks| - 2 ==> blocks[1..][i] == blocks[i + 1];
      }
      DecodeFrames(p, k, start + 1, blocks[1..], rest);
    } else {
      assert Flatten(blocks) == [] + Flatten([]);
    }
  }

  /** `decrypt` reads with `read_to_end`: the data so far in front of a result. */
  function Prepend(data: seq<byte>, r: Result<seq<byte>>): (q: Result<seq<byte>>)
    ensures q.Ok? <==> r.Ok?
  {
    if r.Ok? then Ok(data + r.value) else r
  }

  lemma PrependTwice(a: seq<byte>, b: seq<byte>, r: Result<seq<byte>>)
    ensures Prepend(a, Prepend(b, r)) == Prepend(a + b, r)
  {
    if r.Ok? {
      AppendAssoc(a, b, r.value);
    }
  }

  lemma PrependNothing(r: Result<seq<byte>>)
    ensures Prepend([], r) == r
  {
    if r.Ok? {
      assert [] + r.value == r.value;
    }
  }

  /** Handing out the next `n` bytes of a block. */
  lemma TakePending(block: seq<byte>, pos: nat, n: nat, rest: Result<seq<byte>>)
    requires pos + n <= |block|
    ensures Prepend(block[pos..], rest) == Prepend(block[pos..pos + n], Prepend(block[pos + n..], rest))
  {
    assert block[pos..] == block[pos..pos + n] + block[pos + n..];
    PrependTwice(block[pos..pos + n], block[pos + n..], rest);
  }

  /** `HmacBlockStreamReader`: the stream still to read, the index of the last
      block read, and the part of the current block not yet handed out. */
  class Reader {
    const p: Primitives
    const keys: Keys
    var input: seq<byte>
    var index: int
    var current: Option<seq<byte>>
    var pos: nat

    ghost predicate Valid()
      reads this
    {
      current.Some? ==> pos < |current.value|
    }

    /** The bytes of the current block the caller has not had yet. */
    function Pending(): (r: seq<byte>)
      requires Valid()
      reads this
      ensures current.None? ==> r == []
    {
      if current.Some? then current.value[pos..] else []
    }

    /** Everything the reader will still deliver, or the error it will meet. */
    function Expected(): Result<seq<byte>>
      requires Valid()
      reads this
    {
      Prepend(Pending(), DecodeStream(p, keys, index + 1, input))
    }

    /** `new`: index -1, so the first block is checked under index 0. */
    constructor(p: Primitives, keys: Keys, input: seq<byte>)
      ensures Valid() && this.p == p && this.keys == keys && this.input == input
      ensures index == -1 && current.None? && pos == 0
      ensures Expected() == DecodeStream(p, keys, 0, input)
    {
      this.p := p;
      this.keys := keys;
      this.input := input;
      index := -1;
      current := None;
      pos := 0;
      new;
      assert Prepend([], DecodeStream(p, keys, 0, input)) == DecodeStream(p, keys, 0, input) by {
        if DecodeStream(p, keys, 0, input).Ok? {
          assert [] + DecodeStream(p, keys, 0, input).value == DecodeStream(p, keys, 0, input).value;
        }
      }
    }

    /** `next_block`: a block whose HMAC does not match is refused before any of
        it becomes current; an empty block leaves nothing current. */
    method NextBlock() returns (r: Result<()>)
      requires Valid() && current.None?
      modifies this
      ensures Valid() && index == old(index) + 1
      ensures r.Err? ==> old(Expected()) == Err(r.error)
      ensures r.Ok? && current.None? ==> old(Expected()) == Ok([])
      ensures r.Ok? && current.Some? ==> old(Expected()) == Expected() && |input| < old(|input|)
      ensures var f := ReadFrame(p, keys, index, old(input));
              && (r.Err? <==> f.Err?)
              && (r.Err? ==> r.error == f.error && current.None?)
              && (r.Ok? ==> input == f.value.rest && pos == 0
                            && current == if f.value.value == [] then None else Some(f.value.value))
    {
      ghost var stream := DecodeStream(p, keys, index + 1, input);
      assert old(Expected()) == stream by {
        PrependNothing(stream);
      }
      index := index + 1;
      var frame := ReadFrame(p, keys, index, input);
      if frame.Err? {
        assert stream == Err(frame.error) by {
          DecodeStreamStep(p, keys, index, old(input));
        }
        return Err(frame.error);
      }
      input := frame.value.rest;
      pos := 0;
      if frame.value.value != [] {
        current := Some(frame.value.value);
        assert stream == Expected() by {
          DecodeStreamStep(p, keys, index, old(input));
          assert current.value[0..] == current.value;
        }
      } else {
        assert stream == Ok([]) by {
          DecodeStreamStep(p, keys, index, old(input));
        }
      }
      return Ok(());
    }

    /** `read` into a buffer of `n` bytes: at most `n` bytes of the current
        block, fetching the next block first when none is current. */
    method Read(n: nat) returns (r: Result<seq<byte>>)
      requires Valid()
      modifies this
      ensures Valid()
      ensures r.Ok? ==> |r.value| <= n
      ensures r.Err? ==> r.error == Io && old(Expected()).Err?
      ensures r.Ok? && r.value != [] ==> old(Expected()) == Prepend(r.value, Expected())
      ensures r.Ok? && r.value == [] && n > 0 ==> old(Expected()) == Ok([])
      ensures r.Ok? && r.value != [] ==>
                |input| < old(|input|) || (|input| == old(|input|) && |Pending()| < old(|Pending()|))
    {
      if current.None? {
        var next := NextBlock();
        if next.Err? {
          return Err(Io);
        }
        if current.None? {
          return Ok([]);
        }
      }
      r := ReadCurrent(n);
    }

    /** `read` once a block is current: what it hands out is the front of what
        the reader will deliver. */
    method ReadCurrent(n: nat) returns (r: Result<seq<byte>>)
      requires Valid() && current.Some?
      modifies this
      ensures Valid() && input == old(input)
      ensures r.Ok? && |r.value| <= n && (n > 0 ==> r.value != [])
      ensures old(Expected()) == Prepend(r.value, Expected())
      ensures |Pending()| < old(|Pending()|) || (n == 0 && Pending() == old(Pending()))
    {
      ghost var following := DecodeStream(p, keys, index + 1, input);
      r := CopyOut(n);
      PrependTwice(r.value, Pending(), following);
    }

    /** The copying half of `read`: at most `n` bytes of the current block; the
        block stops being current once it is all handed out. */
    method CopyOut(n: nat) returns (r: Result<seq<byte>>)
      requires Valid() && current.Some?
      modifies this
      ensures Valid() && input == old(input) && index == old(index)
      ensures r.Ok? && |r.value| <= n && (n > 0 ==> r.value != [])
      ensures old(Pending()) == r.value + Pending()
      ensures |Pending()| < old(|Pending()|) || (n == 0 && Pending() == old(Pending()))
    {
      var block := current.value;
      var remaining := |block| - pos;
      if n < remaining {
        r := Ok(block[pos..pos + n]);
        assert block[pos..] == block[pos..pos + n] + block[pos + n..];
        pos := pos + n;
      } else {
        r := Ok(block[pos..]);
        current := None;
        assert block[pos..] + [] == block[pos..];
      }
    }

    /** `read_to_end` with buffers of `chunk` bytes: the data of every block up to
        the empty one, or the first error, which reaches the caller as `Io`; the
        buffer size makes no difference. */
    method ReadToEnd(chunk: nat) returns (r: Result<seq<byte>>)
      requires Valid() && chunk > 0
      modifies this
      ensures r == ThroughIo(old(Expected()))
    {
      var data: seq<byte> := [];
      assert Prepend([], Expected()) == Expected() by {
        if Expected().Ok? {
          assert [] + Expected().value == Expected().value;
        }
      }
      while true
        invariant Valid()
        invariant old(Expected()) == Prepend(data, Expected())
        decreases |input|, |Pending()|
      {
        var got := Read(chunk);
        if got.Err? {
          return Err(Io);
        }
        if got.value == [] {
          assert data + [] == data;
          return Ok(data);
        }
        PrependTwice(data, got.value, Expected());
        data := data + got.value;
      }
    }
  }

  // ---- writing ---------------------------------------------------------------

  /** Blocks cut at the full block size. */
  ghost predicate FullBlocks(blocks: seq<seq<byte>>) {
    forall i :: 0 <= i < |blocks| ==> |blocks[i]| == BlockSize
  }

  lemma FullBlocksAppend(bs: seq<seq<byte>>, b: seq<byte>)
    requires FullBlocks(bs) && |b| == BlockSize
    ensures FullBlocks(bs + [b])
  {
  }

  lemma TakeMore(buf: seq<byte>, done: nat, n: nat)
    requires done + n <= |buf|
    ensures buf[..done] + buf[done..][..n] == buf[..done + n]
  {
  }

  /** `HmacBlockStreamWriter`: the index of the next block, the bytes not yet in
      a block, and the stream written so far. The blocks emitted and the bytes
      accepted are ghost bookkeeping. */
  class Writer {
    const p: Primitives
    const keys: Keys
    var index: int
    var current: seq<byte>
    var output: seq<byte>
    ghost var blocks: seq<seq<byte>>
    ghost var accepted: seq<byte>

    /** The stream holds the emitted blocks numbered from 0, and every byte
        accepted is in a block or pending. */
    ghost predicate Framed()
      reads this
    {
      && |current| <= BlockSize
      && index == |blocks|
      && Fits(blocks)
      && output == Frames(p, keys, 0, blocks)
      && accepted == Flatten(blocks) + current
    }

    /** Between calls the pending bytes are less than a block. */
    ghost predicate Valid()
      reads this
    {
      Framed() && |current| < BlockSize
    }

    constructor(p: Primitives, keys: Keys)
      ensures Valid() && this.p == p && this.keys == keys
      ensures index == 0 && current == [] && output == [] && blocks == [] && accepted == []
    {
      this.p := p;
      this.keys := keys;
      index := 0;
      current := [];
      output := [];
      blocks := [];
      accepted := [];
    }

    /** `write_block`: emit the pending bytes as the next block. */
    method WriteBlock()
      requires Framed()
      modifies this
      ensures Valid()
      ensures blocks == old(blocks) + [old(current)]
      ensures output == old(output) + Frame(p, keys, old(index), old(current))
      ensures index == old(index) + 1 && current == [] && accepted == old(accepted)
    {
      FramesAppend(p, keys, 0, blocks, current);
      FlattenAppend(blocks, current);
      output := output + Frame(p, keys, index, current);
      blocks := blocks + [current];
      index := index + 1;
      assert accepted == Flatten(blocks) + [];
      current := [];
    }

    /** `write`: take as much of `buf` as fits in the current block, and emit the
        block when it is full. */
    method Write(buf: seq<byte>) returns (n: nat)
      requires Valid()
      modifies this
      ensures Valid()
      ensures n == if |buf| < BlockSize - |old(current)| then |buf| else BlockSize - |old(current)|
      ensures n <= |buf| && accepted == old(accepted) + buf[..n]
      ensures |buf| > 0 ==> n > 0
      ensures |buf| < BlockSize - |old(current)| ==>
                blocks == old(blocks) && output == old(output) && current == old(current) + buf
      ensures |buf| >= BlockSize - |old(current)| ==>
                blocks == old(blocks) + [old(current) + buf[..n]] && current == []
                && |blocks[|blocks| - 1]| == BlockSize
    ensures FullBlocks(old(blocks)) ==> FullBlocks(blocks)
    {
      var remaining := BlockSize - |current|;
      if |buf| < remaining {
        AppendAssoc(Flatten(blocks), current, buf);
        assert buf[..|buf|] == buf;
        current := current + buf;
        accepted := accepted + buf;
        n := |buf|;
      } else {
        AppendAssoc(Flatten(blocks), current, buf[..remaining]);
        current := current + buf[..remaining];
        accepted := accepted + buf[..remaining];
        ghost var full := FullBlocks(blocks);
        WriteBlock();
        n := remaining;
        if full {
          FullBlocksAppend(old(blocks), blocks[|blocks| - 1]);
        }
      }
    }

    /** `write_all`: `write` until every byte of `buf` is taken. Every block it
        emits is full. */
    method WriteAll(buf: seq<byte>)
      requires Valid()
      modifies this
      ensures Valid() && accepted == old(accepted) + buf
      ensures FullBlocks(old(blocks)) ==> FullBlocks(blocks)
    {
      var rest := buf;
      while rest != []
        invariant Valid()
        invariant |rest| <= |buf| && rest == buf[|buf| - |rest|..]
        invariant accepted == old(accepted) + buf[..|buf| - |rest|]
        invariant FullBlocks(old(blocks)) ==> FullBlocks(blocks)
        decreases |rest|
      {
        ghost var done := |buf| - |rest|;
        var n := Write(rest);
        assert accepted == old(accepted) + buf[..done + n] by {
          TakeMore(buf, done, n);
          AppendAssoc(old(accepted), buf[..done], rest[..n]);
        }
        rest := rest[n..];
      }
      assert buf[..|buf|] == buf;
    }

    /** `finish`: the pending bytes as a block if there are any, then an empty
        block to end the stream. */
    method Finish()
      requires Valid()
      modifies this
      ensures Valid() && accepted == old(accepted) && current == []
      ensures old(current) != [] ==> blocks == old(blocks) + [old(current), []]
      ensures old(current) == [] ==> blocks == old(blocks) + [[]]
      ensures Flatten(blocks) == accepted
    {
      if current != [] {
        WriteBlock();
        assert blocks == old(blocks) + [old(current)];
      }
      WriteBlock();
      assert accepted == Flatten(blocks) + [];
    }

    /** `flush`: the pending bytes as a block, even when there are none. */
    method Flush()
      requires Valid()
      modifies this
      ensures Valid() && accepted == old(accepted)
      ensures blocks == old(blocks) + [old(current)]
    {
      WriteBlock();
    }
  }

  /** Full blocks, then perhaps a partial one, then the empty block: what
      `write_all` followed by `finish` leaves. */
  lemma FinishedBlocksTerminated(full: seq<seq<byte>>, last: seq<seq<byte>>)
    requires FullBlocks(full)
    requires last == [[]] || (|last| == 2 && last[0] != [] && last[1] == [])
    ensures Terminated(full + last)
  {
    var all := full + last;
    forall i | 0 <= i < |all| - 1
      ensures all[i] != []
    {
      if i < |full| {
        assert |all[i]| == BlockSize;
      }
    }
  }

  /** `save`'s use of the writer: all the data, then `finish`. What the reader
      gets back from that stream is the data. */
  method WriteStream(p: Primitives, keys: Keys, data: seq<byte>) returns (out: seq<byte>)
    ensures DecodeStream(p, keys, 0, out) == Ok(data)
  {
    var w := new Writer(p, keys);
    w.WriteAll(data);
    assert w.accepted == data;
    ghost var full := w.blocks;
    ghost var pending := w.current;
    w.Finish();
    ghost var blocks := w.blocks;
    assert Terminated(blocks) by {
      if pending != [] {
        FinishedBlocksTerminated(full, [pending, []]);
      } else {
        FinishedBlocksTerminated(full, [[]]);
      }
    }
    out := w.output;
    assert out == Frames(p, keys, 0, blocks) + [];
    assert Flatten(blocks) == data;
    DecodeFrames(p, keys, 0, blocks, []);
  }
}

=== FILE: io.dfy ===
/** Fixed-width little-endian integers and sized byte reads (the library's
    Serialize/Deserialize implementations for integers and byte vectors).
    A reader takes the remaining input and returns the value read together with
    the input that follows it. */
module Bytes {
  import opened Errors

  type byte = x: int | 0 <= x < 0x100
  type u16 = x: int | 0 <= x < 0x1_0000
  type u32 = x: int | 0 <= x < 0x1_0000_0000
  type u64 = x: int | 0 <= x < 0x1_0000_0000_0000_0000
  type i32 = x: int | -0x8000_0000 <= x < 0x8000_0000
  type i64 = x: int | -0x8000_0000_0000_0000 <= x < 0x8000_0000_0000_0000

  /** A value read from the front of the input, and the input that follows it. */
  datatype Parsed<+T> = Parsed(value: T, rest: seq<byte>)

  function Pow256(n: nat): (r: nat)
    ensures r >= 1
  {
    if n == 0 then 1 else 256 * Pow256(n - 1)
  }

  function Pow2(n: nat): (r: nat)
    ensures r >= 1
  {
    if n == 0 then 1 else 2 * Pow2(n - 1)
  }

  /** The `n` little-endian bytes of `x` (`to_le_bytes` of an n-byte unsigned integer). */
  function EncodeLE(x: nat, n: nat): (r: seq<byte>)
    requires x < Pow256(n)
    ensures |r| == n
  {
    if n == 0 then [] else [x % 256] + EncodeLE(x / 256, n - 1)
  }

  /** The unsigned integer whose little-endian bytes are `s` (`from_le_bytes`). */
  function DecodeLE(s: seq<byte>): (r: nat)
    ensures r < Pow256(|s|)
  {
    if s == [] then 0 else s[0] + 256 * DecodeLE(s[1..])
  }

  lemma {:induction false} DecodeEncodeLE(x: nat, n: nat)
    requires x < Pow256(n)
    ensures DecodeLE(EncodeLE(x, n)) == x
  {
    if n > 0 {
      DecodeEncodeLE(x / 256, n - 1);
      assert EncodeLE(x, n)[1..] == EncodeLE(x / 256, n - 1);
    }
  }

  lemma {:induction false} EncodeDecodeLE(s: seq<byte>)
    ensures EncodeLE(DecodeLE(s), |s|) == s
  {
    if s != [] {
      var d := DecodeLE(s[1..]);
      Digit256(d, s[0]);
      EncodeDecodeLE(s[1..]);
      assert EncodeLE(DecodeLE(s), |s|) == [s[0]] + EncodeLE(d, |s| - 1);
    }
  }

  /** Splitting `b + 256 * a` with `b` a byte. */
  lemma Digit256(a: nat, b: byte)
    ensures (b + 256 * a) % 256 == b && (b + 256 * a) / 256 == a
  {
  }

  /** Two's-complement view of a signed value as an unsigned one of `n` bytes. */
  function ToUnsigned(x: int, n: nat): (r: nat)
    requires n > 0 && 0 <= x + Pow256(n) / 2 && x < Pow256(n) / 2
    ensures r < Pow256(n)
    ensures x >= 0 ==> r == x
    ensures x < 0 ==> r == x + Pow256(n)
  {
    if x < 0 then x + Pow256(n) else x
  }

  function FromUnsigned(u: nat, n: nat): (r: int)
    requires n > 0 && u < Pow256(n)
    ensures 0 <= r + Pow256(n) / 2 && r < Pow256(n) / 2
    ensures ToUnsigned(r, n) == u
  {
    Pow256Even(n);
    if u >= Pow256(n) / 2 then u - Pow256(n) else u
  }

  lemma Pow256Even(n: nat)
    requires n > 0
    ensures Pow256(n) == 2 * (Pow256(n) / 2)
  {
    var m := Pow256(n - 1);
    assert Pow256(n) == 2 * (128 * m);
  }

  // ---- writers ----------------------------------------------------------

  function WriteU8(x: byte): (r: seq<byte>)
    ensures r == [x]
  {
    EncodeLE(x, 1)
  }

  function WriteU16(x: u16): (r: seq<byte>)
    ensures |r| == 2 && DecodeLE(r) == x
  {
    DecodeEncodeLE(x, 2);
    EncodeLE(x, 2)
  }

  /** `n as u32`: a length cast to u32 keeps its low 32 bits. */
  function AsU32(n: nat): (r: u32)
    ensures n < 0x1_0000_0000 ==> r == n
  {
    n % 0x1_0000_0000
  }

  function WriteU32(x: u32): (r: seq<byte>)
    ensures |r| == 4 && DecodeLE(r) == x
  {
    DecodeEncodeLE(x, 4);
    EncodeLE(x, 4)
  }

  function WriteU64(x: u64): (r: seq<byte>)
    ensures |r| == 8 && DecodeLE(r) == x
  {
    DecodeEncodeLE(x, 8);
    EncodeLE(x, 8)
  }

  function WriteI32(x: i32): (r: seq<byte>)
    ensures |r| == 4 && FromUnsigned(DecodeLE(r), 4) == x
  {
    DecodeEncodeLE(ToUnsigned(x, 4), 4);
    EncodeLE(ToUnsigned(x, 4), 4)
  }

  function WriteI64(x: i64): (r: seq<byte>)
    ensures |r| == 8 && FromUnsigned(DecodeLE(r), 8) == x
  {
    DecodeEncodeLE(ToUnsigned(x, 8), 8);
    EncodeLE(ToUnsigned(x, 8), 8)
  }

  // ---- readers ----------------------------------------------------------

  /** `rest` is what a reader leaves of `s` after consuming a prefix. */
  predicate IsSuffix(rest: seq<byte>, s: seq<byte>) {
    |rest| <= |s| && s[|s| - |rest|..] == rest
  }

  lemma SuffixTransitive(a: seq<byte>, b: seq<byte>, c: seq<byte>)
    requires IsSuffix(a, b) && IsSuffix(b, c)
    ensures IsSuffix(a, c)
  {
    assert c[|c| - |a|..] == c[|c| - |b|..][|b| - |a|..];
  }

  lemma DropIsSuffix(s: seq<byte>, n: nat)
    requires n <= |s|
    ensures IsSuffix(s[n..], s)
  {
  }

  /** `read_exact` of `n` bytes: fails with an I/O error when fewer remain. */
  function ReadBytes(n: nat, s: seq<byte>): (r: Result<Parsed<seq<byte>>>)
    ensures r.Ok? <==> n <= |s|
    ensures r.Err? ==> r.error == Io
    ensures r.Ok? ==> r.value.value + r.value.rest == s && |r.value.value| == n
  {
    if |s| < n then Err(Io) else Ok(Parsed(s[..n], s[n..]))
  }

  /** Reading an `n`-byte little-endian unsigned integer. */
  function ReadUInt(n: nat, s: seq<byte>): (r: Result<Parsed<nat>>)
    ensures r.Ok? <==> n <= |s|
    ensures r.Err? ==> r.error == Io
    ensures r.Ok? ==> r.value.value < Pow256(n) && r.value.rest == s[n..]
    ensures r.Ok? ==> EncodeLE(r.value.value, n) == s[..n]
  {
    var b :- ReadBytes(n, s);
    EncodeDecodeLE(b.value);
    Ok(Parsed(DecodeLE(b.value), b.rest))
  }

  function ReadU8(s: seq<byte>): (r: Result<Parsed<byte>>)
    ensures r.Ok? <==> |s| >= 1
    ensures r.Err? ==> r.error == Io
    ensures r.Ok? ==> r.value == Parsed(s[0], s[1..])
  {
    var p :- ReadUInt(1, s);
    Ok(Parsed(p.value, p.rest))
  }

  function ReadU16(s: seq<byte>): (r: Result<Parsed<u16>>)
    ensures r.Ok? <==> |s| >= 2
    ensures r.Err? ==> r.error == Io
    ensures r.Ok? ==> WriteU16(r.value.value) == s[..2] && r.value.rest == s[2..]
  {
    var p :- ReadUInt(2, s);
    Ok(Parsed(p.value, p.rest))
  }

  function ReadU32(s: seq<byte>): (r: Result<Parsed<u32>>)
    ensures r.Ok? <==> |s| >= 4
    ensures r.Err? ==> r.error == Io
    ensures r.Ok? ==> WriteU32(r.value.value) == s[..4] && r.value.rest == s[4..]
  {
    var p :- ReadUInt(4, s);
    Ok(Parsed(p.value, p.rest))
  }

  function ReadU64(s: seq<byte>): (r: Result<Parsed<u64>>)
    ensures r.Ok? <==> |s| >= 8
    ensures r.Err? ==> r.error == Io
    ensures r.Ok? ==> WriteU64(r.value.value) == s[..8] && r.value.rest == s[8..]
  {
    var p :- ReadUInt(8, s);
    Ok(Parsed(p.value, p.rest))
  }

  function ReadI32(s: seq<byte>): (r: Result<Parsed<i32>>)
    ensures r.Ok? <==> |s| >= 4
    ensures r.Err? ==> r.error == Io
    ensures r.Ok? ==> WriteI32(r.value.value) == s[..4] && r.value.rest == s[4..]
  {
    var p :- ReadUInt(4, s);
    Ok(Parsed(FromUnsigned(p.value, 4), p.rest))
  }

  function ReadI64(s: seq<byte>): (r: Result<Parsed<i64>>)
    ensures r.Ok? <==> |s| >= 8
    ensures r.Err? ==> r.error == Io
    ensures r.Ok? ==> WriteI64(r.value.value) == s[..8] && r.value.rest == s[8..]
  {
    var p :- ReadUInt(8, s);
    Ok(Parsed(FromUnsigned(p.value, 8), p.rest))
  }

  // ---- round trips --------------------------------------------------------

  /** Reading back an n-byte integer written by the matching writer yields it and
      leaves the rest of the input untouched. */
  lemma ReadWriteU32(x: u32, rest: seq<byte>)
    ensures ReadU32(WriteU32(x) + rest) == Ok(Parsed(x, rest))
  {
    var s := WriteU32(x) + rest;
    assert s[..4] == WriteU32(x) && s[4..] == rest;
    DecodeEncodeLE(x, 4);
  }

  lemma ReadWriteU16(x: u16, rest: seq<byte>)
    ensures ReadU16(WriteU16(x) + rest) == Ok(Parsed(x, rest))
  {
    var s := WriteU16(x) + rest;
    assert s[..2] == WriteU16(x) && s[2..] == rest;
    DecodeEncodeLE(x, 2);
  }

  lemma ReadWriteU64(x: u64, rest: seq<byte>)
    ensures ReadU64(WriteU64(x) + rest) == Ok(Parsed(x, rest))
  {
    var s := WriteU64(x) + rest;
    assert s[..8] == WriteU64(x) && s[8..] == rest;
    DecodeEncodeLE(x, 8);
  }

  lemma ReadWriteU8(x: byte, rest: seq<byte>)
    ensures ReadU8(WriteU8(x) + rest) == Ok(Parsed(x, rest))
  {
  }

  lemma ReadWriteI32(x: i32, rest: seq<byte>)
    ensures ReadI32(WriteI32(x) + rest) == Ok(Parsed(x, rest))
  {
    var s := WriteI32(x) + rest;
    assert s[..4] == WriteI32(x) && s[4..] == rest;
    DecodeEncodeLE(ToUnsigned(x, 4), 4);
  }

  lemma ReadWriteI64(x: i64, rest: seq<byte>)
    ensures ReadI64(WriteI64(x) + rest) == Ok(Parsed(x, rest))
  {
    var s := WriteI64(x) + rest;
    assert s[..8] == WriteI64(x) && s[8..] == rest;
    DecodeEncodeLE(ToUnsigned(x, 8), 8);
  }

  lemma ReadBytesOfConcat(b: seq<byte>, rest: seq<byte>)
    ensures ReadBytes(|b|, b + rest) == Ok(Parsed(b, rest))
  {
    assert (b + rest)[..|b|] == b && (b + rest)[|b|..] == rest;
  }
}

=== FILE: kdf_parameters.dfy ===
/** Argon2 parameters of the key derivation: their VariantDictionary form in the
    outer header, and the library's own compact bit-packed form. */
module KdfParams {
  import opened Errors
  import opened Bytes
  import opened Primitives
  import opened VariantFields
  import VariantLists
  import opened BitStreams

  const UuidArgon2d: seq<byte> :=
    [0xef, 0x63, 0x6d, 0xdf, 0x8c, 0x29, 0x44, 0x4b, 0x91, 0xf7, 0xa9, 0xa4, 0x03, 0xe3, 0x0a, 0x0c]
  const UuidArgon2id: seq<byte> :=
    [0x9e, 0x29, 0x8b, 0x19, 0x56, 0xdb, 0x47, 0x73, 0xb2, 0x3d, 0xfc, 0x3e, 0xc6, 0xf0, 0xa1, 0xe6]
  const UuidAesKdf: seq<byte> :=
    [0x7c, 0x02, 0xbb, 0x82, 0x79, 0xa7, 0x4a, 0xc0, 0x92, 0x7d, 0x11, 0x4a, 0x00, 0x64, 0x82, 0x38]

  const SaltSize: nat := 16

  datatype KdfParameters = KdfParameters(
    algorithm: Argon2Algorithm,
    salt: seq<byte>,
    version: Argon2Version,
    parallelism: u32,
    memory: u32,
    iterations: u32)

  /** `reset_salt`: a fresh 16-byte salt (the random bytes are a parameter). */
  function ResetSalt(k: KdfParameters, random: seq<byte>): (r: KdfParameters)
    requires |random| == SaltSize
    ensures r.salt == random && r.(salt := k.salt) == k
  {
    k.(salt := random)
  }

  /** `derive_key`: Argon2 over the password with these parameters. */
  function DeriveKey(p: Primitives, k: KdfParameters, password: seq<byte>, size: nat): Result<seq<byte>> {
    p.argon2(k.algorithm, k.version, k.parallelism, k.memory, k.iterations, k.salt, password, size)
  }

  // ---- the VariantDictionary form ------------------------------------------

  /** The numeric form of an Argon2 version (`Version::into`). */
  function VersionCode(v: Argon2Version): (r: u32)
    ensures r == if v == V0x10 then 0x10 else 0x13
  {
    match v
    case V0x10 => 0x10
    case V0x13 => 0x13
  }

  /** `Version::try_from`: only 0x10 and 0x13 name a version. */
  function VersionFromCode(x: nat): (r: Option<Argon2Version>)
    ensures r.Some? <==> x == 0x10 || x == 0x13
    ensures r.Some? ==> VersionCode(r.value) == x
  {
    if x == 0x10 then Some(V0x10) else if x == 0x13 then Some(V0x13) else None
  }

  /** `From<&KdfParameters> for VariantList`: the fields `$UUID`, `S`, `V`, `P`,
      `M` and `I`, in that order; the memory is stored in bytes. Argon2i makes the
      source panic, so it is excluded here. */
  function ToVariantList(k: KdfParameters): (r: VariantLists.VariantList)
    requires k.algorithm != Argon2i
    ensures |r.list| == 6
    ensures r.list[0].key == "$UUID" && r.list[1].key == "S" && r.list[2].key == "V"
            && r.list[3].key == "P" && r.list[4].key == "M" && r.list[5].key == "I"
    ensures r.list[4].value == U64(k.memory * 1024) && r.list[5].value == U64(k.iterations)
  {
    var uuid := if k.algorithm == Argon2d then UuidArgon2d else UuidArgon2id;
    var l := VariantLists.Add(VariantLists.Empty, "$UUID", Bytes(uuid));
    var l := VariantLists.Add(l, "S", Bytes(k.salt));
    var l := VariantLists.Add(l, "V", U32(VersionCode(k.version)));
    var l := VariantLists.Add(l, "P", U32(k.parallelism));
    var l := VariantLists.Add(l, "M", U64(k.memory * 1024));
    VariantLists.Add(l, "I", U64(k.iterations))
  }

  function GetBytes(l: VariantLists.VariantList, key: string): (r: Result<seq<byte>>)
    ensures r.Ok? <==> VariantLists.Find(l.list, key).Some? && VariantLists.Find(l.list, key).value.Bytes?
    ensures r.Ok? ==> VariantLists.Find(l.list, key).value == Bytes(r.value)
    ensures r.Err? ==> r.error == KdfFieldMissingOrInvalid(key)
  {
    match VariantLists.Find(l.list, key)
    case Some(Bytes(b)) => Ok(b)
    case _ => Err(KdfFieldMissingOrInvalid(key))
  }

  function GetU32(l: VariantLists.VariantList, key: string): (r: Result<u32>)
    ensures r.Ok? <==> VariantLists.Find(l.list, key).Some? && VariantLists.Find(l.list, key).value.U32?
    ensures r.Ok? ==> VariantLists.Find(l.list, key).value == U32(r.value)
    ensures r.Err? ==> r.error == KdfFieldMissingOrInvalid(key)
  {
    match VariantLists.Find(l.list, key)
    case Some(U32(x)) => Ok(x)
    case _ => Err(KdfFieldMissingOrInvalid(key))
  }

  function GetU64(l: VariantLists.VariantList, key: string): (r: Result<u64>)
    ensures r.Ok? <==> VariantLists.Find(l.list, key).Some? && VariantLists.Find(l.list, key).value.U64?
    ensures r.Ok? ==> VariantLists.Find(l.list, key).value == U64(r.value)
    ensures r.Err? ==> r.error == KdfFieldMissingOrInvalid(key)
  {
    match VariantLists.Find(l.list, key)
    case Some(U64(x)) => Ok(x)
    case _ => Err(KdfFieldMissingOrInvalid(key))
  }

  /** The algorithm a KDF UUID names: Argon2d and Argon2id are supported, AES-KDF
      is recognised but refused, anything else is unknown. */
  function AlgorithmFromUuid(uuid: seq<byte>): (r: Result<Argon2Algorithm>)
    ensures r.Ok? <==> uuid == UuidArgon2d || uuid == UuidArgon2id
    ensures r.Ok? ==> r.value != Argon2i && (r.value == Argon2d <==> uuid == UuidArgon2d)
    ensures uuid == UuidAesKdf ==> r == Err(AesKdfUnsupported)
    ensures r.Err? && uuid != UuidAesKdf ==> r == Err(UnsupportedKdf)
  {
    if uuid == UuidArgon2d then Ok(Argon2d)
    else if uuid == UuidArgon2id then Ok(Argon2id)
    else if uuid == UuidAesKdf then Err(AesKdfUnsupported)
    else Err(UnsupportedKdf)
  }

  /** The stages of `try_from` that read a field: the UUID names a supported
      algorithm; then also the salt and a known version; then also the
      parallelism and a memory size that fits in `u32` once divided by 1024. */
  predicate UuidRead(l: VariantLists.VariantList) {
    GetBytes(l, "$UUID").Ok? && AlgorithmFromUuid(GetBytes(l, "$UUID").value).Ok?
  }

  predicate VersionRead(l: VariantLists.VariantList) {
    UuidRead(l) && GetBytes(l, "S").Ok? && GetU32(l, "V").Ok? && VersionFromCode(GetU32(l, "V").value).Some?
  }

  predicate MemoryRead(l: VariantLists.VariantList) {
    VersionRead(l) && GetU32(l, "P").Ok? && GetU64(l, "M").Ok? && GetU64(l, "M").value / 1024 < 0x1_0000_0000
  }

  /** `TryFrom<VariantList>`: each field is looked up (first occurrence), must have
      its expected type, and must fit the parameter it becomes. */
  function FromVariantList(l: VariantLists.VariantList): (r: Result<KdfParameters>)
    ensures GetBytes(l, "$UUID").Err? ==> r == Err(KdfFieldMissingOrInvalid("$UUID"))
    ensures GetBytes(l, "$UUID") == Ok(UuidAesKdf) ==> r == Err(AesKdfUnsupported)
    ensures GetBytes(l, "$UUID").Ok? && AlgorithmFromUuid(GetBytes(l, "$UUID").value).Err?
            ==> r == Err(AlgorithmFromUuid(GetBytes(l, "$UUID").value).error)
    ensures UuidRead(l) && GetBytes(l, "S").Err? ==> r == Err(KdfFieldMissingOrInvalid("S"))
    ensures UuidRead(l) && GetBytes(l, "S").Ok? && GetU32(l, "V").Err? ==> r == Err(KdfFieldMissingOrInvalid("V"))
    ensures UuidRead(l) && GetBytes(l, "S").Ok? && GetU32(l, "V").Ok? && VersionFromCode(GetU32(l, "V").value).None?
            ==> r == Err(UnsupportedKdf)
    ensures VersionRead(l) && GetU32(l, "P").Err? ==> r == Err(KdfFieldMissingOrInvalid("P"))
    ensures VersionRead(l) && GetU32(l, "P").Ok? && GetU64(l, "M").Err? ==> r == Err(KdfFieldMissingOrInvalid("M"))
    ensures VersionRead(l) && GetU32(l, "P").Ok? && GetU64(l, "M").Ok? && GetU64(l, "M").value / 1024 >= 0x1_0000_0000
            ==> r == Err(KdfParameterExceedsRange)
    ensures MemoryRead(l) && GetU64(l, "I").Err? ==> r == Err(KdfFieldMissingOrInvalid("I"))
    ensures MemoryRead(l) && GetU64(l, "I").Ok? && GetU64(l, "I").value >= 0x1_0000_0000
            ==> r == Err(KdfParameterExceedsRange)
    ensures r.Ok? <==> MemoryRead(l) && GetU64(l, "I").Ok? && GetU64(l, "I").value < 0x1_0000_0000
    ensures r.Ok? ==> r.value.algorithm != Argon2i
                      && GetBytes(l, "S") == Ok(r.value.salt)
                      && GetU32(l, "V") == Ok(VersionCode(r.value.version))
                      && GetU32(l, "P") == Ok(r.value.parallelism)
                      && GetU64(l, "M").Ok? && GetU64(l, "M").value / 1024 == r.value.memory
                      && GetU64(l, "I") == Ok(r.value.iterations)
  {
    var uuid :- GetBytes(l, "$UUID");
    var algorithm :- AlgorithmFromUuid(uuid);
    var salt :- GetBytes(l, "S");
    var v :- GetU32(l, "V");
    var version :- match VersionFromCode(v) { case Some(x) => Ok(x) case None => Err(UnsupportedKdf) };
    var parallelism :- GetU32(l, "P");
    var m :- GetU64(l, "M");
    :- Need(m / 1024 < 0x1_0000_0000, KdfParameterExceedsRange);
    var iterations :- GetU64(l, "I");
    :- Need(iterations < 0x1_0000_0000, KdfParameterExceedsRange);
    Ok(KdfParameters(algorithm, salt, version, parallelism, m / 1024, iterations))
  }

  /** The six fields of the dictionary form, as a list. */
  lemma ToVariantListFields(k: KdfParameters)
    requires k.algorithm != Argon2i
    ensures ToVariantList(k).list
            == [VariantField("$UUID", Bytes(if k.algorithm == Argon2d then UuidArgon2d else UuidArgon2id))]
               + ([VariantField("S", Bytes(k.salt))]
               + ([VariantField("V", U32(VersionCode(k.version)))]
               + ([VariantField("P", U32(k.parallelism))]
               + ([VariantField("M", U64(k.memory * 1024))]
               + [VariantField("I", U64(k.iterations))]))))
  {
  }

  lemma FindAt(fields: seq<VariantField>, f: VariantField, tail: seq<VariantField>, key: string)
    requires fields == [f] + tail
    ensures VariantLists.Find(fields, key) == if f.key == key then Some(f.value) else VariantLists.Find(tail, key)
  {
    VariantLists.FindCons(f, tail, key);
  }

  /** Every parameter set with a supported algorithm survives the dictionary form. */
  lemma FromToVariantList(k: KdfParameters)
    requires k.algorithm != Argon2i
    ensures FromVariantList(ToVariantList(k)) == Ok(k)
  {
    var l := ToVariantList(k);
    ToVariantListFields(k);
    var f0 := VariantField("$UUID", Bytes(if k.algorithm == Argon2d then UuidArgon2d else UuidArgon2id));
    var f1 := VariantField("S", Bytes(k.salt));
    var f2 := VariantField("V", U32(VersionCode(k.version)));
    var f3 := VariantField("P", U32(k.parallelism));
    var f4 := VariantField("M", U64(k.memory * 1024));
    var f5 := VariantField("I", U64(k.iterations));
    var t4 := [f4] + [f5];
    var t3 := [f3] + t4;
    var t2 := [f2] + t3;
    var t1 := [f1] + t2;
    assert l.list == [f0] + t1;
    FindAt(l.list, f0, t1, "$UUID");
    FindAt(l.list, f0, t1, "S");
    FindAt(l.list, f0, t1, "V");
    FindAt(l.list, f0, t1, "P");
    FindAt(l.list, f0, t1, "M");
    FindAt(l.list, f0, t1, "I");
    VariantLists.FindCons(f1, t2, "S");
    VariantLists.FindCons(f1, t2, "V");
    VariantLists.FindCons(f1, t2, "P");
    VariantLists.FindCons(f1, t2, "M");
    VariantLists.FindCons(f1, t2, "I");
    VariantLists.FindCons(f2, t3, "V");
    VariantLists.FindCons(f2, t3, "P");
    VariantLists.FindCons(f2, t3, "M");
    VariantLists.FindCons(f2, t3, "I");
    VariantLists.FindCons(f3, t4, "P");
    VariantLists.FindCons(f3, t4, "M");
    VariantLists.FindCons(f3, t4, "I");
    VariantLists.FindCons(f4, [f5], "M");
    VariantLists.FindCons(f4, [f5], "I");
    VariantLists.FindCons(f5, [], "I");
    assert GetBytes(l, "$UUID") == Ok(f0.value.bytes);
    assert GetBytes(l, "S") == Ok(k.salt);
    assert GetU32(l, "V") == Ok(VersionCode(k.version));
    assert GetU32(l, "P") == Ok(k.parallelism);
    assert GetU64(l, "M") == Ok(k.memory * 1024);
    assert GetU64(l, "I") == Ok(k.iterations);
    assert UuidArgon2d != UuidArgon2id by { assert UuidArgon2d[0] != UuidArgon2id[0]; }
  }

  // ---- the compact form -----------------------------------------------------

  /** The two-bit algorithm code of the compact form; Argon2i is allowed here. */
  function AlgorithmCode(a: Argon2Algorithm): (r: nat)
    ensures r < 3
  {
    match a
    case Argon2d => 0
    case Argon2i => 1
    case Argon2id => 2
  }

  /** The code 3 names no algorithm. */
  function AlgorithmFromCode(x: nat): (r: Result<Argon2Algorithm>)
    ensures r.Ok? <==> x < 3
    ensures r.Ok? ==> AlgorithmCode(r.value) == x
    ensures r.Err? ==> r.error == UnsupportedKdf
  {
    if x == 0 then Ok(Argon2d)
    else if x == 1 then Ok(Argon2i)
    else if x == 2 then Ok(Argon2id)
    else Err(UnsupportedKdf)
  }

  /** The one-bit version code: 0x10 is 0, 0x13 is 1. */
  function VersionBit(v: Argon2Version): (r: nat)
    ensures r < 2 && (r == 1 <==> v == V0x13)
  {
    if v == V0x13 then 1 else 0
  }

  /** What the compact form can hold: counts that fit five bits, whole MiB of
      memory and a 16-byte salt. */
  predicate Encodable(k: KdfParameters) {
    k.parallelism < 0x8000_0000 && k.memory % 1024 == 0 && k.iterations < 0x8000_0000
    && |k.salt| == SaltSize
  }

  /** The three numbers, each behind its five-bit length, memory in MiB. */
  function NumberFields(parallelism: u32, memoryMiB: u32, iterations: u32): (r: Result<seq<bool>>)
    ensures r.Ok? <==> parallelism < 0x8000_0000 && memoryMiB < 0x8000_0000 && iterations < 0x8000_0000
    ensures r.Err? ==> r.error == Io
  {
    var p :- WriteCounted(parallelism);
    var m :- WriteCounted(memoryMiB);
    var i :- WriteCounted(iterations);
    Ok(p + (m + i))
  }

  /** The bits before the byte alignment: algorithm, version, then parallelism,
      memory in MiB and iterations. The checks come in the source's order: the
      parallelism's length must fit five bits, the memory must be a whole number
      of MiB, then the iterations' length must fit. */
  function CompactFields(k: KdfParameters): (r: Result<seq<bool>>)
    ensures r.Ok? <==> k.parallelism < 0x8000_0000 && k.memory % 1024 == 0 && k.iterations < 0x8000_0000
    ensures k.parallelism >= 0x8000_0000 ==> r == Err(Io)
    ensures k.parallelism < 0x8000_0000 && k.memory % 1024 != 0 ==> r == Err(KdfParameterExceedsRange)
    ensures k.parallelism < 0x8000_0000 && k.memory % 1024 == 0 && k.iterations >= 0x8000_0000 ==> r == Err(Io)
  {
    Pow2Constants();
    var algorithm := ToBits(AlgorithmCode(k.algorithm), 2);
    var version := ToBits(VersionBit(k.version), 1);
    if k.parallelism >= 0x8000_0000 then Err(Io)
    // `memory & 0x3FF` keeps the ten low bits, the remainder modulo 1024
    else if k.memory % 1024 != 0 then Err(KdfParameterExceedsRange)
    else
      var numbers :- NumberFields(k.parallelism, k.memory / 1024, k.iterations);
      Ok(algorithm + (version + numbers))
  }

  /** `Serialize for KdfParameters`: the fields, zero bits up to the byte
      boundary, then the 16-byte salt. A salt of another length is refused only
      after the numbers have been checked. */
  function SerializeCompact(k: KdfParameters): (r: Result<seq<byte>>)
    ensures r.Ok? <==> Encodable(k)
    ensures CompactFields(k).Err? ==> r == Err(CompactFields(k).error)
    ensures CompactFields(k).Ok? && |k.salt| != SaltSize ==> r == Err(KdfParameterExceedsRange)
    ensures r.Ok? ==> |r.value| >= SaltSize && r.value[|r.value| - SaltSize..] == k.salt
  {
    var fields :- CompactFields(k);
    :- Need(|k.salt| == SaltSize, KdfParameterExceedsRange);
    var packed := BitsToBytes(ByteAlign(fields));
    assert (packed + k.salt)[|packed|..] == k.salt;
    Ok(packed + k.salt)
  }

  /** `read::<u32>(bit_count) << 10`: the shift drops the bits that leave the u32. */
  function ShiftMemory(m: nat): (r: u32)
    ensures r % 1024 == 0
    ensures m < 0x40_0000 ==> r == m * 1024
  {
    MulMod(m);
    (m * 1024) % 0x1_0000_0000
  }

  lemma MulMod(m: nat)
    ensures (m * 1024) % 0x1_0000_0000 == (m % 0x40_0000) * 1024
  {
    var q := m / 0x40_0000;
    assert m * 1024 == q * 0x1_0000_0000 + (m % 0x40_0000) * 1024;
  }

  /** The numbers of the compact form as read, before the salt. */
  datatype CompactHead = CompactHead(
    algorithm: Argon2Algorithm,
    version: Argon2Version,
    parallelism: nat,
    memory: nat,
    iterations: nat,
    remaining: seq<bool>)

  /** Three counted numbers in a row. */
  function ReadNumbers(bits: seq<bool>): (r: Result<(nat, nat, nat, seq<bool>)>)
    ensures r.Ok? ==> r.value.0 < 0x8000_0000 && r.value.1 < 0x8000_0000 && r.value.2 < 0x8000_0000
                      && |r.value.3| + 15 <= |bits|
    ensures r.Err? ==> r.error == Io
  {
    var p :- ReadCounted(bits);
    var m :- ReadCounted(p.1);
    var i :- ReadCounted(m.1);
    Ok((p.0, m.0, i.0, i.1))
  }

  /** The bit-level part of `Deserialize for KdfParameters`: algorithm code 3 is
      refused, any other code and either version bit is accepted. */
  function ReadCompactHead(bits: seq<bool>): (r: Result<CompactHead>)
    ensures r.Ok? ==> r.value.parallelism < 0x8000_0000 && r.value.memory < 0x8000_0000
                      && r.value.iterations < 0x8000_0000
                      && |r.value.remaining| + 18 <= |bits|
    ensures r.Err? ==> r.error == Io || r.error == UnsupportedKdf
  {
    var algorithmCode :- ReadBits(bits, 2);
    var algorithm :- AlgorithmFromCode(algorithmCode.0);
    var versionBit :- ReadBits(algorithmCode.1, 1);
    var version := if versionBit.0 == 0 then V0x10 else V0x13;
    var numbers :- ReadNumbers(versionBit.1);
    Ok(CompactHead(algorithm, version, numbers.0, numbers.1, numbers.2, numbers.3))
  }

  /** `Vec::deserialize(reader, SALT_SIZE)` from byte `at` on. */
  function ReadSalt(s: seq<byte>, at: nat): (r: Result<Parsed<seq<byte>>>)
    requires at <= |s|
    ensures r.Ok? <==> at + SaltSize <= |s|
    ensures r.Err? ==> r.error == Io
    ensures r.Ok? ==> r.value.value == s[at..at + SaltSize] && r.value.rest == s[at + SaltSize..]
                      && |r.value.rest| == |s| - at - SaltSize
  {
    var salt :- ReadBytes(SaltSize, s[at..]);
    assert s[at..] == salt.value + salt.rest;
    assert s[at..at + SaltSize] == salt.value;
    Ok(salt)
  }

  /** `Deserialize for KdfParameters`: the numbers bit by bit, then the salt from
      the next whole byte (the bit reader takes its input a byte at a time, so the
      unused low bits of the last byte are skipped). The memory in MiB is shifted
      back to KiB. */
  function DeserializeCompact(s: seq<byte>): (r: Result<Parsed<KdfParameters>>)
    ensures r.Ok? ==> Encodable(r.value.value)
    ensures r.Ok? ==> |r.value.rest| + SaltSize < |s| && r.value.rest == s[|s| - |r.value.rest|..]
    ensures r.Err? ==> r.error == Io || r.error == UnsupportedKdf
  {
    var head :- ReadCompactHead(BytesToBits(s));
    var at := BytesTaken(8 * |s| - |head.remaining|);
    assert 3 <= at <= |s|;
    var salt :- ReadSalt(s, at);
    assert |s| - |salt.rest| == at + SaltSize;
    var k := KdfParameters(head.algorithm, salt.value, head.version,
                           head.parallelism, ShiftMemory(head.memory), head.iterations);
    assert Encodable(k);
    Ok(Parsed(k, salt.rest))
  }

  /** The bit stream of a serialized parameter set, piece by piece. */
  lemma CompactBits(k: KdfParameters, rest: seq<byte>)
    requires SerializeCompact(k).Ok?
    ensures var fields := CompactFields(k).value;
            BytesToBits(SerializeCompact(k).value + rest)
            == fields + (Padding(|fields|) + BytesToBits(k.salt + rest))
  {
    var fields := CompactFields(k).value;
    var aligned := ByteAlign(fields);
    var packed := BitsToBytes(aligned);
    var tail := k.salt + rest;
    assert SerializeCompact(k).value + rest == packed + tail by {
      assert SerializeCompact(k).value == packed + k.salt;
      VariantLists.AppendAssoc(packed, k.salt, rest);
    }
    assert BytesToBits(packed + tail) == aligned + BytesToBits(tail) by {
      BytesToBitsAppend(packed, tail);
      BytesToBitsToBytes(aligned);
    }
    AppendAssoc(fields, Padding(|fields|), BytesToBits(tail));
  }

  lemma ReadNumbersWritten(p: u32, m: u32, i: u32, tail: seq<bool>)
    requires NumberFields(p, m, i).Ok?
    ensures ReadNumbers(NumberFields(p, m, i).value + tail) == Ok((p as nat, m as nat, i as nat, tail))
  {
    var wp := WriteCounted(p).value;
    var wm := WriteCounted(m).value;
    var wi := WriteCounted(i).value;
    var t2 := wi + tail;
    var t1 := wm + t2;
    var t0 := wp + t1;
    assert NumberFields(p, m, i).value + tail == t0 by {
      AppendAssoc(wp, wm + wi, tail);
      AppendAssoc(wm, wi, tail);
    }
    assert ReadCounted(t0) == Ok((p as nat, t1)) by { ReadWriteCounted(p, t1); }
    assert ReadCounted(t1) == Ok((m as nat, t2)) by { ReadWriteCounted(m, t2); }
    assert ReadCounted(t2) == Ok((i as nat, tail)) by { ReadWriteCounted(i, tail); }
  }

  lemma AppendAssoc(a: seq<bool>, b: seq<bool>, c: seq<bool>)
    ensures (a + b) + c == a + (b + c)
  {
  }

  /** Reading the numbers back from the bits the serializer wrote. */
  lemma ReadCompactHeadFields(k: KdfParameters, tail: seq<bool>)
    requires CompactFields(k).Ok?
    ensures ReadCompactHead(CompactFields(k).value + tail)
            == Ok(CompactHead(k.algorithm, k.version, k.parallelism, k.memory / 1024, k.iterations, tail))
  {
    var a := ToBits(AlgorithmCode(k.algorithm), 2);
    var v := ToBits(VersionBit(k.version), 1);
    var n := NumberFields(k.parallelism, k.memory / 1024, k.iterations).value;
    var t1 := n + tail;
    var t0 := v + t1;
    assert CompactFields(k).value + tail == a + t0 by {
      AppendAssoc(a, v + n, tail);
      AppendAssoc(v, n, tail);
    }
    assert ReadBits(a + t0, 2) == Ok((AlgorithmCode(k.algorithm), t0)) by {
      Pow2Constants();
      BitsValueToBits(AlgorithmCode(k.algorithm), 2);
      ReadWrittenBits(a, t0);
    }
    assert ReadBits(t0, 1) == Ok((VersionBit(k.version), t1)) by {
      BitsValueToBits(VersionBit(k.version), 1);
      ReadWrittenBits(v, t1);
    }
    assert ReadNumbers(t1) == Ok((k.parallelism as nat, k.memory / 1024, k.iterations as nat, tail)) by {
      ReadNumbersWritten(k.parallelism, k.memory / 1024, k.iterations, tail);
    }
    AlgorithmCodeRoundTrip(k.algorithm);
  }

  lemma AlgorithmCodeRoundTrip(a: Argon2Algorithm)
    ensures AlgorithmFromCode(AlgorithmCode(a)) == Ok(a)
  {
  }

  /** Whatever the serializer accepts, the deserializer reads back, consuming
      exactly the serialized bytes. */
  lemma DeserializeSerializeCompact(k: KdfParameters, rest: seq<byte>)
    requires SerializeCompact(k).Ok?
    ensures DeserializeCompact(SerializeCompact(k).value + rest) == Ok(Parsed(k, rest))
  {
    var s := SerializeCompact(k).value + rest;
    var fields := CompactFields(k).value;
    var tail := Padding(|fields|) + BytesToBits(k.salt + rest);
    assert BytesToBits(s) == fields + tail by { CompactBits(k, rest); }
    assert ReadCompactHead(BytesToBits(s))
           == Ok(CompactHead(k.algorithm, k.version, k.parallelism, k.memory / 1024, k.iterations, tail)) by {
      ReadCompactHeadFields(k, tail);
    }
    var packed := BitsToBytes(ByteAlign(fields));
    assert BytesTaken(8 * |s| - |tail|) == |packed|;
    assert ReadSalt(s, |packed|) == Ok(Parsed(k.salt, rest)) by {
      assert SerializeCompact(k).value == packed + k.salt;
      SaltAt(packed, k.salt, rest);
    }
    ShiftMemoryBack(k.memory);
  }

  lemma SaltAt(packed: seq<byte>, salt: seq<byte>, rest: seq<byte>)
    requires |salt| == SaltSize
    ensures ReadSalt(packed + salt + rest, |packed|) == Ok(Parsed(salt, rest))
  {
    var s := packed + salt + rest;
    assert s[|packed|..|packed| + SaltSize] == salt && s[|packed| + SaltSize..] == rest;
  }

  /** Shifting a whole number of MiB back gives the memory in KiB. */
  lemma ShiftMemoryBack(memory: u32)
    requires memory % 1024 == 0
    ensures ShiftMemory(memory / 1024) == memory
  {
  }
}

=== FILE: keys.dfy ===
/** The key schedule: the encryption key and the HMAC base key derived from the
    main password and the outer header, the per-block HMAC keys, and the base64
    text form the browser extension keeps between requests. */
module KeySchedule {
  import opened Errors
  import opened Bytes
  import opened Primitives
  import Utf8
  import KdfParams
  import DatabaseHeader

  /** `KEY_SIZE` and `HMAC_SIZE`. */
  const KeySize: nat := 32
  const HmacSize: nat := 64

  datatype Keys = Keys(encryption: seq<byte>, hmac: seq<byte>)

  /** Keys the schedule can have produced, or that `FromString` accepts. */
  predicate WellSized(k: Keys) {
    |k.encryption| == KeySize && |k.hmac| == HmacSize
  }

  /** SHA-256 of SHA-256 of the password's UTF-8 bytes (no key file). */
  function CompositeKey(p: Primitives, password: string): (r: seq<byte>)
    ensures |r| == 32
  {
    p.sha256(p.sha256(Utf8.Encode(password)))
  }

  /** `Keys::derive`: the 32-byte KDF output of the composite key, hashed with
      the main seed into the encryption key (SHA-256) and, followed by a 0x01
      byte, into the HMAC base key (SHA-512). */
  function Derive(p: Primitives, password: string, header: DatabaseHeader.OuterHeader): (r: Result<Keys>)
    ensures var derived := KdfParams.DeriveKey(p, header.kdfParameters, CompositeKey(p, password), KeySize);
            && (r.Err? <==> derived.Err?)
            && (r.Err? ==> r.error == derived.error)
            && (r.Ok? ==> WellSized(r.value)
                          && r.value.encryption == p.sha256(header.mainSeed + derived.value)
                          && r.value.hmac == p.sha512(header.mainSeed + derived.value + [1]))
  {
    var derived :- KdfParams.DeriveKey(p, header.kdfParameters, CompositeKey(p, password), KeySize);
    Ok(Keys(p.sha256(header.mainSeed + derived), p.sha512(header.mainSeed + derived + [1])))
  }

  /** `block_index.to_le_bytes()` of an i64, with the index wrapping into 64 bits
      the way a release build's arithmetic does. */
  function IndexBytes(index: int): (r: seq<byte>)
    ensures |r| == 8
    ensures -0x8000_0000_0000_0000 <= index < 0x8000_0000_0000_0000 ==> r == WriteI64(index)
  {
    assert Pow256(8) == 0x1_0000_0000_0000_0000;
    EncodeLE(index % 0x1_0000_0000_0000_0000, 8)
  }

  /** The header's HMAC key uses index -1, whose bytes are all ones. */
  lemma HeaderIndexBytes()
    ensures IndexBytes(-1) == [0xFF, 0xFF, 0xFF, 0xFF, 0xFF, 0xFF, 0xFF, 0xFF]
  {
    assert Pow256(8) == 0x1_0000_0000_0000_0000;
  }

  /** `get_hmac_hasher`: the HMAC-SHA-256 key for a block is SHA-512 of the
      block index followed by the HMAC base key. */
  function HmacKey(p: Primitives, k: Keys, index: int): (r: seq<byte>)
    ensures |r| == 64
  {
    p.sha512(IndexBytes(index) + k.hmac)
  }

  /** The HMAC of one data block: keyed by the block's HMAC key, over the index,
      the block length as a u32 and the data. */
  function BlockHmac(p: Primitives, k: Keys, index: int, data: seq<byte>): (r: seq<byte>)
    requires |data| < 0x1_0000_0000
    ensures |r| == 32
  {
    p.hmacSha256(HmacKey(p, k, index), IndexBytes(index) + WriteU32(|data|) + data)
  }

  /** `to_string`: both keys in standard base64. */
  function ToString(p: Primitives, k: Keys): (r: (string, string)) {
    (p.base64Encode(k.encryption), p.base64Encode(k.hmac))
  }

  /** `from_string`: both strings must decode, to 32 and 64 bytes. */
  function FromString(p: Primitives, encryption: string, hmac: string): (r: Result<Keys>)
    ensures r.Ok? <==> p.base64Decode(encryption).Some? && p.base64Decode(hmac).Some?
                       && |p.base64Decode(encryption).value| == KeySize
                       && |p.base64Decode(hmac).value| == HmacSize
    ensures r.Err? ==> r.error == InvalidCredentials
    ensures r.Ok? ==> WellSized(r.value)
                      && r.value == Keys(p.base64Decode(encryption).value, p.base64Decode(hmac).value)
  {
    match (p.base64Decode(encryption), p.base64Decode(hmac))
    case (None, _) => Err(InvalidCredentials)
    case (_, None) => Err(InvalidCredentials)
    case (Some(e), Some(h)) =>
      if |e| != KeySize || |h| != HmacSize then Err(InvalidCredentials)
      else Ok(Keys(e, h))
  }

  /** Keys survive the trip through their text form. */
  lemma FromToString(p: Primitives, k: Keys)
    requires Base64RoundTrips(p) && WellSized(k)
    ensures FromString(p, ToString(p, k).0, ToString(p, k).1) == Ok(k)
  {
    assert p.base64Decode(p.base64Encode(k.encryption)) == Some(k.encryption);
    assert p.base64Decode(p.base64Encode(k.hmac)) == Some(k.hmac);
  }
}

=== FILE: numeric_enum.dfy ===
/** What the `numeric_enum!` macro gives every enumeration it declares: a fixed
    integer width, a numeric code per variant, a checked conversion back from the
    code, and (de)serialisation through the backing integer. The tables themselves
    live with each enumeration; this module holds the composition they share. */
module NumericEnum {
  import opened Errors
  import opened Bytes

  /** `SIZE`: the byte width of a backing integer type with `bits` bits. */
  function Size(bits: nat): (r: nat)
    requires bits % 8 == 0
    ensures r * 8 == bits
  {
    bits / 8
  }

  /** Serialising a variant writes its code as a `size`-byte little-endian integer. */
  function SerializeCode(code: nat, size: nat): (r: seq<byte>)
    requires code < Pow256(size)
    ensures |r| == size && DecodeLE(r) == code
  {
    DecodeEncodeLE(code, size);
    EncodeLE(code, size)
  }

  /** Deserialising reads one `size`-byte integer, then applies the checked conversion. */
  function DeserializeCode<T>(size: nat, tryFrom: nat -> Result<T>, s: seq<byte>): (r: Result<Parsed<T>>)
    ensures |s| < size ==> r == Err(Io)
    ensures |s| >= size && tryFrom(DecodeLE(s[..size])).Err? ==> r == Err(tryFrom(DecodeLE(s[..size])).error)
    ensures r.Ok? ==> |s| >= size && Ok(r.value.value) == tryFrom(DecodeLE(s[..size])) && r.value.rest == s[size..]
  {
    var p :- ReadUInt(size, s);
    var v :- tryFrom(p.value);
    Ok(Parsed(v, p.rest))
  }

  /** Whenever the checked conversion inverts the code table, a serialised variant
      deserialises back to itself and leaves the following input untouched. */
  lemma DeserializeSerialize<T>(size: nat, code: T -> nat, tryFrom: nat -> Result<T>, v: T, rest: seq<byte>)
    requires code(v) < Pow256(size)
    requires tryFrom(code(v)) == Ok(v)
    ensures DeserializeCode(size, tryFrom, SerializeCode(code(v), size) + rest) == Ok(Parsed(v, rest))
  {
    var e := SerializeCode(code(v), size);
    assert (e + rest)[..size] == e && (e + rest)[size..] == rest;
  }
}

=== FILE: primitives.dfy ===
/** The foreign functions the library calls: hashes, the HMAC, Argon2, the block
    and stream ciphers, gzip, base64, the XML parser and emitter and URL parsing.
    They are fields of one record that every operation needing them takes as a
    parameter, so nothing is assumed about them beyond their types: a digest has
    its fixed length, a keystream is an endless sequence of bytes, and the fallible
    ones return a Result. */
module Primitives {
  import opened Errors
  import opened Bytes
  import opened XmlTree

  function Zeros(n: nat): (r: seq<byte>)
    ensures |r| == n
  {
    seq(n, i => 0)
  }

  type Digest32 = s: seq<byte> | |s| == 32 witness Zeros(32)
  type Digest64 = s: seq<byte> | |s| == 64 witness Zeros(64)

  /** The bytes a stream cipher XORs onto the data, by position. */
  type Keystream = nat -> byte

  /** The Argon2 variants and versions of the argon2 crate. */
  datatype Argon2Algorithm = Argon2d | Argon2i | Argon2id
  datatype Argon2Version = V0x10 | V0x13

  datatype Primitives = Primitives(
    sha256: seq<byte> -> Digest32,
    sha512: seq<byte> -> Digest64,
    /** HMAC-SHA-256 (RFC 2104) of a message under a key. */
    hmacSha256: (seq<byte>, seq<byte>) -> Digest32,
    /** Argon2 (RFC 9106): algorithm, version, parallelism, memory in KiB,
        iterations, salt, password and output size; fails on parameters the
        crate rejects. */
    argon2: (Argon2Algorithm, Argon2Version, nat, nat, nat, seq<byte>, seq<byte>, nat) -> Result<seq<byte>>,
    /** ChaCha20 (RFC 8439) and Salsa20 keystreams for a key and a nonce. */
    chacha20: (seq<byte>, seq<byte>) -> Keystream,
    salsa20: (seq<byte>, seq<byte>) -> Keystream,
    /** CBC mode with PKCS#7 padding: key, IV, data. */
    aesEncrypt: (seq<byte>, seq<byte>, seq<byte>) -> Result<seq<byte>>,
    aesDecrypt: (seq<byte>, seq<byte>, seq<byte>) -> Result<seq<byte>>,
    twofishEncrypt: (seq<byte>, seq<byte>, seq<byte>) -> Result<seq<byte>>,
    twofishDecrypt: (seq<byte>, seq<byte>, seq<byte>) -> Result<seq<byte>>,
    /** gzip (RFC 1952) compression and decompression. */
    gzip: seq<byte> -> Result<seq<byte>>,
    gunzip: seq<byte> -> Result<seq<byte>>,
    /** Standard base64 with padding (section 4 of RFC 4648). */
    base64Encode: seq<byte> -> string,
    base64Decode: string -> Option<seq<byte>>,
    /** Reading a whole XML document, and writing one without a declaration. */
    parseXml: seq<byte> -> Result<Element>,
    emitXml: Element -> seq<byte>,
    /** The host of a URL, None when the URL does not parse or has no host. */
    urlHost: string -> Option<string>
  )

  /** What the real base64 codec guarantees and several round trips rely on. */
  ghost predicate Base64RoundTrips(p: Primitives) {
    forall b :: p.base64Decode(p.base64Encode(b)) == Some(b)
  }

  /** A letter of the base64 alphabet (section 4 of RFC 4648) or its pad. */
  predicate Base64Char(c: char) {
    'A' <= c <= 'Z' || 'a' <= c <= 'z' || '0' <= c <= '9' || c == '+' || c == '/' || c == '='
  }

  /** What the real base64 encoder guarantees about its output: only letters of
      the alphabet and the pad. */
  ghost predicate Base64Alphabet(p: Primitives) {
    forall b, i :: 0 <= i < |p.base64Encode(b)| ==> Base64Char(p.base64Encode(b)[i])
  }

  /** Bitwise exclusive or of the low `n` bits of `a` and `b`. */
  function XorBits(a: nat, b: nat, n: nat): (r: nat)
    ensures r < Pow2(n)
  {
    if n == 0 then 0 else (a % 2 + b % 2) % 2 + 2 * XorBits(a / 2, b / 2, n - 1)
  }

  function Xor(a: byte, b: byte): byte {
    XorBits(a, b, 8)
  }

  lemma {:induction false} XorBitsTwice(a: nat, b: nat, n: nat)
    requires a < Pow2(n)
    ensures XorBits(XorBits(a, b, n), b, n) == a
  {
    if n > 0 {
      var a2, b2 := a / 2, b / 2;
      assert a == 2 * a2 + a % 2 && a2 < Pow2(n - 1);
      var d := (a % 2 + b % 2) % 2;
      var r2 := XorBits(a2, b2, n - 1);
      var r := XorBits(a, b, n);
      assert r == d + 2 * r2;
      assert r % 2 == d && r / 2 == r2;
      XorBitsTwice(a2, b2, n - 1);
      BitXorTwice(a % 2, b % 2);
      assert XorBits(r, b, n) == (d + b % 2) % 2 + 2 * XorBits(r2, b2, n - 1);
    }
  }

  lemma BitXorTwice(x: nat, y: nat)
    requires x < 2 && y < 2
    ensures ((x + y) % 2 + y) % 2 == x
  {
    if x == 0 {
      assert y == 0 || y == 1;
    } else {
      assert y == 0 || y == 1;
    }
  }

  /** XOR with the same byte twice is the identity. */
  lemma XorTwice(a: byte, b: byte)
    ensures Xor(Xor(a, b), b) == a
  {
    XorBitsTwice(a, b, 8);
  }

  /** `apply_keystream` on `data` with the stream positioned at `offset`. */
  function ApplyKeystream(data: seq<byte>, ks: Keystream, offset: nat): (r: seq<byte>)
    ensures |r| == |data|
    ensures forall i :: 0 <= i < |r| ==> r[i] == Xor(data[i], ks(offset + i))
  {
    seq(|data|, i requires 0 <= i < |data| => Xor(data[i], ks(offset + i)))
  }

  /** Applying the same stretch of keystream twice gives the data back. */
  lemma ApplyKeystreamTwice(data: seq<byte>, ks: Keystream, offset: nat)
    ensures ApplyKeystream(ApplyKeystream(data, ks, offset), ks, offset) == data
  {
    forall i | 0 <= i < |data| {
      XorTwice(data[i], ks(offset + i));
    }
  }

  /** Applying the stream to two pieces in turn is applying it to their concatenation. */
  lemma ApplyKeystreamAppend(a: seq<byte>, b: seq<byte>, ks: Keystream, offset: nat)
    ensures ApplyKeystream(a + b, ks, offset)
            == ApplyKeystream(a, ks, offset) + ApplyKeystream(b, ks, offset + |a|)
  {
  }
}

=== FILE: protection.dfy ===
/** Protected values: the text of every Value element marked Protected="true"
    (in any case) is hidden while the database is written. Protecting XORs the
    UTF-8 bytes of the text with the inner stream cipher's keystream and stores
    them as base64; unprotecting reverses it. One keystream runs through all the
    protected values of the tree in document order: each value starts where the
    previous one stopped, which is the state the walk threads along. */
module ValueProtection {
  import opened Errors
  import opened Bytes
  import opened XmlTree
  import opened ElementModifiers
  import opened Primitives
  import opened Strings
  import Utf8

  /** The accept filter: a Value element whose Protected attribute lowercases to
      "true". */
  predicate IsProtectedValue(e: Element) {
    e.name == "Value" && "Protected" in e.attributes && EqIgnoreAsciiCase(e.attributes["Protected"], "true")
  }

  /** The default recurse filter takes every element. */
  predicate All(e: Element) {
    true
  }

  lemma SingleTextSize(e: Element, text: string)
    ensures Size(SetTextContent(e, text)) == 1
  {
    assert NodesSize([Text(text)]) == 0 + NodesSize([]);
  }

  /** The `protect` callback at keystream position `offset`: the text's UTF-8
      bytes XORed with the keystream, stored as base64; the position moves on by
      the number of bytes. */
  function ProtectStep(p: Primitives, ks: Keystream, offset: nat, e: Element): (r: Modified<nat>)
    ensures r.result.Ok? && r.element.name == e.name && r.element.attributes == e.attributes
    ensures r.state == offset + |Utf8.Encode(TextContent(e))|
    ensures r.element.children == [Text(p.base64Encode(ApplyKeystream(Utf8.Encode(TextContent(e)), ks, offset)))]
    ensures Size(r.element) == 1
  {
    var buffer := Utf8.Encode(TextContent(e));
    var text := p.base64Encode(ApplyKeystream(buffer, ks, offset));
    SingleTextSize(e, text);
    Modified(SetTextContent(e, text), offset + |buffer|, Ok(()))
  }

  /** The `unprotect` callback: text that is not base64 is CorruptDatabase, bytes
      that are not UTF-8 once the keystream is removed are an Encoding error, and
      otherwise the text becomes the recovered string. */
  function UnprotectStep(p: Primitives, ks: Keystream, offset: nat, e: Element): (r: Modified<nat>)
    ensures p.base64Decode(TextContent(e)).None? <==> r.result == Err(CorruptDatabase)
    ensures r.result.Err? ==> r.element == e && (r.result.error == CorruptDatabase || r.result.error == Encoding)
    ensures r.result.Ok? ==> r.element.name == e.name && r.element.attributes == e.attributes
                             && Size(r.element) == 1
    ensures r.result.Ok? ==> var buffer := p.base64Decode(TextContent(e)).value;
                             && r.state == offset + |buffer|
                             && Utf8.Decode(ApplyKeystream(buffer, ks, offset)) == Some(TextContent(r.element))
                             && r.element.children == [Text(TextContent(r.element))]
  {
    match p.base64Decode(TextContent(e))
    case None => Modified(e, offset, Err(CorruptDatabase))
    case Some(buffer) =>
      match Utf8.Decode(ApplyKeystream(buffer, ks, offset))
      case None => Modified(e, offset + |buffer|, Err(Encoding))
      case Some(text) =>
        SingleTextSize(e, text);
        Modified(SetTextContent(e, text), offset + |buffer|, Ok(()))
  }

  function Protector(p: Primitives, ks: Keystream): (nat, Element) -> Modified<nat> {
    (offset: nat, e: Element) => ProtectStep(p, ks, offset, e)
  }

  function Unprotector(p: Primitives, ks: Keystream): (nat, Element) -> Modified<nat> {
    (offset: nat, e: Element) => UnprotectStep(p, ks, offset, e)
  }

  lemma CallbacksShrink(p: Primitives, ks: Keystream)
    ensures Shrinking(Protector(p, ks)) && Shrinking(Unprotector(p, ks))
  {
  }

  /** The walk does nothing to a lone text node. */
  lemma ModifyTextOnly(text: string, callback: (nat, Element) -> Modified<nat>, offset: nat)
    requires Shrinking(callback)
    ensures ModifyNodes([Text(text)], IsProtectedValue, All, callback, offset) == ModifiedNodes([Text(text)], offset, Ok(()))
  {
    assert [Text(text)][1..] == [];
  }

  /** Base64 text is representable: its letters are XML characters and none of
      them is white space. */
  lemma Base64Representable(p: Primitives, b: seq<byte>)
    requires Base64Alphabet(p)
    ensures RepresentableText(p.base64Encode(b))
  {
    var t := p.base64Encode(b);
    if t != "" {
      assert Base64Char(t[0]) && !XmlSpace(t[0]);
    }
  }

  /** Protecting keeps a representable element representable: a protected
      value's text becomes base64. */
  lemma ProtectorKeepsRepresentable(p: Primitives, ks: Keystream)
    requires Base64Alphabet(p)
    ensures KeepsRepresentable(Protector(p, ks))
  {
    forall offset: nat, e | Representable(e)
      ensures Representable(ProtectStep(p, ks, offset, e).element)
    {
      var buffer := ApplyKeystream(Utf8.Encode(TextContent(e)), ks, offset);
      Base64Representable(p, buffer);
      var children := ProtectStep(p, ks, offset, e).element.children;
      assert children[1..] == [];
    }
  }

  /** `protect` over a tree, the keystream starting at `offset`. */
  function ProtectFrom(p: Primitives, ks: Keystream, e: Element, offset: nat): Modified<nat> {
    CallbacksShrink(p, ks);
    ModifyElement(e, IsProtectedValue, All, Protector(p, ks), offset)
  }

  function ProtectNodesFrom(p: Primitives, ks: Keystream, nodes: seq<Node>, offset: nat): ModifiedNodes<nat> {
    CallbacksShrink(p, ks);
    ModifyNodes(nodes, IsProtectedValue, All, Protector(p, ks), offset)
  }

  /** `unprotect` over a tree, the keystream starting at `offset`. */
  function UnprotectFrom(p: Primitives, ks: Keystream, e: Element, offset: nat): Modified<nat> {
    CallbacksShrink(p, ks);
    ModifyElement(e, IsProtectedValue, All, Unprotector(p, ks), offset)
  }

  function UnprotectNodesFrom(p: Primitives, ks: Keystream, nodes: seq<Node>, offset: nat): ModifiedNodes<nat> {
    CallbacksShrink(p, ks);
    ModifyNodes(nodes, IsProtectedValue, All, Unprotector(p, ks), offset)
  }

  /** `DatabaseXML::protect`: a fresh keystream from the start. */
  function Protect(p: Primitives, ks: Keystream, xml: Element): Result<Element> {
    var m := ProtectFrom(p, ks, xml, 0);
    if m.result.Ok? then Ok(m.element) else Err(m.result.error)
  }

  /** `DatabaseXML::unprotect`: a fresh keystream from the start. */
  function Unprotect(p: Primitives, ks: Keystream, xml: Element): Result<Element> {
    var m := UnprotectFrom(p, ks, xml, 0);
    if m.result.Ok? then Ok(m.element) else Err(m.result.error)
  }

  /** Every protected value holds its text as one text node, and nothing else;
      elements inside a protected value are not looked at. */
  predicate Settled(e: Element)
    decreases Size(e), 0
  {
    if IsProtectedValue(e) then e.children == [Text(TextContent(e))]
    else SettledNodes(e.children)
  }

  predicate SettledNodes(nodes: seq<Node>)
    decreases NodesSize(nodes), 1, |nodes|
  {
    nodes == []
    || (assert NodesSize(nodes) == NodeSize(nodes[0]) + NodesSize(nodes[1..]);
        (nodes[0].Text? || Settled(nodes[0].element)) && SettledNodes(nodes[1..]))
  }

  /** What unprotecting leaves behind is settled. */
  lemma {:induction false} UnprotectSettles(p: Primitives, ks: Keystream, e: Element, offset: nat)
    ensures var u := UnprotectFrom(p, ks, e, offset);
            u.result.Ok? ==> Settled(u.element)
    decreases Size(e), 0
  {
    CallbacksShrink(p, ks);
    var u := UnprotectFrom(p, ks, e, offset);
    if IsProtectedValue(e) {
      var first := UnprotectStep(p, ks, offset, e);
      if first.result.Ok? {
        ModifyTextOnly(TextContent(first.element), Unprotector(p, ks), first.state);
        assert u.element == first.element;
      }
    } else if u.result.Ok? {
      UnprotectSettlesNodes(p, ks, e.children, offset);
    }
  }

  lemma {:induction false} UnprotectSettlesNodes(p: Primitives, ks: Keystream, nodes: seq<Node>, offset: nat)
    ensures var u := UnprotectNodesFrom(p, ks, nodes, offset);
            u.result.Ok? ==> SettledNodes(u.nodes)
    decreases NodesSize(nodes), 1, |nodes|
  {
    CallbacksShrink(p, ks);
    if nodes != [] {
      var u := UnprotectNodesFrom(p, ks, nodes, offset);
      match nodes[0]
      case Text(_) =>
        UnprotectSettlesNodes(p, ks, nodes[1..], offset);
        assert u.nodes[1..] == UnprotectNodesFrom(p, ks, nodes[1..], offset).nodes;
      case Elem(child) =>
        assert NodesSize(nodes) == Size(child) + NodesSize(nodes[1..]);
        var head := UnprotectFrom(p, ks, child, offset);
        UnprotectSettles(p, ks, child, offset);
        if head.result.Ok? {
          UnprotectSettlesNodes(p, ks, nodes[1..], head.state);
          assert u.nodes[0] == Elem(head.element);
          assert u.nodes[1..] == UnprotectNodesFrom(p, ks, nodes[1..], head.state).nodes;
        }
    }
  }

  /** The protected value itself: protecting and then unprotecting with the
      keystream at the same position gives the element back, and both move the
      position by the same amount. */
  lemma ValueRoundTrip(p: Primitives, ks: Keystream, e: Element, offset: nat)
    requires Base64RoundTrips(p) && IsProtectedValue(e) && Settled(e)
    ensures var s := ProtectStep(p, ks, offset, e);
            UnprotectStep(p, ks, offset, s.element) == Modified(e, s.state, Ok(()))
  {
    var t := TextContent(e);
    var buffer := Utf8.Encode(t);
    var hidden := ApplyKeystream(buffer, ks, offset);
    var text := p.base64Encode(hidden);
    var s := ProtectStep(p, ks, offset, e);
    assert TextContent(s.element) == text;
    assert p.base64Decode(text) == Some(hidden);
    assert Utf8.Decode(ApplyKeystream(hidden, ks, offset)) == Some(t) by {
      ApplyKeystreamTwice(buffer, ks, offset);
      Utf8.DecodeEncode(t);
    }
    var u := UnprotectStep(p, ks, offset, s.element);
    assert u == Modified(SetTextContent(s.element, t), s.state, Ok(()));
    assert SetTextContent(s.element, t) == e by {
      assert e.children == [Text(t)];
    }
  }

  /** `save` leaves the tree as it was: unprotecting what protecting made, with
      the keystream at the same position, gives back a settled tree. */
  lemma {:induction false} ProtectRoundTrip(p: Primitives, ks: Keystream, e: Element, offset: nat)
    requires Base64RoundTrips(p) && Settled(e)
    ensures var s := ProtectFrom(p, ks, e, offset);
            && s.result.Ok?
            && UnprotectFrom(p, ks, s.element, offset) == Modified(e, s.state, Ok(()))
    decreases Size(e), 0
  {
    CallbacksShrink(p, ks);
    var s := ProtectFrom(p, ks, e, offset);
    if IsProtectedValue(e) {
      var first := ProtectStep(p, ks, offset, e);
      ModifyTextOnly(TextContent(first.element), Protector(p, ks), first.state);
      assert s.element == first.element;
      ValueRoundTrip(p, ks, e, offset);
      ModifyTextOnly(TextContent(e), Unprotector(p, ks), s.state);
    } else {
      ProtectRoundTripNodes(p, ks, e.children, offset);
    }
  }

  lemma {:induction false} ProtectRoundTripNodes(p: Primitives, ks: Keystream, nodes: seq<Node>, offset: nat)
    requires Base64RoundTrips(p) && SettledNodes(nodes)
    ensures var s := ProtectNodesFrom(p, ks, nodes, offset);
            && s.result.Ok?
            && UnprotectNodesFrom(p, ks, s.nodes, offset) == ModifiedNodes(nodes, s.state, Ok(()))
    decreases NodesSize(nodes), 1, |nodes|
  {
    CallbacksShrink(p, ks);
    if nodes != [] {
      var s := ProtectNodesFrom(p, ks, nodes, offset);
      match nodes[0]
      case Text(_) =>
        var rest := ProtectNodesFrom(p, ks, nodes[1..], offset);
        ProtectRoundTripNodes(p, ks, nodes[1..], offset);
        assert s.nodes == [nodes[0]] + rest.nodes;
        assert s.nodes[1..] == rest.nodes;
        assert nodes == [nodes[0]] + nodes[1..];
      case Elem(child) =>
        assert NodesSize(nodes) == Size(child) + NodesSize(nodes[1..]);
        var head := ProtectFrom(p, ks, child, offset);
        ProtectRoundTrip(p, ks, child, offset);
        var rest := ProtectNodesFrom(p, ks, nodes[1..], head.state);
        ProtectRoundTripNodes(p, ks, nodes[1..], head.state);
        assert s.nodes == [Elem(head.element)] + rest.nodes;
        assert s.nodes[1..] == rest.nodes;
        assert nodes == [nodes[0]] + nodes[1..];
    }
  }

  /** `save` then leaves the in-memory tree of a settled tree as it was. */
  lemma ProtectThenUnprotect(p: Primitives, ks: Keystream, xml: Element)
    requires Base64RoundTrips(p) && Settled(xml)
    ensures Protect(p, ks, xml).Ok? && Unprotect(p, ks, Protect(p, ks, xml).value) == Ok(xml)
  {
    ProtectRoundTrip(p, ks, xml, 0);
  }

  /** `protect` never fails: its callback always returns `Ok`. */
  lemma ProtectSucceeds(p: Primitives, ks: Keystream, xml: Element)
    ensures Protect(p, ks, xml).Ok?
  {
    CallbacksShrink(p, ks);
    ModifyOk(xml, IsProtectedValue, All, Protector(p, ks), 0);
  }

  /** The tree `save` writes out is representable when the tree in memory is:
      only protected values change, and they become base64. */
  lemma ProtectRepresentable(p: Primitives, ks: Keystream, xml: Element)
    requires Base64Alphabet(p) && Representable(xml)
    ensures Protect(p, ks, xml).Ok? && Representable(Protect(p, ks, xml).value)
  {
    CallbacksShrink(p, ks);
    ProtectorKeepsRepresentable(p, ks);
    ModifyRepresentable(xml, IsProtectedValue, All, Protector(p, ks), 0);
    ProtectSucceeds(p, ks, xml);
  }

  /** A tree read from a database is settled. */
  lemma UnprotectedIsSettled(p: Primitives, ks: Keystream, xml: Element)
    ensures Unprotect(p, ks, xml).Ok? ==> Settled(Unprotect(p, ks, xml).value)
  {
    UnprotectSettles(p, ks, xml, 0);
  }

  /** Unprotecting reads a protected value only through its text, and walks the
      other elements in order, so a tree normalised first unprotects with the
      same outcome and keystream position, into the same tree up to
      normalisation. */
  lemma {:induction false} UnprotectNormalized(p: Primitives, ks: Keystream, e: Element, offset: nat)
    ensures var u := UnprotectFrom(p, ks, e, offset);
            var v := UnprotectFrom(p, ks, Normalized(e), offset);
            && v.result == u.result && v.state == u.state
            && (u.result.Ok? ==> Normalized(v.element) == Normalized(u.element))
    decreases Size(e), 0
  {
    CallbacksShrink(p, ks);
    var n := Normalized(e);
    assert IsProtectedValue(n) == IsProtectedValue(e);
    if IsProtectedValue(e) {
      UnprotectStepNormalized(p, ks, e, offset);
    } else {
      UnprotectNormalizedNodes(p, ks, e.children, offset);
      var kids := UnprotectNodesFrom(p, ks, e.children, offset);
      var normalKids := UnprotectNodesFrom(p, ks, n.children, offset);
      assert UnprotectFrom(p, ks, e, offset) == Modified(e.(children := kids.nodes), kids.state, kids.result);
      assert UnprotectFrom(p, ks, n, offset) == Modified(n.(children := normalKids.nodes), normalKids.state, normalKids.result);
    }
  }

  /** A protected value reads only its text, which normalising keeps, and the
      text it sets is the same either way. */
  lemma UnprotectStepNormalized(p: Primitives, ks: Keystream, e: Element, offset: nat)
    requires IsProtectedValue(e)
    ensures var u := UnprotectFrom(p, ks, e, offset);
            var v := UnprotectFrom(p, ks, Normalized(e), offset);
            && v.result == u.result && v.state == u.state
            && (u.result.Ok? ==> v.element == u.element)
  {
    CallbacksShrink(p, ks);
    var n := Normalized(e);
    var first := UnprotectStep(p, ks, offset, e);
    var normalFirst := UnprotectStep(p, ks, offset, n);
    assert TextContent(n) == TextContent(e);
    assert normalFirst.result == first.result && normalFirst.state == first.state;
    if first.result.Ok? {
      assert normalFirst.element == first.element;
    }
  }

  lemma {:induction false} UnprotectNormalizedNodes(p: Primitives, ks: Keystream, nodes: seq<Node>, offset: nat)
    ensures var u := UnprotectNodesFrom(p, ks, nodes, offset);
            var v := UnprotectNodesFrom(p, ks, NormalizedNodes(nodes), offset);
            && v.result == u.result && v.state == u.state
            && (u.result.Ok? ==> NormalizedNodes(v.nodes) == NormalizedNodes(u.nodes))
    decreases NodesSize(nodes), 1, |nodes|
  {
    CallbacksShrink(p, ks);
    if nodes != [] {
      assert NodesSize(nodes) == NodeSize(nodes[0]) + NodesSize(nodes[1..]);
      var u := UnprotectNodesFrom(p, ks, nodes, offset);
      match nodes[0]
      case Text(t) =>
        var tail := UnprotectNodesFrom(p, ks, nodes[1..], offset);
        var normalTail := UnprotectNodesFrom(p, ks, NormalizedNodes(nodes[1..]), offset);
        UnprotectNormalizedNodes(p, ks, nodes[1..], offset);
        ModifyPushText(t, NormalizedNodes(nodes[1..]), IsProtectedValue, All, Unprotector(p, ks), offset);
        NormalizedPushText(t, normalTail.nodes);
        assert u.nodes == [Text(t)] + tail.nodes;
        assert u.nodes[0] == Text(t) && u.nodes[1..] == tail.nodes;
      case Elem(child) =>
        var head := UnprotectFrom(p, ks, child, offset);
        UnprotectNormalized(p, ks, child, offset);
        var normal := [Elem(Normalized(child))] + NormalizedNodes(nodes[1..]);
        assert normal[0] == Elem(Normalized(child)) && normal[1..] == NormalizedNodes(nodes[1..]);
        if head.result.Ok? {
          var tail := UnprotectNodesFrom(p, ks, nodes[1..], head.state);
          var normalTail := UnprotectNodesFrom(p, ks, NormalizedNodes(nodes[1..]), head.state);
          UnprotectNormalizedNodes(p, ks, nodes[1..], head.state);
          var v := UnprotectNodesFrom(p, ks, normal, offset);
          assert u.nodes[0] == Elem(head.element) && u.nodes[1..] == tail.nodes;
          assert v.nodes[1..] == normalTail.nodes;
        }
    }
  }
}

=== FILE: strings.dfy ===
/** The string operations of the Rust standard library the library and the request
    handler use: splitting at and joining with a separator character, ASCII case
    folding, prefix stripping, splitting at the last " #", and the decimal form of
    a u32. */
module Strings {
  import opened Errors

  /** The position of the first `c` in `s`. */
  function FindChar(s: string, c: char): (r: Option<nat>)
    ensures r.Some? ==> r.value < |s| && s[r.value] == c && c !in s[..r.value]
    ensures r.None? <==> c !in s
  {
    if s == [] then None
    else if s[0] == c then Some(0)
    else
      match FindChar(s[1..], c)
      case None => None
      case Some(i) =>
        assert s[..i + 1] == [s[0]] + s[1..][..i];
        Some(i + 1)
  }

  /** `str::split(c)`: the pieces between the separators; there is always one
      more piece than separators, so an empty string gives one empty piece. */
  function Split(s: string, c: char): (r: seq<string>)
    ensures |r| >= 1
    ensures forall i :: 0 <= i < |r| ==> c !in r[i]
    decreases |s|
  {
    match FindChar(s, c)
    case None => [s]
    case Some(i) => [s[..i]] + Split(s[i + 1..], c)
  }

  /** `join(sep)` on a list of strings. */
  function Join(parts: seq<string>, c: char): string {
    if parts == [] then ""
    else if |parts| == 1 then parts[0]
    else parts[0] + [c] + Join(parts[1..], c)
  }

  /** The first separator after a separator-free head is the one that follows it. */
  lemma {:induction false} FindCharAfter(head: string, c: char, rest: string)
    requires c !in head
    ensures FindChar(head + [c] + rest, c) == Some(|head|)
  {
    if head != [] {
      assert (head + [c] + rest)[1..] == head[1..] + [c] + rest;
      FindCharAfter(head[1..], c, rest);
    }
  }

  /** Splitting undoes joining a non-empty list of pieces free of the separator. */
  lemma {:induction false} SplitJoin(parts: seq<string>, c: char)
    requires |parts| >= 1
    requires forall i :: 0 <= i < |parts| ==> c !in parts[i]
    ensures Split(Join(parts, c), c) == parts
  {
    if |parts| > 1 {
      var s := Join(parts, c);
      var head := parts[0];
      FindCharAfter(head, c, Join(parts[1..], c));
      assert s[..|head|] == head;
      assert s[|head| + 1..] == Join(parts[1..], c);
      SplitJoin(parts[1..], c);
    } else {
      assert FindChar(parts[0], c).None?;
    }
  }

  /** ASCII case folding of one character. */
  function AsciiLower(c: char): char {
    if 'A' <= c <= 'Z' then (c as int + 32) as char else c
  }

  function AsciiLowerString(s: string): (r: string)
    ensures |r| == |s| && forall i :: 0 <= i < |s| ==> r[i] == AsciiLower(s[i])
  {
    seq(|s|, i requires 0 <= i < |s| => AsciiLower(s[i]))
  }

  /** `eq_ignore_ascii_case`. */
  predicate EqIgnoreAsciiCase(a: string, b: string) {
    AsciiLowerString(a) == AsciiLowerString(b)
  }

  lemma EqIgnoreAsciiCaseIsEquivalence(a: string, b: string, c: string)
    ensures EqIgnoreAsciiCase(a, a)
    ensures EqIgnoreAsciiCase(a, b) ==> EqIgnoreAsciiCase(b, a)
    ensures EqIgnoreAsciiCase(a, b) && EqIgnoreAsciiCase(b, c) ==> EqIgnoreAsciiCase(a, c)
  {
  }

  /** `strip_prefix`. */
  function StripPrefix(s: string, prefix: string): (r: Option<string>)
    ensures r.Some? <==> |prefix| <= |s| && s[..|prefix|] == prefix
    ensures r.Some? ==> prefix + r.value == s
  {
    if |prefix| <= |s| && s[..|prefix|] == prefix then
      assert s == s[..|prefix|] + s[|prefix|..];
      Some(s[|prefix|..])
    else None
  }

  const HashMark: string := " #"

  /** " #" starts at position `j` of `s`. */
  predicate MarkAt(s: string, j: int) {
    0 <= j && j + 1 < |s| && s[j] == ' ' && s[j + 1] == '#'
  }

  /** The position of the last " #" in `s`. */
  function LastHashMark(s: string): (r: Option<nat>)
    ensures r.Some? ==> MarkAt(s, r.value)
    ensures r.Some? ==> forall j :: r.value < j ==> !MarkAt(s, j)
    ensures r.None? ==> forall j :: !MarkAt(s, j)
    decreases |s|
  {
    if |s| < 2 then None
    else if MarkAt(s, |s| - 2) then Some(|s| - 2)
    else
      var p := s[..|s| - 1];
      var r := LastHashMark(p);
      assert forall j :: 0 <= j < |s| - 2 ==> (MarkAt(p, j) <==> MarkAt(s, j));
      r
  }

  /** `rsplit_once(" #")`: the text before and after the last " #". */
  function RSplitHashMark(s: string): (r: Option<(string, string)>)
    ensures r.Some? ==> s == r.value.0 + HashMark + r.value.1
    ensures r.None? <==> forall j :: !MarkAt(s, j)
  {
    match LastHashMark(s)
    case None => None
    case Some(i) =>
      assert s[i..i + 2] == HashMark;
      assert s == s[..i] + s[i..i + 2] + s[i + 2..];
      Some((s[..i], s[i + 2..]))
  }

  predicate IsDigit(c: char) {
    '0' <= c <= '9'
  }

  function DigitValue(c: char): nat
    requires IsDigit(c)
  {
    c as int - '0' as int
  }

  function DigitChar(d: nat): (c: char)
    requires d < 10
    ensures IsDigit(c) && DigitValue(c) == d
  {
    (d + '0' as int) as char
  }

  /** The value of a string of decimal digits, most significant first. */
  function DigitsValue(s: string): nat
    requires forall i :: 0 <= i < |s| ==> IsDigit(s[i])
  {
    if s == [] then 0 else 10 * DigitsValue(s[..|s| - 1]) + DigitValue(s[|s| - 1])
  }

  /** `format!("{}", n)`: no leading zeros, "0" for zero. */
  function Decimal(n: nat): (r: string)
    ensures |r| >= 1 && forall i :: 0 <= i < |r| ==> IsDigit(r[i])
    ensures DigitsValue(r) == n
  {
    if n < 10 then [DigitChar(n)]
    else
      var r := Decimal(n / 10) + [DigitChar(n % 10)];
      assert r[..|r| - 1] == Decimal(n / 10);
      r
  }

  const U32Limit: nat := 0x1_0000_0000

  /** `str::parse::<u32>()`: an optional '+', then one or more decimal digits
      (leading zeros allowed) whose value fits in 32 bits. */
  function ParseU32(s: string): (r: Option<nat>)
    ensures r.Some? ==> r.value < U32Limit
  {
    var digits := if |s| > 0 && s[0] == '+' then s[1..] else s;
    if digits == [] || exists i :: 0 <= i < |digits| && !IsDigit(digits[i]) then None
    else if DigitsValue(digits) >= U32Limit then None
    else Some(DigitsValue(digits))
  }

  lemma ParseDecimal(n: nat)
    requires n < U32Limit
    ensures ParseU32(Decimal(n)) == Some(n)
  {
    var d := Decimal(n);
    assert d[0] != '+' by {
      assert IsDigit(d[0]);
    }
  }

  /** A string with no " #" after its first character gains none when " #" and
      digits follow it, so the last " #" is the one added. */
  lemma HashMarkBeforeDigits(base: string, digits: string)
    requires forall i :: 0 <= i < |digits| ==> IsDigit(digits[i])
    ensures RSplitHashMark(base + HashMark + digits) == Some((base, digits))
  {
    var s := base + HashMark + digits;
    var b := |base|;
    assert MarkAt(s, b);
    forall j | b < j
      ensures !MarkAt(s, j)
    {
      if j + 1 < |s| {
        if j == b + 1 {
          assert s[j] == '#';
        } else {
          assert s[j] == digits[j - b - 2];
        }
      }
    }
    var i := LastHashMark(s);
    assert i == Some(b);
    assert s[..b] == base && s[b + 2..] == digits;
  }
}

=== FILE: utf8.dfy ===
/** A string of the library is UTF-8 text: it is written as its UTF-8 bytes with no
    length prefix, and a sized string read takes that many bytes and rejects them
    unless they are well-formed UTF-8 (Table 3-7 of the Unicode Standard, as
    checked by `String::from_utf8`). */
module Utf8 {
  import opened Errors
  import opened Bytes

  predicate IsContinuation(b: byte) {
    0x80 <= b <= 0xBF
  }

  /** The UTF-8 bytes of one Unicode scalar value. */
  function EncodeChar(c: char): (r: seq<byte>)
    ensures 1 <= |r| <= 4
    ensures (|r| == 1) == (c as int < 0x80)
  {
    var x := c as int;
    if x < 0x80 then [x]
    else if x < 0x800 then [0xC0 + x / 64, 0x80 + x % 64]
    else if x < 0x1_0000 then [0xE0 + x / 4096, 0x80 + (x / 64) % 64, 0x80 + x % 64]
    else [0xF0 + x / 262144, 0x80 + (x / 4096) % 64, 0x80 + (x / 64) % 64, 0x80 + x % 64]
  }

  /** The UTF-8 bytes of a string (`as_bytes`). */
  function Encode(s: string): (r: seq<byte>)
    ensures |r| >= |s|
  {
    if s == [] then [] else EncodeChar(s[0]) + Encode(s[1..])
  }

  /** Splitting `a * 64 + b` with `b` a 6-bit digit. */
  lemma Digit64(a: int, b: int)
    requires a >= 0 && 0 <= b < 64
    ensures (a * 64 + b) / 64 == a && (a * 64 + b) % 64 == b
  {
  }

  /** The scalar value of a two-byte sequence and its encoding. */
  lemma TwoByteValue(b0: int, b1: int)
    requires 0xC2 <= b0 <= 0xDF && 0x80 <= b1 <= 0xBF
    ensures var x := (b0 - 0xC0) * 64 + (b1 - 0x80);
      && 0x80 <= x < 0x800 && x / 64 == b0 - 0xC0 && x % 64 == b1 - 0x80
  {
    Digit64(b0 - 0xC0, b1 - 0x80);
  }

  lemma ThreeByteValue(b0: int, b1: int, b2: int)
    requires 0xE0 <= b0 <= 0xEF && 0x80 <= b1 <= 0xBF && 0x80 <= b2 <= 0xBF
    requires b0 == 0xE0 ==> b1 >= 0xA0
    requires b0 == 0xED ==> b1 <= 0x9F
    ensures var x := (b0 - 0xE0) * 4096 + (b1 - 0x80) * 64 + (b2 - 0x80);
      && 0x800 <= x < 0x1_0000 && !(0xD800 <= x <= 0xDFFF)
      && x / 4096 == b0 - 0xE0 && (x / 64) % 64 == b1 - 0x80 && x % 64 == b2 - 0x80
  {
    var hi := (b0 - 0xE0) * 64 + (b1 - 0x80);
    Digit64(hi, b2 - 0x80);
    Digit64(b0 - 0xE0, b1 - 0x80);
    var x := hi * 64 + (b2 - 0x80);
    assert x == (b0 - 0xE0) * 4096 + (b1 - 0x80) * 64 + (b2 - 0x80);
    assert x / 64 == hi;
    assert x / 4096 == hi / 64 by {
      assert x == (hi / 64) * 4096 + ((hi % 64) * 64 + x % 64);
    }
  }

  lemma FourByteValue(b0: int, b1: int, b2: int, b3: int)
    requires 0xF0 <= b0 <= 0xF4 && 0x80 <= b1 <= 0xBF && 0x80 <= b2 <= 0xBF && 0x80 <= b3 <= 0xBF
    requires b0 == 0xF0 ==> b1 >= 0x90
    requires b0 == 0xF4 ==> b1 <= 0x8F
    ensures var x := (b0 - 0xF0) * 262144 + (b1 - 0x80) * 4096 + (b2 - 0x80) * 64 + (b3 - 0x80);
      && 0x1_0000 <= x < 0x11_0000
      && x / 262144 == b0 - 0xF0 && (x / 4096) % 64 == b1 - 0x80
      && (x / 64) % 64 == b2 - 0x80 && x % 64 == b3 - 0x80
  {
    var h1 := (b0 - 0xF0) * 64 + (b1 - 0x80);
    var h2 := h1 * 64 + (b2 - 0x80);
    var x := h2 * 64 + (b3 - 0x80);
    Digit64(b0 - 0xF0, b1 - 0x80);
    Digit64(h1, b2 - 0x80);
    Digit64(h2, b3 - 0x80);
    assert x == (b0 - 0xF0) * 262144 + (b1 - 0x80) * 4096 + (b2 - 0x80) * 64 + (b3 - 0x80);
    assert x / 64 == h2;
    assert x / 4096 == h1 by {
      assert x == h1 * 4096 + ((b2 - 0x80) * 64 + (b3 - 0x80));
    }
    assert x / 262144 == b0 - 0xF0 by {
      assert x == (b0 - 0xF0) * 262144 + ((b1 - 0x80) * 4096 + (b2 - 0x80) * 64 + (b3 - 0x80));
    }
  }

  lemma TwoByteChar(b0: byte, b1: byte)
    requires 0xC2 <= b0 <= 0xDF && IsContinuation(b1)
    ensures var x := (b0 as int - 0xC0) * 64 + (b1 as int - 0x80);
      && 0x80 <= x < 0x800 && EncodeChar(x as char) == [b0, b1]
  {
    TwoByteValue(b0, b1);
  }

  lemma ThreeByteChar(b0: byte, b1: byte, b2: byte)
    requires 0xE0 <= b0 <= 0xEF && IsContinuation(b1) && IsContinuation(b2)
    requires b0 == 0xE0 ==> b1 >= 0xA0
    requires b0 == 0xED ==> b1 <= 0x9F
    ensures var x := (b0 as int - 0xE0) * 4096 + (b1 as int - 0x80) * 64 + (b2 as int - 0x80);
      && 0x800 <= x < 0x1_0000 && !(0xD800 <= x <= 0xDFFF) && EncodeChar(x as char) == [b0, b1, b2]
  {
    ThreeByteValue(b0, b1, b2);
  }

  lemma FourByteChar(b0: byte, b1: byte, b2: byte, b3: byte)
    requires 0xF0 <= b0 <= 0xF4 && IsContinuation(b1) && IsContinuation(b2) && IsContinuation(b3)
    requires b0 == 0xF0 ==> b1 >= 0x90
    requires b0 == 0xF4 ==> b1 <= 0x8F
    ensures var x := (b0 as int - 0xF0) * 262144 + (b1 as int - 0x80) * 4096 + (b2 as int - 0x80) * 64 + (b3 as int - 0x80);
      && 0x1_0000 <= x < 0x11_0000 && EncodeChar(x as char) == [b0, b1, b2, b3]
  {
    FourByteValue(b0, b1, b2, b3);
  }

  /** The scalar value encoded at the front of `s` and the number of bytes it takes,
      or None when `s` does not start with a well-formed UTF-8 sequence. */
  function DecodeFirst(s: seq<byte>): (r: Option<(char, nat)>)
    ensures r.Some? ==> 1 <= r.value.1 <= |s| && r.value.1 <= 4
    ensures r.Some? ==> EncodeChar(r.value.0) == s[..r.value.1]
  {
    if |s| == 0 then None
    else if s[0] < 0x80 then
      Some((s[0] as char, 1))
    else if 0xC2 <= s[0] <= 0xDF then
      if |s| >= 2 && IsContinuation(s[1]) then
        TwoByteChar(s[0], s[1]);
        var x: int := (s[0] as int - 0xC0) * 64 + (s[1] as int - 0x80);
        assert s[..2] == [s[0], s[1]];
        Some((x as char, 2))
      else None
    else if 0xE0 <= s[0] <= 0xEF then
      if |s| >= 3 && IsContinuation(s[1]) && IsContinuation(s[2])
         && (s[0] == 0xE0 ==> s[1] >= 0xA0) && (s[0] == 0xED ==> s[1] <= 0x9F) then
        ThreeByteChar(s[0], s[1], s[2]);
        var x: int := (s[0] as int - 0xE0) * 4096 + (s[1] as int - 0x80) * 64 + (s[2] as int - 0x80);
        assert s[..3] == [s[0], s[1], s[2]];
        Some((x as char, 3))
      else None
    else if 0xF0 <= s[0] <= 0xF4 then
      if |s| >= 4 && IsContinuation(s[1]) && IsContinuation(s[2]) && IsContinuation(s[3])
         && (s[0] == 0xF0 ==> s[1] >= 0x90) && (s[0] == 0xF4 ==> s[1] <= 0x8F) then
        FourByteChar(s[0], s[1], s[2], s[3]);
        var x: int := (s[0] as int - 0xF0) * 262144 + (s[1] as int - 0x80) * 4096 + (s[2] as int - 0x80) * 64 + (s[3] as int - 0x80);
        assert s[..4] == [s[0], s[1], s[2], s[3]];
        Some((x as char, 4))
      else None
    else None
  }

  /** `String::from_utf8`: the text the bytes encode, or None for ill-formed UTF-8. */
  function Decode(s: seq<byte>): (r: Option<string>)
    ensures r.Some? ==> Encode(r.value) == s
    decreases |s|
  {
    if s == [] then Some([])
    else
      match DecodeFirst(s)
      case None => None
      case Some((c, n)) =>
        match Decode(s[n..])
        case None => None
        case Some(t) =>
          var r := [c] + t;
          assert r[0] == c && r[1..] == t;
          assert Encode(r) == EncodeChar(c) + Encode(t);
          assert s == s[..n] + s[n..];
          Some(r)
  }

  lemma TwoByteForm(x: int)
    requires 0x80 <= x < 0x800
    ensures 0xC2 <= 0xC0 + x / 64 <= 0xDF && 0x80 <= 0x80 + x % 64 <= 0xBF
    ensures (x / 64) * 64 + x % 64 == x
  {
  }

  lemma ThreeByteForm(x: int)
    requires 0x800 <= x < 0x1_0000 && !(0xD800 <= x <= 0xDFFF)
    ensures var b0, b1 := 0xE0 + x / 4096, 0x80 + (x / 64) % 64;
      && 0xE0 <= b0 <= 0xEF && 0x80 <= b1 <= 0xBF
      && (b0 == 0xE0 ==> b1 >= 0xA0) && (b0 == 0xED ==> b1 <= 0x9F)
    ensures (x / 4096) * 4096 + ((x / 64) % 64) * 64 + x % 64 == x
  {
  }

  lemma FourByteForm(x: int)
    requires 0x1_0000 <= x < 0x11_0000
    ensures var b0, b1 := 0xF0 + x / 262144, 0x80 + (x / 4096) % 64;
      && 0xF0 <= b0 <= 0xF4 && 0x80 <= b1 <= 0xBF
      && (b0 == 0xF0 ==> b1 >= 0x90) && (b0 == 0xF4 ==> b1 <= 0x8F)
    ensures (x / 262144) * 262144 + ((x / 4096) % 64) * 4096 + ((x / 64) % 64) * 64 + x % 64 == x
  {
    var a := x / 64;
    var b := a / 64;
    var c := b / 64;
    assert x / 4096 == b by {
      assert x == b * 4096 + ((a % 64) * 64 + x % 64);
    }
    assert x / 262144 == c by {
      assert x == c * 262144 + ((b % 64) * 4096 + (a % 64) * 64 + x % 64);
    }
  }

  lemma DecodeFirstEncodeChar(c: char, rest: seq<byte>)
    ensures DecodeFirst(EncodeChar(c) + rest) == Some((c, |EncodeChar(c)|))
  {
    var e := EncodeChar(c);
    var s := e + rest;
    assert s[..|e|] == e;
    var x := c as int;
    if x < 0x80 {
    } else if x < 0x800 {
      TwoByteForm(x);
    } else if x < 0x1_0000 {
      ThreeByteForm(x);
    } else {
      FourByteForm(x);
    }
  }

  /** Well-formed text survives the trip through its bytes. */
  lemma {:induction false} DecodeEncode(s: string)
    ensures Decode(Encode(s)) == Some(s)
  {
    if s != [] {
      var e := EncodeChar(s[0]);
      DecodeFirstEncodeChar(s[0], Encode(s[1..]));
      assert (e + Encode(s[1..]))[|e|..] == Encode(s[1..]);
      DecodeEncode(s[1..]);
      assert [s[0]] + s[1..] == s;
    }
  }

  lemma {:induction false} EncodeAppend(s: string, t: string)
    ensures Encode(s + t) == Encode(s) + Encode(t)
  {
    if s != [] {
      assert (s + t)[0] == s[0];
      assert (s + t)[1..] == s[1..] + t;
      EncodeAppend(s[1..], t);
      calc {
        Encode(s + t);
        EncodeChar(s[0]) + Encode(s[1..] + t);
        EncodeChar(s[0]) + (Encode(s[1..]) + Encode(t));
        (EncodeChar(s[0]) + Encode(s[1..])) + Encode(t);
      }
    } else {
      assert s + t == t;
    }
  }

  /** `Encode` is injective: two strings with the same bytes are equal. */
  lemma EncodeInjective(s: string, t: string)
    requires Encode(s) == Encode(t)
    ensures s == t
  {
    DecodeEncode(s);
    DecodeEncode(t);
  }

  // ---- String serialisation: written verbatim as `Encode`, read back sized ----

  /** A sized string read: `n` bytes, which must be well-formed UTF-8. */
  function ReadString(n: nat, s: seq<byte>): (r: Result<Parsed<string>>)
    ensures n > |s| ==> r == Err(Io)
    ensures n <= |s| && Decode(s[..n]).None? ==> r == Err(Encoding)
    ensures n <= |s| && Decode(s[..n]).Some? ==> r == Ok(Parsed(Decode(s[..n]).value, s[n..]))
    ensures r.Ok? ==> Encode(r.value.value) == s[..n] && r.value.rest == s[n..]
  {
    var b :- ReadBytes(n, s);
    match Decode(b.value)
    case None => Err(Encoding)
    case Some(t) => Ok(Parsed(t, b.rest))
  }

  /** Reading as many bytes as a string's serialisation has gives the string back. */
  lemma ReadWriteString(t: string, rest: seq<byte>)
    ensures ReadString(|Encode(t)|, Encode(t) + rest) == Ok(Parsed(t, rest))
  {
    var s := Encode(t) + rest;
    assert s[..|Encode(t)|] == Encode(t) && s[|Encode(t)|..] == rest;
    DecodeEncode(t);
  }
}

=== FILE: variant_field.dfy ===
/** One entry of a KDBX "VariantDictionary": a typed value under a string key.
    On the wire a field is its type byte, the u32 key length, the key, the u32
    value length and the value; the end-of-list marker is a lone zero byte. */
module VariantFields {
  import opened Errors
  import opened Bytes
  import Utf8
  import NumericEnum

  datatype VariantType =
    | EndOfListType
    | U32Type
    | U64Type
    | BoolType
    | I32Type
    | I64Type
    | StringType
    | BytesType

  const TypeSize: nat := NumericEnum.Size(8)

  function TypeCode(t: VariantType): (r: nat)
    ensures r < 0x100
  {
    match t
    case EndOfListType => 0x00
    case U32Type => 0x04
    case U64Type => 0x05
    case BoolType => 0x08
    case I32Type => 0x0C
    case I64Type => 0x0D
    case StringType => 0x18
    case BytesType => 0x42
  }

  predicate IsTypeCode(x: int) {
    x in {0x00, 0x04, 0x05, 0x08, 0x0C, 0x0D, 0x18, 0x42}
  }

  function TypeFromCode(x: nat): (r: Result<VariantType>)
    ensures r.Ok? <==> IsTypeCode(x)
    ensures r.Ok? ==> TypeCode(r.value) == x
    ensures r.Err? ==> r.error == UnsupportedVariantType(x)
  {
    if x == 0x00 then Ok(EndOfListType)
    else if x == 0x04 then Ok(U32Type)
    else if x == 0x05 then Ok(U64Type)
    else if x == 0x08 then Ok(BoolType)
    else if x == 0x0C then Ok(I32Type)
    else if x == 0x0D then Ok(I64Type)
    else if x == 0x18 then Ok(StringType)
    else if x == 0x42 then Ok(BytesType)
    else Err(UnsupportedVariantType(x))
  }

  lemma TypeCodeRoundTrip(t: VariantType)
    ensures TypeFromCode(TypeCode(t)) == Ok(t)
  {
  }

  datatype VariantValue =
    | EndOfList
    | U32(u32Value: u32)
    | U64(u64Value: u64)
    | Bool(flag: bool)
    | I32(i32Value: i32)
    | I64(i64Value: i64)
    | String(text: string)
    | Bytes(bytes: seq<byte>)

  datatype VariantField = VariantField(key: string, value: VariantValue)

  function TypeOf(v: VariantValue): VariantType {
    match v
    case EndOfList => EndOfListType
    case U32(_) => U32Type
    case U64(_) => U64Type
    case Bool(_) => BoolType
    case I32(_) => I32Type
    case I64(_) => I64Type
    case String(_) => StringType
    case Bytes(_) => BytesType
  }

  /** The value size a fixed-width type must declare, or None for the sized types. */
  function FixedSize(t: VariantType): Option<nat> {
    match t
    case U32Type => Some(4)
    case U64Type => Some(8)
    case BoolType => Some(1)
    case I32Type => Some(4)
    case I64Type => Some(8)
    case _ => None
  }

  /** `VariantValue::len`: the number of payload bytes (the UTF-8 length for text). */
  function ValueLen(v: VariantValue): (r: nat)
    ensures FixedSize(TypeOf(v)).Some? ==> r == FixedSize(TypeOf(v)).value
  {
    match v
    case EndOfList => 0
    case U32(_) => 4
    case U64(_) => 8
    case Bool(_) => 1
    case I32(_) => 4
    case I64(_) => 8
    case String(s) => |Utf8.Encode(s)|
    case Bytes(b) => |b|
  }

  /** The payload bytes of a value: little-endian integers, 0x01/0x00 for a flag,
      the UTF-8 text or the raw bytes. */
  function ValueBytes(v: VariantValue): (r: seq<byte>)
    ensures |r| == ValueLen(v)
  {
    match v
    case EndOfList => []
    case U32(x) => WriteU32(x)
    case U64(x) => WriteU64(x)
    case Bool(b) => if b then [0x01] else [0x00]
    case I32(x) => WriteI32(x)
    case I64(x) => WriteI64(x)
    case String(s) => Utf8.Encode(s)
    case Bytes(b) => b
  }

  /** `VariantField::len`. */
  function FieldLen(f: VariantField): (r: nat)
    ensures r >= 1
    ensures f.value.EndOfList? ==> r == 1
  {
    if f.value.EndOfList? then TypeSize
    else TypeSize + 8 + |Utf8.Encode(f.key)| + ValueLen(f.value)
  }

  /** The type byte of a field. */
  function SerializeType(t: VariantType): (r: seq<byte>)
    ensures r == [TypeCode(t)]
  {
    NumericEnum.SerializeCode(TypeCode(t), TypeSize)
  }

  /** The serialised form of a field: its type byte, then (except for the
      terminator) the key and value with their lengths. Lengths are written
      truncated to 32 bits and the key and value verbatim, so the byte count is
      always `FieldLen`. */
  function Serialize(f: VariantField): (r: seq<byte>)
    ensures |r| == FieldLen(f)
  {
    SerializeType(TypeOf(f.value)) + SerializeKeyAndValue(f)
  }

  function SerializeKeyAndValue(f: VariantField): (r: seq<byte>)
    ensures |r| + 1 == FieldLen(f)
  {
    if f.value.EndOfList? then []
    else
      var key := Utf8.Encode(f.key);
      WriteU32(AsU32(|key|)) + key + WriteU32(AsU32(ValueLen(f.value))) + ValueBytes(f.value)
  }

  /** Reading the payload of a non-terminator field whose declared size is `size`. */
  function DeserializeValue(t: VariantType, size: u32, s: seq<byte>): (r: Result<Parsed<VariantValue>>)
    requires t != EndOfListType
    ensures FixedSize(t).Some? && size != FixedSize(t).value ==> r == Err(InvalidFieldSize)
    ensures size > |s| ==> r.Err?
    ensures r.Ok? ==> TypeOf(r.value.value) == t && ValueLen(r.value.value) == size
                      && size <= |s| && r.value.rest == s[size..]
    ensures r.Ok? && t != BoolType ==> ValueBytes(r.value.value) == s[..size]
    ensures r.Ok? && t == BoolType ==> r.value.value == Bool(s[0] != 0)
  {
    match t
    case U32Type =>
      if size != 4 then Err(InvalidFieldSize) else var p :- ReadU32(s); Ok(Parsed(U32(p.value), p.rest))
    case U64Type =>
      if size != 8 then Err(InvalidFieldSize) else var p :- ReadU64(s); Ok(Parsed(U64(p.value), p.rest))
    case BoolType =>
      if size != 1 then Err(InvalidFieldSize) else var p :- ReadU8(s); Ok(Parsed(Bool(p.value != 0), p.rest))
    case I32Type =>
      if size != 4 then Err(InvalidFieldSize) else var p :- ReadI32(s); Ok(Parsed(I32(p.value), p.rest))
    case I64Type =>
      if size != 8 then Err(InvalidFieldSize) else var p :- ReadI64(s); Ok(Parsed(I64(p.value), p.rest))
    case StringType =>
      var p :- Utf8.ReadString(size, s); Ok(Parsed(String(p.value), p.rest))
    case BytesType =>
      var p :- ReadBytes(size, s); Ok(Parsed(Bytes(p.value), p.rest))
  }

  /** Reading one field. A zero type byte is the terminator and has no key or size;
      any other field reads its key length, key (well-formed UTF-8), value size and
      value. A field read consumes exactly `FieldLen` bytes. */
  function Deserialize(s: seq<byte>): (r: Result<Parsed<VariantField>>)
    ensures r.Ok? ==> FieldLen(r.value.value) <= |s| && r.value.rest == s[FieldLen(r.value.value)..]
  {
    var t :- NumericEnum.DeserializeCode(TypeSize, TypeFromCode, s);
    if t.value == EndOfListType then
      Ok(Parsed(VariantField("", EndOfList), t.rest))
    else
      DeserializeKeyAndValue(t.value, t.rest)
  }

  /** The first byte decides: no input is an I/O error, an undeclared type code is
      rejected with that code, and a zero byte is the terminator. */
  lemma DeserializeByType(s: seq<byte>)
    ensures s == [] ==> Deserialize(s) == Err(Io)
    ensures s != [] && !IsTypeCode(s[0]) ==> Deserialize(s) == Err(UnsupportedVariantType(s[0]))
    ensures s != [] && s[0] == 0 ==> Deserialize(s) == Ok(Parsed(VariantField("", EndOfList), s[1..]))
    ensures Deserialize(s).Ok? ==> s[0] == TypeCode(TypeOf(Deserialize(s).value.value.value))
  {
  }

  /** The part of a field after its (non-terminator) type byte. */
  function DeserializeKeyAndValue(t: VariantType, s: seq<byte>): (r: Result<Parsed<VariantField>>)
    requires t != EndOfListType
    ensures r.Ok? ==> TypeOf(r.value.value.value) == t
    ensures r.Ok? ==> FieldLen(r.value.value) <= |s| + 1 && r.value.rest == s[FieldLen(r.value.value) - 1..]
  {
    var keySize :- ReadU32(s);
    var key :- Utf8.ReadString(keySize.value, keySize.rest);
    var size :- ReadU32(key.rest);
    var value :- DeserializeValue(t, size.value, size.rest);
    assert |s| - |value.rest| + 1 == FieldLen(VariantField(key.value, value.value));
    Ok(Parsed(VariantField(key.value, value.value), value.rest))
  }

  lemma FieldAfterType(t: VariantType, s: seq<byte>, f: VariantField, r2: seq<byte>, r3: seq<byte>, r4: seq<byte>, rest: seq<byte>)
    requires t == TypeOf(f.value) != EndOfListType && WellFormed(f)
    requires ReadU32(s) == Ok(Parsed(|Utf8.Encode(f.key)|, r2))
    requires Utf8.ReadString(|Utf8.Encode(f.key)|, r2) == Ok(Parsed(f.key, r3))
    requires ReadU32(r3) == Ok(Parsed(ValueLen(f.value), r4))
    requires DeserializeValue(t, ValueLen(f.value), r4) == Ok(Parsed(f.value, rest))
    ensures DeserializeKeyAndValue(t, s) == Ok(Parsed(f, rest))
  {
  }

  /** A field the library can write and read back: the terminator has no key, and
      both lengths fit in the u32 they are written as. */
  predicate WellFormed(f: VariantField) {
    && (f.value.EndOfList? ==> f.key == "")
    && |Utf8.Encode(f.key)| < 0x1_0000_0000
    && ValueLen(f.value) < 0x1_0000_0000
  }

  lemma DeserializeValueBytes(v: VariantValue, rest: seq<byte>)
    requires !v.EndOfList? && ValueLen(v) < 0x1_0000_0000
    ensures DeserializeValue(TypeOf(v), ValueLen(v), ValueBytes(v) + rest) == Ok(Parsed(v, rest))
  {
    match v
    case U32(x) => ReadWriteU32(x, rest);
    case U64(x) => ReadWriteU64(x, rest);
    case Bool(b) =>
    case I32(x) => ReadWriteI32(x, rest);
    case I64(x) => ReadWriteI64(x, rest);
    case String(x) => Utf8.ReadWriteString(x, rest);
    case Bytes(x) => ReadBytesOfConcat(x, rest);
  }

  /** deserialize(serialize(f)) = f, with the input after the field untouched. */
  lemma DeserializeSerialize(f: VariantField, rest: seq<byte>)
    requires WellFormed(f)
    ensures Deserialize(Serialize(f) + rest) == Ok(Parsed(f, rest))
  {
    var r1 := SerializeKeyAndValue(f) + rest;
    assert Serialize(f) + rest == [TypeCode(TypeOf(f.value))] + r1;
    if f.value.EndOfList? {
      DeserializeByType([0] + rest);
      assert ([0] + rest)[1..] == rest;
    } else {
      AfterTypeByte(TypeOf(f.value), r1);
      KeyAndValueRoundTrip(f, rest);
    }
  }

  lemma AfterTypeByte(t: VariantType, s: seq<byte>)
    requires t != EndOfListType
    ensures Deserialize([TypeCode(t)] + s) == DeserializeKeyAndValue(t, s)
  {
    TypeCodeRoundTrip(t);
    NumericEnum.DeserializeSerialize(TypeSize, TypeCode, TypeFromCode, t, s);
  }

  lemma KeyAndValueRoundTrip(f: VariantField, rest: seq<byte>)
    requires WellFormed(f) && !f.value.EndOfList?
    ensures DeserializeKeyAndValue(TypeOf(f.value), SerializeKeyAndValue(f) + rest) == Ok(Parsed(f, rest))
  {
    var key := Utf8.Encode(f.key);
    var r4 := ValueBytes(f.value) + rest;
    var r3 := WriteU32(ValueLen(f.value)) + r4;
    var r2 := key + r3;
    var r1 := WriteU32(|key|) + r2;
    assert SerializeKeyAndValue(f)
      == WriteU32(|key|) + key + WriteU32(ValueLen(f.value)) + ValueBytes(f.value);
    Reassociate(WriteU32(|key|), key, WriteU32(ValueLen(f.value)), ValueBytes(f.value), rest);
    KeyAndValueSteps(f, r1, r2, r3, r4, rest);
  }

  lemma Reassociate(a: seq<byte>, b: seq<byte>, c: seq<byte>, d: seq<byte>, e: seq<byte>)
    ensures a + b + c + d + e == a + (b + (c + (d + e)))
  {
  }

  lemma KeyAndValueSteps(f: VariantField, r1: seq<byte>, r2: seq<byte>, r3: seq<byte>, r4: seq<byte>, rest: seq<byte>)
    requires WellFormed(f) && !f.value.EndOfList?
    requires r4 == ValueBytes(f.value) + rest
    requires r3 == WriteU32(ValueLen(f.value)) + r4
    requires r2 == Utf8.Encode(f.key) + r3
    requires r1 == WriteU32(|Utf8.Encode(f.key)|) + r2
    ensures DeserializeKeyAndValue(TypeOf(f.value), r1) == Ok(Parsed(f, rest))
  {
    ReadWriteU32(|Utf8.Encode(f.key)|, r2);
    Utf8.ReadWriteString(f.key, r3);
    ReadWriteU32(ValueLen(f.value), r4);
    DeserializeValueBytes(f.value, rest);
    FieldAfterType(TypeOf(f.value), r1, f, r2, r3, r4, rest);
  }

}

=== FILE: variant_list.dfy ===
/** The KDBX "VariantDictionary": a version word, the fields in order, and a
    terminating end-of-list byte. Keys may repeat; lookups see the first. */
module VariantLists {
  import opened Errors
  import opened Bytes
  import opened VariantFields

  const Version: u16 := 0x0100

  datatype VariantList = VariantList(list: seq<VariantField>)

  const Empty: VariantList := VariantList([])

  /** `add`: the new field goes last and the earlier ones stay as they were. */
  function Add(l: VariantList, key: string, value: VariantValue): (r: VariantList)
    ensures |r.list| == |l.list| + 1 && r.list[..|l.list|] == l.list
    ensures r.list[|l.list|] == VariantField(key, value)
  {
    VariantList(l.list + [VariantField(key, value)])
  }

  function SumFieldLen(fields: seq<VariantField>): (r: nat)
    ensures r >= |fields|
  {
    if fields == [] then 0 else FieldLen(fields[0]) + SumFieldLen(fields[1..])
  }

  /** The byte count of the serialised list: version word, fields, terminator. */
  function ListLen(l: VariantList): nat {
    2 + SumFieldLen(l.list) + TypeSize
  }

  lemma {:induction false} SumFieldLenAppend(fields: seq<VariantField>, f: VariantField)
    ensures SumFieldLen(fields + [f]) == SumFieldLen(fields) + FieldLen(f)
  {
    if fields != [] {
      assert (fields + [f])[1..] == fields[1..] + [f];
      SumFieldLenAppend(fields[1..], f);
    }
  }

  lemma SumFieldLenCons(f: VariantField, fields: seq<VariantField>)
    ensures SumFieldLen([f] + fields) == FieldLen(f) + SumFieldLen(fields)
  {
    assert ([f] + fields)[1..] == fields;
  }

  lemma SliceOfSlice(s: seq<byte>, a: nat, b: nat)
    requires a + b <= |s|
    ensures s[a..][b..] == s[a + b..]
  {
  }

  /** `len`: adds up the version word, every field's length and the terminator. */
  method Len(l: VariantList) returns (r: nat)
    ensures r == ListLen(l)
  {
    r := 2;
    var i := 0;
    while i < |l.list|
      invariant 0 <= i <= |l.list|
      invariant r == 2 + SumFieldLen(l.list[..i])
    {
      SumFieldLenAppend(l.list[..i], l.list[i]);
      assert l.list[..i + 1] == l.list[..i] + [l.list[i]];
      r := r + FieldLen(l.list[i]);
      i := i + 1;
    }
    assert l.list[..i] == l.list;
    r := r + TypeSize;
  }

  /** The value stored under the first field with key `key`, or None. */
  function Find(fields: seq<VariantField>, key: string): Option<VariantValue> {
    if fields == [] then None
    else if fields[0].key == key then Some(fields[0].value)
    else Find(fields[1..], key)
  }

  /** `Find` answers None exactly when no field has the key, and otherwise the
      value of the first field that has it. */
  lemma {:induction false} FindSpec(fields: seq<VariantField>, key: string)
    ensures Find(fields, key).None? <==> forall i :: 0 <= i < |fields| ==> fields[i].key != key
    ensures Find(fields, key).Some? ==>
              exists i :: 0 <= i < |fields| && fields[i] == VariantField(key, Find(fields, key).value)
                          && forall j :: 0 <= j < i ==> fields[j].key != key
  {
    if fields != [] && fields[0].key != key {
      FindSpec(fields[1..], key);
      assert forall i :: 1 <= i < |fields| ==> fields[i] == fields[1..][i - 1];
      if Find(fields, key).Some? {
        var i :| 0 <= i < |fields[1..]| && fields[1..][i] == VariantField(key, Find(fields, key).value)
                 && forall j :: 0 <= j < i ==> fields[1..][j].key != key;
        assert fields[i + 1] == VariantField(key, Find(fields, key).value);
        assert forall j :: 0 <= j < i + 1 ==> fields[j].key != key by {
          forall j | 0 <= j < i + 1 ensures fields[j].key != key {
            if j > 0 { assert fields[j] == fields[1..][j - 1]; }
          }
        }
      }
    }
  }

  /** The first field decides when it has the key; otherwise the search goes on. */
  lemma FindCons(f: VariantField, fields: seq<VariantField>, key: string)
    ensures Find([f] + fields, key) == if f.key == key then Some(f.value) else Find(fields, key)
  {
    assert ([f] + fields)[1..] == fields;
  }

  /** `get`: scans the fields in order and returns the first match. */
  method Get(l: VariantList, key: string) returns (r: Option<VariantValue>)
    ensures r == Find(l.list, key)
  {
    var i := 0;
    while i < |l.list|
      invariant 0 <= i <= |l.list|
      invariant Find(l.list, key) == Find(l.list[i..], key)
    {
      assert l.list[i..][1..] == l.list[i + 1..];
      if l.list[i].key == key {
        return Some(l.list[i].value);
      }
      i := i + 1;
    }
    return None;
  }

  /** Adding a field never changes what an earlier key already found. */
  lemma {:induction false} FindAfterAdd(l: VariantList, key: string, value: VariantValue, k: string)
    decreases |l.list|
    ensures Find(Add(l, key, value).list, k)
            == if Find(l.list, k).Some? then Find(l.list, k)
               else if k == key then Some(value) else None
  {
    var fields := l.list;
    if fields != [] {
      assert (fields + [VariantField(key, value)])[1..] == fields[1..] + [VariantField(key, value)];
      FindAfterAdd(VariantList(fields[1..]), key, value, k);
    }
  }

  function SerializeFields(fields: seq<VariantField>): (r: seq<byte>)
    ensures |r| == SumFieldLen(fields)
  {
    if fields == [] then [] else VariantFields.Serialize(fields[0]) + SerializeFields(fields[1..])
  }

  /** Version word, each field in list order, then a lone end-of-list byte. */
  function Serialize(l: VariantList): (r: seq<byte>)
    ensures |r| == ListLen(l)
    ensures r[..2] == WriteU16(Version) && r[|r| - 1] == 0
  {
    WriteU16(Version) + SerializeFields(l.list)
      + VariantFields.Serialize(VariantField("", EndOfList))
  }

  /** The fields up to the first end-of-list marker, which is consumed but not kept.
      The bytes consumed are exactly the fields' lengths plus the marker. */
  function DeserializeFields(s: seq<byte>): (r: Result<Parsed<seq<VariantField>>>)
    decreases |s|
  {
    var f :- VariantFields.Deserialize(s);
    if f.value.value.EndOfList? then Ok(Parsed([], f.rest))
    else
      var more :- DeserializeFields(f.rest);
      Ok(Parsed([f.value] + more.value, more.rest))
  }

  /** Reading fields consumes exactly their lengths plus the one-byte terminator. */
  lemma {:induction false} DeserializeFieldsConsumes(s: seq<byte>)
    requires DeserializeFields(s).Ok?
    ensures var p := DeserializeFields(s).value;
      SumFieldLen(p.value) + 1 <= |s| && p.rest == s[SumFieldLen(p.value) + 1..]
    decreases |s|
  {
    var f := VariantFields.Deserialize(s).value;
    FieldsStep(s);
    if !f.value.value.EndOfList? {
      DeserializeFieldsConsumes(f.rest);
      var more := DeserializeFields(f.rest).value;
      SumFieldLenCons(f.value, more.value);
      SliceOfSlice(s, FieldLen(f.value), SumFieldLen(more.value) + 1);
    }
  }

  /** The terminator is never among the fields read. */
  lemma {:induction false} DeserializeFieldsNoTerminator(s: seq<byte>)
    requires DeserializeFields(s).Ok?
    ensures forall f :: f in DeserializeFields(s).value.value ==> !f.value.EndOfList?
    decreases |s|
  {
    var f := VariantFields.Deserialize(s).value;
    if !f.value.value.EndOfList? {
      DeserializeFieldsNoTerminator(f.rest);
    }
  }

  /** `version & 0xFF00`: the high byte of the version word, in place. */
  function MajorBits(version: u16): nat {
    (version / 0x100) * 0x100
  }

  /** Reading a list: any version whose high byte is at most 1 is accepted,
      whatever its low byte. */
  function Deserialize(s: seq<byte>): (r: Result<Parsed<VariantList>>)
    ensures |s| < 2 ==> r == Err(Io)
    ensures |s| >= 2 && MajorBits(DecodeLE(s[..2])) > Version
            ==> r == Err(UnsupportedVariantListVersion(DecodeLE(s[..2])))
    ensures r.Ok? ==> ListLen(r.value.value) <= |s| && r.value.rest == s[ListLen(r.value.value)..]
  {
    var version :- ReadU16(s);
    if MajorBits(version.value) > Version then Err(UnsupportedVariantListVersion(version.value))
    else
      var fields :- DeserializeFields(version.rest);
      DeserializeFieldsConsumes(version.rest);
      Ok(Parsed(VariantList(fields.value), fields.rest))
  }

  /** `deserialize` as written: read fields, pushing each until the terminator. */
  method DeserializeLoop(s: seq<byte>) returns (r: Result<Parsed<VariantList>>)
    ensures r == Deserialize(s)
  {
    var version := ReadU16(s);
    if version.Err? {
      return Err(version.error);
    }
    if MajorBits(version.value.value) > Version {
      return Err(UnsupportedVariantListVersion(version.value.value));
    }
    var list: seq<VariantField> := [];
    var input := version.value.rest;
    AfterVersion(s);
    PrependEmpty(DeserializeFields(input));
    while true
      invariant Deserialize(s) == AsList(Prepend(list, DeserializeFields(input)))
      decreases |input|
    {
      var field := VariantFields.Deserialize(input);
      if field.Err? {
        LoopStops(list, input);
        return Err(field.error);
      }
      if field.value.value.value.EndOfList? {
        LoopStops(list, input);
        return Ok(Parsed(VariantList(list), field.value.rest));
      }
      LoopContinues(list, input);
      list := list + [field.value.value];
      input := field.value.rest;
    }
  }

  /** Past an accepted version word, a list is exactly the fields that follow. */
  lemma AfterVersion(s: seq<byte>)
    requires ReadU16(s).Ok? && MajorBits(ReadU16(s).value.value) <= Version
    ensures Deserialize(s) == AsList(DeserializeFields(ReadU16(s).value.rest))
  {
  }

  lemma PrependEmpty(r: Result<Parsed<seq<VariantField>>>)
    ensures Prepend([], r) == r
  {
    if r.Ok? {
      assert [] + r.value.value == r.value.value;
    }
  }

  function AsList(r: Result<Parsed<seq<VariantField>>>): Result<Parsed<VariantList>> {
    match r
    case Ok(p) => Ok(Parsed(VariantList(p.value), p.rest))
    case Err(e) => Err(e)
  }

  lemma LoopStops(list: seq<VariantField>, input: seq<byte>)
    requires VariantFields.Deserialize(input).Err? || VariantFields.Deserialize(input).value.value.value.EndOfList?
    ensures VariantFields.Deserialize(input).Err? ==>
              AsList(Prepend(list, DeserializeFields(input))) == Err(VariantFields.Deserialize(input).error)
    ensures VariantFields.Deserialize(input).Ok? ==>
              AsList(Prepend(list, DeserializeFields(input)))
              == Ok(Parsed(VariantList(list), VariantFields.Deserialize(input).value.rest))
  {
    FieldsStep(input);
    assert list + [] == list;
  }

  lemma LoopContinues(list: seq<VariantField>, input: seq<byte>)
    requires VariantFields.Deserialize(input).Ok? && !VariantFields.Deserialize(input).value.value.value.EndOfList?
    ensures var f := VariantFields.Deserialize(input).value;
      |f.rest| < |input|
      && Prepend(list, DeserializeFields(input)) == Prepend(list + [f.value], DeserializeFields(f.rest))
  {
    var f := VariantFields.Deserialize(input).value;
    FieldsStep(input);
    PrependAssoc(list, [f.value], DeserializeFields(f.rest));
  }

  /** The fields read so far, in front of those still to be read. */
  function Prepend(prefix: seq<VariantField>, r: Result<Parsed<seq<VariantField>>>): Result<Parsed<seq<VariantField>>> {
    match r
    case Ok(p) => Ok(Parsed(prefix + p.value, p.rest))
    case Err(e) => Err(e)
  }

  lemma PrependAssoc(a: seq<VariantField>, b: seq<VariantField>, r: Result<Parsed<seq<VariantField>>>)
    ensures Prepend(a, Prepend(b, r)) == Prepend(a + b, r)
  {
    if r.Ok? {
      assert a + (b + r.value.value) == (a + b) + r.value.value;
    }
  }

  /** One step of `DeserializeFields`: read a field, stop at the terminator. */
  lemma FieldsStep(s: seq<byte>)
    ensures DeserializeFields(s)
            == match VariantFields.Deserialize(s)
               case Err(e) => Err(e)
               case Ok(f) =>
                 if f.value.value.EndOfList? then Ok(Parsed([], f.rest))
                 else Prepend([f.value], DeserializeFields(f.rest))
  {
  }

  predicate WellFormedList(l: VariantList) {
    forall i :: 0 <= i < |l.list| ==> !l.list[i].value.EndOfList? && WellFormed(l.list[i])
  }

  lemma SerializeFieldsCons(fields: seq<VariantField>, rest: seq<byte>)
    requires fields != []
    ensures SerializeFields(fields) + rest == VariantFields.Serialize(fields[0]) + (SerializeFields(fields[1..]) + rest)
  {
    var a := VariantFields.Serialize(fields[0]);
    var b := SerializeFields(fields[1..]);
    assert SerializeFields(fields) == a + b;
    AppendAssoc(a, b, rest);
  }

  lemma AppendAssoc(a: seq<byte>, b: seq<byte>, c: seq<byte>)
    ensures (a + b) + c == a + (b + c)
  {
  }

  lemma ParseSerializedField(f: VariantField, s: seq<byte>, tail: seq<byte>)
    requires !f.value.EndOfList? && WellFormed(f)
    requires s == VariantFields.Serialize(f) + tail
    ensures DeserializeFields(s) == Prepend([f], DeserializeFields(tail))
  {
    VariantFields.DeserializeSerialize(f, tail);
    FieldsStep(s);
  }

  lemma PrependCons(fields: seq<VariantField>, rest: seq<byte>)
    requires fields != []
    ensures Prepend([fields[0]], Ok(Parsed(fields[1..], rest))) == Ok(Parsed(fields, rest))
  {
    assert [fields[0]] + fields[1..] == fields;
  }

  lemma ParseTerminator(rest: seq<byte>)
    ensures DeserializeFields([0] + rest) == Ok(Parsed([], rest))
    ensures DeserializeFields(SerializeFields([]) + ([0] + rest)) == Ok(Parsed([], rest))
  {
    var s := [0] + rest;
    DeserializeByType(s);
    assert s[1..] == rest;
    FieldsStep(s);
    assert SerializeFields([]) + ([0] + rest) == s;
  }

  lemma {:induction false} DeserializeSerializeFields(fields: seq<VariantField>, rest: seq<byte>)
    requires forall i :: 0 <= i < |fields| ==> !fields[i].value.EndOfList? && WellFormed(fields[i])
    ensures DeserializeFields(SerializeFields(fields) + ([0] + rest)) == Ok(Parsed(fields, rest))
  {
    if fields == [] {
      ParseTerminator(rest);
    } else {
      var tail := SerializeFields(fields[1..]) + ([0] + rest);
      SerializeFieldsCons(fields, [0] + rest);
      ParseSerializedField(fields[0], SerializeFields(fields) + ([0] + rest), tail);
      DeserializeSerializeFields(fields[1..], rest);
      PrependCons(fields, rest);
    }
  }

  /** Reading back a serialised list gives the same fields, in the same order and
      with any duplicate keys, and leaves the following input untouched. */
  lemma DeserializeSerialize(l: VariantList, rest: seq<byte>)
    requires WellFormedList(l)
    ensures Deserialize(Serialize(l) + rest) == Ok(Parsed(l, rest))
  {
    var tail := SerializeFields(l.list) + ([0] + rest);
    assert VariantFields.Serialize(VariantField("", EndOfList)) == [0];
    assert Serialize(l) + rest == WriteU16(Version) + tail;
    ReadWriteU16(Version, tail);
    DeserializeSerializeFields(l.list, rest);
  }
}

=== FILE: xml.dfy ===
/** The parsed XML tree of the database payload and the helpers the library adds
    to it. An element has a name, attributes and ordered children; a child is an
    element or a text node. The tree is a value: an edit the library makes in
    place is a function from the element before to the element after. */
module XmlTree {
  import opened Errors

  datatype Element = Element(name: string, attributes: map<string, string>, children: seq<Node>)
  datatype Node = Elem(element: Element) | Text(text: string)

  /** The number of elements in a tree; text nodes do not count. */
  function Size(e: Element): (r: nat)
    ensures r >= 1
  {
    1 + NodesSize(e.children)
  }

  function NodesSize(nodes: seq<Node>): nat {
    if nodes == [] then 0 else NodeSize(nodes[0]) + NodesSize(nodes[1..])
  }

  function NodeSize(n: Node): nat {
    match n
    case Text(_) => 0
    case Elem(e) => Size(e)
  }

  /** `Element::new`: no attributes, no children. */
  function NewElement(name: string): Element {
    Element(name, map[], [])
  }

  /** `index_of`: the position among all children (text nodes included) of the
      first element child the predicate accepts. */
  function IndexOf(nodes: seq<Node>, accept: Element -> bool): (r: Option<nat>)
    ensures r.Some? ==> r.value < |nodes| && nodes[r.value].Elem? && accept(nodes[r.value].element)
    ensures r.Some? ==> forall i :: 0 <= i < r.value && nodes[i].Elem? ==> !accept(nodes[i].element)
    ensures r.None? ==> forall i :: 0 <= i < |nodes| && nodes[i].Elem? ==> !accept(nodes[i].element)
  {
    if nodes == [] then None
    else if nodes[0].Elem? && accept(nodes[0].element) then Some(0)
    else
      match IndexOf(nodes[1..], accept)
      case None => None
      case Some(i) => Some(i + 1)
  }

  /** The position of the first child element with the given name. */
  function ChildIndex(e: Element, name: string): (r: Option<nat>)
    ensures r.Some? ==> r.value < |e.children| && e.children[r.value].Elem?
                        && e.children[r.value].element.name == name
    ensures r.Some? ==> forall i :: 0 <= i < r.value && e.children[i].Elem? ==> e.children[i].element.name != name
    ensures r.None? ==> forall i :: 0 <= i < |e.children| && e.children[i].Elem? ==> e.children[i].element.name != name
  {
    IndexOf(e.children, (c: Element) => c.name == name)
  }

  /** `get_child`: the first child element with the given name. */
  function GetChild(e: Element, name: string): (r: Option<Element>)
    ensures r.Some? <==> exists i :: 0 <= i < |e.children| && e.children[i].Elem? && e.children[i].element.name == name
    ensures r.Some? ==> r.value.name == name
  {
    match ChildIndex(e, name)
    case None => None
    case Some(i) => Some(e.children[i].element)
  }

  /** The text of the text children, in order. */
  function Texts(nodes: seq<Node>): string {
    if nodes == [] then ""
    else (if nodes[0].Text? then nodes[0].text else "") + Texts(nodes[1..])
  }

  /** `text_content`: the element's own text, empty when it has none. */
  function TextContent(e: Element): string {
    Texts(e.children)
  }

  /** `set_text_content`: the element keeps its name and attributes, and its only
      child is the new text. */
  function SetTextContent(e: Element, text: string): (r: Element)
    ensures r.name == e.name && r.attributes == e.attributes
    ensures r.children == [Text(text)] && TextContent(r) == text
  {
    var r := e.(children := [Text(text)]);
    assert Texts(r.children) == text + Texts([]);
    r
  }

  // ---- Text normalisation: what writing a tree out and parsing it back does ----

  /** A text node put in front of `nodes` the way a parser reports text: empty
      text is no node at all, and text next to text is one run of characters. */
  function PushText(t: string, nodes: seq<Node>): (r: seq<Node>)
    ensures Texts(r) == t + Texts(nodes)
    ensures r != [] && r[0].Text? <==> t != "" || (nodes != [] && nodes[0].Text?)
  {
    if t == "" then nodes
    else if nodes != [] && nodes[0].Text? then
      var r := [Text(t + nodes[0].text)] + nodes[1..];
      assert r[1..] == nodes[1..];
      r
    else
      assert ([Text(t)] + nodes)[1..] == nodes;
      [Text(t)] + nodes
  }

  /** The tree with no empty text node and no two text nodes side by side, at
      any depth: what an XML document written from the tree parses back as. */
  function Normalized(e: Element): (r: Element)
    ensures r.name == e.name && r.attributes == e.attributes && TextContent(r) == TextContent(e)
    decreases Size(e), 0
  {
    Element(e.name, e.attributes, NormalizedNodes(e.children))
  }

  function NormalizedNodes(nodes: seq<Node>): (r: seq<Node>)
    ensures Texts(r) == Texts(nodes)
    decreases NodesSize(nodes), 1, |nodes|
  {
    if nodes == [] then []
    else
      assert NodesSize(nodes) == NodeSize(nodes[0]) + NodesSize(nodes[1..]);
      match nodes[0]
      case Text(t) => PushText(t, NormalizedNodes(nodes[1..]))
      case Elem(c) =>
        var r := [Elem(Normalized(c))] + NormalizedNodes(nodes[1..]);
        assert r[1..] == NormalizedNodes(nodes[1..]);
        r
  }

  /** Two runs of text pushed one after the other are one run. */
  lemma PushTextTwice(a: string, b: string, nodes: seq<Node>)
    ensures PushText(a, PushText(b, nodes)) == PushText(a + b, nodes)
  {
    if a != "" && b != "" {
      if nodes != [] && nodes[0].Text? {
        assert a + (b + nodes[0].text) == (a + b) + nodes[0].text;
      }
    } else if a == "" {
      assert a + b == b;
    } else {
      assert a + b == a;
    }
  }

  /** Normalising after pushing text is pushing text onto the normal form. */
  lemma NormalizedPushText(t: string, nodes: seq<Node>)
    ensures NormalizedNodes(PushText(t, nodes)) == PushText(t, NormalizedNodes(nodes))
  {
    if t != "" {
      if nodes != [] && nodes[0].Text? {
        var x := nodes[0].text;
        var pushed := [Text(t + x)] + nodes[1..];
        assert pushed[0] == Text(t + x) && pushed[1..] == nodes[1..];
        assert NormalizedNodes(nodes) == PushText(x, NormalizedNodes(nodes[1..]));
        PushTextTwice(t, x, NormalizedNodes(nodes[1..]));
      } else {
        var pushed := [Text(t)] + nodes;
        assert pushed[0] == Text(t) && pushed[1..] == nodes;
      }
    }
  }

  /** Normalising twice is normalising once: a parsed document written out and
      parsed again does not change any more. */
  lemma {:induction false} NormalizedTwice(e: Element)
    ensures Normalized(Normalized(e)) == Normalized(e)
    decreases Size(e), 0
  {
    NormalizedNodesTwice(e.children);
  }

  lemma {:induction false} NormalizedNodesTwice(nodes: seq<Node>)
    ensures NormalizedNodes(NormalizedNodes(nodes)) == NormalizedNodes(nodes)
    decreases NodesSize(nodes), 1, |nodes|
  {
    if nodes != [] {
      assert NodesSize(nodes) == NodeSize(nodes[0]) + NodesSize(nodes[1..]);
      var rest := NormalizedNodes(nodes[1..]);
      NormalizedNodesTwice(nodes[1..]);
      match nodes[0]
      case Text(t) =>
        NormalizedPushText(t, rest);
      case Elem(c) =>
        NormalizedTwice(c);
        var r := [Elem(Normalized(c))] + rest;
        assert r[0] == Elem(Normalized(c)) && r[1..] == rest;
    }
  }

  // ---- What an XML document can carry unchanged ----

  /** A character XML 1.0 allows in a document (section 2.2 of the XML 1.0
      Recommendation), less the carriage return, which a parser reads back as
      a line feed (section 2.11). */
  predicate XmlChar(c: char) {
    c == '\t' || c == '\n' || (' ' <= c <= '\U{D7FF}') || ('\U{E000}' <= c <= '\U{FFFD}') || '\U{10000}' <= c
  }

  /** The white space of section 2.3 of the XML 1.0 Recommendation. */
  predicate XmlSpace(c: char) {
    c == ' ' || c == '\t' || c == '\n' || c == '\r'
  }

  /** Text a parser hands back as it was written: only XML characters, and not
      a run of white space alone, which the parser reports as ignorable
      white space rather than as text. Empty text is written as nothing. */
  predicate RepresentableText(t: string) {
    (forall i :: 0 <= i < |t| ==> XmlChar(t[i]))
    && (t == "" || exists i :: 0 <= i < |t| && !XmlSpace(t[i]))
  }

  /** A plain ASCII name: a letter or underscore, then letters, digits,
      underscores, hyphens and dots; no namespace prefix. */
  predicate XmlName(n: string) {
    && n != []
    && ('A' <= n[0] <= 'Z' || 'a' <= n[0] <= 'z' || n[0] == '_')
    && forall i :: 0 <= i < |n| ==>
         ('A' <= n[i] <= 'Z' || 'a' <= n[i] <= 'z' || '0' <= n[i] <= '9' || n[i] == '_' || n[i] == '-' || n[i] == '.')
  }

  /** An attribute the parser reports back as an attribute: its name is plain
      and does not start with the reserved "xml" (an `xmlns` attribute is a
      namespace declaration), and its value holds no tab or line end, which
      attribute-value normalisation (section 3.3.3) turns into spaces. */
  predicate RepresentableAttribute(name: string, value: string) {
    && XmlName(name)
    && !(|name| >= 3 && name[0] in "xX" && name[1] in "mM" && name[2] in "lL")
    && forall i :: 0 <= i < |value| ==> XmlChar(value[i]) && value[i] != '\t' && value[i] != '\n'
  }

  /** A tree that a written document carries without loss beyond text
      normalisation: plain names, representable attributes and text, at every
      depth. */
  predicate Representable(e: Element)
    decreases Size(e), 0
  {
    && XmlName(e.name)
    && (forall a :: a in e.attributes ==> RepresentableAttribute(a, e.attributes[a]))
    && RepresentableNodes(e.children)
  }

  predicate RepresentableNodes(nodes: seq<Node>)
    decreases NodesSize(nodes), 1, |nodes|
  {
    nodes == []
    || (assert NodesSize(nodes) == NodeSize(nodes[0]) + NodesSize(nodes[1..]);
        (if nodes[0].Text? then RepresentableText(nodes[0].text) else Representable(nodes[0].element))
        && RepresentableNodes(nodes[1..]))
  }

  /** `to_boolean`: the spellings of true and false the library understands. */
  function ToBoolean(e: Element): (r: Option<bool>)
    ensures var t := TextContent(e);
            && (r == Some(true) <==> t == "True" || t == "true" || t == "1")
            && (r == Some(false) <==> t == "False" || t == "false" || t == "0")
  {
    var t := TextContent(e);
    if t == "True" || t == "true" || t == "1" then Some(true)
    else if t == "False" || t == "false" || t == "0" then Some(false)
    else None
  }

  /** `to_key_value`: the texts of the first Key and the first Value children. */
  function ToKeyValue(e: Element): (r: Option<(string, string)>)
    ensures r.Some? <==> GetChild(e, "Key").Some? && GetChild(e, "Value").Some?
    ensures r.Some? ==> r.value == (TextContent(GetChild(e, "Key").value), TextContent(GetChild(e, "Value").value))
  {
    match (GetChild(e, "Key"), GetChild(e, "Value"))
    case (Some(k), Some(v)) => Some((TextContent(k), TextContent(v)))
    case _ => None
  }

  /** `add_element`: one more child, at the end. */
  function AddElement(e: Element, child: Element): (r: Element)
    ensures r.name == e.name && r.attributes == e.attributes
    ensures |r.children| == |e.children| + 1 && r.children[..|e.children|] == e.children
    ensures r.children[|e.children|] == Elem(child)
  {
    e.(children := e.children + [Elem(child)])
  }

  /** `children.remove(i)`. */
  function RemoveAt(nodes: seq<Node>, i: nat): (r: seq<Node>)
    requires i < |nodes|
    ensures |r| == |nodes| - 1
    ensures forall j :: 0 <= j < i ==> r[j] == nodes[j]
    ensures forall j :: i <= j < |r| ==> r[j] == nodes[j + 1]
  {
    nodes[..i] + nodes[i + 1..]
  }

  /** The first child named `name` removed, if there is one. */
  function RemoveFirstNamed(e: Element, name: string): (r: Element)
    ensures r.name == e.name && r.attributes == e.attributes
  {
    match ChildIndex(e, name)
    case None => e
    case Some(i) => e.(children := RemoveAt(e.children, i))
  }

  /** The first child named `name` is at `k` when the element there has that name
      and none before it has. */
  lemma ChildIndexIs(e: Element, name: string, k: nat)
    requires k < |e.children| && e.children[k].Elem? && e.children[k].element.name == name
    requires forall i :: 0 <= i < k && e.children[i].Elem? ==> e.children[i].element.name != name
    ensures ChildIndex(e, name) == Some(k)
  {
  }

  /** Replacing the first child of a name by another element of that name keeps
      it the first. */
  lemma ChildIndexReplace(e: Element, name: string, x: Element)
    requires ChildIndex(e, name).Some? && x.name == name
    ensures var k := ChildIndex(e, name).value;
            ChildIndex(e.(children := e.children[k := Elem(x)]), name) == Some(k)
  {
    var k := ChildIndex(e, name).value;
    ChildIndexIs(e.(children := e.children[k := Elem(x)]), name, k);
  }

  /** Appending a child of another name leaves the first child of a name where it
      was. */
  lemma ChildIndexAppendOther(e: Element, x: Element, name: string)
    requires x.name != name
    ensures ChildIndex(AddElement(e, x), name) == ChildIndex(e, name)
  {
    if ChildIndex(e, name).Some? {
      ChildIndexIs(AddElement(e, x), name, ChildIndex(e, name).value);
    } else {
      var r := AddElement(e, x);
      assert forall i :: 0 <= i < |r.children| && r.children[i].Elem? ==> r.children[i].element.name != name by {
        forall i | 0 <= i < |r.children| && r.children[i].Elem?
          ensures r.children[i].element.name != name
        {
          if i < |e.children| {
            assert r.children[i] == e.children[i];
          }
        }
      }
    }
  }

  /** The same children, except that elements of other names than `name` may
      have become other elements of names other than `name`. */
  predicate SameExcept(a: seq<Node>, b: seq<Node>, name: string) {
    |a| == |b|
    && forall k :: 0 <= k < |a| ==>
         a[k] == b[k] || (a[k].Elem? && b[k].Elem? && a[k].element.name != name && b[k].element.name != name)
  }

  /** Such changes leave the first child named `name` alone. */
  lemma GetChildSameExcept(e: Element, c: seq<Node>, name: string)
    requires SameExcept(e.children, c, name)
    ensures GetChild(e.(children := c), name) == GetChild(e, name)
  {
    var r := e.(children := c);
    match ChildIndex(e, name)
    case Some(k) =>
      assert r.children[k] == e.children[k];
      ChildIndexIs(r, name, k);
    case None =>
  }

  lemma SameExceptCons(n: Node, n': Node, a: seq<Node>, b: seq<Node>, name: string)
    requires n == n' || (n.Elem? && n'.Elem? && n.element.name != name && n'.element.name != name)
    requires SameExcept(a, b, name)
    ensures SameExcept([n] + a, [n'] + b, name)
  {
    forall k | 1 <= k < |a| + 1
      ensures ([n] + a)[k] == a[k - 1] && ([n'] + b)[k] == b[k - 1]
    {
    }
  }

  lemma {:induction false} NodesSizeAppend(a: seq<Node>, b: seq<Node>)
    ensures NodesSize(a + b) == NodesSize(a) + NodesSize(b)
  {
    if a != [] {
      assert (a + b)[0] == a[0] && (a + b)[1..] == a[1..] + b;
      NodesSizeAppend(a[1..], b);
    } else {
      assert a + b == b;
    }
  }

  /** Removing a child never adds elements. */
  lemma NodesSizeRemoveAt(nodes: seq<Node>, i: nat)
    requires i < |nodes|
    ensures NodesSize(RemoveAt(nodes, i)) <= NodesSize(nodes)
  {
    var a, t := nodes[..i], nodes[i + 1..];
    assert nodes == a + ([nodes[i]] + t);
    NodesSizeAppend(a, [nodes[i]] + t);
    NodesSizeAppend(a, t);
    assert NodesSize([nodes[i]] + t) == NodeSize(nodes[i]) + NodesSize(t) by {
      assert ([nodes[i]] + t)[1..] == t;
    }
  }

  /** A Key or Value element holding only the given text. */
  function TextElement(name: string, text: string): Element {
    SetTextContent(NewElement(name), text)
  }

  function ValueElement(value: string, protected: bool): (r: Element)
    ensures r.name == "Value" && TextContent(r) == value
    ensures "Protected" in r.attributes <==> protected
  {
    var v := TextElement("Value", value);
    if protected then v.(attributes := v.attributes["Protected" := "True"]) else v
  }

  /** `set_key_value`: the first Key and then the first Value child removed, and
      a new Key and a new Value (marked Protected="True" when asked) appended. */
  function SetKeyValue(e: Element, key: string, value: string, protected: bool): (r: Element)
    ensures r.name == e.name && r.attributes == e.attributes
    ensures var kept := RemoveFirstNamed(RemoveFirstNamed(e, "Key"), "Value").children;
            r.children == kept + [Elem(TextElement("Key", key)), Elem(ValueElement(value, protected))]
  {
    AddElement(AddElement(RemoveFirstNamed(RemoveFirstNamed(e, "Key"), "Value"), TextElement("Key", key)),
               ValueElement(value, protected))
  }

  /** At most one child element of the given name. */
  predicate AtMostOne(e: Element, name: string) {
    forall i, j :: (0 <= i < j < |e.children| && e.children[i].Elem? && e.children[j].Elem?
                    && e.children[i].element.name == name) ==> e.children[j].element.name != name
  }

  lemma RemoveOnlyNamed(e: Element, name: string)
    requires AtMostOne(e, name)
    ensures GetChild(RemoveFirstNamed(e, name), name).None?
  {
    var r := RemoveFirstNamed(e, name);
    match ChildIndex(e, name)
    case None =>
    case Some(i) =>
      forall j | 0 <= j < |r.children| && r.children[j].Elem?
        ensures r.children[j].element.name != name
      {
        if j >= i {
          assert r.children[j] == e.children[j + 1];
        }
      }
  }

  /** Removing the first child of one name keeps the children of other names,
      so at most one child of another name is still at most one. */
  lemma RemoveKeepsAtMostOne(e: Element, removed: string, name: string)
    requires AtMostOne(e, name)
    ensures AtMostOne(RemoveFirstNamed(e, removed), name)
  {
    var r := RemoveFirstNamed(e, removed);
    match ChildIndex(e, removed)
    case None =>
    case Some(k) =>
      forall i, j | 0 <= i < j < |r.children| && r.children[i].Elem? && r.children[j].Elem?
                    && r.children[i].element.name == name
        ensures r.children[j].element.name != name
      {
        var i' := if i < k then i else i + 1;
        var j' := if j < k then j else j + 1;
        assert r.children[i] == e.children[i'] && r.children[j] == e.children[j'];
      }
  }

  /** The first child of a name among children followed by more children. */
  lemma GetChildAppend(kept: seq<Node>, more: seq<Node>, name: string, x: Element)
    requires forall i :: 0 <= i < |kept| && kept[i].Elem? ==> kept[i].element.name != name
    requires |more| > 0 && more[0] == Elem(x) && x.name == name
    ensures forall e: Element :: e.children == kept + more ==> GetChild(e, name) == Some(x)
  {
    forall e: Element | e.children == kept + more
      ensures GetChild(e, name) == Some(x)
    {
      var c := e.children;
      assert c[|kept|] == Elem(x);
      assert forall i :: 0 <= i < |kept| ==> c[i] == kept[i];
    }
  }

  /** The key and value just set read back, provided the element had at most one
      Key and at most one Value child: a second Key would come before the new one
      and be read instead. */
  lemma KeyValueRoundTrip(e: Element, key: string, value: string, protected: bool)
    requires AtMostOne(e, "Key") && AtMostOne(e, "Value")
    ensures ToKeyValue(SetKeyValue(e, key, value, protected)) == Some((key, value))
  {
    var e1 := RemoveFirstNamed(e, "Key");
    var e2 := RemoveFirstNamed(e1, "Value");
    RemoveOnlyNamed(e, "Key");
    RemoveKeepsAtMostOne(e, "Key", "Value");
    RemoveOnlyNamed(e1, "Value");
    var kept := e2.children;
    assert forall i :: 0 <= i < |kept| && kept[i].Elem? ==> kept[i].element.name != "Value" by {
      assert GetChild(e2, "Value").None?;
    }
    assert forall i :: 0 <= i < |kept| && kept[i].Elem? ==> kept[i].element.name != "Key" by {
      assert GetChild(e1, "Key").None?;
      forall i | 0 <= i < |kept| && kept[i].Elem?
        ensures kept[i].element.name != "Key"
      {
        match ChildIndex(e1, "Value")
        case None =>
        case Some(k) =>
          if i >= k {
            assert kept[i] == e1.children[i + 1];
          }
      }
    }
    var k := TextElement("Key", key);
    var v := ValueElement(value, protected);
    var r := SetKeyValue(e, key, value, protected);
    GetChildAppend(kept, [Elem(k), Elem(v)], "Key", k);
    GetChildAppend(kept + [Elem(k)], [Elem(v)], "Value", v);
    assert r.children == (kept + [Elem(k)]) + [Elem(v)];
  }
}

=== FILE: xml_iterator.dfy ===
/** `ElementIterator`: a walk over the descendants of an element (not the element
    itself) in document order. An element is yielded when the accept filter takes
    it, before its own children; its children are walked when the recurse filter
    takes it, whether or not it was yielded. */
module ElementIterators {
  import opened Errors
  import opened XmlTree

  /** The walk over a sequence of children, as a specification. */
  function Items(nodes: seq<Node>, accept: Element -> bool, recurse: Element -> bool): seq<Element> {
    if nodes == [] then [] else NodeItems(nodes[0], accept, recurse) + Items(nodes[1..], accept, recurse)
  }

  function NodeItems(n: Node, accept: Element -> bool, recurse: Element -> bool): seq<Element> {
    match n
    case Text(_) => []
    case Elem(e) => (if accept(e) then [e] else []) + Below(e, accept, recurse)
  }

  /** What the walk finds under an element it has reached. */
  function Below(e: Element, accept: Element -> bool, recurse: Element -> bool): seq<Element> {
    if recurse(e) then Items(e.children, accept, recurse) else []
  }

  /** The element children, in order. */
  function ElementChildren(nodes: seq<Node>): (r: seq<Element>)
    ensures |r| <= |nodes|
  {
    if nodes == [] then []
    else (if nodes[0].Elem? then [nodes[0].element] else []) + ElementChildren(nodes[1..])
  }

  lemma {:induction false} ElementChildrenAppend(a: seq<Node>, b: seq<Node>)
    ensures ElementChildren(a + b) == ElementChildren(a) + ElementChildren(b)
  {
    if a == [] {
      assert a + b == b;
    } else {
      assert (a + b)[0] == a[0] && (a + b)[1..] == a[1..] + b;
      ElementChildrenAppend(a[1..], b);
    }
  }

  /** Each element child comes from a child node. */
  lemma {:induction false} ElementChildrenFrom(nodes: seq<Node>)
    ensures forall x :: x in ElementChildren(nodes) ==> exists j :: 0 <= j < |nodes| && nodes[j] == Elem(x)
  {
    if nodes != [] {
      ElementChildrenFrom(nodes[1..]);
      assert forall j :: 0 <= j < |nodes[1..]| ==> nodes[1..][j] == nodes[j + 1];
    }
  }

  /** Children that are all elements are their own element children. */
  lemma {:induction false} ElementChildrenOfElements(nodes: seq<Node>)
    requires forall i :: 0 <= i < |nodes| ==> nodes[i].Elem?
    ensures |ElementChildren(nodes)| == |nodes|
    ensures forall i :: 0 <= i < |nodes| ==> ElementChildren(nodes)[i] == nodes[i].element
  {
    if nodes != [] {
      ElementChildrenOfElements(nodes[1..]);
    }
  }

  /** `elements()`: a walk that never descends yields exactly the element
      children. */
  lemma {:induction false} ShallowWalk(nodes: seq<Node>, accept: Element -> bool, recurse: Element -> bool)
    requires forall e :: accept(e)
    requires forall e :: !recurse(e)
    ensures Items(nodes, accept, recurse) == ElementChildren(nodes)
  {
    if nodes != [] {
      ShallowWalk(nodes[1..], accept, recurse);
      if nodes[0].Elem? {
        var e := nodes[0].element;
        assert accept(e) && !recurse(e);
        assert NodeItems(nodes[0], accept, recurse) == [e] + [];
      }
    }
  }

  /** A walk finds nothing among children it neither takes nor enters. */
  lemma {:induction false} ItemsNone(nodes: seq<Node>, accept: Element -> bool, recurse: Element -> bool)
    requires forall i :: 0 <= i < |nodes| && nodes[i].Elem? ==> !accept(nodes[i].element) && !recurse(nodes[i].element)
    ensures Items(nodes, accept, recurse) == []
  {
    if nodes != [] {
      ItemsNone(nodes[1..], accept, recurse);
      assert NodeItems(nodes[0], accept, recurse) == [] by {
        if nodes[0].Elem? {
          assert !accept(nodes[0].element) && !recurse(nodes[0].element);
        }
      }
    }
  }

  lemma ItemsAt(nodes: seq<Node>, pos: nat, accept: Element -> bool, recurse: Element -> bool)
    requires pos < |nodes|
    ensures Items(nodes[pos..], accept, recurse)
            == NodeItems(nodes[pos], accept, recurse) + Items(nodes[pos + 1..], accept, recurse)
  {
    assert nodes[pos..][1..] == nodes[pos + 1..];
  }

  lemma {:induction false} ItemsAppend(a: seq<Node>, b: seq<Node>, accept: Element -> bool, recurse: Element -> bool)
    ensures Items(a + b, accept, recurse) == Items(a, accept, recurse) + Items(b, accept, recurse)
  {
    if a == [] {
      assert a + b == b;
    } else {
      assert (a + b)[0] == a[0] && (a + b)[1..] == a[1..] + b;
      ItemsAppend(a[1..], b, accept, recurse);
      AppendAssoc(NodeItems(a[0], accept, recurse), Items(a[1..], accept, recurse), Items(b, accept, recurse));
    }
  }

  /** The walk yields only elements the accept filter takes. */
  lemma {:induction false} ItemsAccepted(nodes: seq<Node>, accept: Element -> bool, recurse: Element -> bool)
    ensures forall x :: x in Items(nodes, accept, recurse) ==> accept(x)
    decreases NodesSize(nodes), |nodes|
  {
    if nodes != [] {
      ItemsAccepted(nodes[1..], accept, recurse);
      if nodes[0].Elem? {
        var e := nodes[0].element;
        assert NodesSize(nodes) == NodeSize(nodes[0]) + NodesSize(nodes[1..]);
        assert NodeSize(nodes[0]) == Size(e) == 1 + NodesSize(e.children);
        ItemsAccepted(e.children, accept, recurse);
      }
      assert forall x :: x in NodeItems(nodes[0], accept, recurse) ==> accept(x);
    }
  }

  lemma AppendAssoc(a: seq<Element>, b: seq<Element>, c: seq<Element>)
    ensures (a + b) + c == a + (b + c)
  {
  }

  /** The cost of walking children: two per element plus its children, one per
      text node. */
  function Weight(nodes: seq<Node>): nat {
    if nodes == [] then 0 else NodeWeight(nodes[0]) + Weight(nodes[1..])
  }

  function NodeWeight(n: Node): (r: nat)
    ensures r >= 1
  {
    match n
    case Text(_) => 1
    case Elem(e) => 2 + Weight(e.children)
  }

  lemma WeightAt(nodes: seq<Node>, pos: nat)
    requires pos < |nodes|
    ensures Weight(nodes[pos..]) == NodeWeight(nodes[pos]) + Weight(nodes[pos + 1..])
  {
    assert nodes[pos..][1..] == nodes[pos + 1..];
  }

  /** A saved position: a context and the index of the child being walked. */
  predicate Frame(f: (Element, nat)) {
    f.1 < |f.0.children|
  }

  predicate Frames(frames: seq<(Element, nat)>) {
    forall i :: 0 <= i < |frames| ==> Frame(frames[i])
  }

  /** A position in a context: `pos` at most the number of children, and when the
      child at `pos` has been yielded it is an element. */
  predicate Position(ctx: Element, pos: nat, accepted: bool) {
    pos <= |ctx.children| && (accepted ==> pos < |ctx.children| && ctx.children[pos].Elem?)
  }

  /** What the walk still finds in a context from a position. */
  function Here(ctx: Element, pos: nat, accepted: bool, accept: Element -> bool, recurse: Element -> bool): seq<Element>
    requires Position(ctx, pos, accepted)
  {
    if accepted then Below(ctx.children[pos].element, accept, recurse) + Items(ctx.children[pos + 1..], accept, recurse)
    else Items(ctx.children[pos..], accept, recurse)
  }

  /** What it finds after returning to each saved context, innermost first. */
  function Saved(frames: seq<(Element, nat)>, accept: Element -> bool, recurse: Element -> bool): seq<Element>
    requires Frames(frames)
  {
    if frames == [] then []
    else
      var top := frames[|frames| - 1];
      assert Frame(top);
      Items(top.0.children[top.1 + 1..], accept, recurse) + Saved(frames[..|frames| - 1], accept, recurse)
  }

  function SavedWork(frames: seq<(Element, nat)>): nat
    requires Frames(frames)
  {
    if frames == [] then 0
    else
      var top := frames[|frames| - 1];
      assert Frame(top);
      Weight(top.0.children[top.1 + 1..]) + SavedWork(frames[..|frames| - 1])
  }

  lemma SavedPush(frames: seq<(Element, nat)>, f: (Element, nat), accept: Element -> bool, recurse: Element -> bool)
    requires Frames(frames) && Frame(f)
    ensures Frames(frames + [f])
    ensures Saved(frames + [f], accept, recurse) == Items(f.0.children[f.1 + 1..], accept, recurse) + Saved(frames, accept, recurse)
    ensures SavedWork(frames + [f]) == Weight(f.0.children[f.1 + 1..]) + SavedWork(frames)
  {
    assert (frames + [f])[..|frames|] == frames;
  }

  /** Yielding the element at `pos` leaves what comes after it. */
  lemma TakeStep(ctx: Element, pos: nat, rest: seq<Element>, accept: Element -> bool, recurse: Element -> bool)
    requires Position(ctx, pos, true) && accept(ctx.children[pos].element)
    ensures Here(ctx, pos, false, accept, recurse) + rest
            == [ctx.children[pos].element] + (Here(ctx, pos, true, accept, recurse) + rest)
  {
    var e := ctx.children[pos].element;
    ItemsAt(ctx.children, pos, accept, recurse);
    AppendAssoc([e], Below(e, accept, recurse), Items(ctx.children[pos + 1..], accept, recurse));
    AppendAssoc([e], Here(ctx, pos, true, accept, recurse), rest);
  }

  /** Walking into the element at `pos` once it has been yielded or refused. */
  lemma DescendStep(ctx: Element, pos: nat, accepted: bool, frames: seq<(Element, nat)>,
                    accept: Element -> bool, recurse: Element -> bool)
    requires Position(ctx, pos, accepted) && Frames(frames)
    requires pos < |ctx.children| && ctx.children[pos].Elem?
    requires accepted || !accept(ctx.children[pos].element)
    requires recurse(ctx.children[pos].element)
    ensures Frames(frames + [(ctx, pos)])
    ensures var e := ctx.children[pos].element;
            && Here(ctx, pos, accepted, accept, recurse) + Saved(frames, accept, recurse)
               == Here(e, 0, false, accept, recurse) + Saved(frames + [(ctx, pos)], accept, recurse)
            && Weight(ctx.children[pos..]) + SavedWork(frames) + |frames|
               > Weight(e.children[0..]) + SavedWork(frames + [(ctx, pos)]) + |frames + [(ctx, pos)]|
  {
    var e := ctx.children[pos].element;
    var after := Items(ctx.children[pos + 1..], accept, recurse);
    ItemsAt(ctx.children, pos, accept, recurse);
    WeightAt(ctx.children, pos);
    SavedPush(frames, (ctx, pos), accept, recurse);
    assert e.children[0..] == e.children;
    var below := Items(e.children, accept, recurse);
    assert Below(e, accept, recurse) == below;
    if !accepted {
      assert NodeItems(ctx.children[pos], accept, recurse) == [] + below;
      assert [] + below == below;
    }
    assert Here(ctx, pos, accepted, accept, recurse) == below + after;
    AppendAssoc(Items(e.children, accept, recurse), after, Saved(frames, accept, recurse));
  }

  /** Moving past a text node, or an element that was yielded or refused and is
      not walked into. */
  lemma SkipStep(ctx: Element, pos: nat, accepted: bool, accept: Element -> bool, recurse: Element -> bool)
    requires Position(ctx, pos, accepted) && pos < |ctx.children|
    requires ctx.children[pos].Elem? ==>
               (accepted || !accept(ctx.children[pos].element)) && !recurse(ctx.children[pos].element)
    ensures Here(ctx, pos, accepted, accept, recurse) == Here(ctx, pos + 1, false, accept, recurse)
    ensures Weight(ctx.children[pos..]) > Weight(ctx.children[pos + 1..])
  {
    ItemsAt(ctx.children, pos, accept, recurse);
    WeightAt(ctx.children, pos);
  }

  /** At the end of a context, back to the innermost saved one. */
  lemma ReturnStep(ctx: Element, frames: seq<(Element, nat)>, accept: Element -> bool, recurse: Element -> bool)
    requires Frames(frames) && frames != []
    ensures Frame(frames[|frames| - 1]) && Frames(frames[..|frames| - 1])
    ensures Items(ctx.children[|ctx.children|..], accept, recurse) + Saved(frames, accept, recurse)
            == Saved(frames, accept, recurse)
    ensures Weight(ctx.children[|ctx.children|..]) == 0
  {
    assert Frame(frames[|frames| - 1]);
    assert ctx.children[|ctx.children|..] == [];
  }

  class ElementIterator {
    const accept: Element -> bool
    const recurse: Element -> bool
    var context: Option<Element>
    var pos: nat
    /** The element at `pos` has been yielded and its children are next. */
    var acceptedCurrent: bool
    var stack: seq<(Element, nat)>

    ghost predicate Valid()
      reads this
    {
      && (context.None? ==> stack == [] && !acceptedCurrent)
      && (context.Some? ==> Position(context.value, pos, acceptedCurrent))
      && Frames(stack)
    }

    /** Every element the iterator will still yield, in order. */
    ghost function Remaining(): seq<Element>
      requires Valid()
      reads this
    {
      if context.None? then []
      else Here(context.value, pos, acceptedCurrent, accept, recurse) + Saved(stack, accept, recurse)
    }

    ghost function Work(): nat
      requires Valid()
      reads this
    {
      (if context.None? then 0 else Weight(context.value.children[pos..])) + SavedWork(stack) + |stack|
    }

    /** `ElementIterator::new(context)` with its `accept_if` and `recurse_if`
        filters. */
    constructor(context: Element, accept: Element -> bool, recurse: Element -> bool)
      ensures Valid() && this.accept == accept && this.recurse == recurse
      ensures Remaining() == Items(context.children, accept, recurse)
    {
      this.accept := accept;
      this.recurse := recurse;
      this.context := Some(context);
      this.pos := 0;
      this.acceptedCurrent := false;
      this.stack := [];
      new;
      assert context.children[0..] == context.children;
    }

    /** `ElementIterator::empty()`. */
    constructor Empty(accept: Element -> bool, recurse: Element -> bool)
      ensures Valid() && Remaining() == []
    {
      this.accept := accept;
      this.recurse := recurse;
      this.context := None;
      this.pos := 0;
      this.acceptedCurrent := false;
      this.stack := [];
    }

    /** `next`: the first of the remaining elements, or None at the end. */
    method Next() returns (r: Option<Element>)
      requires Valid()
      modifies this
      ensures Valid()
      ensures r.None? <==> old(Remaining()) == []
      ensures r.Some? ==> old(Remaining()) == [r.value] + Remaining()
      ensures r.None? ==> Remaining() == []
    {
      if context.None? {
        return None;
      }
      while true
        invariant Valid() && context.Some?
        invariant Remaining() == old(Remaining())
        decreases Work()
      {
        var children := context.value.children;
        if pos < |children| {
          if children[pos].Elem? {
            var element := children[pos].element;
            if !acceptedCurrent && accept(element) {
              TakeStep(context.value, pos, Saved(stack, accept, recurse), accept, recurse);
              acceptedCurrent := true;
              return Some(element);
            }
            if recurse(element) {
              Descend();
              continue;
            }
          }
          Skip();
        } else if stack != [] {
          Return();
        } else {
          return None;
        }
      }
    }

    /** Walking into the element at `pos` once it has been yielded or refused. */
    method Descend()
      requires Valid() && context.Some? && pos < |context.value.children| && context.value.children[pos].Elem?
      requires acceptedCurrent || !accept(context.value.children[pos].element)
      requires recurse(context.value.children[pos].element)
      modifies this
      ensures Valid() && context.Some?
      ensures Remaining() == old(Remaining()) && Work() < old(Work())
    {
      DescendStep(context.value, pos, acceptedCurrent, stack, accept, recurse);
      stack := stack + [(context.value, pos)];
      context := Some(context.value.children[pos].element);
      pos := 0;
      acceptedCurrent := false;
    }

    /** Moving past the child at `pos` without walking into it. */
    method Skip()
      requires Valid() && context.Some? && pos < |context.value.children|
      requires context.value.children[pos].Elem? ==>
                 (acceptedCurrent || !accept(context.value.children[pos].element))
                 && !recurse(context.value.children[pos].element)
      modifies this
      ensures Valid() && context.Some?
      ensures Remaining() == old(Remaining()) && Work() < old(Work())
    {
      SkipStep(context.value, pos, acceptedCurrent, accept, recurse);
      pos := pos + 1;
      acceptedCurrent := false;
    }

    /** Back to the innermost saved context at the end of the current one. */
    method Return()
      requires Valid() && context.Some? && pos == |context.value.children| && stack != []
      modifies this
      ensures Valid() && context.Some?
      ensures Remaining() == old(Remaining()) && Work() < old(Work())
    {
      ReturnStep(context.value, stack, accept, recurse);
      var top := stack[|stack| - 1];
      assert Saved(stack, accept, recurse)
             == Items(top.0.children[top.1 + 1..], accept, recurse) + Saved(stack[..|stack| - 1], accept, recurse);
      assert SavedWork(stack) == Weight(top.0.children[top.1 + 1..]) + SavedWork(stack[..|stack| - 1]);
      stack := stack[..|stack| - 1];
      context := Some(top.0);
      pos := top.1 + 1;
    }
  }
}

=== FILE: xml_modifier.dfy ===
/** `ElementModifier`: a walk that edits a tree. The callback runs on the element
    itself first when the accept filter takes it, then, when the recurse filter
    takes the element as the callback left it, the walk goes on into its element
    children in order. The first error stops the walk and is returned; the edits
    made before it stay. The callback threads a state of its own (a keystream
    position, say) from one call to the next. */
module ElementModifiers {
  import opened Errors
  import opened XmlTree

  datatype Modified<S> = Modified(element: Element, state: S, result: Result<()>)
  datatype ModifiedNodes<S> = ModifiedNodes(nodes: seq<Node>, state: S, result: Result<()>)

  /** The callbacks the walk terminates with: they make an element bigger only
      when they stop the walk. */
  ghost predicate Shrinking<S(!new)>(callback: (S, Element) -> Modified<S>) {
    forall s, e :: callback(s, e).result.Ok? ==> Size(callback(s, e).element) <= Size(e)
  }

  /** `modify_impl` on one element. */
  function ModifyElement<S(!new)>(e: Element, accept: Element -> bool, recurse: Element -> bool,
                                  callback: (S, Element) -> Modified<S>, s: S): (r: Modified<S>)
    requires Shrinking(callback)
    ensures r.result.Ok? ==> Size(r.element) <= Size(e)
    decreases Size(e), 0, 0
  {
    var first := if accept(e) then callback(s, e) else Modified(e, s, Ok(()));
    if first.result.Err? then first
    else if recurse(first.element) then
      var kids := ModifyNodes(first.element.children, accept, recurse, callback, first.state);
      Modified(first.element.(children := kids.nodes), kids.state, kids.result)
    else first
  }

  /** The loop over `elements_mut()`: each element child in turn, text nodes
      untouched, stopping at the first error. */
  function ModifyNodes<S(!new)>(nodes: seq<Node>, accept: Element -> bool, recurse: Element -> bool,
                                callback: (S, Element) -> Modified<S>, s: S): (r: ModifiedNodes<S>)
    requires Shrinking(callback)
    ensures r.result.Ok? ==> NodesSize(r.nodes) <= NodesSize(nodes)
    decreases NodesSize(nodes), 1, |nodes|
  {
    if nodes == [] then ModifiedNodes([], s, Ok(()))
    else
      match nodes[0]
      case Text(_) =>
        var rest := ModifyNodes(nodes[1..], accept, recurse, callback, s);
        ModifiedNodes([nodes[0]] + rest.nodes, rest.state, rest.result)
      case Elem(child) =>
        assert NodesSize(nodes) == Size(child) + NodesSize(nodes[1..]);
        var head := ModifyElement(child, accept, recurse, callback, s);
        if head.result.Err? then
          ModifiedNodes([Elem(head.element)] + nodes[1..], head.state, head.result)
        else
          var rest := ModifyNodes(nodes[1..], accept, recurse, callback, head.state);
          ModifiedNodes([Elem(head.element)] + rest.nodes, rest.state, rest.result)
  }

  /** The walk leaves text alone, so walking nodes with text pushed in front is
      walking the nodes and pushing the same text in front of the result. */
  lemma ModifyPushText<S(!new)>(t: string, nodes: seq<Node>, accept: Element -> bool, recurse: Element -> bool,
                                callback: (S, Element) -> Modified<S>, s: S)
    requires Shrinking(callback)
    ensures var m := ModifyNodes(nodes, accept, recurse, callback, s);
            ModifyNodes(PushText(t, nodes), accept, recurse, callback, s)
            == ModifiedNodes(PushText(t, m.nodes), m.state, m.result)
  {
    if t != "" {
      var m := ModifyNodes(nodes, accept, recurse, callback, s);
      var pushed := PushText(t, nodes);
      if nodes != [] && nodes[0].Text? {
        assert pushed[0] == Text(t + nodes[0].text) && pushed[1..] == nodes[1..];
        var rest := ModifyNodes(nodes[1..], accept, recurse, callback, s);
        assert m.nodes == [nodes[0]] + rest.nodes;
        assert m.nodes[1..] == rest.nodes;
      } else {
        assert pushed[0] == Text(t) && pushed[1..] == nodes;
        assert m.nodes != [] ==> m.nodes[0].Elem?;
      }
    }
  }

  /** The callbacks that turn a representable element into a representable one. */
  ghost predicate KeepsRepresentable<S(!new)>(callback: (S, Element) -> Modified<S>) {
    forall s, e :: Representable(e) ==> Representable(callback(s, e).element)
  }

  /** A walk whose callback keeps elements representable keeps the whole tree
      representable, the edits made before an error included. */
  lemma {:induction false} ModifyRepresentable<S(!new)>(e: Element, accept: Element -> bool, recurse: Element -> bool,
                                                        callback: (S, Element) -> Modified<S>, s: S)
    requires Shrinking(callback) && KeepsRepresentable(callback) && Representable(e)
    ensures Representable(ModifyElement(e, accept, recurse, callback, s).element)
    decreases Size(e), 0, 0
  {
    var first := if accept(e) then callback(s, e) else Modified(e, s, Ok(()));
    if first.result.Ok? && recurse(first.element) {
      ModifyNodesRepresentable(first.element.children, accept, recurse, callback, first.state);
    }
  }

  lemma {:induction false} ModifyNodesRepresentable<S(!new)>(nodes: seq<Node>, accept: Element -> bool, recurse: Element -> bool,
                                                             callback: (S, Element) -> Modified<S>, s: S)
    requires Shrinking(callback) && KeepsRepresentable(callback) && RepresentableNodes(nodes)
    ensures RepresentableNodes(ModifyNodes(nodes, accept, recurse, callback, s).nodes)
    decreases NodesSize(nodes), 1, |nodes|
  {
    if nodes != [] {
      match nodes[0]
      case Text(_) =>
        var rest := ModifyNodes(nodes[1..], accept, recurse, callback, s);
        ModifyNodesRepresentable(nodes[1..], accept, recurse, callback, s);
        var r := [nodes[0]] + rest.nodes;
        assert r[0] == nodes[0] && r[1..] == rest.nodes;
      case Elem(child) =>
        assert NodesSize(nodes) == Size(child) + NodesSize(nodes[1..]);
        var head := ModifyElement(child, accept, recurse, callback, s);
        ModifyRepresentable(child, accept, recurse, callback, s);
        if head.result.Err? {
          var r := [Elem(head.element)] + nodes[1..];
          assert r[0] == Elem(head.element) && r[1..] == nodes[1..];
        } else {
          var rest := ModifyNodes(nodes[1..], accept, recurse, callback, head.state);
          ModifyNodesRepresentable(nodes[1..], accept, recurse, callback, head.state);
          var r := [Elem(head.element)] + rest.nodes;
          assert r[0] == Elem(head.element) && r[1..] == rest.nodes;
        }
    }
  }

  /** A walk whose callback never fails does not fail. */
  lemma {:induction false} ModifyOk<S(!new)>(e: Element, accept: Element -> bool, recurse: Element -> bool,
                                             callback: (S, Element) -> Modified<S>, s: S)
    requires Shrinking(callback) && forall s', e' :: callback(s', e').result.Ok?
    ensures ModifyElement(e, accept, recurse, callback, s).result.Ok?
    decreases Size(e), 0, 0
  {
    var first := if accept(e) then callback(s, e) else Modified(e, s, Ok(()));
    if recurse(first.element) {
      ModifyNodesOk(first.element.children, accept, recurse, callback, first.state);
    }
  }

  lemma {:induction false} ModifyNodesOk<S(!new)>(nodes: seq<Node>, accept: Element -> bool, recurse: Element -> bool,
                                                  callback: (S, Element) -> Modified<S>, s: S)
    requires Shrinking(callback) && forall s', e' :: callback(s', e').result.Ok?
    ensures ModifyNodes(nodes, accept, recurse, callback, s).result.Ok?
    decreases NodesSize(nodes), 1, |nodes|
  {
    if nodes != [] {
      match nodes[0]
      case Text(_) =>
        ModifyNodesOk(nodes[1..], accept, recurse, callback, s);
      case Elem(child) =>
        assert NodesSize(nodes) == Size(child) + NodesSize(nodes[1..]);
        var head := ModifyElement(child, accept, recurse, callback, s);
        ModifyOk(child, accept, recurse, callback, s);
        ModifyNodesOk(nodes[1..], accept, recurse, callback, head.state);
    }
  }
}
